=== FILE: README.md ===
# menusemanal3 in Dafny

A Dafny model of the logic inside menusemanal3, a web application for households ("casas") that share a weekly meal plan. The model covers:

- **The weekly planner.** It models setting the lunch ("almuerzo") and dinner ("cena") of a day, generating a random menu, per-day nutrition totals, the shopping list and the share message's ingredient list, the check before a menu is saved, and the filtered, sorted meal picker.
- **The meal catalogue and the history of saved menus.** It models grouping by type, search, counts per type, the add/edit form's checks, and the list updates after a save or a delete.
- **Ingredients.** It models the three ways the code turns a stored ingredient into text, and the ingredient editor.
- **Nutrition estimates and meal discovery.** It models how the zero-shot classifier's labels become estimates, the batch recomputation of a house's meals (including the legacy type fix), and the discovery route with its fallback search over the built-in meal table.
- **The public export.** It models the API-key check, key truncation in listings, and flattening the weekly menus within a date range into one record per day with an ISO 8601 date.
- **Membership.** It models registration (with and without an invitation token), associating an account through a token, inviting by e-mail, and creating, renaming, listing and transferring a house. It also models its member list and the administrator's routes for creating houses and accounts.
- **The forms and small screens.** It models the email and strong-password patterns, the order in which the registration form checks its fields, the login error messages, the onboarding wizard, and the administrator's search boxes and dialogs.
- **The guards.** It models both middlewares in front of `/administrador` and `getBaseUrl`.
- **The schemas.** It models the constraints of the Mongoose schemas (`models/*.ts`), the unique indexes of the store, and the in-memory mock routes and test stores.

Each route handler is a pure function. It takes the request and the session, plus the store where the route touches one. It returns the reply and, where it writes, the new store.

Stores are sequences in natural order, so `findOne` is the first match. Insertion-ordered JavaScript objects and Mongoose `Map`s are sequences of key/value entries (module `Ordered`). Dates are integer day numbers and instants are integer milliseconds. Strings are sequences of characters, and `toLowerCase` acts on ASCII letters.

Outside functions are parameters of the members that use them:

- the classifier, bcrypt, `jwt.verify` and `new Date(text)`;
- the random draws and fresh ids;
- the e-mail sender's result;
- the date-fns day formatter.

The modules are:

| module | file | models |
|---|---|---|
| Base, Text, Lists, Ordered, Sorting | base.dfy, text.dfy, lists.dfy, ordered.dfy, sorting.dfy | JavaScript values and truthiness, string and array operations, insertion-ordered maps, stable sort by a string key |
| Dates | dates.dfy | the proleptic Gregorian calendar, `toISOString` dates, `startOfWeek`, Spanish weekday names |
| Schema, Store, Http | schema.dfy, store.dfy, http.dfy | stored documents and their constraints, the membership store, sessions and replies |
| Planner | planner.dfy | the weekly planner |
| Catalog, ById, History | catalog.dfy, byid.dfy, history.dfy | the meal catalogue, list updates by id, the history of saved menus |
| Ingredients | ingredients.dfy | ingredient normalisation and the ingredient editor |
| Estimates, Discover | nutrition.dfy, discover.dfy | nutrition estimates and meal discovery |
| ApiKeys, PublicExport | apikeys.dfy, export.dfy | API keys and the public export |
| Membership, Houses, Admin | membership.dfy, houses.dfy, admin.dfy | registration, invitations, houses, the administrator's routes |
| Forms, Onboarding, AdminScreens | forms.dfy, onboarding.dfy, admin_ui.dfy | the registration and login forms, the onboarding wizard, the administrator's screens |
| Guards, Config | guards.dfy, config.dfy | the middlewares and the base URL |
| Mocks | mocks.dfy | the in-memory meal and menu routes, test emails and test users |

## Model

| member | source | states |
|---|---|---|
| Config.BaseUrl | utils/getBaseUrl.ts:1-14 | the explicit application address when it is set, else `https://` and the hosting platform's host when that is set, else the local development address |
| Config.AppUrlTakesPriority | utils/getBaseUrl.ts:3-5 | a non-empty `NEXT_PUBLIC_APP_URL` decides the address whatever `VERCEL_URL` holds |
| Config.BaseUrlShape | utils/getBaseUrl.ts:8-13 | the address is never empty, and without an explicit address it is an `https` address exactly when the platform host is set |
| Guards.Middleware | middleware.ts:11-25 | an administrator path other than the login page is redirected to the login page exactly when the `admin_token` cookie is absent or empty |
| Guards.AnyTokenPasses | middleware.ts:16-21 | the installed middleware never looks at the cookie's content: any two non-empty tokens get the same answer, and it is to pass |
| Guards.MatchedPathsNeedOnlyTheCookie | middleware.ts:4-8 | the matcher never lets the login page through, so on every matched path the decision depends on the cookie alone |
| Guards.AdminMiddleware | middleware/adminMiddleware.ts:5-44 | non-administrator paths, the administrator root, the login page and framework assets pass; any other administrator path passes exactly when a token and a secret are present and the token verifies against the secret |
| Guards.ApiClauseIsDead | middleware/adminMiddleware.ts:7-19 | the `/api/admin` exception can never apply, because every path that reaches it starts with `/administrador` |
| Guards.ApiClauseChangesNothing | middleware/adminMiddleware.ts:12-19 | removing that exception changes no decision of the admin middleware |
| Guards.AdminMiddlewareIsStricter | middleware/adminMiddleware.ts:22-39 | on a protected administrator page, whatever the admin middleware lets through the installed middleware lets through too |
| Admin.AdminId | app/api/admin/usuarios/route.ts:21-22 | the administrator id carried by a token is the part before its first `_`: it holds no `_`, the token starts with it, and a token without `_` is the id itself |
| Admin.VerifyAdminAuth | app/api/admin/usuarios/route.ts:12-37 | a caller is an administrator exactly when the cookie is present, non-empty, and its id part names an existing administrator; the identified administrator is that id |
| Admin.TokenSuffixIgnored | app/api/admin/casas/route.ts:20-25 | anything after the first `_` is ignored: `id_anything` authenticates exactly like the bare `id` |
| Admin.ListCasas | app/api/admin/casas/route.ts:38-64 | without an administrator the listing is refused with 401 and only then; otherwise it has one entry per house |
| Admin.ListingIsEveryHouseNewestFirst | app/api/admin/casas/route.ts:48-62 | the listing is a permutation of the houses' summaries, ordered by creation time newest first, and each house's count is the number of accounts that belong to it |
| Admin.ListUsers | app/api/admin/usuarios/route.ts:39-61 | without an administrator the listing is refused with 401 and only then; otherwise it holds every account exactly once, each as a row without its password and with its house populated |
| Admin.ListedUserOf | app/api/admin/usuarios/route.ts:59 | a listed account keeps its id, email, name, Google id and verified flag; its house is populated exactly when the account has one that exists, with that house's id and name |
| Admin.ListingHidesPassword | models/User.ts:16-25 | the password is never selected: two accounts that differ only in their password are listed identically |
| Admin.TempEmail | app/api/admin/casas/route.ts:103-104 | the placeholder creator's address starts with `temp_` |
| Admin.ResolveCreator | app/api/admin/casas/route.ts:85-116 | an existing account with the creator email is used as it is; an unknown email gets a new account appended; no email gets a placeholder account appended; the creator's position is always within the accounts |
| Admin.CreateHouse | app/api/admin/casas/route.ts:71-136 | without an administrator nothing changes and 401 is returned; invitations never change; a failure adds no house; a success appends exactly one house with the requested name, created by the resolved creator, who is moved into it |
| Admin.CreatorMovedIntoNewHouse | app/api/admin/casas/route.ts:86-89 | an existing creator is moved into the new house even when it belonged to another, and no other account changes |
| Admin.PlaceholderCreator | app/api/admin/casas/route.ts:102-126 | without a creator email exactly one placeholder account is appended, with the `temp_` address and the temporary name, in the new house, and it is the creator |
| Admin.NewAccount | app/api/admin/usuarios/route.ts:68-130 | the account creation route on the accounts alone: a failure changes nothing; a success appends exactly one verified account whose email was not taken, with the normalised email and the house only when one was given |
| Admin.CreateAccount | app/api/admin/usuarios/route.ts:68-130 | without an administrator nothing changes and 401 is returned; houses and invitations never change; a success appends one verified account with a fresh id and an email no account had, with the house only when one was given |
| Admin.AnyHouseIdAccepted | app/api/admin/usuarios/route.ts:106-108 | the reply does not depend on the houses at all: an account can be put in a house that does not exist |
| Admin.AccountHashedTwice | app/api/admin/usuarios/route.ts:92-99 | the account the administrator creates stores the requested password hashed twice, once by the route and once by the save hook |
| Admin.CreateAccountKeepsUnique | app/api/admin/usuarios/route.ts:86-90 | when ids and emails were unique before an account creation, they are unique after it |
| AdminScreens.FilterUsuarios | app/administrador/components/AdminUsuarios.tsx:256-261 | the account search keeps exactly the listed accounts whose name, email or house name contains the term ignoring case, and adds none |
| AdminScreens.EmptySearchKeepsEveryUser | app/administrador/components/AdminUsuarios.tsx:256-261 | an empty search shows every account, in the listed order |
| AdminScreens.SearchUsersIsStable | app/administrador/components/AdminUsuarios.tsx:256-261 | searching the result again with the same term changes nothing, and searching a longer list gives the results of its parts in order |
| AdminScreens.CreateUsuario | app/administrador/components/AdminUsuarios.tsx:124-141 | the new-account dialog sends a request exactly when email and password are both given, and then posts the dialog's fields unchanged |
| AdminScreens.CreateUsuarioPassesRouteCheck | app/api/admin/usuarios/route.ts:82-84 | a request the dialog sends is never refused by the route for a missing email or password: the screen's check and the route's agree |
| AdminScreens.ChooseHouse | app/administrador/components/AdminUsuarios.tsx:451-460 | choosing an entry of the house selector in the new-account dialog sets the house id sent to the chosen value and keeps the other fields |
| AdminScreens.NoHouseChoiceSendsNone | app/administrador/components/AdminUsuarios.tsx:459-467 | as written, choosing "Sin casa" creates an account whose house is the id `none` rather than no house |
| AdminScreens.ChooseHouseCorrected | app/administrador/components/AdminUsuarios.tsx:451-467 | the selector as evidently intended: "Sin casa" clears the house id, any other entry sets it, and the other fields are kept |
| AdminScreens.NoHouseChoiceCorrected | app/api/admin/usuarios/route.ts:106-108 | with the corrected selector, "Sin casa" creates an account without a house |
| AdminScreens.UpdateUsuario | app/administrador/components/AdminUsuarios.tsx:174-195 | an update is sent exactly when an account with an email is being edited; it carries that account's id and name, and its house id, or nothing when it has no house |
| AdminScreens.UpdateIgnoresEmail | app/administrador/components/AdminUsuarios.tsx:191-194 | the email shown in the edit dialog is never sent: accounts differing only in email produce the same update |
| AdminScreens.FilterCasas | app/administrador/components/AdminCasas.tsx:220-224 | the house search keeps exactly the listed houses whose name, or non-empty creator email, contains the term ignoring case, and adds none |
| AdminScreens.EmptySearchKeepsEveryHouse | app/administrador/components/AdminCasas.tsx:220-224 | an empty search shows every house, in the listed order |
| AdminScreens.NoCreatorMatchesByNameOnly | app/administrador/components/AdminCasas.tsx:222-223 | a house whose creator has no email is found by its name alone |
| AdminScreens.CreateCasa | app/administrador/components/AdminCasas.tsx:83-101 | the new-house dialog sends a request exactly when a name is given, and then posts the name and creator email |
| AdminScreens.CreateCasaPassesRouteCheck | app/api/admin/casas/route.ts:81-83 | a request the dialog sends is never refused by the route for a missing name |
| AdminScreens.UpdateCasa | app/administrador/components/AdminCasas.tsx:126-144 | a rename is sent exactly when a house with a name is being edited, and carries only its id and its name |
| ApiKeys.VerifyApiKey | lib/apiAuth.ts:6-46 | a missing or empty header is refused with 401 "API key is required", a failing database with 500, an unknown key with 401 "Invalid API key", and every refusal changes nothing; an accepted key is a stored key with that string, its owner and house are returned, and only its last-use time changes |
| ApiKeys.VerifyTouchesOnlyThatKey | lib/apiAuth.ts:30-38 | with unique key strings the key that matches is the one stored with that string, and of all stored keys only its last-use time changes |
| ApiKeys.Truncate | app/api/apikeys/route.ts:26 | a listed key shows at most its first eight characters, then `...`, then its last four |
| ApiKeys.ListingHidesKey | models/ApiKey.ts:34 | a generated 64-character key is listed as 15 characters, never as itself |
| ApiKeys.ListKeys | app/api/apikeys/route.ts:8-34 | without a session that has a house the listing is refused with 401 and only then; otherwise it has one entry for each of the user's keys, and each entry is one of the user's stored keys, truncated |
| ApiKeys.ListsEveryOwnKey | app/api/apikeys/route.ts:17-27 | every key of the session user appears in the listing |
| ApiKeys.CreateKey | app/api/apikeys/route.ts:36-72 | without a house 401, without a name 400, and a failure stores nothing; a success appends exactly one key, generated from the random bytes, owned by the session user and house, with the requested name and no last use, and the reply is the only place the whole key is shown |
| ApiKeys.CreateKeepsKeysUnique | models/ApiKey.ts:5-9 | creating a key keeps key strings unique, and a created key is 64 hex digits that decode back to the random bytes |
| PublicExport.OrNull | app/api/public/meals/route.ts:56-57 | a slot is exported as its meal when it holds a non-empty one and as `null` otherwise |
| PublicExport.DayRecordsAreFilteredDays | app/api/public/meals/route.ts:45-63 | the records of one menu are exactly its days that have a date within the range, in entry order, each turned into its record |
| PublicExport.SelectMenus | app/api/public/meals/route.ts:37-40 | the menus read are the house's menus dated within the range, each once, ordered by date |
| PublicExport.SelectsExactlyInRange | app/api/public/meals/route.ts:37-39 | a menu is read exactly when it belongs to the key's house and its date lies within the range, both ends included |
| PublicExport.ExportedRecordsComeFromDaysInRange | app/api/public/meals/route.ts:47-59 | every exported record is the record of a day, dated within the range, of one of the menus read |
| PublicExport.RecordFromDay | app/api/public/meals/route.ts:47-59 | a record of one menu is the record of one of its days dated within the range |
| PublicExport.Export | app/api/public/meals/route.ts:45-63 | no exported record carries an empty meal name: `null` stands for it |
| PublicExport.PublicMeals | app/api/public/meals/route.ts:7-65 | the key is checked first and its refusal is returned as it is; with a valid key, a missing date parameter is refused with 400, an unparsable one with 400, and otherwise the reply is the export of the selected menus; the key's last use is recorded even when the parameters are then refused |
| PublicExport.ParseDateParam | app/api/public/meals/route.ts:26-27 | a `YYYY-MM-DD` parameter that parses names an instant whose calendar date prints back as the parameter |
| ById.ReplaceById | app/components/menues-anteriores.tsx:105 | the list keeps its length; every document with the returned document's id becomes that document and every other keeps its value at its place |
| ById.ReplaceKeepsOthers | app/components/catalogo.tsx:190 | the documents with other ids keep their values and their order |
| ById.ReplaceAbsent | app/components/catalogo.tsx:189-190 | when no document has the returned id the list is left as it was |
| ById.ReplaceIdempotent | app/components/menues-anteriores.tsx:105 | applying the same confirmed update twice is applying it once |
| ById.DeleteById | app/components/menues-anteriores.tsx:131 | no document with the deleted id remains, every document with another id remains, and nothing is added |
| ById.DeleteConcat | app/components/catalogo.tsx:223 | deletion works block by block, so the documents kept stay in their order |
| ById.DeleteCount | app/components/catalogo.tsx:223 | exactly the documents with the deleted id go: the length drops by their number |
| ById.DeleteAbsent | app/components/menues-anteriores.tsx:131 | deleting an id no document has changes nothing |
| History.GuardarCambios | app/components/menues-anteriores.tsx:88-119 | with nothing being edited, or a failed request, nothing changes; a confirmed save closes the dialog and puts the returned menu in place of the menus with its id |
| History.SaveReplacesOnlyThatMenu | app/components/menues-anteriores.tsx:104-106 | a confirmed save keeps the number of menus, puts the returned menu at every place with its id, and leaves the other menus in their order |
| History.BorrarMenu | app/components/menues-anteriores.tsx:121-131 | after a confirmed deletion no menu has the deleted id, and the menus kept are exactly the others |
| History.BorrarMenuRemovesExactly | app/components/menues-anteriores.tsx:131 | deletion removes exactly the menus with that id, so the count drops by their number, and the menus kept stay in order |
| History.SetSlot | app/components/menues-anteriores.tsx:309-325 | typing into the lunch or dinner input sets that slot to the typed text and keeps the other slot and the date |
| History.EditSlot | app/components/menues-anteriores.tsx:295-330 | editing a slot never changes the menu's id, date, ingredients, user or house |
| History.EditSlotChangesOnlyThatSlot | app/components/menues-anteriores.tsx:305-311 | editing a day's slot keeps the days and their order, gives that day the edited slot, and leaves every other day as it was |
| History.EditSlotKeepsValid | models/WeeklyMenu.ts:9-17 | a menu whose days are unique stays so under edits |
| History.SlotText | app/components/menues-anteriores.tsx:213-217 | a slot is shown as its meal when it holds one, and as "No especificado" otherwise, so the text is never empty |
| Schema.SaveMeal | models/Meal.ts:3-40 | a meal is stored exactly when its name is given and at most 60 characters, its lower-cased type is one of the admitted types, its time is lunch or dinner, and house and user are given; what is stored is the meal with its type lower-cased |
| Schema.MealTypesAreLower | models/Meal.ts:12-13 | every admitted meal type is already in lower case |
| Schema.SaveMealOfValid | models/Meal.ts:9-14 | saving a meal that already satisfies the schema stores it unchanged |
| Schema.EmailKey | models/User.ts:5-11 | the email the `lowercase` and `trim` setters make is in lower case and has no surrounding whitespace |
| Schema.EmailKeyOfLower | models/User.ts:9-10 | lower-casing an address before the setters changes nothing |
| Schema.EmailKeyIdempotent | models/User.ts:5-11 | applying the setters to an already-normalised address changes nothing |
| Schema.SaveUser | models/User.ts:4-48 | a user is stored exactly when its normalised email is non-empty, it has a password unless it has a Google id, and a present password has at least six characters; what is stored is valid, has the normalised email and the trimmed name, and keeps id, house, password and verification flag |
| Schema.ComparePassword | models/User.ts:64-71 | without a stored password the comparison fails; otherwise it is what the hash comparison says |
| Schema.NewInvitation | models/Invitation.ts:3-27 | a new invitation is unused, created now, and holds the given token, email and house |
| Schema.NewWeeklyMenu | models/WeeklyMenu.ts:3-32 | a new weekly menu is dated now unless a date is given, has no ingredients unless they are given, and keeps the given id, days, user and house |
| Schema.HexEncode | models/ApiKey.ts:34 | the hex spelling of bytes has two characters per byte, each a lower-case hex digit |
| Schema.HexDecode | models/ApiKey.ts:34 | a successful decoding has one byte per two characters |
| Schema.HexRoundTrip | models/ApiKey.ts:34 | decoding the hex spelling of any bytes gives those bytes back |
| Schema.GenerateKey | models/ApiKey.ts:34 | a generated key is 64 lower-case hex digits that decode to the 32 random bytes |
| Store.HashOnSave | models/User.ts:51-61 | the save hook, which runs after validation, changes only the password: a non-empty password is replaced by its hash and an absent or empty one stays as it was |
| Store.CreateUser | models/User.ts:4-61 | the schema checks the document before the save hook hashes it; a created account is appended after the existing ones, which stay as they were; it keeps the requested id, house, flags and Google id, has the normalised email, the trimmed name and the hashed password; the document checked had a non-empty email, a password unless a Google id was given, and at least six characters in any given password; no stored account had its id or email |
| Store.LengthCheckedBeforeHashing | models/User.ts:16-61 | the six-character minimum applies to the password as given, not to its hash: with a fresh id and email, creation succeeds exactly when the given password is long enough |
| Store.CreateUserKeepsUnique | models/User.ts:5-8 | the unique indexes on id and email still hold after an account creation |
| Store.CreateCasa | models/Casa.ts:4-19 | a house is created exactly when it has a name and a creator and no stored house has its name or id; it is appended, and names and ids stay unique |
| Store.SaveCasaAt | app/api/casa/route.ts:147-148 | saving a changed house succeeds exactly when it has a name and a creator and no other house has its name; only that house changes, and names and ids stay unique when its id is kept |
| Store.SaveCasaAgain | app/api/casa/route.ts:147-148 | saving the same house document again changes nothing |
| Store.FindCasaAfterSave | app/api/casa/route.ts:142-148 | a change that keeps the id keeps the position where the lookup by id finds the house |
| Store.JoinCasa | app/api/casa/route.ts:66-67 | a user joining a house changes only that user's house, and ids and emails stay unique |
| Store.MarkUsed | app/api/auth/register/route.ts:100-103 | marking an invitation used changes only its flag, and tokens stay unique |
| Store.UsedInvitationNeverMatches | app/api/auth/register/route.ts:84-103 | with unique tokens, once an invitation is marked used no pending invitation with that token remains, at that instant or any later one |
| Store.PendingSeesTheSweep | models/Invitation.ts:18-22 | the lookup at an instant finds a match exactly when the same query finds one in the collection the TTL index has swept of invitations older than seven days, and it is the same document |
| Membership.PendingIndex | app/api/auth/register/route.ts:84-88 | the invitation registration looks up is the first unused, unexpired one with the token and the lower-cased email; without a token there is none |
| Membership.NewAccount | app/api/auth/register/route.ts:110-114 | the document handed to `User.create` has the new id, the given house, the password as handed over, no Google id, an unverified email, and the same email key as the typed email |
| Membership.NewAccountSaved | models/User.ts:4-48 | the schema accepts that document exactly when the email is not blank and the password handed over has at least six characters, and then stores the normalised email |
| Membership.RegisterNew | app/api/auth/register/route.ts:81-134 | a new registration marks the matched invitation used before the account is created, and it stays used if the creation throws (500, no account); on success exactly one account is appended, with the new id, the normalised email, the invitation's house and the password handed over hashed once more by the save hook, and `wasInvited` says whether an invitation matched |
| Membership.RegisterWith | app/api/auth/register/route.ts:8-146 | the registration route for a given password to hand to `User.create`: the refusals and invitation handling of the route, and on the new-account path the creation of `Membership.RegisterNew` |
| Membership.Register | app/api/auth/register/route.ts:8-146 | missing email or password is refused with 400 and nothing changes; houses never change; every refusal other than a server error changes nothing; a registration reports an invitation exactly when it gives a house, and then the matched invitation, unexpired at the time of the request, is marked used |
| Membership.RegisterRequiresEmailAndPassword | app/api/auth/register/route.ts:20-22 | a registration without email or password is refused with 400 and changes nothing |
| Membership.RegisterExistingJoins | app/api/auth/register/route.ts:28-59 | an existing account without a house that presents a matching unused invitation joins that invitation's house, the invitation becomes used, and nothing else changes |
| Membership.RegisterExistingRefused | app/api/auth/register/route.ts:60-78 | an existing account is refused with 409 when no invitation matches and with 400 when it already has a house, and a refusal changes nothing |
| Membership.RegisterBadTokenCreatesNothing | app/api/auth/register/route.ts:90-98 | a new account presenting a token that matches no pending invitation is refused with 400 and no account is created |
| Membership.RegisterNewUser | app/api/auth/register/route.ts:81-114 | a new account without a token, or with a token that matches, goes through the creation path with the matched invitation and the route's bcrypt hash of the password |
| Membership.NewAccountHashedTwice | app/api/auth/register/route.ts:106-114 | as written, a new account's password reaches the store hashed twice, once by the route and once more by the save hook |
| Membership.RegisterCorrected | app/api/auth/register/route.ts:106-114 | as evidently intended, the route hands the plain password to `User.create`: a new account is appended after the others with the normalised email and the password hashed once, and the password had at least six characters |
| Membership.Authorize | app/login/LoginForm.tsx:84-98 | the credentials sign-in that `signIn("credentials", …)` runs, the provider's `authorize` in app/api/auth/[...nextauth]/route.ts (lines 37-58): it succeeds only for a non-empty email and password, and only when an account stored under the normalised email has a password the comparison accepts |
| Membership.AuthorizeChecksThatAccount | models/User.ts:5-8 | with unique emails the sign-in is decided by the one account with that email and its password comparison alone, whatever the letter case typed |
| Membership.AuthorizeUnknownEmail | app/login/LoginForm.tsx:91-97 | an email no account has never signs in, so the login form reports wrong credentials |
| Membership.RegisteredPasswordRefused | models/User.ts:51-61 | as written, the hook hashes the route's hash again, so when a password never matches the hash of its own hash, the password just registered for a new account is refused at sign-in |
| Membership.CorrectedPasswordAccepted | models/User.ts:51-61 | with the corrected route the hook hashes the plain password once, so when every password matches its own non-empty hash, the password just registered signs in |
| Membership.InvitationRedeemedOnce | app/api/auth/register/route.ts:100-103 | an invitation assigns membership at most once: after a redemption no pending invitation with that token and email remains, at any later instant |
| Membership.ExpiredInvitationRefused | app/api/auth/register/route.ts:83-98 | when every invitation with the token is past its seven days, registration redeems none: an existing account gets 409, a new one 400 ("Invitación no válida o expirada"), and nothing changes |
| Membership.LiveInvitationRedeemed | app/api/auth/register/route.ts:83-114 | a new account registering with the token of a live invitation for its email marks that invitation used and, unless the creation fails with 500, is placed in its house |
| Membership.ExpiredInvitationNotAssociated | app/api/auth/associate-user/route.ts:40-49 | when every invitation with the token is past its seven days, association gives no house and changes nothing |
| Membership.LiveInvitationAssociates | app/api/auth/associate-user/route.ts:40-66 | a houseless account redeeming a live invitation joins its house, the invitation becomes used, and nothing else changes |
| Membership.FindIsUniqueUser | models/User.ts:5-8 | with unique emails the account the email lookup finds is the one account with that email |
| Membership.FindIsUniqueToken | models/Invitation.ts:4-8 | with unique tokens the invitation the lookup finds is the one pending invitation with that token |
| Membership.Associate | app/api/auth/associate-user/route.ts:9-66 | without a logged-in caller 401 and nothing changes; a refusal or an account already in a house changes nothing; refusals are 400, 401 or 404 |
| Membership.AssociateOutcomes | app/api/auth/associate-user/route.ts:25-66 | an unknown account gets 404; an account with a house gets a success that changes nothing; without a matching invitation 400; otherwise exactly two documents change, the account joins the invitation's house and the invitation becomes used |
| Membership.SendInvitationEmail | app/actions/email.ts:85-89 | the mail fails without a token; with one it succeeds exactly when the mail service delivers |
| Membership.InviteStoring | app/api/casa/invitar/route.ts:10-87 | without a house 401 and nothing changes; houses never change; a success leaves the earlier invitations for other emails in order followed by the new one, with a token no kept invitation has; a failure leaves the invitations either as they were or with those for the email deleted; an existing account without a house joins the inviter's house |
| Membership.InviteKeepsTokensUnique | models/Invitation.ts:4-8 | inviting keeps invitation tokens unique |
| Membership.Invite | app/api/casa/invitar/route.ts:31-39 | as written, the new invitation carries the email exactly as typed |
| Membership.InviteCorrected | app/api/casa/invitar/route.ts:31-39 | as evidently intended, the new invitation carries the email in lower case, the form registration and association look it up in |
| Membership.InviteMemberRefused | app/api/casa/invitar/route.ts:22-25 | inviting an email whose account already has a house is refused with 400 and nothing changes |
| Membership.InviteLeavesOneInvitation | app/api/casa/invitar/route.ts:30-49 | after a successful invitation exactly one invitation exists for the email, the new one for the inviter's house, already used exactly when the account existed; invitations for other emails are kept in order |
| Membership.InviteMailFailure | app/api/casa/invitar/route.ts:59-70 | when the mail fails the reply is 500, no invitation for the email remains, and a direct assignment to the house is not undone |
| Membership.UpperCaseInvitationNeverRedeemed | app/api/casa/invitar/route.ts:31-39 | as written, an invitation for an email with an upper-case letter is never found by the lower-cased lookup, whatever email is presented |
| Membership.UpperCaseInvitationExample | app/api/casa/invitar/route.ts:31-39 | inviting "Ana@x.com" into an empty store stores the invitation with "Ana@x.com" as typed |
| Membership.UpperCaseRegistrationRefused | app/api/auth/register/route.ts:84-98 | registering with that invitation's token is refused as if there were no invitation, whatever letter case the email is typed in |
| Membership.CorrectedInvitationRedeemable | app/actions/email.ts:107 | with the corrected route, registering under the invited email in any letter case finds the new invitation exactly when it comes less than seven days (604 800 000 ms) after the invitation was sent, and then for the inviter's house |
| Membership.KeptTokensUnique | app/api/casa/invitar/route.ts:31 | deleting the invitations for an email keeps the tokens of the others unique |
| Membership.NoneForEmail | app/api/casa/invitar/route.ts:31 | after deleting the invitations for an email none for that email remains |
| Houses.Invitees | app/api/casa/route.ts:73-88 | the addresses the creation route mails are at most one per entry of `invitados`, each non-empty and without surrounding whitespace |
| Houses.SessionAccount | app/api/casa/route.ts:28-35 | the account created from the session is appended after the existing ones, with the session's normalised email and no house |
| Houses.EnsureAccount | app/api/casa/route.ts:24-35 | the account used is the first that matches the session's email or Google id, or, when none matches, the one created from the session; the earlier accounts stay as they were |
| Houses.InvitationReport | app/api/casa/route.ts:70-89 | every address the route mails is reported exactly once, as sent or as failed |
| Houses.NotMailedIsComplement | app/api/casa/route.ts:78-86 | the sent and the failed addresses together are as many as the addresses mailed |
| Houses.NoInvitationIsEverSent | app/api/casa/route.ts:77 | the mails are sent without an invitation token, so none is ever sent: every address is reported as failed, in request order |
| Houses.InvitationReportCorrected | app/actions/email.ts:85-89 | as intended, with each address mailed under its own invitation's token, an address is reported sent exactly when its mail is delivered and failed otherwise, in request order |
| Houses.CorrectedReportSendsDelivered | app/api/casa/route.ts:73-89 | corrected, when every mail is delivered every invitee is reported sent and none failed |
| Houses.CreateFor | app/api/casa/route.ts:37-111 | a refusal changes nothing; a success needs a non-empty string name and an account without a house, appends the house with the trimmed name and that account as creator, moves the account into it, and leaves the invitations alone; house names and ids stay unique |
| Houses.CreateCasaRoute | app/api/casa/route.ts:12-122 | without a session email 401 and nothing changes; a failed creation adds no house |
| Houses.CreatedHouseBelongsToCreator | app/api/casa/route.ts:59-67 | a created house has the trimmed name and the caller's account as creator, and is that account's house from then on |
| Houses.CreationAddsOneHouse | app/api/casa/route.ts:59-63 | creation adds exactly the reported house, keeps house names and ids unique, and leaves the invitations alone |
| Houses.CreationReportsInvitations | app/api/casa/route.ts:109-110 | a successful creation reports no invitation sent and every invitee as failed |
| Houses.AccountCreatedEvenWhenRefused | app/api/casa/route.ts:28-43 | the session's account is created before the body is read, so a request refused for its body still leaves the new account behind |
| Houses.RenameCasa | app/api/casa/route.ts:125-156 | without a house 401 and nothing changes; accounts and invitations never change; a refusal changes nothing; a success gives the session's house the trimmed name and changes no other house |
| Houses.RenameKeepsHousesUnique | models/Casa.ts:5-9 | renaming keeps house names and ids unique |
| Houses.BlankNameRefused | app/api/casa/route.ts:138-148 | a blank name passes the route's own check but is refused by the schema once trimmed, and nothing changes |
| Houses.RenameIdempotent | app/api/casa/route.ts:142-148 | renaming again to the same name gives the same reply and changes nothing more |
| Houses.ListCasas | app/api/casa/route.ts:170-189 | with the database reachable, the first ten houses at most, in stored order; otherwise the single demo entry |
| Houses.TransferOwnership | app/api/casa/propietario/route.ts:8-43 | without a house 401 and nothing changes; accounts and invitations never change; a refusal changes nothing |
| Houses.TransferToMember | app/api/casa/propietario/route.ts:28-36 | on success the new creator is an account of the house, and only the creator of that house changes |
| Houses.AnyMemberMayTransfer | app/api/casa/propietario/route.ts:22-26 | whether the caller is the house's creator plays no part: every session of the house gets the same answer |
| Houses.Members | app/api/casa/usuarios/route.ts:8-43 | without a house 401; a house that no longer exists 404; no other refusal; each listed member is flagged as creator exactly when its id is the house's `creador`, and as the caller exactly when its id is the session user's |
| Houses.MembersAreTheHouse | app/api/casa/usuarios/route.ts:24-36 | the members listed are exactly the house's accounts in stored order, each with its id and email, its name or else the part of its email before `@`, flagged as the creator exactly when it is the house's `creador`, and flagged as the caller exactly when it is |
| Houses.FilterKeepsUniqueIds | models/User.ts:5-8 | any selection of accounts keeps ids and emails unique |
| Houses.AtMostOneCreator | app/api/casa/usuarios/route.ts:34-35 | with unique ids at most one member is flagged as creator and at most one as the caller |
| Catalog.FindCategory | app/components/catalogo.tsx:49-56 | a category found is a row of the table with that key, and none is found exactly when no row has the key |
| Catalog.GetCategoryIcon | app/components/catalogo.tsx:58-60 | a type of the table gets its row's icon, any other type the default plate icon; the icon is never empty |
| Catalog.GetCategoryName | app/components/catalogo.tsx:62-64 | a type of the table gets its row's label, any other type is shown under its own spelling |
| Catalog.CategoryFallback | app/components/catalogo.tsx:49-64 | a type outside the table, such as the legacy "carnes", gets the default icon and its own spelling; "pollo" gets its chicken icon and the label "Pollo" |
| Catalog.GroupMealsByCategory | app/components/catalogo.tsx:121-129 | the grouping has at most one group per type |
| Catalog.GroupSnoc | app/components/catalogo.tsx:122-128 | grouping one more meal pushes it onto the group of its type, creating the group the first time the type is seen |
| Catalog.GroupLookupSnoc | app/components/catalogo.tsx:123-126 | one more meal extends only the group of its own type |
| Catalog.GroupIsFilter | app/components/catalogo.tsx:121-129 | the group of a type holds exactly the meals of that type in catalogue order, and exists exactly when there is such a meal |
| Catalog.MealInItsGroup | app/components/catalogo.tsx:123-126 | every meal lands in the group of its own type |
| Catalog.PushFlatten | app/components/catalogo.tsx:123-126 | pushing a meal onto a group adds that meal to the groups taken together and nothing else |
| Catalog.GroupsArePermutation | app/components/catalogo.tsx:121-129 | the groups taken together are a rearrangement of the catalogue: nothing is lost and nothing counted twice |
| Catalog.BuscarComidas | app/components/catalogo.tsx:131-139 | the search result has at most one group per type |
| Catalog.SearchShowsExactlyMatches | app/components/catalogo.tsx:133-137 | the search shows a meal exactly when it is in the catalogue and the term occurs in its name or type, ignoring case |
| Catalog.EmptySearchKeepsAll | app/components/catalogo.tsx:131-139 | an empty term shows the whole catalogue, grouped as on load |
| Catalog.SubmitRequest | app/components/catalogo.tsx:141-176 | no request is sent exactly when a field is empty; an edit is a PUT for the edited meal's id and an add is a POST; the body carries the form's fields and the house `mock-casa` |
| Catalog.ApplySaved | app/components/catalogo.tsx:187-193 | after an add the saved meal is appended; after an edit every meal with its id is replaced by it |
| Catalog.EditReplacesOnlyThatMeal | app/components/catalogo.tsx:189-190 | after an edit the catalogue keeps its length, the meals with the saved id are the saved meal, and the other meals keep their values and order |
| Catalog.DeleteMeal | app/components/catalogo.tsx:215-225 | after a confirmed delete no meal has the deleted id, and the meals kept are exactly the others |
| Catalog.DeleteKeepsOrder | app/components/catalogo.tsx:223 | the meals kept by a delete stay in their order |
| Catalog.EditIngredient | app/components/catalogo.tsx:276-280 | a string ingredient is shown as it is, an object with a name as that name; only `null` makes the conversion throw |
| Catalog.OpenEditIngredients | app/components/catalogo.tsx:268-290 | a missing or non-array ingredient list opens as an empty list; an array opens element by element, and the opening throws exactly when an element is `null` |
| Catalog.ConvertAll | app/components/catalogo.tsx:276-280 | the conversion of a list throws exactly when an element is `null`, and otherwise converts each element in place |
| Catalog.OpenEditAgreesWithCatalogFormat | app/components/catalogo.tsx:67-71 | without `null` elements the editor shows what the catalogue's own `formatIngredient` shows |
| Catalog.CountRow | app/components/catalogo.tsx:368 | a category's count is at most the size of the catalogue |
| Catalog.GetMealCounts | app/components/catalogo.tsx:365-371 | the `all` count is the size of the catalogue |
| Catalog.CountsAgreeWithPlanner | app/components/catalogo.tsx:365-371 | the catalogue's counts are exactly the planner's: both count exact type matches for the same six types |
| Planner.SlotKey | app/components/planificador.tsx:82 | a day stores its two slots under the lower-cased slot labels, "almuerzo" and "cena" |
| Planner.WeekDays | app/components/planificador.tsx:91-98 | the displayed week is five consecutive days from the week start, each keyed by its formatted date and named by its Spanish weekday |
| Planner.WeekDaysAreMondayToFriday | app/components/planificador.tsx:81-98 | a week starting on a Monday shows the days "lunes" to "viernes", the planner's own list of weekdays |
| Planner.WeekKeysDistinct | app/components/planificador.tsx:91-98 | no two displayed days share a "yyyy-MM-dd" key while the years have four digits |
| Planner.AgregarComida | app/components/planificador.tsx:107-119 | after adding, the day exists and its slot holds the meal; a new day takes the displayed date and name; every other slot and every other day is unchanged; distinct day keys stay distinct |
| Planner.FindByName | app/components/planificador.tsx:156 | the meal found is the first of that name, and none is found exactly when no meal has that name |
| Planner.Candidates | app/components/planificador.tsx:135 | every candidate for a slot is a stored meal of that meal time, and there are none exactly when no stored meal has that meal time |
| Planner.Pick | app/components/planificador.tsx:135-141 | a slot with no candidates gets "No disponible"; otherwise it gets the name of a stored meal of that meal time |
| Planner.PickNonEmpty | app/components/planificador.tsx:135-141 | when no stored meal has an empty name, no slot is filled with an empty name |
| Planner.RandomDaySlots | app/components/planificador.tsx:129-143 | a generated day holds a drawn lunch under "almuerzo" and a drawn dinner under "cena" |
| Planner.BuildMenuDistinct | app/components/planificador.tsx:127-145 | with distinct day keys the generating loop builds exactly one entry per displayed day, in display order, with distinct keys |
| Planner.GenerarMenuAleatorio | app/components/planificador.tsx:127-145 | with distinct day keys the random menu has one entry per displayed day, in display order, keyed by that day and holding that day's draws, with distinct keys |
| Planner.GeneratedMenuFillsWeek | app/components/planificador.tsx:127-145 | a random menu has five days; each displayed day is present with its date and weekday name and both slots filled by the draw for that slot |
| Planner.CalcularResumenNutricional | app/components/planificador.tsx:147-172 | a day without slots totals zero |
| Planner.SlotNutrition | app/components/planificador.tsx:153-163 | a key other than the two slots, a name no stored meal has, or a first meal of that name without nutrition data adds zero |
| Planner.SlotWithoutDataAddsNothing | app/components/planificador.tsx:156-157 | a slot whose first stored meal of that name has no nutrition data adds zero |
| Planner.NoDataTotalsZero | app/components/planificador.tsx:147-172 | a day none of whose slots finds nutrition data totals zero in every figure |
| Planner.NutritionIsSumOfSlots | app/components/planificador.tsx:153-165 | the day's totals are the sum of the totals of any split of its slots |
| Planner.NutritionOfOneSlot | app/components/planificador.tsx:153-165 | a single slot's total is what that slot contributes |
| Planner.SlotAddsMealNutrition | app/components/planificador.tsx:154-163 | a lunch or dinner slot adds exactly the nutrition data of the first stored meal of that name |
| Planner.SlotIngredients | app/components/planificador.tsx:178-182 | a key other than the two slots, or a name with no stored meal, adds no ingredients |
| Planner.GenerarListaCompras | app/components/planificador.tsx:174-198 | the shopping list holds exactly the ingredients of the menu's lunch and dinner meals, each once and unchecked |
| Planner.AddItem | app/components/planificador.tsx:183-186 | an ingredient already on the list changes nothing; a new one is appended unchecked |
| Planner.FirstIndex | app/components/planificador.tsx:291 | the position found holds the ingredient and no earlier position does |
| Planner.ShareListMatchesItems | app/components/planificador.tsx:174-198 | the share message's de-duplicating loop produces the names of the shopping list's loop, in the same order |
| Planner.ItemsOfUnchecked | app/components/planificador.tsx:185 | every item of a fresh shopping list is unchecked |
| Planner.ShareListMembers | app/components/planificador.tsx:283-297 | the ingredient list holds exactly the ingredients visited, and is no longer than the visit |
| Planner.ShareListDistinct | app/components/planificador.tsx:291-293 | no ingredient is listed twice |
| Planner.ShareListOrder | app/components/planificador.tsx:283-297 | ingredients are listed in the order of their first visit |
| Planner.ShareMessageMatchesShoppingList | app/components/planificador.tsx:174-304 | the share message lists the same ingredients as the shopping list, in the same order |
| Planner.GuardarYEnviar | app/components/planificador.tsx:201-229 | nothing is sent exactly when no day has a non-empty lunch or dinner; otherwise the body carries the week start, the menu and the shopping list's names |
| Planner.AgregarComidaMakesSavable | app/components/planificador.tsx:107-212 | after a non-empty meal is added the menu can be saved |
| Planner.GeneratedMenuIsSavable | app/components/planificador.tsx:127-212 | a random menu over stored meals can always be saved, "No disponible" being a non-empty name |
| Planner.RandomDayHasMeal | app/components/planificador.tsx:129-143 | a generated day over stored meals has a non-empty lunch |
| Planner.OptionalFilter | app/components/planificador.tsx:310-332 | a filter applied only when its selection is active keeps what "inactive or matching" keeps |
| Planner.FilterStagesCombine | app/components/planificador.tsx:306-332 | the three successive filters keep what their conjunction keeps, in order |
| Planner.FilterStagesSpec | app/components/planificador.tsx:306-332 | the successive filters keep exactly the meals passing the search, type and meal-time conditions, in order |
| Planner.GetFilteredAndSortedMeals | app/components/planificador.tsx:306-338 | the picker's list is sorted by name and is a rearrangement of the meals that pass every active filter |
| Planner.MealsAfterPicker | components/MealSelector.tsx:101 | rendering the picker keeps the meals as a rearrangement of themselves; with a filter selected it leaves them as they were, and with none it leaves them sorted by name |
| Planner.PickerSortsStateInPlace | app/components/planificador.tsx:306-335 | with no filter selected the state after rendering is the very list the picker shows |
| Planner.SortKeepsFirstByName | app/components/planificador.tsx:335 | the stable sort by name keeps, for every name, the first meal of that name |
| Planner.PickerKeepsLookups | app/components/planificador.tsx:156 | rendering the picker changes no later lookup of a meal by name, so the nutrition totals and the shopping list stay as they were |
| Planner.PickerOffersExactlyMatches | app/components/planificador.tsx:306-338 | a meal is offered exactly when it is stored and passes every active filter |
| Planner.GetMealCounts | app/components/planificador.tsx:68-79 | the `all` count is the number of meals, and each of the six type counts is the number of meals with exactly that type |
| Planner.CountType | app/components/planificador.tsx:70-75 | a type count never exceeds the number of meals |
| Planner.CountsWithinTotal | app/components/planificador.tsx:68-79 | the six type counts add up to at most the total, meals of other types (such as "carnes") counting under none |
| Dates.DayOf | app/api/public/meals/route.ts:48-53 | an instant lies within the UTC day it is assigned to, so `toISOString` names that day |
| Dates.StartOfDay | app/api/public/meals/route.ts:26-27 | the midnight a date string is read as falls on that day |
| Dates.YearLength | app/api/public/meals/route.ts:48-53 | a year has 366 days exactly when it is a Gregorian leap year, else 365 |
| Dates.CivilFromDays | app/api/public/meals/route.ts:48-53 | every day number has a valid calendar date |
| Dates.CivilFromDaysInverse | app/api/public/meals/route.ts:48-53 | the calendar date given to a day number denotes that day |
| Dates.CivilRoundTrip | app/api/public/meals/route.ts:26-53 | a valid calendar date turned into a day number and back is the same date |
| Dates.WeekdayAfterMonday | app/components/planificador.tsx:91-95 | the i-th day after a Monday is the i-th weekday |
| Dates.SpanishWeekday | app/components/planificador.tsx:94 | the day name is one of the seven Spanish weekday names |
| Dates.StartOfWeek | app/components/planificador.tsx:31 | the displayed week starts on the Monday on or before today, less than seven days earlier |
| Dates.IsoYear | app/api/public/meals/route.ts:53 | years 0 to 9999 are written with four digits, others with a sign and six digits |
| Dates.IsoDate | app/api/public/meals/route.ts:53 | a day with a four-digit year is written as ten characters with hyphens at positions 4 and 7; any other as thirteen, starting with a sign |
| Dates.ParseIsoDate | app/api/public/meals/route.ts:26-27 | only a ten-character text of digits with hyphens at positions 4 and 7 reads as a date |
| Dates.ParseIsoDateOfIsoDate | app/api/public/meals/route.ts:26-53 | reading the "yyyy-MM-dd" text of a day with a four-digit year gives that day back |
| Dates.IsoDateOfParseIsoDate | app/api/public/meals/route.ts:26-53 | a date text that reads as a day is exactly how that day is written back |
| Dates.IsoDateOfCivil | app/api/public/meals/route.ts:53 | a date with a four-digit year is written as zero-padded year, month and day joined by hyphens |
| Dates.DayKeyInjective | app/components/planificador.tsx:96 | different days with four-digit years get different keys |
| Discover.DatabaseTypesMatchKeys | app/api/discover-meals/route.ts:119-278 | every meal of the built-in table carries its category key as its type |
| Discover.DatabaseShape | app/api/discover-meals/route.ts:119-278 | the built-in table has ten categories, each with two meals |
| Discover.DatabaseKeysAreUnique | app/api/discover-meals/route.ts:119-278 | no category key appears twice among the classifier's candidate labels |
| Discover.FallbackSuggestions | app/api/discover-meals/route.ts:39-55 | the fallback gives at most twelve meals, each from the table and each matching the query by name, type or an ingredient, ignoring case |
| Discover.FallbackIsPrefixOfMatches | app/api/discover-meals/route.ts:43-52 | the fallback is the matching meals in table order, all of them up to twelve, and exactly twelve when more match |
| Discover.EmptyQueryKeepsOrder | app/api/discover-meals/route.ts:41-52 | the empty query matches every meal, so it gives the first twelve meals of the table |
| Discover.EmptyQueryGivesFirstTwelve | app/api/discover-meals/route.ts:39-55 | the built-in table has twenty meals and the empty query gives its first twelve |
| Discover.FromLabels | app/api/discover-meals/route.ts:96-99 | the classifier path gives at most twelve meals |
| Discover.GatherFromGroups | app/api/discover-meals/route.ts:98 | every gathered meal belongs to the group of one of the labels |
| Discover.FromLabelsComeFromTopThree | app/api/discover-meals/route.ts:96-99 | every suggestion comes from the group of one of the three best labels |
| Discover.UnknownLabelsContributeNothing | app/api/discover-meals/route.ts:98 | a label the table does not know adds nothing, wherever it appears |
| Discover.GatherSize | app/api/discover-meals/route.ts:98 | with two meals per category, the labels bring at most two meals each |
| Discover.ClassifierPathAtMostSix | app/api/discover-meals/route.ts:94-99 | with the built-in table the classifier path gives at most six meals, so the twelve-meal cap never applies |
| Discover.DiscoverRoute | app/api/discover-meals/route.ts:57-117 | no house gives 401; a reply lists the classifier's meals when it answered and the fallback search otherwise; a text query always gets a reply; every failure is 401 or 500 |
| Estimates.Estimate | app/api/nutrition/route.ts:71-76 | each figure takes its high value exactly when the matching "high …" label is returned, and its low value otherwise |
| Estimates.DefaultIsAllLow | app/api/meals/calculate-nutrition/route.ts:26-69 | the estimate for a meal without ingredient names equals the mapping of a reply with no "high" label |
| Estimates.NutritionRoute | app/api/nutrition/route.ts:20-83 | no house gives 401; no ingredient names give 400; a reply exactly when the classifier answers for a non-empty name list, holding the mapped labels; every failure is 400, 401 or 500 |
| Estimates.EmptyNamesNeverClassify | app/api/nutrition/route.ts:30-39 | with no ingredient names the reply does not depend on the classifier |
| Estimates.CalculateNutrition | app/api/meals/calculate-nutrition/route.ts:22-70 | no ingredient names give the default estimate; otherwise an estimate comes exactly when the classifier answers |
| Estimates.RoutesAgree | app/api/nutrition/route.ts:30-78 | for a house member with ingredient names, the estimate route replies with what the batch recomputation computes and fails where it throws |
| Estimates.NormaliseType | app/api/meals/calculate-nutrition/route.ts:86-89 | the new type is lower case, and "carnes" becomes "carne" |
| Estimates.NormaliseStoredType | app/api/meals/calculate-nutrition/route.ts:86-89 | a stored type stays an admitted type other than "carnes", and every type other than "carnes" is left as it is |
| Estimates.UpperCaseLegacyTypeSurvives | app/api/meals/calculate-nutrition/route.ts:86-89 | because the check comes before lower-casing, "Carnes" comes out as "carnes" |
| Estimates.Recompute | app/api/meals/calculate-nutrition/route.ts:83-91 | a saved meal keeps its id, name and house, gets a fresh estimate and the normalised type, and is valid; a classifier error saves nothing |
| Estimates.RunFrom | app/api/meals/calculate-nutrition/route.ts:83-91 | the loop touches only the house's meals from its start on; it completes exactly when every one of them can be recomputed, and otherwise stops at the first that throws, with the earlier ones updated and the later ones untouched |
| Estimates.CalculateNutritionRoute | app/api/meals/calculate-nutrition/route.ts:72-100 | no house gives 401; other houses' meals are untouched; the reply is the house's meals as stored afterwards, each recomputed; the route fails with 500 exactly when one meal throws |
| Estimates.RecomputeIgnoresOldEstimate | app/api/meals/calculate-nutrition/route.ts:84-85 | a meal's new estimate does not depend on the one it had before |
| Ingredients.FormatIngredient | utils/formatIngredient.ts:5-19 | a falsy value shows as "", a string as itself, an object with a truthy name as that name, anything else as its JavaScript spelling |
| Ingredients.FormatIngredientIdempotent | utils/formatIngredient.ts:5-19 | formatting an already formatted ingredient changes nothing |
| Ingredients.CatalogFormatIngredient | app/components/catalogo.tsx:67-71 | a string shows as itself, an object with a truthy name as that name, anything else, falsy values included, as its JavaScript spelling |
| Ingredients.FormatCopiesAgree | app/components/catalogo.tsx:67-71 | the catalogue's copy agrees with the shared formatter exactly on strings and truthy values; on the other falsy values the shared one shows "" and the copy "null", "undefined", "false" or "0" |
| Ingredients.ExtractName | app/api/nutrition/route.ts:12-16 | an element gives itself when a string, its truthy name when an object has one, and "" otherwise |
| Ingredients.ExtractIngredientNames | app/api/nutrition/route.ts:8-18 | a missing or non-array field gives no names; otherwise no more names than elements, none of them empty |
| Ingredients.ExtractIngredientNamesSpec | app/api/nutrition/route.ts:8-18 | extraction works element by element in order: a concatenation extracts to the concatenation, and one element gives its non-empty name or nothing |
| Ingredients.ExtractKeepsStrings | app/api/nutrition/route.ts:11-17 | an array of non-empty strings comes back whole and in order |
| Ingredients.AddIngredient | app/components/IngredientInput.tsx:22-27 | a blank input changes nothing; otherwise the trimmed text is appended and the input cleared |
| Ingredients.AddedIngredientIsTrimmed | app/components/IngredientInput.tsx:22-27 | the appended entry is non-empty with no whitespace at either end, and the earlier entries are unchanged |
| Ingredients.RemoveIngredient | app/components/IngredientInput.tsx:29-32 | the entry at the index goes and the others keep their order; an index outside the list changes nothing |
| Ingredients.AddThenRemoveRestores | app/components/IngredientInput.tsx:22-32 | removing the entry just added gives back the list as it was, with the input cleared |
| Ingredients.KeyPress | app/components/IngredientInput.tsx:34-39 | Enter adds the typed ingredient; every other key leaves the editor as it is |
| Ingredients.DraftClearedOnlyOnAdd | app/components/IngredientInput.tsx:22-39 | a typed input is cleared exactly when Enter is pressed on a non-blank text |
| Forms.IsValidEmail | app/register/RegisterForm.tsx:14-17 | an accepted email has an `@` that is not its first character and no whitespace |
| Forms.ValidEmailIsPattern | app/register/RegisterForm.tsx:14-17 | the scan accepts exactly the strings the email pattern matches: non-empty local part, `@`, non-empty name, `.`, non-empty ending, none holding whitespace or a second `@` |
| Forms.EmailAccepted | app/login/LoginForm.tsx:15-18 | "ana@x.com" is accepted |
| Forms.EmailDotFirstRefused | app/register/RegisterForm.tsx:14-17 | "ana@.com" is refused: the dot may not follow the `@` directly |
| Forms.EmailDotLastRefused | app/register/RegisterForm.tsx:14-17 | "ana@com." is refused: the dot may not end the address |
| Forms.EmailTwoAtsRefused | app/register/RegisterForm.tsx:14-17 | "a@b@x.com" is refused: only one `@` |
| Forms.CheckStrength | app/register/RegisterForm.tsx:19-22 | a single pass accepts exactly the passwords of at least eight allowed characters holding a lower-case letter, an upper-case letter, a digit and one of `@$!%*?&` |
| Forms.StrongPasswordIsLongEnough | app/register/RegisterForm.tsx:19-22 | a password the form accepts also meets the account schema's minimum length |
| Forms.RegisterSubmit | app/register/RegisterForm.tsx:46-85 | the form sends email, password and token exactly when the email is valid, the password strong and the confirmation equal; a bad email is reported first, then a weak password |
| Forms.MismatchReportedLast | app/register/RegisterForm.tsx:49-75 | the mismatch message appears exactly when email and password are good and the confirmation differs |
| Forms.InvitationToken | app/register/RegisterForm.tsx:32 | the token is the non-empty query parameter, else the stored one; it is empty exactly when neither is given |
| Forms.AfterRegister | app/register/RegisterForm.tsx:86-120 | a redirect follows exactly when the route succeeded and the sign-in did not fail: to the planner for an invited user, to the onboarding otherwise; a refusal shows the route's message |
| Forms.InvitedUsersSkipOnboarding | app/register/RegisterForm.tsx:104-109 | once the route has succeeded and the automatic sign-in has succeeded, the user goes to the planner exactly when the route placed them in a house |
| Forms.NewAccountSeesSignInError | app/register/RegisterForm.tsx:93-102 | as written, when a password never matches the hash of its own hash, a successful registration of a new account always ends in "Error al iniciar sesión automáticamente" |
| Forms.CorrectedNewAccountMovesOn | app/register/RegisterForm.tsx:93-109 | with the corrected route, a successful registration of a new account signs in and moves on: to the planner exactly when the route placed the user in a house, else to the onboarding |
| Forms.LoginError | app/login/LoginForm.tsx:31-59 | a message is shown exactly when an error code is given; an unknown code is shown as "Error: " and the code |
| Forms.KnownCodesHaveFixedMessages | app/login/LoginForm.tsx:36-48 | the four known codes get their own messages, never the raw code |
| Forms.CallbackUrl | app/login/LoginForm.tsx:27 | a given non-empty callback address is used, otherwise the planner |
| Forms.LoginSubmit | app/login/LoginForm.tsx:67-122 | a malformed email is refused before signing in; a successful sign-in goes to the callback address and asks to join the invited house exactly when there is a token |
| Forms.AssociationFailureDoesNotBlock | app/login/LoginForm.tsx:102-120 | whether the association request succeeds does not change where the user goes |
| Mocks.Spread | app/api/meals/route.ts:62-67 | spreading objects with distinct keys gives an object with distinct keys |
| Mocks.SpreadLookup | app/api/meals/route.ts:62-67 | after a spread each key holds the value the spread object gives it, or else the one the base had |
| Mocks.Stamped | app/api/meals/route.ts:62-64 | the new document holds the posted fields, and a fresh `_id` only when the body brings none |
| Mocks.NewDoc | app/api/meals/route.ts:62-67 | a posted meal always belongs to the mock user and house, whatever the body says; its `_id` is the body's or a fresh one; every other field is the body's |
| Mocks.Post | app/api/meals/route.ts:59-82 | an unparsable body gets the fallback reply and stores nothing; otherwise the new document is the reply and is appended, the earlier documents untouched; a store of mock-owned documents stays so |
| Mocks.Current | lib/testEmails.ts:16-18 | `getTestEmails`, and the `GET` of the meal route (app/api/meals/route.ts lines 54-57) and of the weekly-menu route (app/api/weeklyMenu/route.ts lines 30-33), give the store as it stands, nothing dropped or reordered |
| Mocks.PostsAppend | app/api/weeklyMenu/route.ts:35-45 | two posts append two documents in order, even with the same fields: nothing is updated in place |
| Mocks.MockMealOwned | app/api/meals/route.ts:4-50 | a seeded meal carries its id and belongs to the mock user and house |
| Mocks.InitialMealsOwned | app/api/meals/route.ts:4-52 | the meal route starts with three meals with ids "1", "2" and "3", all of the mock user and house |
| Mocks.InitialMenusOwned | app/api/weeklyMenu/route.ts:4-28 | the seeded menu belongs to the mock user and house |
| Mocks.MenusStayOwned | app/api/weeklyMenu/route.ts:28-59 | whatever is posted, every stored menu belongs to the mock user and house |
| Mocks.PostAll | app/api/weeklyMenu/route.ts:35-59 | a series of posts keeps the earlier documents and adds at most one per post |
| Mocks.SaveTestEmail | lib/testEmails.ts:12-14 | saving appends the email, stamped with the time of saving, after the ones already kept |
| Mocks.ClearTestEmails | lib/testEmails.ts:20-22 | clearing leaves no email |
| Mocks.SentAtIsSaveTime | lib/testEmails.ts:13 | the time an email carries when saved is ignored |
| Mocks.EmailsKeptInSaveOrder | lib/testEmails.ts:10-22 | after clearing, the store lists exactly the emails saved since, in save order, each with its save time |
| Mocks.FindTestUser | lib/testUsers.ts:9-11 | a user found is a test user with exactly that email, and none is found exactly when no test user has it |
| Mocks.TestUsersDistinct | lib/testUsers.ts:2-7 | the test users have distinct ids and emails |
| Mocks.FindTestUserIsUnique | lib/testUsers.ts:2-11 | looking up a test user's email finds that user |
| Mocks.FindTestUserIsCaseSensitive | lib/testUsers.ts:9-11 | the lookup compares emails exactly: "Usuario1@test.com" finds no one |
| Onboarding.Next | components/Onboarding.tsx:22-26 | moving forward goes one step on, except at the last step, and leaves the name and the invitee rows alone |
| Onboarding.Previous | components/Onboarding.tsx:28-32 | moving back goes one step back, except at the first step, and leaves the name and the invitee rows alone |
| Onboarding.StepsStayInRange | components/Onboarding.tsx:12-32 | neither move leaves the four steps, and forward then back, or back then forward, returns to the same step |
| Onboarding.AddInvitee | components/Onboarding.tsx:34-36 | adding puts an empty row after the existing ones |
| Onboarding.RemoveInvitee | components/Onboarding.tsx:38-41 | removing drops the row at the index and keeps the others in order; an index outside the list changes nothing |
| Onboarding.ChangeInvitee | components/Onboarding.tsx:43-47 | editing a row sets that row and no other |
| Onboarding.ChangeBackRestores | components/Onboarding.tsx:43-47 | editing a row and typing back its old text gives back the same rows |
| Onboarding.AddThenRemoveRestores | components/Onboarding.tsx:34-41 | adding a row and removing it again gives back the same rows |
| Onboarding.OfferedKeepsSane | components/Onboarding.tsx:134-225 | every control the current step shows keeps the step in range and at least one invitee row |
| Onboarding.RunKeepsSane | components/Onboarding.tsx:17-225 | whatever the user clicks or types, the step stays in range and there is always an invitee row |
| Onboarding.InitialIsSane | components/Onboarding.tsx:15-17 | the wizard starts in range with one row, and no session ever leaves it without a row |
| Onboarding.PastStepOneNameGiven | components/Onboarding.tsx:157 | the name cannot be left blank once past the name step, since "Siguiente" is disabled while it is blank |
| Onboarding.InvitesToSend | components/Onboarding.tsx:79-88 | the addresses sent are no more than the rows, each non-empty and trimmed |
| Onboarding.SameInviteesAsTheRoute | components/Onboarding.tsx:79-88 | the wizard sends the same addresses the house creation route would invite if given the rows as its `invitados` |
| Onboarding.CreateHouse | components/Onboarding.tsx:49-88 | a blank name is refused exactly when it is blank; otherwise the trimmed, non-empty name is sent, then the trimmed non-blank rows |
| Onboarding.AfterCreate | components/Onboarding.tsx:73-130 | the planner follows exactly when the house was created, whatever the invitations did; a refusal shows the route's error |

## Left out

- Rendering, toasts, dialogs, tabs and layout. Also `router.refresh`, and the `localStorage` writes that only keep or drop the invitation token between pages. They draw the screens and hold no decisions.
- The planner's week switch (`cambiarSemana`), "clear all" (`borrarTodo`) and the shopping-list checkbox toggle. They only reset or flip screen state.
- Database and network access. The store is a value passed in and returned. A connection failure is modelled only where the code gives it its own outcome: the API-key check (a thrown lookup gives 500) and the house listing (the demo house). Elsewhere a route's generic `catch` for a failing query is not modelled.
- Houses.InvitationReportCorrected: states only the report. Creating the invitation documents whose tokens it mails is not modelled, and house creation keeps the route's behaviour as written.
- Store.PendingSeesTheSweep: takes an invitation out of every lookup at the exact instant its seven days end. MongoDB's TTL monitor removes expired documents only on its next pass, about once a minute, so a real lookup can still find an invitation for up to that long after it expires. An expired invitation also stays in the model's collection, where the database would delete it. Only lookups see that deletion, and the invite route deletes all earlier invitations for the email anyway.
- PublicExport.PublicMeals: does not model a database failure after the key check. In the code that failure would end in 500 "Error fetching meals".
- Mongoose's ObjectId casting. Ids are plain strings, so an id that is not a valid ObjectId (such as "none") is stored rather than refused with a cast error.
- Populating a reference whose document is gone: an invitation whose house was deleted makes `invitation.casa` null and the route fail with 500. Every stored reference is taken to resolve.
- bcrypt, `jwt.verify`, `crypto.randomBytes`, the Hugging Face classifier, the EmailJS sender and `new Date(text)` are outside functions. They are parameters of the members that use them, with the result the code inspects (labels or failure, sent or not, an instant or invalid).
- The classifier request's 10-second timeout. The fallback path is modelled, but a timeout is one more way for the classifier to fail.
- date-fns `format` with a locale, `toLocaleDateString` and `toLocaleString`. `format(fecha, "yyyy-MM-dd")` reads the browser's time zone, so it is a parameter of `Planner.WeekDays`. The other two only display dates.
- Planner.MealsAfterPicker: the in-place sort also reorders the candidates that `generarMenuAleatorio` draws from, so the same random draws can pick other meals after the picker has rendered. The draws are parameters, so the model does not follow this through.
- Store.CreateUser: no longer promises that a stored account satisfies the schema, because the stored password is the hash and its length depends on the hash function. The six-character check applies to the password before hashing.
- Planner.GetFilteredAndSortedMeals: sorts by character codes rather than by `localeCompare`'s locale collation. The two orders can differ on accented letters and letter case.
- `toLowerCase` is modelled on ASCII letters only (`Text.Lower`). Searches that would match through a non-ASCII case change ("Á" against "á") are not modelled.
- Nutrition figures are integers. The classifier's estimates are integers in the code, and stored meals hold whole numbers in practice.
- Admin.ListUsers: does not fix the order of the listing. The route sorts by `createdAt`, newest first, and the accounts carry no creation time here. The listed rows also leave out the `createdAt`, `lastLogin` and `__v` fields, which the model does not store.
- The order in which MongoDB returns documents that tie on a sort key.
- Admin.CreateHouse: the route's success reply is `{ success: true, message: "Casa creada exitosamente" }` and carries no house. The model's `Ok` carries the created house so that the contract can say which house was appended.
- Admin.CreateAccount: replies with the created account. The route wraps its `_id`, name, email, populated house and `createdAt` in `{ success, message, usuario }`.
- Request bodies whose fields have an unexpected JSON type (a number where an email is expected, and the like) are not modelled. The exception is where the route checks the type itself, as in `typeof nombre !== "string"` and the `invitados` array.
- The onboarding's session update and its `onboardingComplete` flag, which come after the house is created.
- JavaScript's enumeration of integer-like object keys before the others. No key in the menus, days or mock documents is integer-like.
- The mock routes' handling of a JSON body that is not an object, such as an array or a string spread into the document.
- The `config.matcher` of the installed middleware is read as "paths under `/administrador/` whose rest does not start with `login`". The path-to-regexp treatment of trailing slashes and encoded characters is not modelled.
- Logging (`console`, `logger`), which has no effect on replies.
- The route that deletes an API key, the admin login route, the count routes, the admin setup route and the seed scripts. They are single database calls or fixed data.

## Findings

| source | as written | input that shows it | evidently intended | confidence | as-written member | corrected member |
|---|---|---|---|---|---|---|
| app/api/casa/invitar/route.ts:31-39 | the invitation is stored with the e-mail exactly as typed, while registration and association look it up by the lower-cased e-mail | an invitation for "Ana@x.com": registering as "Ana@x.com" with its token looks for "ana@x.com" and is refused with 400 | store the invitation under the lower-cased e-mail, as accounts are stored, so that every invitation can be redeemed | not executed | Membership.Invite, Membership.UpperCaseInvitationNeverRedeemed, Membership.UpperCaseInvitationExample, Membership.UpperCaseRegistrationRefused | Membership.InviteCorrected, Membership.CorrectedInvitationRedeemable |
| app/administrador/components/AdminUsuarios.tsx:459-467 | choosing "Sin casa" in the new-account dialog sets `casaId` to "none", which is posted, and the route uses any non-empty `casaId` as the account's house | create an account with "Sin casa" chosen: the request carries `casaId: "none"` and the account is given the house id "none" (with Mongoose's ObjectId cast, the creation fails instead) | "Sin casa" creates an account without a house | not executed | AdminScreens.ChooseHouse, AdminScreens.NoHouseChoiceSendsNone | AdminScreens.ChooseHouseCorrected, AdminScreens.NoHouseChoiceCorrected |
| app/api/auth/register/route.ts:106-114 | the route hashes the password with bcrypt and hands the hash to `User.create`, whose save hook (models/User.ts:51-61) hashes it again; sign-in compares the typed password with the stored value (app/api/auth/[...nextauth]/route.ts:55), that is with the hash of its hash. The administrator's account and house routes hash before the hook in the same way (Admin.AccountHashedTwice) | register a new account with "Secreta1!": the store holds bcrypt(bcrypt("Secreta1!")), `bcrypt.compare("Secreta1!", …)` fails, and the registration form shows "Error al iniciar sesión automáticamente" instead of moving on | hand the plain password to `User.create` and let the save hook hash it once, so that the password just registered signs in | not executed | Membership.Register, Membership.NewAccountHashedTwice, Membership.RegisteredPasswordRefused, Forms.NewAccountSeesSignInError | Membership.RegisterCorrected, Membership.CorrectedPasswordAccepted, Forms.CorrectedNewAccountMovesOn |
| app/api/casa/route.ts:77 | house creation calls `sendInvitationEmail` with three arguments, leaving out the invitation token. That function throws when the token is missing (app/actions/email.ts:85-89), so every invitee lands in `invitacionesFallidas`. No screen posts `invitados` (the onboarding sends only `nombre` and invites through the invite route), so no request from the application reaches this path | a POST to /api/casa with `{ nombre: "Casa", invitados: ["ana@x.com"] }`: the house is created, no mail goes out, and the reply lists "ana@x.com" as failed | create an invitation for each invitee and mail it with that invitation's token, as the invite route does | not executed | Houses.NoInvitationIsEverSent, Houses.CreationReportsInvitations | Houses.InvitationReportCorrected, Houses.CorrectedReportSendsDelivered |

=== FILE: admin.dfy ===
/** The administrator's API: the cookie check both admin routes share,
    listing houses with their member counts, creating a house (and, when
    needed, its creator's account), and creating an account. */
module Admin {

  import opened Base
  import opened Text
  import opened Schema
  import opened Http
  import opened Store
  import Lists
  import Sorting

  /** The administrator id a token carries: `token.split("_")[0]`. */
  function AdminId(token: string): (id: string)
    ensures '_' !in id
    ensures StartsWith(token, id)
    ensures '_' !in token ==> id == token
  {
    BeforeFirst(token, '_')
  }

  /** `verifyAdminAuth`: the `admin_token` cookie names an administrator
      that exists. `admins` holds the ids of the administrator documents. */
  function VerifyAdminAuth(cookie: Option<string>, admins: set<Id>): (r: Option<Id>)
    ensures r.Some? <==> cookie.Some? && cookie.value != "" && AdminId(cookie.value) in admins
    ensures r.Some? ==> r.value == AdminId(cookie.value)
  {
    if cookie.None? || cookie.value == "" then None
    else if AdminId(cookie.value) in admins then Some(AdminId(cookie.value))
    else None
  }

  /** Anything after the first `_` is ignored: a token is as good as the
      bare id it starts with. */
  lemma TokenSuffixIgnored(id: Id, suffix: string, admins: set<Id>)
    requires '_' !in id && id != ""
    ensures VerifyAdminAuth(Some(id + "_" + suffix), admins) == VerifyAdminAuth(Some(id), admins)
  {
    var t := id + "_" + suffix;
    assert t[|id|] == '_';
    assert t[..|id|] == id;
    assert forall i :: 0 <= i < |id| ==> t[i] == id[i];
  }

  const Unauthorized: string := "No autorizado"

  // ------------------------------------------------------ listing houses

  /** The creator as populated with `name email`; `None` when the account
      no longer exists. */
  datatype Creator = Creator(id: Id, name: Option<string>, email: string)

  datatype CasaSummary = CasaSummary(id: Id, nombre: string, creador: Option<Creator>, createdAt: int, usuariosCount: nat)

  function CreatedAtDesc(c: Casa): int {
    -c.createdAt
  }

  function Summary(users: seq<User>): Casa -> CasaSummary {
    (c: Casa) =>
      var k := Lists.Find(users, UserId(c.creador));
      CasaSummary(c.id, c.nombre,
                  if k < |users| then Some(Creator(users[k].id, users[k].name, users[k].email)) else None,
                  c.createdAt, Lists.Count(users, Houses(c.id)))
  }

  /** The accounts of house `id`. */
  function Houses(id: Id): User -> bool {
    (u: User) => u.casa == Some(id)
  }

  /** The houses, newest first, each with its creator and its number of
      accounts. */
  function ListCasas(admin: Option<Id>, s: Store): (r: Response<seq<CasaSummary>>)
    ensures admin.None? <==> r == Fail(401, Unauthorized)
    ensures r.Ok? ==> |r.body| == |s.casas|
  {
    if admin.None? then Fail(401, Unauthorized)
    else
      var sorted := Sorting.SortByKey(s.casas, CreatedAtDesc);
      assert |sorted| == |multiset(sorted)| == |multiset(s.casas)| == |s.casas|;
      Ok(Lists.Map(sorted, Summary(s.users)))
  }

  /** The listing shows every house exactly once, newest first, and counts
      exactly the accounts that belong to each. */
  lemma ListingIsEveryHouseNewestFirst(admin: Id, s: Store)
    ensures var r := ListCasas(Some(admin), s).body;
      && (forall i, j :: 0 <= i < j < |r| ==> r[i].createdAt >= r[j].createdAt)
      && (forall i :: 0 <= i < |r| ==> r[i].usuariosCount == |Lists.Filter(s.users, Houses(r[i].id))|)
      && multiset(Lists.Map(s.casas, Summary(s.users))) == multiset(r)
  {
    var sorted := Sorting.SortByKey(s.casas, CreatedAtDesc);
    assert forall i :: 0 <= i < |sorted| ==> ListCasas(Some(admin), s).body[i].createdAt == sorted[i].createdAt;
    Lists.MapPermutation(s.casas, sorted, Summary(s.users));
  }

  /** A house reference as `populate("casa", "nombre")` leaves it. */
  datatype PopulatedCasa = PopulatedCasa(id: Id, nombre: string)

  /** An account as the listing sends it: every stored field but the
      password, which the schema marks `select: false`, with the house
      populated with its name. */
  datatype ListedUser = ListedUser(id: Id, email: string, name: Option<string>, googleId: Option<string>,
                                   emailVerified: bool, casa: Option<PopulatedCasa>)

  /** One listed account. A house that no longer exists populates as null. */
  function ListedUserOf(casas: seq<Casa>, u: User): (r: ListedUser)
    ensures r.id == u.id && r.email == u.email && r.name == u.name
    ensures r.googleId == u.googleId && r.emailVerified == u.emailVerified
    ensures r.casa.Some? <==> u.casa.Some? && exists i :: 0 <= i < |casas| && casas[i].id == u.casa.value
    ensures r.casa.Some? ==> r.casa.value.id == u.casa.value
    ensures r.casa.Some? ==> exists i :: 0 <= i < |casas| && casas[i].id == u.casa.value && casas[i].nombre == r.casa.value.nombre
  {
    var k := if u.casa.Some? then Lists.Find(casas, CasaId(u.casa.value)) else |casas|;
    var casa := if k < |casas| then Some(PopulatedCasa(casas[k].id, casas[k].nombre)) else None;
    assert u.casa.Some? && k == |casas| ==> forall i :: 0 <= i < |casas| ==> !CasaId(u.casa.value)(casas[i]);
    ListedUser(u.id, u.email, u.name, u.googleId, u.emailVerified, casa)
  }

  function Listed(casas: seq<Casa>): User -> ListedUser {
    (u: User) => ListedUserOf(casas, u)
  }

  /** The account listing: every account once, without its password and
      with its house populated, in an order the model does not fix (the
      accounts carry no creation time here). */
  function ListUsers(admin: Option<Id>, s: Store): (r: Response<seq<ListedUser>>)
    ensures admin.None? <==> r == Fail(401, Unauthorized)
    ensures r.Ok? ==> |r.body| == |s.users|
    ensures r.Ok? ==> multiset(r.body) == multiset(Lists.Map(s.users, Listed(s.casas)))
    ensures r.Ok? ==> forall i :: 0 <= i < |s.users| ==> ListedUserOf(s.casas, s.users[i]) in r.body
  {
    if admin.None? then Fail(401, Unauthorized)
    else
      var rows := Lists.Map(s.users, Listed(s.casas));
      assert forall i :: 0 <= i < |s.users| ==> rows[i] == ListedUserOf(s.casas, s.users[i]);
      Ok(rows)
  }

  /** The listing reveals nothing of a password: two accounts that differ
      only in their password are listed identically. */
  lemma ListingHidesPassword(casas: seq<Casa>, u: User, password: Option<string>)
    ensures ListedUserOf(casas, u) == ListedUserOf(casas, u.(password := password))
  {
  }

  // ------------------------------------------------------ creating houses

  /** The body of a house creation: `nombre` and `creadorEmail`, "" when
      absent. */
  datatype HouseRequest = Unparsable | HouseRequest(nombre: string, creadorEmail: string)

  const TempName: string := "Administrador Temporal"

  /** The address of the placeholder account: `temp_<ms>@planneat.com`. */
  function TempEmail(now: nat): (e: string)
    ensures StartsWith(e, "temp_")
  {
    "temp_" + NatToString(now) + "@planneat.com"
  }

  /** The account created for a creator email that has none: the random
      `password` hashed (and hashed again by the save hook), not verified. */
  function NewCreator(email: string, password: string, id: Id, hash: string -> string): User {
    User(id, email, None, Some(hash(password)), None, false, None)
  }

  /** The placeholder account created when no creator email is given. */
  function Placeholder(now: nat, password: string, id: Id, hash: string -> string): User {
    User(id, TempEmail(now), Some(TempName), Some(hash(password)), None, false, None)
  }

  /** The creator: the account with `creadorEmail`, a new account with that
      email, or a placeholder account when no email is given. `password` is
      the random password drawn for a new account. The result is the
      accounts afterwards and the creator's position. */
  function ResolveCreator(users: seq<User>, creadorEmail: string, password: string, now: nat, id: Id, hash: string -> string): (r: Option<(seq<User>, nat)>)
    ensures r.Some? ==> r.value.1 < |r.value.0|
    ensures creadorEmail != "" && Lists.Find(users, UserEmail(creadorEmail)) < |users| ==>
      r == Some((users, Lists.Find(users, UserEmail(creadorEmail))))
    ensures creadorEmail != "" && Lists.Find(users, UserEmail(creadorEmail)) == |users| ==>
      r == (var c := CreateUser(users, NewCreator(creadorEmail, password, id, hash), hash); if c.Some? then Some((c.value, |users|)) else None)
    ensures creadorEmail == "" ==>
      r == (var c := CreateUser(users, Placeholder(now, password, id, hash), hash); if c.Some? then Some((c.value, |users|)) else None)
  {
    var u := if creadorEmail == "" then Placeholder(now, password, id, hash) else NewCreator(creadorEmail, password, id, hash);
    if creadorEmail != "" && Lists.Find(users, UserEmail(creadorEmail)) < |users| then
      Some((users, Lists.Find(users, UserEmail(creadorEmail))))
    else match CreateUser(users, u, hash)
      case None => None
      case Some(us) => Some((us, |users|))
  }

  /** The creation route. The creator becomes a member of the new house,
      whatever house they belonged to before. */
  function CreateHouse(admin: Option<Id>, s: Store, body: HouseRequest, password: string, now: nat,
                      userId: Id, casaId: Id, hash: string -> string): (r: (Response<Casa>, Store))
    ensures admin.None? ==> r == (Fail(401, Unauthorized), s)
    ensures r.1.invitations == s.invitations
    ensures r.0.Fail? ==> r.1.casas == s.casas
    ensures r.0.Ok? ==> body.HouseRequest? && r.1.casas == s.casas + [r.0.body] && r.0.body.nombre == body.nombre
    ensures r.0.Ok? ==>
      var c := ResolveCreator(s.users, body.creadorEmail, password, now, userId, hash);
      && c.Some? && r.0.body.creador == c.value.0[c.value.1].id
      && r.1.users == JoinCasa(c.value.0, c.value.1, casaId)
  {
    if admin.None? then (Fail(401, Unauthorized), s)
    else if body.Unparsable? then (Fail(500, "Error al crear la casa"), s)
    else if body.nombre == "" then (Fail(400, "El nombre de la casa es obligatorio"), s)
    else match ResolveCreator(s.users, body.creadorEmail, password, now, userId, hash)
      case None => (Fail(500, "Error al crear la casa"), s)
      case Some((users, i)) =>
        var casa := Casa(casaId, body.nombre, users[i].id, now);
        match CreateCasa(s.casas, casa)
        case None => (Fail(500, "Error al crear la casa"), s.(users := users))
        case Some(casas) => (Ok(casa), Store(JoinCasa(users, i, casaId), casas, s.invitations))
  }

  /** An existing account named as creator is moved into the new house even
      when it already belonged to another one; no other account changes. */
  lemma CreatorMovedIntoNewHouse(admin: Id, s: Store, nombre: string, email: string, password: string, now: nat,
                                 userId: Id, casaId: Id, hash: string -> string)
    requires email != "" && Lists.Find(s.users, UserEmail(email)) < |s.users|
    requires CreateHouse(Some(admin), s, HouseRequest(nombre, email), password, now, userId, casaId, hash).0.Ok?
    ensures var k := Lists.Find(s.users, UserEmail(email));
      var r := CreateHouse(Some(admin), s, HouseRequest(nombre, email), password, now, userId, casaId, hash);
      && r.0.body.creador == s.users[k].id
      && r.1.users == s.users[k := s.users[k].(casa := Some(casaId))]
  {
  }

  /** Without an email a placeholder account is created and made the
      creator. */
  lemma PlaceholderCreator(admin: Id, s: Store, nombre: string, password: string, now: nat,
                           userId: Id, casaId: Id, hash: string -> string)
    requires CreateHouse(Some(admin), s, HouseRequest(nombre, ""), password, now, userId, casaId, hash).0.Ok?
    ensures var r := CreateHouse(Some(admin), s, HouseRequest(nombre, ""), password, now, userId, casaId, hash);
      && |r.1.users| == |s.users| + 1 && r.1.users[..|s.users|] == s.users
      && r.1.users[|s.users|].email == EmailKey(TempEmail(now))
      && r.1.users[|s.users|].name == NameSetter(Some(TempName))
      && r.1.users[|s.users|].casa == Some(casaId)
      && r.0.body.creador == r.1.users[|s.users|].id
  {
    var e := ResolveCreator(s.users, "", password, now, userId, hash).value;
    var r := CreateHouse(Some(admin), s, HouseRequest(nombre, ""), password, now, userId, casaId, hash);
    assert e.0 == CreateUser(s.users, Placeholder(now, password, userId, hash), hash).value && e.1 == |s.users|;
    JoinAppended(s.users, e.0, casaId);
  }

  /** Joining the account appended last leaves the earlier ones alone. */
  lemma JoinAppended(users: seq<User>, us: seq<User>, casaId: Id)
    requires |us| == |users| + 1 && us[..|users|] == users
    ensures var r := JoinCasa(us, |users|, casaId);
      && |r| == |users| + 1 && r[..|users|] == users && r[|users|] == us[|users|].(casa := Some(casaId))
  {
    var r := JoinCasa(us, |users|, casaId);
    assert forall j :: 0 <= j < |users| ==> r[j] == us[j] == users[j];
  }

  // ---------------------------------------------------- creating accounts

  /** The body of an account creation: `name`, `email`, `password` and
      `casaId`, "" when absent. */
  datatype AccountRequest = Unparsable | AccountRequest(name: string, email: string, password: string, casaId: string)

  /** The account creation route: a verified account, with the name and
      house only when given. The house id is not checked against the
      houses. */
  function CreateAccount(admin: Option<Id>, s: Store, body: AccountRequest, id: Id, hash: string -> string): (r: (Response<User>, Store))
    ensures admin.None? ==> r == (Fail(401, Unauthorized), s)
    ensures r.1.casas == s.casas && r.1.invitations == s.invitations
    ensures r.0.Fail? ==> r.1 == s
    ensures r.0.Ok? ==> (
      && body.AccountRequest? && Lists.Find(s.users, UserEmail(body.email)) == |s.users|
      && r.1.users == s.users + [r.0.body]
      && r.0.body.emailVerified
      && r.0.body.email == EmailKey(body.email)
      && r.0.body.casa == (if body.casaId == "" then None else Some(body.casaId)))
    ensures r.0.Ok? ==> r.0.body.id == id && Lists.Find(s.users, UserId(id)) == |s.users|
  {
    var (response, users) := NewAccount(admin, s.users, body, id, hash);
    (response, s.(users := users))
  }

  /** The account creation route on the accounts alone. */
  function NewAccount(admin: Option<Id>, users: seq<User>, body: AccountRequest, id: Id, hash: string -> string): (r: (Response<User>, seq<User>))
    ensures r.0.Fail? ==> r.1 == users
    ensures admin.None? ==> r.0 == Fail(401, Unauthorized)
    ensures r.0.Ok? ==> (
      && body.AccountRequest? && Lists.Find(users, UserEmail(body.email)) == |users| && Lists.Find(users, UserId(id)) == |users|
      && r.1 == users + [r.0.body] && r.0.body.id == id
      && r.0.body.emailVerified
      && r.0.body.email == EmailKey(body.email)
      && r.0.body.casa == (if body.casaId == "" then None else Some(body.casaId)))
  {
    if admin.None? then (Fail(401, Unauthorized), users)
    else if body.Unparsable? then (Fail(500, "Error al crear el usuario"), users)
    else if body.email == "" || body.password == "" then (Fail(400, "El email y la contraseña son obligatorios"), users)
    else if Lists.Find(users, UserEmail(body.email)) < |users| then (Fail(400, "Ya existe un usuario con ese email"), users)
    else
      var u := User(id, body.email, if body.name == "" then None else Some(body.name), Some(hash(body.password)), None, true,
                    if body.casaId == "" then None else Some(body.casaId));
      match CreateUser(users, u, hash)
      case None => (Fail(500, "Error al crear el usuario"), users)
      case Some(us) =>
        assert us == users + [us[|users|]];
        (Ok(us[|users|]), us)
  }

  /** As in registration, the password is hashed by the route and again by
      the save hook. */
  lemma AccountHashedTwice(admin: Option<Id>, s: Store, body: AccountRequest, id: Id, hash: string -> string)
    requires CreateAccount(admin, s, body, id, hash).0.Ok?
    ensures CreateAccount(admin, s, body, id, hash).0.body.password == Some(hash(hash(body.password)))
  {
  }

  /** The reply does not depend on the houses: an account can be put in a
      house that does not exist. */
  lemma AnyHouseIdAccepted(admin: Option<Id>, s: Store, casas: seq<Casa>, body: AccountRequest, id: Id, hash: string -> string)
    ensures CreateAccount(admin, s, body, id, hash).0 == CreateAccount(admin, s.(casas := casas), body, id, hash).0
  {
  }

  /** Account creation keeps ids and emails unique. */
  lemma CreateAccountKeepsUnique(admin: Option<Id>, s: Store, body: AccountRequest, id: Id, hash: string -> string)
    requires UniqueUsers(s.users)
    ensures UniqueUsers(CreateAccount(admin, s, body, id, hash).1.users)
  {
    var r := CreateAccount(admin, s, body, id, hash);
    if r.0.Ok? {
      forall j | 0 <= j < |s.users| ensures s.users[j].id != r.0.body.id && s.users[j].email != r.0.body.email {
        assert !UserEmail(body.email)(s.users[j]) && !UserId(id)(s.users[j]);
      }
      AppendUnique(s.users, r.0.body);
    }
  }
}

=== FILE: admin_ui.dfy ===
/** The administrator's screens for accounts and houses: the search boxes,
    and the checks made and payloads built before each request. */
module AdminScreens {

  import opened Base
  import opened Text
  import Lists
  import Admin
  import Schema
  import Store
  import Http

  // ------------------------------------------------------------- accounts

  datatype CasaRef = CasaRef(id: string, nombre: string)

  /** An account as listed: the name may be missing, the house is populated
      with its name. */
  datatype UsuarioRow = UsuarioRow(id: string, name: Option<string>, email: string, casa: Option<CasaRef>)

  /** The search on the account list: the name, the email or the house name
      contains the term, ignoring case. */
  function UsuarioMatches(term: string): UsuarioRow -> bool {
    (u: UsuarioRow) =>
      || (u.name.Some? && ContainsIgnoringCase(u.name.value, term))
      || ContainsIgnoringCase(u.email, term)
      || (u.casa.Some? && ContainsIgnoringCase(u.casa.value.nombre, term))
  }

  /** `filteredUsuarios`. */
  function FilterUsuarios(rows: seq<UsuarioRow>, term: string): (r: seq<UsuarioRow>)
    ensures multiset(r) <= multiset(rows)
    ensures forall u :: u in r <==> u in rows && UsuarioMatches(term)(u)
  {
    Lists.Filter(rows, UsuarioMatches(term))
  }

  /** An empty search shows every account, in order. */
  lemma EmptySearchKeepsEveryUser(rows: seq<UsuarioRow>)
    ensures FilterUsuarios(rows, "") == rows
  {
    forall i | 0 <= i < |rows| ensures UsuarioMatches("")(rows[i]) {
      EverythingContainsEmpty(rows[i].email);
    }
    Lists.FilterKeepsAll(rows, UsuarioMatches(""));
  }

  /** Searching twice with the same term changes nothing more, and the
      search result of a longer list is the results of its parts. */
  lemma SearchUsersIsStable(a: seq<UsuarioRow>, b: seq<UsuarioRow>, term: string)
    ensures FilterUsuarios(FilterUsuarios(a, term), term) == FilterUsuarios(a, term)
    ensures FilterUsuarios(a + b, term) == FilterUsuarios(a, term) + FilterUsuarios(b, term)
  {
    var r := FilterUsuarios(a, term);
    Lists.FilterKeepsAll(r, UsuarioMatches(term));
    Lists.FilterConcat(a, b, UsuarioMatches(term));
  }

  /** The new-account dialog. `casaId` is the value of the house selector:
      "" before a choice, a house id, or "none" for "Sin casa". */
  datatype NewUsuario = NewUsuario(name: string, email: string, password: string, casaId: string)

  /** What a dialog's save button does before any request. */
  datatype Request<T> = Refused(message: string) | Send(payload: T)

  /** `handleCreateUsuario`: email and password are required, then the
      dialog's fields are posted as they are. */
  function CreateUsuario(form: NewUsuario): (r: Request<Admin.AccountRequest>)
    ensures r.Send? <==> form.email != "" && form.password != ""
    ensures r.Send? ==> r.payload == Admin.AccountRequest(form.name, form.email, form.password, form.casaId)
  {
    if form.email == "" || form.password == "" then Refused("El email y la contraseña son obligatorios")
    else Send(Admin.AccountRequest(form.name, form.email, form.password, form.casaId))
  }

  /** A payload the dialog sends is never refused by the route for a missing
      email or password: the two checks agree. */
  lemma CreateUsuarioPassesRouteCheck(form: NewUsuario, admin: Schema.Id, s: Store.Store, id: Schema.Id, hash: string -> string)
    requires CreateUsuario(form).Send?
    ensures Admin.CreateAccount(Some(admin), s, CreateUsuario(form).payload, id, hash).0
      != Http.Fail(400, "El email y la contraseña son obligatorios")
  {
  }

  /** The "Sin casa" entry of the house selector carries the value "none",
      which the new-account dialog posts as the house id. */
  const NoHouseValue: string := "none"

  /** Choosing "Sin casa" in the new-account dialog, as written: the value
      "none" becomes the house id sent. */
  function ChooseHouse(form: NewUsuario, value: string): (r: NewUsuario)
    ensures r.name == form.name && r.email == form.email && r.password == form.password
    ensures r.casaId == value
  {
    form.(casaId := value)
  }

  /** As written, choosing "Sin casa" sends the house id "none" instead of
      no house. The model stores "none" because it leaves out ObjectId
      casting; the real route fails with a cast error instead. */
  lemma NoHouseChoiceSendsNone(form: NewUsuario, admin: Schema.Id, s: Store.Store, id: Schema.Id, hash: string -> string)
    requires form.email != "" && form.password != ""
    requires Admin.CreateAccount(Some(admin), s, CreateUsuario(ChooseHouse(form, NoHouseValue)).payload, id, hash).0.Ok?
    ensures Admin.CreateAccount(Some(admin), s, CreateUsuario(ChooseHouse(form, NoHouseValue)).payload, id, hash).0.body.casa
      == Some(NoHouseValue)
  {
  }

  /** The selector as evidently intended: "Sin casa" clears the house. */
  function ChooseHouseCorrected(form: NewUsuario, value: string): (r: NewUsuario)
    ensures r.name == form.name && r.email == form.email && r.password == form.password
    ensures value == NoHouseValue ==> r.casaId == ""
    ensures value != NoHouseValue ==> r.casaId == value
  {
    form.(casaId := if value == NoHouseValue then "" else value)
  }

  /** With the correction, "Sin casa" creates an account without a house. */
  lemma NoHouseChoiceCorrected(form: NewUsuario, admin: Schema.Id, s: Store.Store, id: Schema.Id, hash: string -> string)
    requires form.email != "" && form.password != ""
    requires Admin.CreateAccount(Some(admin), s, CreateUsuario(ChooseHouseCorrected(form, NoHouseValue)).payload, id, hash).0.Ok?
    ensures Admin.CreateAccount(Some(admin), s, CreateUsuario(ChooseHouseCorrected(form, NoHouseValue)).payload, id, hash).0.body.casa.None?
  {
  }

  /** The body of an account update: the name and the house id, `null`
      when there is none. */
  datatype UsuarioUpdate = UsuarioUpdate(id: string, name: Option<string>, casaId: Option<string>)

  /** `handleUpdateUsuario`: an account with an email is required; only its
      name and house are sent. */
  function UpdateUsuario(editing: Option<UsuarioRow>): (r: Request<UsuarioUpdate>)
    ensures r.Send? <==> editing.Some? && editing.value.email != ""
    ensures r.Send? ==> r.payload.id == editing.value.id && r.payload.name == editing.value.name
    ensures r.Send? ==> (r.payload.casaId.None? <==> editing.value.casa.None? || editing.value.casa.value.id == "")
    ensures r.Send? && r.payload.casaId.Some? ==> r.payload.casaId.value == editing.value.casa.value.id
  {
    if editing.None? || editing.value.email == "" then Refused("El email es obligatorio")
    else
      var u := editing.value;
      Send(UsuarioUpdate(u.id, u.name, if u.casa.Some? && u.casa.value.id != "" then Some(u.casa.value.id) else None))
  }

  /** The email shown in the dialog is never sent: two accounts that differ
      only in email produce the same update. */
  lemma UpdateIgnoresEmail(u: UsuarioRow, email: string)
    requires u.email != "" && email != ""
    ensures UpdateUsuario(Some(u)) == UpdateUsuario(Some(u.(email := email)))
  {
  }

  // --------------------------------------------------------------- houses

  /** A house as listed; its creator's email is missing when the creator
      could not be populated. */
  datatype CasaRow = CasaRow(id: string, nombre: string, creadorEmail: Option<string>)

  /** The search on the house list: the name or the creator's email contains
      the term, ignoring case. */
  function CasaMatches(term: string): CasaRow -> bool {
    (c: CasaRow) =>
      || ContainsIgnoringCase(c.nombre, term)
      || (c.creadorEmail.Some? && c.creadorEmail.value != "" && ContainsIgnoringCase(c.creadorEmail.value, term))
  }

  /** `filteredCasas`. */
  function FilterCasas(rows: seq<CasaRow>, term: string): (r: seq<CasaRow>)
    ensures multiset(r) <= multiset(rows)
    ensures forall c :: c in r <==> c in rows && CasaMatches(term)(c)
  {
    Lists.Filter(rows, CasaMatches(term))
  }

  lemma EmptySearchKeepsEveryHouse(rows: seq<CasaRow>)
    ensures FilterCasas(rows, "") == rows
  {
    forall i | 0 <= i < |rows| ensures CasaMatches("")(rows[i]) {
      EverythingContainsEmpty(rows[i].nombre);
    }
    Lists.FilterKeepsAll(rows, CasaMatches(""));
  }

  /** A house without a creator email is found only by its name. */
  lemma NoCreatorMatchesByNameOnly(rows: seq<CasaRow>, term: string, c: CasaRow)
    requires c.creadorEmail.None? || c.creadorEmail.value == ""
    ensures c in FilterCasas(rows, term) <==> c in rows && ContainsIgnoringCase(c.nombre, term)
  {
  }

  /** `handleCreateCasa`: a name is required, then the dialog's fields are
      posted. */
  function CreateCasa(nombre: string, creadorEmail: string): (r: Request<Admin.HouseRequest>)
    ensures r.Send? <==> nombre != ""
    ensures r.Send? ==> r.payload == Admin.HouseRequest(nombre, creadorEmail)
  {
    if nombre == "" then Refused("El nombre de la casa es obligatorio")
    else Send(Admin.HouseRequest(nombre, creadorEmail))
  }

  /** A payload the dialog sends is never refused by the route for a missing
      name. */
  lemma CreateCasaPassesRouteCheck(nombre: string, creadorEmail: string, admin: Schema.Id, s: Store.Store, password: string,
                                   now: nat, userId: Schema.Id, casaId: Schema.Id, hash: string -> string)
    requires CreateCasa(nombre, creadorEmail).Send?
    ensures Admin.CreateHouse(Some(admin), s, CreateCasa(nombre, creadorEmail).payload, password, now, userId, casaId, hash).0
      != Http.Fail(400, "El nombre de la casa es obligatorio")
  {
  }

  datatype CasaUpdate = CasaUpdate(id: string, nombre: string)

  /** `handleUpdateCasa`: a house with a name is required; only the name is
      sent. */
  function UpdateCasa(editing: Option<CasaRow>): (r: Request<CasaUpdate>)
    ensures r.Send? <==> editing.Some? && editing.value.nombre != ""
    ensures r.Send? ==> r.payload == CasaUpdate(editing.value.id, editing.value.nombre)
  {
    if editing.None? || editing.value.nombre == "" then Refused("El nombre de la casa es obligatorio")
    else Send(CasaUpdate(editing.value.id, editing.value.nombre))
  }
}

=== FILE: apikeys.dfy ===
/** API keys: the check the public export runs on the `x-api-key` header,
    and the routes that list and create a user's keys. */
module ApiKeys {

  import opened Base
  import opened Text
  import opened Schema
  import opened Http
  import Lists

  /** No two stored keys share their key string (`unique: true`). */
  predicate UniqueKeyStrings(keys: seq<ApiKey>) {
    forall i, j :: 0 <= i < j < |keys| ==> keys[i].key != keys[j].key
  }

  /** The `findOne({ key })` filter: a stored key whose string is `k`. */
  function KeyStringIs(k: string): ApiKey -> bool {
    (a: ApiKey) => a.key == k
  }

  /** The verifier's outcome: the key's owner, or the reply to send. */
  datatype Auth = Valid(user: Id, casa: Id) | Invalid(status: int, error: string)

  /** `verifyApiKey`. `header` is the `x-api-key` header, `None` when absent;
      `broken` is a failing database, which throws before anything changes;
      `now` is the clock. A match records the time of use on that key. */
  function VerifyApiKey(header: Option<string>, keys: seq<ApiKey>, broken: bool, now: int): (r: (Auth, seq<ApiKey>))
    ensures header.None? || header.value == "" ==> r == (Invalid(401, "API key is required"), keys)
    ensures header.Some? && header.value != "" && broken ==> r == (Invalid(500, "Error verifying API key"), keys)
    ensures header.Some? && header.value != "" && !broken && (forall j :: 0 <= j < |keys| ==> keys[j].key != header.value)
      ==> r == (Invalid(401, "Invalid API key"), keys)
    ensures r.0.Valid? ==> exists i :: (0 <= i < |keys| && keys[i].key == header.value
      && r.0 == Valid(keys[i].user, keys[i].casa)
      && r.1 == keys[i := keys[i].(lastUsed := Some(now))])
    ensures r.0.Invalid? ==> r.1 == keys && r.0.status in {401, 500}
  {
    if header.None? || header.value == "" then (Invalid(401, "API key is required"), keys)
    else if broken then (Invalid(500, "Error verifying API key"), keys)
    else
      var i := Lists.Find(keys, KeyStringIs(header.value));
      if i == |keys| then (Invalid(401, "Invalid API key"), keys)
      else (Valid(keys[i].user, keys[i].casa), keys[i := keys[i].(lastUsed := Some(now))])
  }

  /** With unique key strings the match is the one key with that string, and
      of all the stored keys only its `lastUsed` changes. */
  lemma VerifyTouchesOnlyThatKey(header: string, keys: seq<ApiKey>, now: int, i: nat)
    requires UniqueKeyStrings(keys) && i < |keys| && keys[i].key == header && header != ""
    ensures VerifyApiKey(Some(header), keys, false, now).0 == Valid(keys[i].user, keys[i].casa)
    ensures var after := VerifyApiKey(Some(header), keys, false, now).1;
      && |after| == |keys|
      && after[i] == keys[i].(lastUsed := Some(now))
      && (forall j :: 0 <= j < |keys| && j != i ==> after[j] == keys[j])
      && UniqueKeyStrings(after)
  {
    Lists.FindIsFirst(keys, KeyStringIs(header), i);
  }

  // ------------------------------------------------------- listing keys

  /** `` `${key.substring(0, 8)}...${key.substring(key.length - 4)}` ``. */
  function Truncate(key: string): (r: string)
    ensures |key| >= 4 ==> |r| == (if |key| < 8 then |key| else 8) + 7 && r[|r| - 4..] == key[|key| - 4..]
    ensures |key| >= 8 ==> r[..8] == key[..8]
  {
    Substring(key, 0, 8) + "..." + SubstringFrom(key, |key| - 4)
  }

  /** A generated key (64 characters) is listed as 15 characters: its first
      eight, "..." and its last four, so the listing never shows the key. */
  lemma ListingHidesKey(key: string)
    requires |key| == 64
    ensures |Truncate(key)| == 15 && Truncate(key) != key
    ensures Truncate(key) == key[..8] + "..." + key[60..]
  {
  }

  /** One entry of the listing. */
  datatype Listed = Listed(id: Id, name: string, createdAt: int, lastUsed: Option<int>, key: string)

  function ListEntry(k: ApiKey): Listed {
    Listed(k.id, k.name, k.createdAt, k.lastUsed, Truncate(k.key))
  }

  function OwnedBy(user: Id): ApiKey -> bool {
    (k: ApiKey) => k.user == user
  }

  /** GET: the session user's keys, in store order, each truncated. */
  function ListKeys(session: Option<Session>, keys: seq<ApiKey>): (r: Response<seq<Listed>>)
    ensures !HasCasa(session) <==> r == Fail(401, NoCasa)
    ensures r.Ok? ==> |r.body| == Lists.Count(keys, OwnedBy(session.value.user))
    ensures r.Ok? ==> forall i :: 0 <= i < |r.body| ==> exists j :: (0 <= j < |keys|
      && keys[j].user == session.value.user && r.body[i] == ListEntry(keys[j]))
    ensures r.Ok? || r.Fail?
  {
    if !HasCasa(session) then Fail(401, NoCasa)
    else
      var mine := Lists.Filter(keys, OwnedBy(session.value.user));
      var body := Lists.Map(mine, ListEntry);
      assert forall i :: 0 <= i < |body| ==> mine[i] in keys && body[i] == ListEntry(mine[i]);
      Ok(body)
  }

  /** Every key of the user is listed, none of them in full when generated. */
  lemma ListsEveryOwnKey(session: Session, keys: seq<ApiKey>, j: nat)
    requires session.casa != "" && j < |keys| && keys[j].user == session.user
    ensures ListEntry(keys[j]) in ListKeys(Some(session), keys).body
  {
    var mine := Lists.Filter(keys, OwnedBy(session.user));
    assert keys[j] in mine;
    var i :| 0 <= i < |mine| && mine[i] == keys[j];
    assert Lists.Map(mine, ListEntry)[i] == ListEntry(keys[j]);
  }

  // ------------------------------------------------------ creating a key

  /** The creation reply: the only place the whole key is shown. */
  datatype CreatedKey = CreatedKey(id: Id, name: string, key: string, createdAt: int)

  /** POST. `name` is the body's `name`, `None` when absent; `random` the 32
      random bytes, `id` the new document's id and `now` the clock. Creation
      fails (500) when the schema rejects the document or the key string is
      already stored. */
  function CreateKey(session: Option<Session>, name: Option<string>, keys: seq<ApiKey>,
                     random: seq<byte>, id: Id, now: int): (r: (Response<CreatedKey>, seq<ApiKey>))
    requires |random| == 32
    ensures !HasCasa(session) ==> r == (Fail(401, NoCasa), keys)
    ensures HasCasa(session) && (name.None? || name.value == "") ==> r.0 == Fail(400, "El nombre de la clave es requerido")
    ensures r.0.Fail? ==> r.1 == keys
    ensures r.0.Ok? ==> HasCasa(session) && name.Some? && name.value != ""
    ensures r.0.Ok? ==> |r.1| == |keys| + 1 && r.1[..|keys|] == keys
    ensures r.0.Ok? ==> var k := r.1[|keys|];
      && k == ApiKey(id, GenerateKey(random), name.value, session.value.user, session.value.casa, now, None)
      && r.0.body == CreatedKey(id, name.value, k.key, now)
  {
    if !HasCasa(session) then (Fail(401, NoCasa), keys)
    else if name.None? || name.value == "" then (Fail(400, "El nombre de la clave es requerido"), keys)
    else
      var k := ApiKey(id, GenerateKey(random), name.value, session.value.user, session.value.casa, now, None);
      if !ValidApiKey(k) || Lists.Find(keys, KeyStringIs(k.key)) < |keys| then (Fail(500, "Error al crear la clave API"), keys)
      else (Ok(CreatedKey(id, k.name, k.key, now)), keys + [k])
  }

  /** Creation keeps key strings unique, and the stored key is 64 lower-case
      hex digits that spell the random bytes. */
  lemma CreateKeepsKeysUnique(session: Option<Session>, name: Option<string>, keys: seq<ApiKey>,
                              random: seq<byte>, id: Id, now: int)
    requires |random| == 32 && UniqueKeyStrings(keys)
    ensures var r := CreateKey(session, name, keys, random, id, now);
      && UniqueKeyStrings(r.1)
      && (r.0.Ok? ==> |r.0.body.key| == 64 && HexDecode(r.0.body.key) == Some(random))
  {
  }
}

=== FILE: base.dfy ===
/** Values shared by every part of the model: optional values, the handful of
    JavaScript values the application inspects at run time, and the
    truthiness and `String(...)` conversion rules it relies on. */
module Base {

  datatype Option<+T> = None | Some(value: T) {
    function GetOr(default: T): T {
      match this
      case Some(v) => v
      case None => default
    }
  }

  /** A JavaScript value as far as the application looks at it. Objects are
      only ever asked for their `name` property, so an object is represented
      by that property alone (`None` when it is missing or not a string). */
  datatype JsValue =
    | JsUndefined
    | JsNull
    | JsBool(b: bool)
    | JsNumber(n: int)
    | JsString(s: string)
    | JsObject(name: Option<string>)

  /** JavaScript truthiness: `undefined`, `null`, `false`, `0` and `""` are falsy. */
  predicate Truthy(v: JsValue) {
    match v
    case JsUndefined => false
    case JsNull => false
    case JsBool(b) => b
    case JsNumber(n) => n != 0
    case JsString(s) => s != ""
    case JsObject(_) => true
  }

  /** `typeof v === "object"`, which also holds of `null`. */
  predicate TypeofObject(v: JsValue) {
    v.JsNull? || v.JsObject?
  }

  /** An object whose `name` property is a non-empty string. */
  predicate HasTruthyName(v: JsValue) {
    v.JsObject? && v.name.Some? && v.name.value != ""
  }

  function DigitChar(d: nat): (c: char)
    requires d < 10
    ensures '0' <= c <= '9'
  {
    ['0', '1', '2', '3', '4', '5', '6', '7', '8', '9'][d]
  }

  /** Decimal spelling of a natural number, most significant digit first. */
  function NatToString(n: nat): (r: string)
    ensures |r| >= 1
    ensures forall i :: 0 <= i < |r| ==> '0' <= r[i] <= '9'
    ensures n < 10 <==> |r| == 1
    decreases n
  {
    if n < 10 then [DigitChar(n)] else NatToString(n / 10) + [DigitChar(n % 10)]
  }

  function IntToString(n: int): (r: string)
    ensures |r| >= 1
    ensures n >= 0 ==> r == NatToString(n)
    ensures n < 0 ==> r[0] == '-'
  {
    if n >= 0 then NatToString(n) else "-" + NatToString(-n)
  }

  /** `String(v)` for the values above; a plain object prints as `[object Object]`. */
  function ToJsString(v: JsValue): string {
    match v
    case JsUndefined => "undefined"
    case JsNull => "null"
    case JsBool(b) => if b then "true" else "false"
    case JsNumber(n) => IntToString(n)
    case JsString(s) => s
    case JsObject(_) => "[object Object]"
  }

  /** A request field that should hold an array: anything else is
      `NotAnArray` (`Array.isArray` fails). */
  datatype Field = NotAnArray | Array(items: seq<JsValue>)
}

=== FILE: byid.dfy ===
/** The two list updates the catalogue and the menu history apply once the
    server has confirmed a change: replace every document that has the id of
    the returned one, and drop every document with a deleted id. */
module ById {

  import Lists

  /** The document `u` in place of those with its id. */
  function Replacer<T>(id: T -> string, u: T): T -> T {
    x => if id(x) == id(u) then u else x
  }

  /** Documents whose id is not `k`. */
  function Other<T>(id: T -> string, k: string): T -> bool {
    x => id(x) != k
  }

  /** Documents whose id is `k`. */
  function HasId<T>(id: T -> string, k: string): T -> bool {
    x => id(x) == k
  }

  /** `s.map(x => x._id === u._id ? u : x)`. */
  function ReplaceById<T>(s: seq<T>, id: T -> string, u: T): (r: seq<T>)
    ensures |r| == |s|
    ensures forall i :: 0 <= i < |s| && id(s[i]) == id(u) ==> r[i] == u
    ensures forall i :: 0 <= i < |s| && id(s[i]) != id(u) ==> r[i] == s[i]
  {
    Lists.Map(s, Replacer(id, u))
  }

  /** The documents with other ids keep their values and their order. */
  lemma {:induction false} ReplaceKeepsOthers<T>(s: seq<T>, id: T -> string, u: T)
    ensures Lists.Filter(ReplaceById(s, id, u), Other(id, id(u))) == Lists.Filter(s, Other(id, id(u)))
    decreases |s|
  {
    if s != [] {
      var r := ReplaceById(s, id, u);
      ReplaceKeepsOthers(s[1..], id, u);
      assert r[1..] == ReplaceById(s[1..], id, u);
    }
  }

  /** When no document has the id of `u` the list is left as it was. */
  lemma ReplaceAbsent<T>(s: seq<T>, id: T -> string, u: T)
    requires forall i :: 0 <= i < |s| ==> id(s[i]) != id(u)
    ensures ReplaceById(s, id, u) == s
  {
  }

  /** Replacing twice with the same document is replacing once. */
  lemma ReplaceIdempotent<T>(s: seq<T>, id: T -> string, u: T)
    ensures ReplaceById(ReplaceById(s, id, u), id, u) == ReplaceById(s, id, u)
  {
  }

  /** `s.filter(x => x._id !== k)`. */
  function DeleteById<T>(s: seq<T>, id: T -> string, k: string): (r: seq<T>)
    ensures |r| <= |s|
    ensures forall i :: 0 <= i < |r| ==> id(r[i]) != k
    ensures forall i :: 0 <= i < |s| && id(s[i]) != k ==> s[i] in r
    ensures forall i :: 0 <= i < |r| ==> r[i] in s
  {
    Lists.Filter(s, Other(id, k))
  }

  /** Deletion works block by block, so the documents kept stay in order. */
  lemma DeleteConcat<T>(a: seq<T>, b: seq<T>, id: T -> string, k: string)
    ensures DeleteById(a + b, id, k) == DeleteById(a, id, k) + DeleteById(b, id, k)
  {
    Lists.FilterConcat(a, b, Other(id, k));
  }

  /** Exactly the documents with id `k` go: the length drops by their number. */
  lemma {:induction false} DeleteCount<T>(s: seq<T>, id: T -> string, k: string)
    ensures |DeleteById(s, id, k)| + Lists.Count(s, HasId(id, k)) == |s|
    decreases |s|
  {
    if s != [] {
      DeleteCount(s[1..], id, k);
    }
  }

  /** Deleting an id nothing has changes nothing. */
  lemma DeleteAbsent<T>(s: seq<T>, id: T -> string, k: string)
    requires forall i :: 0 <= i < |s| ==> id(s[i]) != k
    ensures DeleteById(s, id, k) == s
  {
    Lists.FilterKeepsAll(s, Other(id, k));
  }
}

=== FILE: catalog.dfy ===
/** The meal catalogue: the category table, grouping the catalogue by type,
    the search box, the add/edit form's validation and the list updates after
    a save or a delete, and the conversion of stored ingredients when a meal
    is opened for editing. */
module Catalog {

  import opened Base
  import opened Text
  import opened Ordered
  import opened Schema
  import Lists
  import ById
  import Ingredients
  import Planner

  // ------------------------------------------------------ category table

  /** One row of the `mealTypes` table. */
  datatype Category = Category(key: string, icon: string, name: string)

  const Categories: seq<Category> := [
    Category("carne", "🥩", "Carne"),
    Category("pollo", "🍗", "Pollo"),
    Category("pescado", "🐟", "Pescado"),
    Category("vegetariano", "🥗", "Vegetariano"),
    Category("pastas", "🍝", "Pastas"),
    Category("otros", "🍽️", "Otros")
  ]

  const DefaultIcon: string := "🍽️"

  /** `mealTypes[category]`: the row with that key, if any. */
  function FindCategory(category: string): (r: Option<Category>)
    ensures r.Some? ==> r.value in Categories && r.value.key == category
    ensures r.None? ==> forall i :: 0 <= i < |Categories| ==> Categories[i].key != category
  {
    FindIn(Categories, category)
  }

  function FindIn(cs: seq<Category>, category: string): (r: Option<Category>)
    ensures r.Some? ==> r.value in cs && r.value.key == category
    ensures r.None? ==> forall i :: 0 <= i < |cs| ==> cs[i].key != category
  {
    if cs == [] then None
    else if cs[0].key == category then Some(cs[0])
    else FindIn(cs[1..], category)
  }

  /** `mealTypes[category]?.icon || "🍽️"`. */
  function GetCategoryIcon(category: string): (icon: string)
    ensures FindCategory(category).Some? ==> icon == FindCategory(category).value.icon
    ensures FindCategory(category).None? ==> icon == DefaultIcon
    ensures icon != ""
  {
    match FindCategory(category)
    case Some(c) => if c.icon != "" then c.icon else DefaultIcon
    case None => DefaultIcon
  }

  /** `mealTypes[category]?.label || category`. */
  function GetCategoryName(category: string): (name: string)
    ensures FindCategory(category).Some? ==> name == FindCategory(category).value.name
    ensures FindCategory(category).None? ==> name == category
  {
    match FindCategory(category)
    case Some(c) => if c.name != "" then c.name else category
    case None => category
  }

  /** A type outside the table, such as the legacy "carnes", gets the
      default icon and is shown under its own spelling; every type of the
      table gets its own icon and capitalised label. */
  lemma CategoryFallback(category: string)
    ensures category !in ["carne", "pollo", "pescado", "vegetariano", "pastas", "otros"] ==>
      GetCategoryIcon(category) == DefaultIcon && GetCategoryName(category) == category
    ensures category == "carnes" ==> GetCategoryName(category) == "carnes"
    ensures category == "pollo" ==> GetCategoryIcon(category) == "🍗" && GetCategoryName(category) == "Pollo"
  {
    if category !in ["carne", "pollo", "pescado", "vegetariano", "pastas", "otros"] {
      assert FindCategory(category).None?;
    }
  }

  // ------------------------------------------------------------ grouping

  function MealType(m: Meal): string {
    m.mealType
  }

  /** `groupMealsByCategory`: `acc[meal.type].push(meal)` for each meal in
      turn, creating the group the first time its type is seen. */
  function GroupMealsByCategory(meals: seq<Meal>): (g: OMap<seq<Meal>>)
    ensures UniqueKeys(g)
    decreases |meals|
  {
    if meals == [] then []
    else
      var n := |meals| - 1;
      var acc := GroupMealsByCategory(meals[..n]);
      var t := meals[n].mealType;
      PutUnique(acc, t, Lookup(acc, t).GetOr([]) + [meals[n]]);
      Put(acc, t, Lookup(acc, t).GetOr([]) + [meals[n]])
  }

  /** One more meal changes only the group of its own type, which it
      extends. */
  lemma GroupLookupSnoc(p: seq<Meal>, m: Meal, t: string)
    ensures Lookup(GroupMealsByCategory(p + [m]), t)
         == if t == m.mealType then Some(Lookup(GroupMealsByCategory(p), t).GetOr([]) + [m])
            else Lookup(GroupMealsByCategory(p), t)
  {
    var acc := GroupMealsByCategory(p);
    GroupSnoc(p, m);
    PutLookup(acc, m.mealType, Lookup(acc, m.mealType).GetOr([]) + [m], t);
  }

  /** The grouping of one more meal is the push of that meal. */
  lemma GroupSnoc(p: seq<Meal>, m: Meal)
    ensures GroupMealsByCategory(p + [m])
         == Put(GroupMealsByCategory(p), m.mealType, Lookup(GroupMealsByCategory(p), m.mealType).GetOr([]) + [m])
  {
    var meals := p + [m];
    assert meals[..|meals| - 1] == p && meals[|meals| - 1] == m;
  }

  /** The group of type `t` holds exactly the meals of that type, in
      catalogue order, and exists exactly when there is one. */
  lemma {:induction false} GroupIsFilter(meals: seq<Meal>, t: string)
    ensures Lookup(GroupMealsByCategory(meals), t)
         == if Lists.Filter(meals, OfType(t)) == [] then None else Some(Lists.Filter(meals, OfType(t)))
    decreases |meals|
  {
    if meals != [] {
      var n := |meals| - 1;
      var p, m := meals[..n], meals[n];
      assert meals == p + [m];
      GroupLookupSnoc(p, m, t);
      GroupIsFilter(p, t);
      Lists.FilterSnoc(p, m, OfType(t));
      var before := Lists.Filter(p, OfType(t));
      if t == m.mealType {
        assert Lists.Filter(meals, OfType(t)) == before + [m];
        assert Lookup(GroupMealsByCategory(p), t).GetOr([]) == before;
      } else {
        assert Lists.Filter(meals, OfType(t)) == before;
      }
    }
  }

  /** Every meal lands in the group of its own type. */
  lemma MealInItsGroup(meals: seq<Meal>, i: int)
    requires 0 <= i < |meals|
    ensures Lookup(GroupMealsByCategory(meals), meals[i].mealType).Some?
    ensures meals[i] in Lookup(GroupMealsByCategory(meals), meals[i].mealType).value
  {
    GroupIsFilter(meals, meals[i].mealType);
  }

  /** Adding `x` at the end of one group adds `x` to the flattened groups. */
  lemma FlattenPush(pre: OMap<seq<Meal>>, e: Entry<seq<Meal>>, post: OMap<seq<Meal>>, x: Meal)
    ensures multiset(Flatten(pre + [Entry(e.key, e.value + [x])] + post))
         == multiset(Flatten(pre + [e] + post)) + multiset{x}
  {
    var e' := Entry(e.key, e.value + [x]);
    FlattenConcat(pre + [e'], post);
    FlattenConcat(pre, [e']);
    FlattenConcat(pre + [e], post);
    FlattenConcat(pre, [e]);
    var a, c := Flatten(pre), Flatten(post);
    assert Flatten(pre + [e'] + post) == (a + e.value) + [x] + c;
    assert Flatten(pre + [e] + post) == (a + e.value) + c;
    Lists.MultisetInsert(a + e.value, x, c);
  }

  /** `acc[t].push(m)`, creating the group if needed, adds `m` to the
      flattened groups and nothing else. */
  lemma PushFlatten(acc: OMap<seq<Meal>>, t: string, m: Meal)
    ensures multiset(Flatten(Put(acc, t, Lookup(acc, t).GetOr([]) + [m])))
         == multiset(Flatten(acc)) + multiset{m}
  {
    var v := Lookup(acc, t).GetOr([]) + [m];
    var r := Put(acc, t, v);
    var i := KeyIndex(acc, t);
    if i == |acc| {
      assert v == [m];
      assert r == acc + [Entry(t, v)];
      FlattenConcat(acc, [Entry(t, v)]);
    } else {
      assert v == acc[i].value + [m];
      assert r == acc[..i] + [Entry(acc[i].key, acc[i].value + [m])] + acc[i + 1..];
      assert acc == acc[..i] + [acc[i]] + acc[i + 1..];
      FlattenPush(acc[..i], acc[i], acc[i + 1..], m);
    }
  }

  /** The groups together are a rearrangement of the catalogue: nothing is
      lost and nothing is counted twice. */
  lemma {:induction false} GroupsArePermutation(meals: seq<Meal>)
    ensures multiset(Flatten(GroupMealsByCategory(meals))) == multiset(meals)
    decreases |meals|
  {
    if meals != [] {
      var n := |meals| - 1;
      var p, m := meals[..n], meals[n];
      assert meals == p + [m];
      GroupsArePermutation(p);
      GroupSnoc(p, m);
      PushFlatten(GroupMealsByCategory(p), m.mealType, m);
    }
  }

  // -------------------------------------------------------------- search

  /** A meal the search term finds: in its name or in its type, ignoring case. */
  predicate MatchesSearch(m: Meal, termino: string) {
    ContainsIgnoringCase(m.name, termino) || ContainsIgnoringCase(m.mealType, termino)
  }

  function SearchFilter(termino: string): Meal -> bool {
    (m: Meal) => MatchesSearch(m, termino)
  }

  /** `buscarComidas`: the meals the term finds, grouped by type. */
  function BuscarComidas(meals: seq<Meal>, termino: string): (g: OMap<seq<Meal>>)
    ensures UniqueKeys(g)
  {
    GroupMealsByCategory(Lists.Filter(meals, SearchFilter(termino)))
  }

  /** The search shows a meal exactly when it is in the catalogue and the
      term occurs in its name or type. */
  lemma SearchShowsExactlyMatches(meals: seq<Meal>, termino: string, m: Meal)
    ensures m in Flatten(BuscarComidas(meals, termino)) <==> m in meals && MatchesSearch(m, termino)
  {
    var f := Lists.Filter(meals, SearchFilter(termino));
    GroupsArePermutation(f);
    assert m in Flatten(BuscarComidas(meals, termino)) <==> m in multiset(f);
    if m in meals && MatchesSearch(m, termino) {
      var i :| 0 <= i < |meals| && meals[i] == m;
      assert m in f;
    }
  }

  /** An empty term finds everything. */
  lemma EmptySearchKeepsAll(meals: seq<Meal>)
    ensures BuscarComidas(meals, "") == GroupMealsByCategory(meals)
  {
    forall i | 0 <= i < |meals| ensures SearchFilter("")(meals[i]) {
      EverythingContainsEmpty(meals[i].name);
    }
    Lists.FilterKeepsAll(meals, SearchFilter(""));
  }

  // ----------------------------------------------------------- the form

  /** The add/edit form (`nuevaComida`). */
  datatype Draft = Draft(nombre: string, ingredientes: seq<string>, tipo: string, comida: string,
                         nutritionalInfo: Option<Nutrition>)

  const EmptyDraft: Draft := Draft("", [], "", "", None)

  /** The body sent to the meals routes. */
  datatype MealData = MealData(name: string, mealType: string, ingredients: seq<string>,
                               mealTime: string, casa: string, nutritionalInfo: Option<Nutrition>)

  /** `PUT /api/meals/{id}` when editing, `POST /api/meals` when adding. */
  datatype MealRequest = PutMeal(id: Id, data: MealData) | PostMeal(data: MealData)

  /** The form is complete: no field left empty. */
  predicate Complete(d: Draft) {
    d.nombre != "" && d.ingredientes != [] && d.tipo != "" && d.comida != ""
  }

  /** The request `agregarOEditarComida` sends, `None` when a field is empty
      (the "all fields are required" alert, and no request). */
  function SubmitRequest(d: Draft, editing: Option<Meal>): (r: Option<MealRequest>)
    ensures r.None? <==> d.nombre == "" || d.ingredientes == [] || d.tipo == "" || d.comida == ""
    ensures r.Some? ==> (r.value.PutMeal? <==> editing.Some?)
    ensures r.Some? && editing.Some? ==> r.value.id == editing.value.id
    ensures r.Some? ==>
      var data := r.value.data;
      && data.name == d.nombre && data.mealType == d.tipo && data.ingredients == d.ingredientes
      && data.mealTime == d.comida && data.casa == "mock-casa" && data.nutritionalInfo == d.nutritionalInfo
  {
    if !Complete(d) then None
    else
      var data := MealData(d.nombre, d.tipo, d.ingredientes, d.comida, "mock-casa", d.nutritionalInfo);
      match editing
      case Some(m) => Some(PutMeal(m.id, data))
      case None => Some(PostMeal(data))
  }

  function MealId(m: Meal): string {
    m.id
  }

  /** The catalogue after the server returned `saved`: on an edit every meal
      with its id is replaced, on an add it is appended. */
  function ApplySaved(meals: seq<Meal>, editing: bool, saved: Meal): (r: seq<Meal>)
    ensures !editing ==> r == meals + [saved]
    ensures editing ==> r == ById.ReplaceById(meals, MealId, saved)
  {
    if editing then ById.ReplaceById(meals, MealId, saved) else meals + [saved]
  }

  /** After an edit the catalogue keeps its length; the meals with the saved
      id now are the saved meal and the others are as they were, in order. */
  lemma EditReplacesOnlyThatMeal(meals: seq<Meal>, saved: Meal)
    ensures |ApplySaved(meals, true, saved)| == |meals|
    ensures forall i :: 0 <= i < |meals| && meals[i].id == saved.id ==> ApplySaved(meals, true, saved)[i] == saved
    ensures Lists.Filter(ApplySaved(meals, true, saved), ById.Other(MealId, saved.id))
         == Lists.Filter(meals, ById.Other(MealId, saved.id))
  {
    ById.ReplaceKeepsOthers(meals, MealId, saved);
  }

  /** `handleDeleteMeal` after the server confirmed the delete. */
  function DeleteMeal(meals: seq<Meal>, mealId: Id): (r: seq<Meal>)
    ensures forall i :: 0 <= i < |r| ==> r[i].id != mealId
    ensures forall m :: m in r <==> m in meals && m.id != mealId
  {
    ById.DeleteById(meals, MealId, mealId)
  }

  /** The meals kept by a delete stay in their order. */
  lemma DeleteKeepsOrder(a: seq<Meal>, b: seq<Meal>, mealId: Id)
    ensures DeleteMeal(a + b, mealId) == DeleteMeal(a, mealId) + DeleteMeal(b, mealId)
  {
    ById.DeleteConcat(a, b, MealId, mealId);
  }

  // --------------------------------------------------- opening the editor

  /** One stored ingredient as `openEditDialog` converts it. Reading `name`
      of `null` (whose `typeof` is "object") throws, which is `None` here. */
  function EditIngredient(v: JsValue): (r: Option<string>)
    ensures r.None? <==> v.JsNull?
    ensures v.JsString? ==> r == Some(v.s)
    ensures HasTruthyName(v) ==> r == Some(v.name.value)
  {
    if v.JsString? then Some(v.s)
    else if v.JsNull? then None
    else if v.JsObject? && v.name.Some? && v.name.value != "" then Some(v.name.value)
    else Some(ToJsString(v))
  }

  /** The converted ingredient list: [] when `ingredients` is missing or not
      an array, `None` when the conversion throws on a `null` element. */
  function OpenEditIngredients(f: Field): (r: Option<seq<string>>)
    ensures f.NotAnArray? ==> r == Some([])
    ensures f.Array? ==> (r.None? <==> exists i :: 0 <= i < |f.items| && f.items[i].JsNull?)
    ensures f.Array? && r.Some? ==> |r.value| == |f.items|
    ensures f.Array? && r.Some? ==> forall i :: 0 <= i < |f.items| ==> Some(r.value[i]) == EditIngredient(f.items[i])
  {
    match f
    case NotAnArray => Some([])
    case Array(items) => ConvertAll(items)
  }

  function ConvertAll(items: seq<JsValue>): (r: Option<seq<string>>)
    ensures r.None? <==> exists i :: 0 <= i < |items| && items[i].JsNull?
    ensures r.Some? ==> |r.value| == |items|
    ensures r.Some? ==> forall i :: 0 <= i < |items| ==> Some(r.value[i]) == EditIngredient(items[i])
    decreases |items|
  {
    if items == [] then Some([])
    else
      match (EditIngredient(items[0]), ConvertAll(items[1..]))
      case (Some(x), Some(rest)) =>
        assert forall i :: 1 <= i < |items| ==> items[i] == items[1..][i - 1];
        Some([x] + rest)
      case (None, _) => None
      case (_, None) =>
        assert forall i :: 0 <= i < |items| - 1 ==> items[1..][i] == items[i + 1];
        None
  }

  /** Without `null` elements the editor shows what the catalogue's own
      `formatIngredient` shows. */
  lemma OpenEditAgreesWithCatalogFormat(items: seq<JsValue>)
    requires forall i :: 0 <= i < |items| ==> !items[i].JsNull?
    ensures OpenEditIngredients(Array(items)) == Some(Lists.Map(items, Ingredients.CatalogFormatIngredient))
  {
    var r := OpenEditIngredients(Array(items)).value;
    forall i | 0 <= i < |items| ensures r[i] == Ingredients.CatalogFormatIngredient(items[i]) {
      assert Some(r[i]) == EditIngredient(items[i]);
    }
  }

  // -------------------------------------------------------------- counts

  /** Meals whose type is the key of row `i` of the category table. */
  function CountRow(meals: seq<Meal>, i: nat): (n: nat)
    requires i < |Categories|
    ensures n <= |meals|
  {
    Lists.Count(meals, OfType(Categories[i].key))
  }

  /** The catalogue's `getMealCounts`: `all`, then one count per key of the
      category table, in table order. */
  function GetMealCounts(meals: seq<Meal>): (c: Planner.Counts)
    ensures c.all == |meals|
  {
    Planner.Counts(|meals|, CountRow(meals, 0), CountRow(meals, 1), CountRow(meals, 2),
                   CountRow(meals, 3), CountRow(meals, 4), CountRow(meals, 5))
  }

  /** The catalogue's counts are the planner's: both count exact type
      matches for the same six types. */
  lemma CountsAgreeWithPlanner(meals: seq<Meal>)
    ensures GetMealCounts(meals) == Planner.GetMealCounts(meals)
  {
  }
}

=== FILE: config.dfy ===
/** `getBaseUrl`: the address the application builds links with. */
module Config {

  import opened Base
  import opened Text

  const LocalUrl: string := "http://localhost:3000"

  /** A variable that is set to a non-empty value. */
  predicate Set(v: Option<string>) {
    v.Some? && v.value != ""
  }

  /** `NEXT_PUBLIC_APP_URL` verbatim when set, else `https://` and
      `VERCEL_URL` when that is set, else the local address. */
  function BaseUrl(appUrl: Option<string>, vercelUrl: Option<string>): (r: string)
    ensures Set(appUrl) ==> r == appUrl.value
    ensures !Set(appUrl) && Set(vercelUrl) ==> r == "https://" + vercelUrl.value
    ensures !Set(appUrl) && !Set(vercelUrl) ==> r == LocalUrl
  {
    if Set(appUrl) then appUrl.value
    else if Set(vercelUrl) then "https://" + vercelUrl.value
    else LocalUrl
  }

  /** The explicit address wins whatever the hosting platform says. */
  lemma AppUrlTakesPriority(appUrl: string, v1: Option<string>, v2: Option<string>)
    requires appUrl != ""
    ensures BaseUrl(Some(appUrl), v1) == BaseUrl(Some(appUrl), v2) == appUrl
  {
  }

  /** The result is never empty, and without an explicit address it is an
      `https` address exactly when the platform's variable is set. */
  lemma BaseUrlShape(appUrl: Option<string>, vercelUrl: Option<string>)
    ensures BaseUrl(appUrl, vercelUrl) != ""
    ensures !Set(appUrl) ==> (StartsWith(BaseUrl(appUrl, vercelUrl), "https://") <==> Set(vercelUrl))
  {
    if !Set(appUrl) && !Set(vercelUrl) {
      assert LocalUrl[4] == ':';
      assert "https://"[4] == 's';
    }
  }
}

=== FILE: dates.dfy ===
/** Instants and calendar dates. An instant is a whole number of milliseconds
    since 1970-01-01T00:00:00Z, as `Date.getTime()` returns; a day number
    counts days since 1970-01-01 in the proleptic Gregorian calendar. All
    calendar arithmetic is in UTC, as `toISOString` is. */
module Dates {

  import opened Base

  const MsPerDay: int := 86_400_000

  /** The day an instant falls on (floor division: Dafny's `/` by a positive
      divisor rounds down). */
  function DayOf(t: int): (d: int)
    ensures d * MsPerDay <= t < d * MsPerDay + MsPerDay
  {
    t / MsPerDay
  }

  /** The instant at midnight starting day `d`. */
  function StartOfDay(d: int): (t: int)
    ensures DayOf(t) == d
  {
    d * MsPerDay
  }

  predicate IsLeap(y: int) {
    y % 4 == 0 && (y % 100 != 0 || y % 400 == 0)
  }

  function YearLength(y: int): (n: int)
    ensures n == 365 || n == 366
    ensures n == 366 <==> IsLeap(y)
  {
    if IsLeap(y) then 366 else 365
  }

  /** Leap years among 1..n for n >= 0 (and the matching count for n < 0, so
      that differences of it count leap years in any range). */
  function Leaps(n: int): int {
    n / 4 - n / 100 + n / 400
  }

  lemma DivStep4(y: int)
    ensures y / 4 - (y - 1) / 4 == if y % 4 == 0 then 1 else 0
  {
  }

  lemma DivStep100(y: int)
    ensures y / 100 - (y - 1) / 100 == if y % 100 == 0 then 1 else 0
  {
  }

  lemma DivStep400(y: int)
    ensures y / 400 - (y - 1) / 400 == if y % 400 == 0 then 1 else 0
  {
  }

  lemma Divides(y: int)
    ensures y % 400 == 0 ==> y % 100 == 0
    ensures y % 100 == 0 ==> y % 4 == 0
  {
  }

  lemma LeapsStep(y: int)
    ensures Leaps(y) - Leaps(y - 1) == if IsLeap(y) then 1 else 0
  {
    DivStep4(y);
    DivStep100(y);
    DivStep400(y);
    Divides(y);
  }

  /** Day number of January 1st of year `y`. */
  function YearStart(y: int): int {
    365 * (y - 1970) + Leaps(y - 1) - Leaps(1969)
  }

  lemma YearStartStep(y: int)
    ensures YearStart(y + 1) == YearStart(y) + YearLength(y)
  {
    LeapsStep(y);
  }

  lemma {:induction false} YearStartMonotone(a: int, b: int)
    requires a < b
    ensures YearStart(a) + YearLength(a) <= YearStart(b)
    decreases b - a
  {
    YearStartStep(a);
    if a + 1 < b {
      YearStartMonotone(a + 1, b);
      YearStartStep(a + 1);
    }
  }

  function DaysInMonth(y: int, m: int): (n: int)
    requires 1 <= m <= 12
    ensures 28 <= n <= 31
  {
    if m == 2 then (if IsLeap(y) then 29 else 28)
    else if m == 4 || m == 6 || m == 9 || m == 11 then 30
    else 31
  }

  /** Days of a common year before the first of each month. */
  const CommonMonthStarts: seq<int> := [0, 31, 59, 90, 120, 151, 181, 212, 243, 273, 304, 334]

  /** Days of year `y` before the first of month `m`. */
  function MonthStart(y: int, m: int): (n: int)
    requires 1 <= m <= 12
    ensures 0 <= n && n + DaysInMonth(y, m) <= YearLength(y)
    ensures m == 12 ==> n + DaysInMonth(y, m) == YearLength(y)
  {
    CommonMonthStarts[m - 1] + (if m > 2 && IsLeap(y) then 1 else 0)
  }

  /** Each month starts where the previous one ends. */
  lemma MonthStartStep(y: int, m: int)
    requires 1 <= m < 12
    ensures MonthStart(y, m + 1) == MonthStart(y, m) + DaysInMonth(y, m)
  {
  }

  lemma {:induction false} MonthStartMonotone(y: int, a: int, b: int)
    requires 1 <= a < b <= 12
    ensures MonthStart(y, a) + DaysInMonth(y, a) <= MonthStart(y, b)
    decreases b - a
  {
    MonthStartStep(y, a);
    if a + 1 < b {
      MonthStartMonotone(y, a + 1, b);
    }
  }

  datatype Civil = Civil(year: int, month: int, day: int)

  predicate ValidCivil(c: Civil) {
    1 <= c.month <= 12 && 1 <= c.day <= DaysInMonth(c.year, c.month)
  }

  /** Day number of a calendar date. */
  function DaysFromCivil(c: Civil): int
    requires ValidCivil(c)
  {
    YearStart(c.year) + MonthStart(c.year, c.month) + c.day - 1
  }

  /** A year and a day offset within it. */
  datatype YearDay = YearDay(year: int, doy: int)

  /** The year `rem` days after January 1st of `y` falls in, and the offset
      into it: walks forward a year at a time. */
  function YearUp(rem: int, y: int): (r: YearDay)
    requires rem >= 0
    ensures 0 <= r.doy < YearLength(r.year)
    decreases rem
  {
    if rem < YearLength(y) then YearDay(y, rem) else YearUp(rem - YearLength(y), y + 1)
  }

  /** The same for a negative offset from January 1st of `y`: walks back. */
  function YearDown(rem: int, y: int): (r: YearDay)
    requires rem < 0
    ensures 0 <= r.doy < YearLength(r.year)
    decreases -rem
  {
    var prev := rem + YearLength(y - 1);
    if prev >= 0 then YearDay(y - 1, prev) else YearDown(prev, y - 1)
  }

  /** The year of day `d` and the day's offset into it. */
  function YearOfDay(d: int): (r: YearDay)
    ensures 0 <= r.doy < YearLength(r.year)
  {
    if d >= 0 then YearUp(d, 1970) else YearDown(d, 1970)
  }

  lemma {:induction false} YearUpStart(rem: int, y: int)
    requires rem >= 0
    ensures YearStart(YearUp(rem, y).year) + YearUp(rem, y).doy == YearStart(y) + rem
    decreases rem
  {
    if rem >= YearLength(y) {
      YearStartStep(y);
      YearUpStart(rem - YearLength(y), y + 1);
    }
  }

  lemma {:induction false} YearDownStart(rem: int, y: int)
    requires rem < 0
    ensures YearStart(YearDown(rem, y).year) + YearDown(rem, y).doy == YearStart(y) + rem
    decreases -rem
  {
    YearStartStep(y - 1);
    var prev := rem + YearLength(y - 1);
    if prev < 0 {
      YearDownStart(prev, y - 1);
    }
  }

  /** `YearOfDay` splits a day number into January 1st of a year plus an
      offset into that year. */
  lemma YearOfDayStart(d: int)
    ensures YearStart(YearOfDay(d).year) + YearOfDay(d).doy == d
  {
    if d >= 0 {
      YearUpStart(d, 1970);
    } else {
      YearDownStart(d, 1970);
    }
  }

  /** The month of day-of-year `doy` searching from month `m`, and the
      offset into that month. */
  function MonthOfDay(y: int, doy: int, m: int): (r: YearDay)
    requires 1 <= m <= 12 && MonthStart(y, m) <= doy < YearLength(y)
    ensures m <= r.year <= 12
    ensures 0 <= r.doy < DaysInMonth(y, r.year)
    ensures MonthStart(y, r.year) + r.doy == doy
    decreases 12 - m
  {
    if doy < MonthStart(y, m) + DaysInMonth(y, m) then YearDay(m, doy - MonthStart(y, m))
    else MonthOfDay(y, doy, m + 1)
  }

  /** The calendar date of day number `d`. */
  function CivilFromDays(d: int): (c: Civil)
    ensures ValidCivil(c)
  {
    var yd := YearOfDay(d);
    var md := MonthOfDay(yd.year, yd.doy, 1);
    Civil(yd.year, md.year, md.doy + 1)
  }

  /** `CivilFromDays` names the day it was given. */
  lemma CivilFromDaysInverse(d: int)
    ensures DaysFromCivil(CivilFromDays(d)) == d
  {
    YearOfDayStart(d);
  }

  /** Distinct valid dates have distinct day numbers, so `CivilFromDays` is
      the inverse of `DaysFromCivil`. */
  lemma CivilRoundTrip(c: Civil)
    requires ValidCivil(c)
    ensures CivilFromDays(DaysFromCivil(c)) == c
  {
    var d := DaysFromCivil(c);
    var c' := CivilFromDays(d);
    CivilFromDaysInverse(d);
    if c'.year < c.year {
      YearStartMonotone(c'.year, c.year);
    } else if c.year < c'.year {
      YearStartMonotone(c.year, c'.year);
    }
    assert c'.year == c.year;
    if c'.month < c.month {
      MonthStartMonotone(c.year, c'.month, c.month);
    } else if c.month < c'.month {
      MonthStartMonotone(c.year, c.month, c'.month);
    }
  }

  /** Day of the week with Monday = 0 … Sunday = 6; 1970-01-01 was a Thursday. */
  function WeekdayIndex(d: int): (w: int)
    ensures 0 <= w < 7
  {
    (d + 3) % 7
  }

  /** The `i`-th day after a Monday is weekday `i`. */
  lemma WeekdayAfterMonday(m: int, i: int)
    requires WeekdayIndex(m) == 0 && 0 <= i < 7
    ensures WeekdayIndex(m + i) == i
  {
  }

  /** The weekday's name as date-fns prints it with format "EEEE" in Spanish. */
  function SpanishWeekday(d: int): (name: string)
    ensures name in ["lunes", "martes", "miércoles", "jueves", "viernes", "sábado", "domingo"]
  {
    ["lunes", "martes", "miércoles", "jueves", "viernes", "sábado", "domingo"][WeekdayIndex(d)]
  }

  /** The Monday on or before day `d` (date-fns `startOfWeek` with
      `weekStartsOn: 1`). */
  function StartOfWeek(d: int): (m: int)
    ensures WeekdayIndex(m) == 0
    ensures m <= d < m + 7
  {
    d - WeekdayIndex(d)
  }

  /** `n` written with exactly `width` decimal digits, zero-padded. */
  function PadDigits(n: nat, width: nat): (s: string)
    requires n < Pow10(width)
    ensures |s| == width
  {
    if width == 0 then ""
    else PadDigits(n / 10, width - 1) + [DigitChar(n % 10)]
  }

  /** The padded spelling is all digits and denotes `n`. */
  lemma {:induction false} PadDigitsValue(n: nat, width: nat)
    requires n < Pow10(width)
    ensures AllDigits(PadDigits(n, width)) && DigitsValue(PadDigits(n, width)) == n
    decreases width
  {
    if width > 0 {
      PadDigitsValue(n / 10, width - 1);
      var s := PadDigits(n, width);
      assert s[..width - 1] == PadDigits(n / 10, width - 1);
    }
  }

  function Pow10(k: nat): (p: nat)
    ensures p >= 1
  {
    if k == 0 then 1 else 10 * Pow10(k - 1)
  }

  function DigitValue(c: char): int {
    c as int - '0' as int
  }

  /** The number a string of decimal digits denotes. */
  function DigitsValue(s: string): int {
    if s == [] then 0 else 10 * DigitsValue(s[..|s| - 1]) + DigitValue(s[|s| - 1])
  }

  predicate AllDigits(s: string) {
    forall i :: 0 <= i < |s| ==> '0' <= s[i] <= '9'
  }

  lemma {:induction false} DigitsValueBound(s: string)
    requires AllDigits(s)
    ensures 0 <= DigitsValue(s) < Pow10(|s|)
    decreases |s|
  {
    if s != [] {
      DigitsValueBound(s[..|s| - 1]);
    }
  }

  lemma {:induction false} PadDigitsOfValue(s: string)
    requires AllDigits(s)
    ensures 0 <= DigitsValue(s) < Pow10(|s|) && PadDigits(DigitsValue(s), |s|) == s
    decreases |s|
  {
    DigitsValueBound(s);
    if s != [] {
      var p := s[..|s| - 1];
      PadDigitsOfValue(p);
      var d := DigitValue(s[|s| - 1]);
      LastDigit(DigitsValue(p), d);
      assert DigitChar(d) == s[|s| - 1];
      assert PadDigits(DigitsValue(s), |s|) == PadDigits(DigitsValue(p), |p|) + [DigitChar(d)];
      assert s == p + [s[|s| - 1]];
    }
  }

  /** Splitting off the last decimal digit. */
  lemma LastDigit(a: nat, d: int)
    requires 0 <= d < 10
    ensures (10 * a + d) / 10 == a && (10 * a + d) % 10 == d
  {
  }

  /** The year as `toISOString` writes it: four digits for years 0 to 9999,
      otherwise a sign and six digits. */
  function IsoYear(y: int): (s: string)
    requires -999_999 <= y <= 999_999
    ensures 0 <= y <= 9999 ==> |s| == 4
    ensures !(0 <= y <= 9999) ==> |s| == 7 && s[0] in "+-"
  {
    if 0 <= y <= 9999 then PadDigits(y, 4)
    else if y < 0 then "-" + PadDigits(-y, 6)
    else "+" + PadDigits(y, 6)
  }

  /** Largest day number a JavaScript `Date` can hold (8.64e15 ms). */
  const MaxDay: int := 100_000_000

  predicate InDateRange(d: int) {
    -MaxDay <= d <= MaxDay
  }

  lemma YearBound(d: int)
    requires InDateRange(d)
    ensures -999_999 <= CivilFromDays(d).year <= 999_999
  {
    var y := CivilFromDays(d).year;
    CivilFromDaysInverse(d);
    if y > 999_999 {
      YearStartMonotone(999_999, y);
    } else if y < -999_999 {
      YearStartMonotone(y, -999_999);
    }
  }

  /** `date.toISOString().split("T")[0]`: the calendar date of day `d` as
      year-month-day, month and day written with two digits. */
  function IsoDate(d: int): (s: string)
    requires InDateRange(d)
    ensures FourDigitYear(d) ==> |s| == 10 && s[4] == '-' && s[7] == '-'
    ensures !FourDigitYear(d) ==> |s| == 13 && s[0] in "+-"
  {
    YearBound(d);
    var c := CivilFromDays(d);
    IsoYear(c.year) + "-" + PadDigits(c.month, 2) + "-" + PadDigits(c.day, 2)
  }

  /** The "yyyy-MM-dd" key of day `d` as a total function: a day outside the
      range of `Date` has no calendar date and gets the empty key. */
  function DayKey(d: int): string {
    if InDateRange(d) then IsoDate(d) else ""
  }

  /** Reads a `YYYY-MM-DD` date with a valid month and day. */
  function ParseIsoDate(s: string): (r: Option<int>)
    ensures r.Some? ==> |s| == 10 && s[4] == '-' && s[7] == '-'
    ensures r.Some? ==> AllDigits(s[..4]) && AllDigits(s[5..7]) && AllDigits(s[8..])
  {
    if |s| == 10 && s[4] == '-' && s[7] == '-'
       && AllDigits(s[..4]) && AllDigits(s[5..7]) && AllDigits(s[8..])
    then
      var c := Civil(DigitsValue(s[..4]), DigitsValue(s[5..7]), DigitsValue(s[8..]));
      if 1 <= c.month <= 12 && ValidCivil(c) then Some(DaysFromCivil(c)) else None
    else None
  }

  /** Year of a day number that `toISOString` writes with four digits. */
  predicate FourDigitYear(d: int) {
    0 <= CivilFromDays(d).year <= 9999
  }

  lemma FourDigitYearInRange(d: int)
    requires FourDigitYear(d)
    ensures InDateRange(d)
  {
    var y := CivilFromDays(d).year;
    CivilFromDaysInverse(d);
    YearStartMonotone(y, 10000);
    if y > 0 {
      YearStartMonotone(0, y);
    }
  }

  lemma Split10(s: string, a: string, b: string, c: string)
    requires |a| == 4 && |b| == 2 && |c| == 2 && s == a + "-" + b + "-" + c
    ensures |s| == 10 && s[4] == '-' && s[7] == '-'
    ensures s[..4] == a && s[5..7] == b && s[8..] == c
  {
  }

  lemma {:induction false} ParseIsoDateOfIsoDate(d: int)
    requires FourDigitYear(d)
    ensures InDateRange(d) && ParseIsoDate(IsoDate(d)) == Some(d)
  {
    FourDigitYearInRange(d);
    YearBound(d);
    var c := CivilFromDays(d);
    var ys, ms, ds := PadDigits(c.year, 4), PadDigits(c.month, 2), PadDigits(c.day, 2);
    PadDigitsValue(c.year, 4);
    PadDigitsValue(c.month, 2);
    PadDigitsValue(c.day, 2);
    var s := IsoDate(d);
    assert s == ys + "-" + ms + "-" + ds;
    Split10(s, ys, ms, ds);
    assert Civil(DigitsValue(s[..4]), DigitsValue(s[5..7]), DigitsValue(s[8..])) == c;
    CivilFromDaysInverse(d);
  }

  /** The spelling of a date with a four-digit year. */
  lemma IsoDateOfCivil(c: Civil)
    requires ValidCivil(c) && 0 <= c.year <= 9999
    ensures FourDigitYear(DaysFromCivil(c))
    ensures InDateRange(DaysFromCivil(c))
    ensures IsoDate(DaysFromCivil(c)) == PadDigits(c.year, 4) + "-" + PadDigits(c.month, 2) + "-" + PadDigits(c.day, 2)
  {
    CivilRoundTrip(c);
    FourDigitYearInRange(DaysFromCivil(c));
  }

  /** What a successful `ParseIsoDate` has seen. */
  lemma ParseIsoDateParts(s: string)
    requires ParseIsoDate(s).Some?
    ensures |s| == 10 && s[4] == '-' && s[7] == '-'
    ensures AllDigits(s[..4]) && AllDigits(s[5..7]) && AllDigits(s[8..])
    ensures ValidCivil(Civil(DigitsValue(s[..4]), DigitsValue(s[5..7]), DigitsValue(s[8..])))
    ensures ParseIsoDate(s).value == DaysFromCivil(Civil(DigitsValue(s[..4]), DigitsValue(s[5..7]), DigitsValue(s[8..])))
    ensures s == s[..4] + "-" + s[5..7] + "-" + s[8..]
  {
    assert s == s[..4] + [s[4]] + s[5..7] + [s[7]] + s[8..];
  }

  lemma {:induction false} IsoDateOfParseIsoDate(s: string)
    requires ParseIsoDate(s).Some?
    ensures FourDigitYear(ParseIsoDate(s).value)
    ensures InDateRange(ParseIsoDate(s).value) && IsoDate(ParseIsoDate(s).value) == s
  {
    ParseIsoDateParts(s);
    var a, b, e := s[..4], s[5..7], s[8..];
    var c := Civil(DigitsValue(a), DigitsValue(b), DigitsValue(e));
    DigitsValueBound(a);
    PadDigitsOfValue(a);
    PadDigitsOfValue(b);
    PadDigitsOfValue(e);
    IsoDateOfCivil(c);
  }

  /** Days with four-digit years have distinct keys: the key spells the date. */
  lemma DayKeyInjective(a: int, b: int)
    requires FourDigitYear(a) && FourDigitYear(b) && a != b
    ensures DayKey(a) != DayKey(b)
  {
    ParseIsoDateOfIsoDate(a);
    ParseIsoDateOfIsoDate(b);
  }
}

=== FILE: discover.dfy ===
/** Meal discovery: a free-text query is sent to the zero-shot classifier,
    whose candidate labels are the categories of a built-in meal table; the
    suggestions are the meals of the three best labels, or, when the
    classifier fails or times out, a substring search over the whole table. */
module Discover {

  import opened Base
  import opened Text
  import opened Ordered
  import opened Http
  import Schema
  import Lists

  /** A built-in meal: name, ingredients, type and nutrition figures. */
  datatype Suggestion = Suggestion(name: string, ingredients: seq<string>, mealType: string, nutritionalInfo: Schema.Nutrition)

  function N(calories: int, protein: int, carbs: int, fat: int): Schema.Nutrition {
    Schema.Nutrition(calories, protein, carbs, fat)
  }

  const Pasta: seq<Suggestion> := [
    Suggestion("Espaguetis a la boloñesa",
      ["espaguetis", "carne molida", "salsa de tomate", "cebolla", "ajo", "zanahoria", "apio", "aceite de oliva"],
      "pasta", N(500, 30, 60, 20)),
    Suggestion("Lasaña de verduras",
      ["pasta de lasaña", "berenjena", "calabacín", "espinacas", "salsa bechamel", "queso", "salsa de tomate"],
      "pasta", N(380, 15, 45, 18))]

  const Carne: seq<Suggestion> := [
    Suggestion("Lomo saltado",
      ["lomo de res", "cebolla", "tomate", "papa", "ají amarillo", "sillao", "vinagre", "arroz"],
      "carne", N(550, 35, 45, 25)),
    Suggestion("Estofado de ternera",
      ["ternera", "patatas", "zanahorias", "cebolla", "ajo", "vino tinto", "caldo de carne", "laurel"],
      "carne", N(480, 32, 30, 22))]

  const Pollo: seq<Suggestion> := [
    Suggestion("Pollo al ajillo",
      ["pechugas de pollo", "ajo", "perejil", "aceite de oliva", "vino blanco", "limón"],
      "pollo", N(320, 38, 5, 15)),
    Suggestion("Fajitas de pollo",
      ["pechuga de pollo", "pimientos", "cebolla", "tortillas de trigo", "especias mexicanas", "limón"],
      "pollo", N(400, 30, 35, 18))]

  const Pescado: seq<Suggestion> := [
    Suggestion("Salmón al horno",
      ["salmón", "limón", "eneldo", "aceite de oliva", "ajo", "pimienta"],
      "pescado", N(350, 34, 0, 22)),
    Suggestion("Bacalao a la vizcaína",
      ["bacalao", "pimientos rojos", "cebolla", "ajo", "salsa de tomate", "aceite de oliva"],
      "pescado", N(380, 32, 15, 20))]

  const Vegetariano: seq<Suggestion> := [
    Suggestion("Curry de garbanzos",
      ["garbanzos", "leche de coco", "especias curry", "cebolla", "tomate", "espinacas"],
      "vegetariano", N(380, 15, 52, 14)),
    Suggestion("Hamburguesa de lentejas",
      ["lentejas", "cebolla", "zanahoria", "avena", "especias", "ajo"],
      "vegetariano", N(320, 12, 45, 10))]

  const Ensalada: seq<Suggestion> := [
    Suggestion("Ensalada César",
      ["lechuga romana", "pollo", "pan tostado", "queso parmesano", "salsa césar"],
      "ensalada", N(280, 22, 12, 16)),
    Suggestion("Ensalada caprese",
      ["tomate", "mozzarella fresca", "albahaca", "aceite de oliva", "vinagre balsámico"],
      "ensalada", N(250, 12, 8, 18))]

  const Sopa: seq<Suggestion> := [
    Suggestion("Sopa de tomate",
      ["tomates", "cebolla", "ajo", "caldo de verduras", "albahaca", "crema"],
      "sopa", N(180, 5, 25, 8)),
    Suggestion("Crema de calabaza",
      ["calabaza", "cebolla", "ajo", "caldo de verduras", "crema", "jengibre"],
      "sopa", N(200, 4, 30, 10))]

  const Arroz: seq<Suggestion> := [
    Suggestion("Paella valenciana",
      ["arroz", "pollo", "conejo", "judías verdes", "garrofón", "azafrán", "tomate"],
      "arroz", N(520, 28, 65, 15)),
    Suggestion("Risotto de champiñones",
      ["arroz arborio", "champiñones", "cebolla", "vino blanco", "caldo", "queso parmesano"],
      "arroz", N(450, 12, 70, 14))]

  const Legumbres: seq<Suggestion> := [
    Suggestion("Lentejas estofadas",
      ["lentejas", "zanahoria", "cebolla", "ajo", "pimentón", "laurel", "chorizo"],
      "legumbres", N(380, 22, 50, 8)),
    Suggestion("Garbanzos con espinacas",
      ["garbanzos", "espinacas", "ajo", "pimentón", "comino", "aceite de oliva"],
      "legumbres", N(350, 18, 45, 12))]

  const Verduras: seq<Suggestion> := [
    Suggestion("Ratatouille",
      ["berenjena", "calabacín", "pimiento", "tomate", "cebolla", "ajo", "hierbas provenzales"],
      "verduras", N(180, 5, 25, 8)),
    Suggestion("Pisto manchego",
      ["calabacín", "berenjena", "pimiento", "tomate", "cebolla", "ajo", "aceite de oliva"],
      "verduras", N(200, 4, 22, 12))]

  /** `mealDatabase`, in its key order; its keys are the classifier's
      candidate labels. */
  const MealDatabase: OMap<seq<Suggestion>> := [
    Entry("pasta", Pasta), Entry("carne", Carne), Entry("pollo", Pollo),
    Entry("pescado", Pescado), Entry("vegetariano", Vegetariano),
    Entry("ensalada", Ensalada), Entry("sopa", Sopa), Entry("arroz", Arroz),
    Entry("legumbres", Legumbres), Entry("verduras", Verduras)]

  /** Every meal of the group carries the group's key as its type. */
  predicate Typed(key: string, group: seq<Suggestion>) {
    forall j :: 0 <= j < |group| ==> group[j].mealType == key
  }

  predicate AllTyped(db: OMap<seq<Suggestion>>) {
    forall i :: 0 <= i < |db| ==> Typed(db[i].key, db[i].value)
  }

  /** The table's invariant: every meal's type is its category key. */
  lemma DatabaseTypesMatchKeys()
    ensures AllTyped(MealDatabase)
  {
    forall i | 0 <= i < |MealDatabase|
      ensures Typed(MealDatabase[i].key, MealDatabase[i].value)
    {
      assert Typed("pasta", Pasta) && Typed("carne", Carne) && Typed("pollo", Pollo);
      assert Typed("pescado", Pescado) && Typed("vegetariano", Vegetariano);
      assert Typed("ensalada", Ensalada) && Typed("sopa", Sopa) && Typed("arroz", Arroz);
      assert Typed("legumbres", Legumbres) && Typed("verduras", Verduras);
    }
  }

  /** Every group of `db` has exactly `n` meals. */
  predicate GroupsOfSize(db: OMap<seq<Suggestion>>, n: nat) {
    forall i :: 0 <= i < |db| ==> |db[i].value| == n
  }

  /** The table has two meals in each of its ten categories. */
  lemma DatabaseShape()
    ensures |MealDatabase| == 10 && GroupsOfSize(MealDatabase, 2)
  {
  }

  /** Its keys are distinct. */
  lemma DatabaseKeysAreUnique()
    ensures UniqueKeys(MealDatabase)
  {
  }

  lemma {:induction false} FlattenOfGroups(db: OMap<seq<Suggestion>>, n: nat)
    requires GroupsOfSize(db, n)
    ensures |Flatten(db)| == n * |db|
    decreases |db|
  {
    if db != [] {
      FlattenOfGroups(db[1..], n);
    }
  }

  // ------------------------------------------------- the fallback search

  /** The meal's name, type or one of its ingredients contains the query,
      both lower-cased. */
  predicate MatchesQuery(query: string, m: Suggestion) {
    || ContainsIgnoringCase(m.name, query)
    || ContainsIgnoringCase(m.mealType, query)
    || exists k :: 0 <= k < |m.ingredients| && ContainsIgnoringCase(m.ingredients[k], query)
  }

  function Matcher(query: string): Suggestion -> bool {
    m => MatchesQuery(query, m)
  }

  const Limit: nat := 12

  /** `getFallbackSuggestions`: the meals of the table, in its order, that
      match the query, at most twelve of them. */
  function FallbackSuggestions(query: string, db: OMap<seq<Suggestion>>): (r: seq<Suggestion>)
    ensures |r| <= Limit
    ensures forall i :: 0 <= i < |r| ==> MatchesQuery(query, r[i])
    ensures forall i :: 0 <= i < |r| ==> r[i] in Flatten(db)
  {
    Lists.Take(Lists.Filter(Flatten(db), Matcher(query)), Limit)
  }

  /** The fallback is the prefix of the matching meals in table order: all
      of them when there are at most twelve, the first twelve otherwise. */
  lemma FallbackIsPrefixOfMatches(query: string, db: OMap<seq<Suggestion>>)
    ensures var matches := Lists.Filter(Flatten(db), Matcher(query));
      && FallbackSuggestions(query, db) == matches[..|FallbackSuggestions(query, db)|]
      && (|matches| <= Limit ==> FallbackSuggestions(query, db) == matches)
      && (|matches| > Limit ==> |FallbackSuggestions(query, db)| == Limit)
  {
  }

  /** Every meal matches the empty query, so it gives the first twelve meals
      of any table. */
  lemma EmptyQueryKeepsOrder(db: OMap<seq<Suggestion>>)
    ensures FallbackSuggestions("", db) == Lists.Take(Flatten(db), Limit)
  {
    var all := Flatten(db);
    forall i | 0 <= i < |all| ensures Matcher("")(all[i]) {
      EverythingContainsEmpty(all[i].name);
    }
    Lists.FilterKeepsAll(all, Matcher(""));
  }

  /** The built-in table has twenty meals, so the empty query gives its
      first twelve. */
  lemma EmptyQueryGivesFirstTwelve()
    ensures |Flatten(MealDatabase)| == 20
    ensures FallbackSuggestions("", MealDatabase) == Flatten(MealDatabase)[..Limit]
  {
    DatabaseShape();
    FlattenOfGroups(MealDatabase, 2);
    EmptyQueryKeepsOrder(MealDatabase);
  }

  // ------------------------------------------------ the classifier path

  /** `labels.flatMap(label => mealDatabase[label] || [])`. */
  function Gather(labels: seq<string>, db: OMap<seq<Suggestion>>): (r: seq<Suggestion>)
  {
    if labels == [] then [] else Lookup(db, labels[0]).GetOr([]) + Gather(labels[1..], db)
  }

  /** The suggestions of the classifier path: the meals of the first three
      labels, in label order, at most twelve of them. */
  function FromLabels(labels: seq<string>, db: OMap<seq<Suggestion>>): (r: seq<Suggestion>)
    ensures |r| <= Limit
  {
    Lists.Take(Gather(Lists.Take(labels, 3), db), Limit)
  }

  /** Every suggestion belongs to the group of one of the first three labels. */
  lemma {:induction false} GatherFromGroups(labels: seq<string>, db: OMap<seq<Suggestion>>, s: Suggestion)
    requires s in Gather(labels, db)
    ensures exists k :: 0 <= k < |labels| && HasKey(db, labels[k]) && s in Lookup(db, labels[k]).value
    decreases |labels|
  {
    if s !in Lookup(db, labels[0]).GetOr([]) {
      GatherFromGroups(labels[1..], db, s);
      var k :| 0 <= k < |labels[1..]| && HasKey(db, labels[1..][k]) && s in Lookup(db, labels[1..][k]).value;
      assert labels[k + 1] == labels[1..][k];
    }
  }

  lemma FromLabelsComeFromTopThree(labels: seq<string>, db: OMap<seq<Suggestion>>, s: Suggestion)
    requires s in FromLabels(labels, db)
    ensures exists k :: 0 <= k < |labels| && k < 3 && HasKey(db, labels[k]) && s in Lookup(db, labels[k]).value
  {
    var top := Lists.Take(labels, 3);
    GatherFromGroups(top, db, s);
    var k :| 0 <= k < |top| && HasKey(db, top[k]) && s in Lookup(db, top[k]).value;
    assert top[k] == labels[k];
  }

  /** A label the table does not have contributes nothing. */
  lemma {:induction false} UnknownLabelsContributeNothing(a: seq<string>, l: string, b: seq<string>, db: OMap<seq<Suggestion>>)
    requires !HasKey(db, l)
    ensures Gather(a + [l] + b, db) == Gather(a + b, db)
    decreases |a|
  {
    if a == [] {
      assert a + [l] + b == [l] + b;
      assert ([l] + b)[1..] == b;
      assert a + b == b;
    } else {
      UnknownLabelsContributeNothing(a[1..], l, b, db);
      assert (a + [l] + b)[1..] == a[1..] + [l] + b;
      assert (a + b)[1..] == a[1..] + b;
    }
  }

  /** With the table's two meals per category the twelve-meal cap never
      bites: the classifier path gives at most six meals. */
  lemma {:induction false} GatherSize(labels: seq<string>, db: OMap<seq<Suggestion>>)
    requires GroupsOfSize(db, 2)
    ensures |Gather(labels, db)| <= 2 * |labels|
    decreases |labels|
  {
    if labels != [] {
      GatherSize(labels[1..], db);
    }
  }

  lemma ClassifierPathAtMostSix(labels: seq<string>)
    ensures |FromLabels(labels, MealDatabase)| <= 6
  {
    DatabaseShape();
    GatherSize(Lists.Take(labels, 3), MealDatabase);
  }

  // ------------------------------------------------------------ the route

  /** The request's `query` field: the body may not be JSON, and the field
      may hold something other than a string. */
  datatype Query = Unparsable | NotAString | Text(s: string)

  /** The reply: the suggestions, and whether the fallback search made them. */
  datatype Discovery = Discovery(suggestions: seq<Suggestion>, usedFallback: bool)

  /** The classifier, asked with the query as sent; `None` is a failure, a
      timeout or a reply without labels. */
  type Classifier = Query -> Option<seq<string>>

  /** The discovery route. A query that is not a string can still be
      classified, but the fallback search throws on it. */
  function DiscoverRoute(session: Option<Session>, query: Query, classify: Classifier): (r: Response<Discovery>)
    ensures !HasCasa(session) ==> r == Fail(401, NoCasa)
    ensures r.Ok? ==> HasCasa(session) && !query.Unparsable?
    ensures r.Ok? ==> (r.body.usedFallback <==> classify(query).None?)
    ensures r.Ok? && !r.body.usedFallback ==> r.body.suggestions == FromLabels(classify(query).value, MealDatabase)
    ensures r.Ok? && r.body.usedFallback ==> query.Text? && r.body.suggestions == FallbackSuggestions(query.s, MealDatabase)
    ensures HasCasa(session) && query.Text? ==> r.Ok?
    ensures r.Fail? ==> r.status in {401, 500}
  {
    if !HasCasa(session) then Fail(401, NoCasa)
    else if query.Unparsable? then Fail(500, "Error al procesar la solicitud")
    else match classify(query)
      case Some(labels) => Ok(Discovery(FromLabels(labels, MealDatabase), false))
      case None =>
        if query.Text? then Ok(Discovery(FallbackSuggestions(query.s, MealDatabase), true))
        else Fail(500, "Error al procesar la solicitud")
  }
}

=== FILE: export.dfy ===
/** The public export: a third party holding an API key reads the days of
    the house's weekly menus that fall within a date range, one record per
    day, in menu order. Instants are milliseconds; `new Date(text)` is an
    outside function from the query text to an instant, `None` for an
    invalid date. */
module PublicExport {

  import opened Base
  import opened Ordered
  import opened Schema
  import opened Http
  import Lists
  import Dates
  import ApiKeys
  import Sorting

  /** One exported day: the ISO date, the day key and the two meals, `None`
      standing for `null`. */
  datatype DayRecord = DayRecord(date: string, dayOfWeek: string, lunch: Option<string>, dinner: Option<string>)

  /** `value || null` on an optional string. */
  function OrNull(slot: Option<string>): (r: Option<string>)
    ensures r.Some? <==> slot.Some? && slot.value != ""
    ensures r.Some? ==> r == slot
  {
    if slot.Some? && slot.value != "" then slot else None
  }

  /** A day of a menu is exported when it has a date within the range. */
  predicate DayInRange(d: DayDoc, start: int, end: int) {
    d.fecha.Some? && start <= d.fecha.value <= end
  }

  function EntryInRange(start: int, end: int): Entry<DayDoc> -> bool {
    (e: Entry<DayDoc>) => DayInRange(e.value, start, end)
  }

  /** A record never carries an empty meal name: `null` stands for it. */
  predicate NoEmptyMeal(d: DayRecord) {
    (d.lunch.Some? ==> d.lunch.value != "") && (d.dinner.Some? ==> d.dinner.value != "")
  }

  /** The record of one day of the menu. */
  function ToRecord(e: Entry<DayDoc>): DayRecord {
    DayRecord(
      if e.value.fecha.Some? then Dates.DayKey(Dates.DayOf(e.value.fecha.value)) else "",
      e.key, OrNull(e.value.almuerzo), OrNull(e.value.cena))
  }

  /** `weeklyMenu.menu.forEach(...)`: the records of one menu's days, in
      entry order. */
  function DayRecords(m: OMap<DayDoc>, start: int, end: int): (r: seq<DayRecord>)
    ensures |r| <= |m|
    ensures forall k :: 0 <= k < |r| ==> NoEmptyMeal(r[k])
  {
    if m == [] then []
    else (if DayInRange(m[0].value, start, end) then [ToRecord(m[0])] else []) + DayRecords(m[1..], start, end)
  }

  /** The days exported are exactly the days in range, in entry order, each
      turned into its record. */
  lemma {:induction false} DayRecordsAreFilteredDays(m: OMap<DayDoc>, start: int, end: int)
    ensures DayRecords(m, start, end) == Lists.Map(Lists.Filter(m, EntryInRange(start, end)), ToRecord)
    decreases |m|
  {
    if m != [] {
      DayRecordsAreFilteredDays(m[1..], start, end);
      var rest := Lists.Filter(m[1..], EntryInRange(start, end));
      if DayInRange(m[0].value, start, end) {
        assert Lists.Map([m[0]] + rest, ToRecord) == [ToRecord(m[0])] + Lists.Map(rest, ToRecord);
      }
    }
  }

  /** A menu is read when it is the house's and its date is within range. */
  function MenuSelected(casa: Id, start: int, end: int): WeeklyMenu -> bool {
    (w: WeeklyMenu) => w.casa == casa && start <= w.fecha <= end
  }

  function Fecha(w: WeeklyMenu): int {
    w.fecha
  }

  /** The menus the export reads, `find({ casa, fecha: { $gte, $lte } })
      .sort({ fecha: 1 })`: the house's menus within range, by date (menus
      with the same date keep store order). */
  function SelectMenus(menus: seq<WeeklyMenu>, casa: Id, start: int, end: int): (r: seq<WeeklyMenu>)
    ensures Sorting.SortedByKey(r, Fecha)
    ensures multiset(r) == multiset(Lists.Filter(menus, MenuSelected(casa, start, end)))
  {
    Sorting.SortByKey(Lists.Filter(menus, MenuSelected(casa, start, end)), Fecha)
  }

  /** Exactly the house's menus dated within the range are read. */
  lemma SelectsExactlyInRange(menus: seq<WeeklyMenu>, casa: Id, start: int, end: int, w: WeeklyMenu)
    ensures w in SelectMenus(menus, casa, start, end) <==> w in menus && w.casa == casa && start <= w.fecha <= end
  {
    var sel := Lists.Filter(menus, MenuSelected(casa, start, end));
    assert w in SelectMenus(menus, casa, start, end) <==> w in multiset(sel);
  }

  /** The records of the selected menus, menu after menu. */
  function Export(selected: seq<WeeklyMenu>, start: int, end: int): (r: seq<DayRecord>)
    ensures forall k :: 0 <= k < |r| ==> NoEmptyMeal(r[k])
    decreases |selected|
  {
    if selected == [] then [] else DayRecords(selected[0].menu, start, end) + Export(selected[1..], start, end)
  }

  /** Every exported record is the record of a day in range of one of the
      selected menus. */
  lemma {:induction false} ExportedRecordsComeFromDaysInRange(selected: seq<WeeklyMenu>, start: int, end: int, r: DayRecord)
    requires r in Export(selected, start, end)
    ensures exists i, j :: (0 <= i < |selected| && 0 <= j < |selected[i].menu|
      && DayInRange(selected[i].menu[j].value, start, end) && r == ToRecord(selected[i].menu[j]))
    decreases |selected|
  {
    var m := selected[0].menu;
    if r in DayRecords(m, start, end) {
      var j := RecordFromDay(m, start, end, r);
      assert 0 < |selected| && selected[0].menu == m;
    } else {
      ExportedRecordsComeFromDaysInRange(selected[1..], start, end, r);
      var i, j :| 0 <= i < |selected[1..]| && 0 <= j < |selected[1..][i].menu|
        && DayInRange(selected[1..][i].menu[j].value, start, end) && r == ToRecord(selected[1..][i].menu[j]);
      assert selected[1..][i] == selected[i + 1];
    }
  }

  /** A record of one menu is the record of one of its days in range. */
  lemma RecordFromDay(m: OMap<DayDoc>, start: int, end: int, r: DayRecord) returns (j: nat)
    requires r in DayRecords(m, start, end)
    ensures j < |m| && DayInRange(m[j].value, start, end) && r == ToRecord(m[j])
  {
    DayRecordsAreFilteredDays(m, start, end);
    var days := Lists.Filter(m, EntryInRange(start, end));
    var k :| 0 <= k < |days| && r == ToRecord(days[k]);
    assert days[k] in m;
    j :| 0 <= j < |m| && m[j] == days[k];
    assert EntryInRange(start, end)(days[k]);
  }

  /** The route. `header` is the `x-api-key` header, `startDate` and
      `endDate` the query parameters (`None` when absent), `parse` stands
      for `new Date`. The key is checked first, and a valid key has its time
      of use recorded even when the parameters are then rejected. */
  function PublicMeals(header: Option<string>, keys: seq<ApiKey>, broken: bool, now: int,
                       startDate: Option<string>, endDate: Option<string>, parse: string -> Option<int>,
                       menus: seq<WeeklyMenu>): (r: (Response<seq<DayRecord>>, seq<ApiKey>))
    ensures var auth := ApiKeys.VerifyApiKey(header, keys, broken, now);
      && r.1 == auth.1
      && (auth.0.Invalid? ==> r.0 == Fail(auth.0.status, auth.0.error))
      && (auth.0.Valid? && (startDate.None? || startDate.value == "" || endDate.None? || endDate.value == "") ==>
            r.0 == Fail(400, "startDate and endDate parameters are required"))
      && (auth.0.Valid? && startDate.Some? && startDate.value != "" && endDate.Some? && endDate.value != "" ==>
            (r.0.Ok? <==> parse(startDate.value).Some? && parse(endDate.value).Some?))
      && (r.0.Ok? ==> (auth.0.Valid?
            && r.0.body == Export(SelectMenus(menus, auth.0.casa, parse(startDate.value).value, parse(endDate.value).value),
                                  parse(startDate.value).value, parse(endDate.value).value)))
  {
    var (auth, keys') := ApiKeys.VerifyApiKey(header, keys, broken, now);
    if auth.Invalid? then (Fail(auth.status, auth.error), keys')
    else if startDate.None? || startDate.value == "" || endDate.None? || endDate.value == "" then
      (Fail(400, "startDate and endDate parameters are required"), keys')
    else match (parse(startDate.value), parse(endDate.value))
      case (Some(start), Some(end)) => (Ok(Export(SelectMenus(menus, auth.casa, start, end), start, end)), keys')
      case _ => (Fail(400, "Invalid date format. Use YYYY-MM-DD"), keys')
  }

  /** A `YYYY-MM-DD` parameter is read as midnight UTC of that day. */
  function ParseDateParam(s: string): (r: Option<int>)
    ensures r.Some? ==> Dates.DayKey(Dates.DayOf(r.value)) == s
  {
    match Dates.ParseIsoDate(s)
    case None => None
    case Some(d) =>
      Dates.IsoDateOfParseIsoDate(s);
      Some(Dates.StartOfDay(d))
  }
}

=== FILE: forms.dfy ===
/** The registration and login forms: the email and password patterns, the
    order in which a submission is checked, where the invitation token comes
    from, and where the user is sent afterwards. */
module Forms {

  import opened Base
  import opened Text
  import opened Http
  import Membership
  import Schema
  import opened Store

  // ------------------------------------------------------------ the email

  /** `/^[^\s@]+@[^\s@]+\.[^\s@]+$/` read as a pattern: a split of the
      string into local part, `@`, domain name, `.`, top-level part, each
      part non-empty and free of whitespace and `@`. */
  ghost predicate EmailPattern(s: string) {
    exists i, j :: 0 < i && i + 1 < j && j + 1 < |s| && s[i] == '@' && s[j] == '.'
      && PatternChars(s, i)
  }

  /** Every character other than the one at `at` is neither whitespace nor
      `@`. */
  predicate PatternChars(s: string, at: int) {
    forall k :: 0 <= k < |s| && k != at ==> s[k] != '@' && !IsWhitespace(s[k])
  }

  /** `isValidEmail`, in both forms, as a scan: no whitespace, a single `@`
      that is not first, and a `.` after it that is neither the first nor the
      last character of the domain. */
  function IsValidEmail(s: string): (ok: bool)
    ensures ok ==> '@' in s && s[0] != '@'
    ensures ok ==> forall k :: 0 <= k < |s| ==> !IsWhitespace(s[k])
  {
    var at := FirstIndexOf(s, '@');
    if at == 0 || at >= |s| || !PatternChars(s, at) then false
    else
      var domain := s[at + 1..];
      |domain| >= 2 && 1 + FirstIndexOf(domain[1..], '.') < |domain| - 1
  }

  /** The scan accepts exactly the strings the pattern matches. */
  lemma ValidEmailIsPattern(s: string)
    ensures IsValidEmail(s) <==> EmailPattern(s)
  {
    var at := FirstIndexOf(s, '@');
    if IsValidEmail(s) {
      var domain := s[at + 1..];
      var j := at + 2 + FirstIndexOf(domain[1..], '.');
      assert s[j] == domain[1..][j - at - 2];
      assert 0 < at && at + 1 < j && j + 1 < |s| && s[at] == '@' && s[j] == '.' && PatternChars(s, at);
    }
    if EmailPattern(s) {
      var i, j :| 0 < i && i + 1 < j && j + 1 < |s| && s[i] == '@' && s[j] == '.' && PatternChars(s, i);
      assert at == i;
      var domain := s[at + 1..];
      assert domain[1..][j - i - 2] == '.';
      assert 1 + FirstIndexOf(domain[1..], '.') <= j - i - 1;
    }
  }

  lemma EmailAccepted()
    ensures IsValidEmail("ana@x.com")
  {
    assert FirstIndexOf("ana@x.com", '@') == 3;
    assert FirstIndexOf("x.com"[1..], '.') == 0;
  }

  /** A dot right after the `@` does not count. */
  lemma EmailDotFirstRefused()
    ensures !IsValidEmail("ana@.com")
  {
    assert FirstIndexOf("ana@.com", '@') == 3;
    assert FirstIndexOf(".com"[1..], '.') == 3;
  }

  /** A dot at the very end does not count. */
  lemma EmailDotLastRefused()
    ensures !IsValidEmail("ana@com.")
  {
    assert FirstIndexOf("ana@com.", '@') == 3;
    assert FirstIndexOf("com."[1..], '.') == 2;
  }

  /** A second `@` is refused. */
  lemma EmailTwoAtsRefused()
    ensures !IsValidEmail("a@b@x.com")
  {
    assert FirstIndexOf("a@b@x.com", '@') == 1;
    assert !PatternChars("a@b@x.com", 1) by {
      assert "a@b@x.com"[3] == '@';
    }
  }

  // --------------------------------------------------------- the password

  predicate IsLowerAscii(c: char) { 'a' <= c <= 'z' }
  predicate IsDigit(c: char) { '0' <= c <= '9' }
  predicate IsSpecial(c: char) { c in "@$!%*?&" }

  /** A character of `[A-Za-z\d@$!%*?&]`. */
  predicate PasswordChar(c: char) {
    IsLowerAscii(c) || IsUpperAscii(c) || IsDigit(c) || IsSpecial(c)
  }

  /** `isStrongPassword`: at least eight characters, all from the allowed
      class, with a lower-case letter, an upper-case letter, a digit and a
      special character somewhere. */
  predicate StrongPassword(p: string) {
    && |p| >= 8
    && (forall k :: 0 <= k < |p| ==> PasswordChar(p[k]))
    && (exists k :: 0 <= k < |p| && IsLowerAscii(p[k]))
    && (exists k :: 0 <= k < |p| && IsUpperAscii(p[k]))
    && (exists k :: 0 <= k < |p| && IsDigit(p[k]))
    && (exists k :: 0 <= k < |p| && IsSpecial(p[k]))
  }

  /** The check in a single pass over the password, as a regex engine makes
      it. */
  method CheckStrength(p: string) returns (ok: bool)
    ensures ok <==> StrongPassword(p)
  {
    var allowed, lower, upper, digit, special := true, false, false, false, false;
    var k := 0;
    while k < |p|
      invariant 0 <= k <= |p|
      invariant allowed <==> forall m :: 0 <= m < k ==> PasswordChar(p[m])
      invariant lower <==> exists m :: 0 <= m < k && IsLowerAscii(p[m])
      invariant upper <==> exists m :: 0 <= m < k && IsUpperAscii(p[m])
      invariant digit <==> exists m :: 0 <= m < k && IsDigit(p[m])
      invariant special <==> exists m :: 0 <= m < k && IsSpecial(p[m])
    {
      var c := p[k];
      allowed := allowed && PasswordChar(c);
      lower := lower || IsLowerAscii(c);
      upper := upper || IsUpperAscii(c);
      digit := digit || IsDigit(c);
      special := special || IsSpecial(c);
      k := k + 1;
    }
    ok := |p| >= 8 && allowed && lower && upper && digit && special;
  }

  /** A strong password is long enough for the account schema too. */
  lemma StrongPasswordIsLongEnough(p: string)
    requires StrongPassword(p)
    ensures |p| >= Schema.MinPasswordLength
  {
  }

  // ---------------------------------------------------- the registration

  const BadEmail: string := "Por favor, introduce un email válido."
  const WeakPassword: string := "La contraseña debe tener al menos 8 caracteres, incluir una mayúscula, una minúscula, un número y un carácter especial."
  const Mismatch: string := "Las contraseñas no coinciden"

  /** What submitting a form does before any request: an error message, or
      the request it sends. */
  datatype Submission = Refused(message: string) | Send(email: string, password: string, invitationToken: string)

  /** `handleSubmit` of the registration form up to the request: the email,
      then the password's strength, then the confirmation; the first failure
      is reported and nothing is sent. */
  function RegisterSubmit(email: string, password: string, confirm: string, token: string): (r: Submission)
    ensures r.Send? <==> IsValidEmail(email) && StrongPassword(password) && password == confirm
    ensures r.Send? ==> r == Send(email, password, token)
    ensures !IsValidEmail(email) ==> r == Refused(BadEmail)
    ensures IsValidEmail(email) && !StrongPassword(password) ==> r == Refused(WeakPassword)
  {
    if !IsValidEmail(email) then Refused(BadEmail)
    else if !StrongPassword(password) then Refused(WeakPassword)
    else if password != confirm then Refused(Mismatch)
    else Send(email, password, token)
  }

  /** A mismatch is only reported once the email and password are good. */
  lemma MismatchReportedLast(email: string, password: string, confirm: string, token: string)
    ensures RegisterSubmit(email, password, confirm, token) == Refused(Mismatch) <==>
      IsValidEmail(email) && StrongPassword(password) && password != confirm
  {
  }

  /** `searchParams.get(k) || localStorage.getItem(k) || ""`: the first of
      the two that is present and non-empty. */
  function InvitationToken(param: Option<string>, stored: Option<string>): (t: string)
    ensures param.Some? && param.value != "" ==> t == param.value
    ensures (param.None? || param.value == "") && stored.Some? ==> t == stored.value
    ensures t == "" <==> (param.None? || param.value == "") && (stored.None? || stored.value == "")
  {
    if param.Some? && param.value != "" then param.value
    else if stored.Some? && stored.value != "" then stored.value
    else ""
  }

  /** Where a successful registration leads, or the message shown. */
  datatype Outcome = Shown(message: string) | Redirect(path: string)

  const Planner: string := "/?tab=planner"
  const OnboardingPath: string := "/onboarding"
  const SignInError: string := "Error al iniciar sesión automáticamente"

  /** After the request: the route's message on a refusal, an error when the
      automatic sign-in fails, else the planner for an invited user and the
      onboarding for everyone else. */
  function AfterRegister(response: Response<Membership.Registered>, signInFailed: bool): (r: Outcome)
    ensures r.Redirect? <==> !response.Fail? && !signInFailed
    ensures r.Redirect? ==> (r.path == Planner <==> response.body.wasInvited)
    ensures r.Redirect? ==> (r.path == OnboardingPath <==> !response.body.wasInvited)
    ensures response.Fail? && response.error != "" ==> r == Shown(response.error)
  {
    match response
    case Fail(_, message) => Shown(if message != "" then message else "Error en el registro")
    case _ =>
      if signInFailed then Shown(SignInError)
      else if response.body.wasInvited then Redirect(Planner)
      else Redirect(OnboardingPath)
  }

  /** Once the automatic sign-in succeeds, a user registering through a
      pending invitation goes straight to the planner and one registering
      without a token to the onboarding. */
  lemma InvitedUsersSkipOnboarding(s: Store, email: string, password: string, token: string, now: int, id: Schema.Id, hash: string -> string)
    requires Membership.Register(s, email, password, token, now, id, hash).0.Ok?
    ensures var r := Membership.Register(s, email, password, token, now, id, hash).0;
      (AfterRegister(r, false) == Redirect(Planner) <==> r.body.casa.Some?)
  {
  }

  /** As written, a new account's automatic sign-in is refused (its stored
      password is the hash of the hash), so the form shows the sign-in
      error instead of moving on. */
  lemma NewAccountSeesSignInError(s: Store, email: string, password: string, token: string, now: int, id: Schema.Id,
                                  hash: string -> string, compare: (string, string) -> bool)
    requires forall p :: !compare(p, hash(hash(p)))
    requires Lists.Find(s.users, UserEmail(Lower(email))) == |s.users|
    requires Membership.Register(s, email, password, token, now, id, hash).0.Ok?
    ensures var (r, s') := Membership.Register(s, email, password, token, now, id, hash);
      AfterRegister(r, !Membership.Authorize(s'.users, email, password, compare)) == Shown(SignInError)
  {
    Membership.RegisteredPasswordRefused(s, email, password, token, now, id, hash, compare);
  }

  /** With the corrected route the automatic sign-in succeeds, so the new
      account reaches the planner exactly when an invitation placed it in a
      house, and the onboarding otherwise. */
  lemma CorrectedNewAccountMovesOn(s: Store, email: string, password: string, token: string, now: int, id: Schema.Id,
                                   hash: string -> string, compare: (string, string) -> bool)
    requires forall p :: compare(p, hash(p)) && hash(p) != ""
    requires Lists.Find(s.users, UserEmail(Lower(email))) == |s.users|
    requires Membership.RegisterCorrected(s, email, password, token, now, id, hash).0.Ok?
    ensures var (r, s') := Membership.RegisterCorrected(s, email, password, token, now, id, hash);
      var after := AfterRegister(r, !Membership.Authorize(s'.users, email, password, compare));
      && after.Redirect?
      && (after.path == Planner <==> r.body.casa.Some?)
  {
    Membership.CorrectedPasswordAccepted(s, email, password, token, now, id, hash, compare);
  }

  // ------------------------------------------------------------ the login

  /** The message shown for the `error` query parameter, if any. */
  function LoginError(code: Option<string>): (m: Option<string>)
    ensures m.None? <==> code.None? || code.value == ""
    ensures m.Some? && code.value !in {"AccessDenied", "Verification", "Configuration", "OAuthSignin"} ==>
      m.value == "Error: " + code.value
  {
    if code.None? || code.value == "" then None
    else Some(match code.value
      case "AccessDenied" => "Acceso denegado. Por favor, verifica tus credenciales."
      case "Verification" => "El enlace de verificación ha expirado o es inválido."
      case "Configuration" => "Hay un problema con la configuración del servidor."
      case "OAuthSignin" => "Error al iniciar sesión con Google. Por favor, intenta de nuevo."
      case _ => "Error: " + code.value)
  }

  /** The four known codes never show the raw code. */
  lemma KnownCodesHaveFixedMessages(code: string)
    requires code in {"AccessDenied", "Verification", "Configuration", "OAuthSignin"}
    ensures LoginError(Some(code)).Some? && LoginError(Some(code)).value != "Error: " + code
  {
    assert |LoginError(Some(code)).value| > 7 + |code|;
  }

  /** `searchParams.get("callbackUrl") || "/?tab=planner"`. */
  function CallbackUrl(param: Option<string>): (u: string)
    ensures param.Some? && param.value != "" ==> u == param.value
    ensures param.None? || param.value == "" ==> u == Planner
  {
    if param.Some? && param.value != "" then param.value else Planner
  }

  /** What a login submission does: refuse a malformed email before
      signing in, report refused credentials, or go to the callback URL,
      having first asked to join the invited house when there is a token. */
  datatype Login = BadEmailShown | WrongCredentials | LoggedIn(association: Option<(string, string)>, redirect: string)

  /** `handleSubmit` of the login form. `signInError` is what the sign-in
      reports; `associationOk` whether the association request succeeded,
      which only reaches the log. */
  function LoginSubmit(email: string, token: string, callbackUrl: string, signInError: bool, associationOk: bool): (r: Login)
    ensures !IsValidEmail(email) <==> r == BadEmailShown
    ensures r.LoggedIn? <==> IsValidEmail(email) && !signInError
    ensures r.LoggedIn? ==> r.redirect == callbackUrl
    ensures r.LoggedIn? ==> (r.association.Some? <==> token != "")
    ensures r.LoggedIn? && token != "" ==> r.association == Some((email, token))
  {
    if !IsValidEmail(email) then BadEmailShown
    else if signInError then WrongCredentials
    else LoggedIn(if token != "" then Some((email, token)) else None, callbackUrl)
  }

  /** A failed association does not change where the user goes. */
  lemma AssociationFailureDoesNotBlock(email: string, token: string, callbackUrl: string, signInError: bool)
    ensures LoginSubmit(email, token, callbackUrl, signInError, false) == LoginSubmit(email, token, callbackUrl, signInError, true)
  {
  }
}

=== FILE: guards.dfy ===
/** The two guards in front of the administrator's pages: the middleware the
    application installs, which only checks that an `admin_token` cookie is
    present, and the stricter admin middleware, which verifies the token as
    a signed token. */
module Guards {

  import opened Base
  import opened Text

  const AdminRoot: string := "/administrador"
  const AdminLogin: string := "/administrador/login"

  datatype Decision = Pass | RedirectToLogin

  /** The cookie as read with `cookies.get("admin_token")?.value`: absent and
      empty both fail `!adminToken`. */
  predicate TokenGiven(token: Option<string>) {
    token.Some? && token.value != ""
  }

  // ------------------------------------------------------ the middleware

  /** The matcher `/administrador/((?!login).*)`: paths under
      `/administrador/` whose rest does not start with `login`. */
  predicate Matched(path: string) {
    StartsWith(path, AdminRoot + "/") && !StartsWith(path[|AdminRoot| + 1..], "login")
  }

  /** `middleware`: an admin path other than the login page needs a
      non-empty `admin_token`; its content is never looked at. */
  function Middleware(path: string, token: Option<string>): (d: Decision)
    ensures d == RedirectToLogin <==> StartsWith(path, AdminRoot) && path != AdminLogin && !TokenGiven(token)
  {
    if StartsWith(path, AdminRoot) && path != AdminLogin && !TokenGiven(token) then RedirectToLogin else Pass
  }

  /** Any non-empty token lets the request through, whatever it holds. */
  lemma AnyTokenPasses(path: string, t1: string, t2: string)
    requires t1 != "" && t2 != ""
    ensures Middleware(path, Some(t1)) == Middleware(path, Some(t2)) == Pass
  {
  }

  /** The login page is never matched, so the middleware's own exception
      for it only matters for paths the matcher lets through anyway: on
      matched paths the decision depends on the cookie alone. */
  lemma MatchedPathsNeedOnlyTheCookie(path: string, token: Option<string>)
    requires Matched(path)
    ensures path != AdminLogin
    ensures Middleware(path, token) == RedirectToLogin <==> !TokenGiven(token)
  {
    assert path[..|AdminRoot|] == (AdminRoot + "/")[..|AdminRoot|];
    assert AdminLogin[|AdminRoot| + 1..] == "login";
  }

  // ------------------------------------------------ the admin middleware

  /** `adminMiddleware`. `secret` is `ADMIN_JWT_SECRET`; `verify` is
      `jwt.verify`, an outside function here, true when it does not throw. */
  function AdminMiddleware(path: string, token: Option<string>, secret: Option<string>,
                           verify: (string, string) -> bool): (d: Decision)
    ensures !StartsWith(path, AdminRoot) ==> d == Pass
    ensures path == AdminRoot || path == AdminLogin || Contains(path, "_next") || Contains(path, "favicon.ico") ==> d == Pass
    ensures StartsWith(path, AdminRoot) && !Whitelisted(path) ==>
      (d == Pass <==> TokenGiven(token) && TokenGiven(secret) && verify(token.value, secret.value))
  {
    if !StartsWith(path, AdminRoot) then Pass
    else
      ApiClauseIsDead(path);
      if path == AdminRoot || path == AdminLogin || StartsWith(path, "/api/admin")
         || Contains(path, "_next") || Contains(path, "favicon.ico") then Pass
      else if !TokenGiven(token) then RedirectToLogin
      else if !TokenGiven(secret) then RedirectToLogin
      else if verify(token.value, secret.value) then Pass
      else RedirectToLogin
  }

  /** The paths let through without a token. */
  predicate Whitelisted(path: string) {
    path == AdminRoot || path == AdminLogin || Contains(path, "_next") || Contains(path, "favicon.ico")
  }

  /** The `startsWith("/api/admin")` exception can never apply: every path
      it is checked against starts with `/administrador`. */
  lemma ApiClauseIsDead(path: string)
    requires StartsWith(path, AdminRoot)
    ensures !StartsWith(path, "/api/admin")
  {
    assert path[2] == AdminRoot[2];
  }

  /** The same middleware without that exception. */
  function AdminMiddlewareWithoutApiClause(path: string, token: Option<string>, secret: Option<string>,
                                           verify: (string, string) -> bool): Decision
  {
    if !StartsWith(path, AdminRoot) then Pass
    else if Whitelisted(path) then Pass
    else if TokenGiven(token) && TokenGiven(secret) && verify(token.value, secret.value) then Pass
    else RedirectToLogin
  }

  /** Removing the dead exception changes no decision. */
  lemma ApiClauseChangesNothing(path: string, token: Option<string>, secret: Option<string>, verify: (string, string) -> bool)
    ensures AdminMiddleware(path, token, secret, verify) == AdminMiddlewareWithoutApiClause(path, token, secret, verify)
  {
    if StartsWith(path, AdminRoot) {
      ApiClauseIsDead(path);
    }
  }

  /** Wherever the admin middleware lets a request through on an admin page
      that needs a token, the installed middleware does too. */
  lemma AdminMiddlewareIsStricter(path: string, token: Option<string>, secret: Option<string>, verify: (string, string) -> bool)
    requires StartsWith(path, AdminRoot) && !Whitelisted(path)
    requires AdminMiddleware(path, token, secret, verify) == Pass
    ensures Middleware(path, token) == Pass
  {
  }
}

=== FILE: history.dfy ===
/** The history of saved weekly menus: saving an edited menu, deleting one,
    editing one slot of one day in the edit dialog, and how an empty slot is
    shown. */
module History {

  import opened Base
  import opened Ordered
  import opened Schema
  import Lists
  import ById
  import Planner

  function MenuId(w: WeeklyMenu): string {
    w.id
  }

  /** The page's state: the menus listed and the one open for editing. */
  datatype State = State(menues: seq<WeeklyMenu>, editing: Option<WeeklyMenu>)

  /** `guardarCambios`. `saved` is the menu the update route returned, `None`
      when the request failed. Nothing is being edited: nothing happens. A
      failed request leaves the state as it was (the dialog stays open). */
  function GuardarCambios(s: State, saved: Option<WeeklyMenu>): (r: State)
    ensures s.editing.None? || saved.None? ==> r == s
    ensures s.editing.Some? && saved.Some? ==> r.editing.None?
    ensures s.editing.Some? && saved.Some? ==> r.menues == ById.ReplaceById(s.menues, MenuId, saved.value)
  {
    if s.editing.None? then s
    else match saved
      case None => s
      case Some(u) => State(ById.ReplaceById(s.menues, MenuId, u), None)
  }

  /** A successful save keeps the number of menus, puts the returned menu in
      place of every menu with its id, and leaves the others where they were. */
  lemma SaveReplacesOnlyThatMenu(s: State, u: WeeklyMenu)
    requires s.editing.Some?
    ensures var r := GuardarCambios(s, Some(u));
      && |r.menues| == |s.menues|
      && (forall i :: 0 <= i < |s.menues| && s.menues[i].id == u.id ==> r.menues[i] == u)
      && Lists.Filter(r.menues, ById.Other(MenuId, u.id)) == Lists.Filter(s.menues, ById.Other(MenuId, u.id))
  {
    ById.ReplaceKeepsOthers(s.menues, MenuId, u);
  }

  /** `borrarMenu` once the delete route succeeded. */
  function BorrarMenu(menues: seq<WeeklyMenu>, menuId: Id): (r: seq<WeeklyMenu>)
    ensures forall i :: 0 <= i < |r| ==> r[i].id != menuId
    ensures forall w :: w in r <==> w in menues && w.id != menuId
  {
    ById.DeleteById(menues, MenuId, menuId)
  }

  /** Deleting removes exactly the menus with that id: the count drops by
      their number, and the menus kept stay in order. */
  lemma BorrarMenuRemovesExactly(a: seq<WeeklyMenu>, b: seq<WeeklyMenu>, menuId: Id)
    ensures |BorrarMenu(a, menuId)| + Lists.Count(a, ById.HasId(MenuId, menuId)) == |a|
    ensures BorrarMenu(a + b, menuId) == BorrarMenu(a, menuId) + BorrarMenu(b, menuId)
  {
    ById.DeleteCount(a, MenuId, menuId);
    ById.DeleteConcat(a, b, MenuId, menuId);
  }

  // ------------------------------------------------------ the edit dialog

  /** `{ ...comidas, almuerzo: value }` or `{ ...comidas, cena: value }`. */
  function SetSlot(d: DayDoc, c: Planner.Comida, value: string): (r: DayDoc)
    ensures r.fecha == d.fecha
    ensures c.Almuerzo? ==> r.almuerzo == Some(value) && r.cena == d.cena
    ensures c.Cena? ==> r.cena == Some(value) && r.almuerzo == d.almuerzo
  {
    match c
    case Almuerzo => d.(almuerzo := Some(value))
    case Cena => d.(cena := Some(value))
  }

  /** Typing `value` into the lunch or dinner input of day `dia` of the menu
      being edited. The inputs exist only for the days of the menu; for any
      other day nothing changes. */
  function EditSlot(w: WeeklyMenu, dia: string, c: Planner.Comida, value: string): (r: WeeklyMenu)
    ensures r.id == w.id && r.fecha == w.fecha && r.ingredientes == w.ingredientes
    ensures r.user == w.user && r.casa == w.casa
  {
    match Lookup(w.menu, dia)
    case Some(comidas) => w.(menu := Put(w.menu, dia, SetSlot(comidas, c, value)))
    case None => w
  }

  /** The edit changes only that slot of that day: the days and their order
      stay, every other day keeps its value, and the other slot and the date
      of the day keep theirs. */
  lemma EditSlotChangesOnlyThatSlot(w: WeeklyMenu, dia: string, c: Planner.Comida, value: string, otro: string)
    requires HasKey(w.menu, dia)
    ensures var r := EditSlot(w, dia, c, value);
      && Keys(r.menu) == Keys(w.menu)
      && Lookup(r.menu, dia) == Some(SetSlot(Lookup(w.menu, dia).value, c, value))
      && (otro != dia ==> Lookup(r.menu, otro) == Lookup(w.menu, otro))
  {
    var comidas := Lookup(w.menu, dia).value;
    PutKeys(w.menu, dia, SetSlot(comidas, c, value));
    PutLookup(w.menu, dia, SetSlot(comidas, c, value), otro);
  }

  /** A unique-key menu stays unique-key under edits. */
  lemma EditSlotKeepsValid(w: WeeklyMenu, dia: string, c: Planner.Comida, value: string)
    requires ValidWeeklyMenu(w)
    ensures ValidWeeklyMenu(EditSlot(w, dia, c, value))
  {
    if HasKey(w.menu, dia) {
      PutUnique(w.menu, dia, SetSlot(Lookup(w.menu, dia).value, c, value));
    }
  }

  /** `comidas.almuerzo || "No especificado"`, and the same for `cena`. */
  function SlotText(slot: Option<string>): (text: string)
    ensures text != ""
    ensures text == "No especificado" <==> slot.None? || slot.value == "" || slot.value == "No especificado"
    ensures slot.Some? && slot.value != "" ==> text == slot.value
  {
    if slot.Some? && slot.value != "" then slot.value else "No especificado"
  }
}

=== FILE: houses.dfy ===
/** The house (casa) routes: creating a house (and inviting people to it),
    renaming it, listing houses, handing the creator role to another member,
    and listing the members. */
module Houses {

  import opened Base
  import opened Text
  import opened Schema
  import opened Http
  import opened Store
  import Lists
  import Membership

  // ------------------------------------------------------------- creation

  /** The account a house is created for: `$or` of the session's email and
      its id as a Google id, the latter only when the session has an id. */
  function Account(session: Session): User -> bool {
    (u: User) => u.email == EmailKey(session.email) || (session.user != "" && u.googleId == Some(session.user))
  }

  /** The body of a creation request: unparsable, or the `nombre` and
      `invitados` fields. */
  datatype CreationBody = Unparsable | CreationBody(nombre: JsValue, invitados: Field)

  /** `!nombre || typeof nombre !== "string"` fails for every value but a
      non-empty string. */
  predicate NameGiven(v: JsValue) {
    v.JsString? && v.s != ""
  }

  /** The entries of `invitados` the route mails: truthy strings that are
      not blank, trimmed. */
  function Invitees(items: seq<JsValue>): (r: seq<string>)
    ensures |r| <= |items|
    ensures forall j :: 0 <= j < |r| ==> r[j] != "" && Trimmed(r[j])
  {
    if items == [] then []
    else
      var rest := Invitees(items[1..]);
      if items[0].JsString? && items[0].s != "" && Trim(items[0].s) != "" then
        [Trim(items[0].s)] + rest
      else rest
  }

  /** The invitation mail as this route sends it: without a token. */
  function Mailed(delivered: string -> bool): string -> bool {
    (e: string) => Membership.SendInvitationEmail("", delivered(e))
  }

  function NotMailed(delivered: string -> bool): string -> bool {
    (e: string) => !Membership.SendInvitationEmail("", delivered(e))
  }

  datatype CasaCreated = CasaCreated(casa: Casa, user: Id, email: string, enviadas: seq<string>, fallidas: seq<string>)

  const CreationFailed: string := "Error del servidor al crear la casa"

  /** `User.create` from the session: its email and `name`, and its id as
      Google id when it has one. `None` is a creation that throws. */
  function SessionAccount(users: seq<User>, session: Session, name: Option<string>, id: Id, hash: string -> string): (r: Option<seq<User>>)
    ensures r.Some? ==> |r.value| == |users| + 1 && r.value[..|users|] == users
    ensures r.Some? ==> r.value[|users|].email == EmailKey(session.email) && r.value[|users|].casa.None?
  {
    var googleId := if session.user == "" then None else Some(session.user);
    CreateUser(users, User(id, session.email, name, None, googleId, false, None), hash)
  }

  /** The account behind the session: found, or created from the session.
      `None` is a creation that throws; the index is the account's position
      in the new list. */
  function EnsureAccount(users: seq<User>, session: Session, name: Option<string>, id: Id, hash: string -> string): (r: Option<(seq<User>, nat)>)
    ensures r.Some? ==> r.value.1 < |r.value.0| && |users| <= |r.value.0|
    ensures r.Some? ==> r.value.0[..|users|] == users
    ensures r.Some? ==> Account(session)(r.value.0[r.value.1])
    ensures r.Some? ==> forall j :: 0 <= j < r.value.1 ==> !Account(session)(r.value.0[j])
    ensures Lists.Find(users, Account(session)) < |users| ==> r == Some((users, Lists.Find(users, Account(session))))
    ensures Lists.Find(users, Account(session)) == |users| && r.Some? ==> Some(r.value.0) == SessionAccount(users, session, name, id, hash)
  {
    var i := Lists.Find(users, Account(session));
    if i < |users| then Some((users, i))
    else match SessionAccount(users, session, name, id, hash)
      case None => None
      case Some(us) =>
        assert forall j :: 0 <= j < |users| ==> us[j] == users[j];
        Some((us, |users|))
  }

  /** What the route reports of the invitations: the addresses mailed and
      the addresses whose mail failed, each in request order. */
  function InvitationReport(invitados: Field, delivered: string -> bool): (r: (seq<string>, seq<string>))
    ensures |r.0| + |r.1| == (if invitados.Array? then |Invitees(invitados.items)| else 0)
  {
    var invitees := if invitados.Array? then Invitees(invitados.items) else [];
    NotMailedIsComplement(invitees, delivered);
    (Lists.Filter(invitees, Mailed(delivered)), Lists.Filter(invitees, NotMailed(delivered)))
  }

  lemma {:induction false} NotMailedIsComplement(invitees: seq<string>, delivered: string -> bool)
    ensures |Lists.Filter(invitees, Mailed(delivered))| + |Lists.Filter(invitees, NotMailed(delivered))| == |invitees|
    decreases |invitees|
  {
    if invitees != [] {
      NotMailedIsComplement(invitees[1..], delivered);
    }
  }

  /** The invitation mails are sent without a token, and a mail without a
      token always fails: every invitee is reported as failed. */
  lemma NoInvitationIsEverSent(invitados: Field, delivered: string -> bool)
    ensures InvitationReport(invitados, delivered).0 == []
    ensures InvitationReport(invitados, delivered).1 == (if invitados.Array? then Invitees(invitados.items) else [])
  {
    var invitees := if invitados.Array? then Invitees(invitados.items) else [];
    assert forall j :: 0 <= j < |invitees| ==> !Mailed(delivered)(invitees[j]);
    Lists.FilterKeepsAll(invitees, NotMailed(delivered));
  }

  /** The invitation mail as intended: each address is mailed with the
      token of the invitation created for it. */
  function MailedWithToken(token: string -> string, delivered: string -> bool): string -> bool {
    (e: string) => Membership.SendInvitationEmail(token(e), delivered(e))
  }

  function NotMailedWithToken(token: string -> string, delivered: string -> bool): string -> bool {
    (e: string) => !Membership.SendInvitationEmail(token(e), delivered(e))
  }

  function Undelivered(delivered: string -> bool): string -> bool {
    (e: string) => !delivered(e)
  }

  /** The report as intended, with `token` the fresh token of each address's
      invitation: an address is reported sent exactly when the mail service
      delivered its mail, and failed otherwise. */
  function InvitationReportCorrected(invitados: Field, token: string -> string, delivered: string -> bool): (r: (seq<string>, seq<string>))
    requires forall e :: token(e) != ""
    ensures var invitees := if invitados.Array? then Invitees(invitados.items) else [];
      && r.0 == Lists.Filter(invitees, delivered)
      && r.1 == Lists.Filter(invitees, Undelivered(delivered))
  {
    var invitees := if invitados.Array? then Invitees(invitados.items) else [];
    Lists.FilterExt(invitees, MailedWithToken(token, delivered), delivered);
    Lists.FilterExt(invitees, NotMailedWithToken(token, delivered), Undelivered(delivered));
    (Lists.Filter(invitees, MailedWithToken(token, delivered)), Lists.Filter(invitees, NotMailedWithToken(token, delivered)))
  }

  /** Corrected, when every mail is delivered every invitee is reported sent
      and none failed, where as written none is ever sent. */
  lemma {:induction false} CorrectedReportSendsDelivered(invitados: Field, token: string -> string, delivered: string -> bool)
    requires forall e :: token(e) != ""
    requires forall e :: delivered(e)
    ensures var invitees := if invitados.Array? then Invitees(invitados.items) else [];
      InvitationReportCorrected(invitados, token, delivered) == (invitees, [])
  {
    var invitees := if invitados.Array? then Invitees(invitados.items) else [];
    Lists.FilterKeepsAll(invitees, delivered);
    assert |Lists.Filter(invitees, Undelivered(delivered))| == 0;
  }

  /** The creation for the account at position `i`, once it is known. */
  function CreateFor(s: Store, i: nat, body: CreationBody, casaId: Id, now: int, delivered: string -> bool): (r: (Response<CasaCreated>, Store))
    requires i < |s.users|
    ensures r.0.Fail? ==> r.1 == s
    ensures r.0.Ok? ==> (
      && body.CreationBody? && NameGiven(body.nombre) && s.users[i].casa.None?
      && r.0.body.casa == Casa(casaId, Trim(body.nombre.s), s.users[i].id, now)
      && r.0.body.user == s.users[i].id && r.0.body.email == s.users[i].email
      && (r.0.body.enviadas, r.0.body.fallidas) == InvitationReport(body.invitados, delivered)
      && r.1 == Store(JoinCasa(s.users, i, casaId), s.casas + [r.0.body.casa], s.invitations))
    ensures UniqueCasas(s.casas) ==> UniqueCasas(r.1.casas)
  {
    if body.Unparsable? then (Fail(400, "Invalid request body"), s)
    else if !NameGiven(body.nombre) then (Fail(400, "El nombre de la casa es requerido y debe ser texto"), s)
    else if s.users[i].casa.Some? then (Fail(400, "El usuario ya pertenece a una casa"), s)
    else
      var casa := Casa(casaId, Trim(body.nombre.s), s.users[i].id, now);
      match CreateCasa(s.casas, casa)
      case None => (Fail(500, CreationFailed), s)
      case Some(casas) =>
        var report := InvitationReport(body.invitados, delivered);
        (Ok(CasaCreated(casa, s.users[i].id, s.users[i].email, report.0, report.1)),
         Store(JoinCasa(s.users, i, casaId), casas, s.invitations))
  }

  /** The creation route. `name` is the session's name, `userId` and
      `casaId` the ids new documents get, `now` the clock and `delivered`
      the mail service's answer for each address. */
  function CreateCasaRoute(session: Option<Session>, name: Option<string>, s: Store, body: CreationBody,
                           userId: Id, casaId: Id, now: int, hash: string -> string, delivered: string -> bool): (r: (Response<CasaCreated>, Store))
    ensures session.None? || session.value.email == "" ==> r == (Fail(401, "No autorizado"), s)
    ensures r.0.Fail? ==> r.1.casas == s.casas
  {
    if session.None? || session.value.email == "" then (Fail(401, "No autorizado"), s)
    else match EnsureAccount(s.users, session.value, name, userId, hash)
      case None => (Fail(500, CreationFailed), s)
      case Some((users, i)) => CreateFor(s.(users := users), i, body, casaId, now, delivered)
  }

  /** A created house has the trimmed name and the caller's account as
      creator, and is that account's house from then on. */
  lemma CreatedHouseBelongsToCreator(session: Option<Session>, name: Option<string>, s: Store, body: CreationBody,
                                     userId: Id, casaId: Id, now: int, hash: string -> string, delivered: string -> bool)
    requires CreateCasaRoute(session, name, s, body, userId, casaId, now, hash, delivered).0.Ok?
    ensures var r := CreateCasaRoute(session, name, s, body, userId, casaId, now, hash, delivered);
      && r.0.body.casa == Casa(casaId, Trim(body.nombre.s), r.0.body.user, now)
      && exists i :: 0 <= i < |r.1.users| && Account(session.value)(r.1.users[i])
                  && r.1.users[i].id == r.0.body.user && r.1.users[i].casa == Some(casaId)
  {
    var e := EnsureAccount(s.users, session.value, name, userId, hash).value;
    var r := CreateFor(s.(users := e.0), e.1, body, casaId, now, delivered);
    assert Account(session.value)(r.1.users[e.1]);
  }

  /** Creation adds exactly the reported house, keeps house names and ids
      unique, and leaves the invitations alone. */
  lemma CreationAddsOneHouse(session: Option<Session>, name: Option<string>, s: Store, body: CreationBody,
                             userId: Id, casaId: Id, now: int, hash: string -> string, delivered: string -> bool)
    ensures var r := CreateCasaRoute(session, name, s, body, userId, casaId, now, hash, delivered);
      && r.1.invitations == s.invitations
      && (r.0.Ok? ==> r.1.casas == s.casas + [r.0.body.casa])
      && (UniqueCasas(s.casas) ==> UniqueCasas(r.1.casas))
  {
    if session.Some? && session.value.email != "" {
      var e := EnsureAccount(s.users, session.value, name, userId, hash);
      if e.Some? {
        var s' := s.(users := e.value.0);
        CreateForKeepsInvitations(s', e.value.1, body, casaId, now, delivered);
      }
    }
  }

  lemma CreateForKeepsInvitations(s: Store, i: nat, body: CreationBody, casaId: Id, now: int, delivered: string -> bool)
    requires i < |s.users|
    ensures var r := CreateFor(s, i, body, casaId, now, delivered);
      && r.1.invitations == s.invitations
      && (r.0.Ok? ==> r.1.casas == s.casas + [r.0.body.casa])
  {
  }

  /** The reply's invitation report is the one the request determines. */
  lemma CreationReportsInvitations(session: Option<Session>, name: Option<string>, s: Store, body: CreationBody,
                                   userId: Id, casaId: Id, now: int, hash: string -> string, delivered: string -> bool)
    requires CreateCasaRoute(session, name, s, body, userId, casaId, now, hash, delivered).0.Ok?
    ensures var r := CreateCasaRoute(session, name, s, body, userId, casaId, now, hash, delivered).0.body;
      r.enviadas == [] && r.fallidas == (if body.invitados.Array? then Invitees(body.invitados.items) else [])
  {
    NoInvitationIsEverSent(body.invitados, delivered);
  }

  /** The account is created before the body is looked at, so a refused
      request still leaves the new account behind. */
  lemma AccountCreatedEvenWhenRefused(session: Session, name: Option<string>, s: Store, userId: Id, casaId: Id, now: int,
                                      hash: string -> string, delivered: string -> bool)
    requires session.email != ""
    requires Lists.Find(s.users, Account(session)) == |s.users|
    requires EnsureAccount(s.users, session, name, userId, hash).Some?
    ensures var r := CreateCasaRoute(Some(session), name, s, CreationBody.Unparsable, userId, casaId, now, hash, delivered);
      && r.0 == Fail(400, "Invalid request body")
      && |r.1.users| == |s.users| + 1 && r.1.users[|s.users|].email == EmailKey(session.email)
  {
  }

  // ------------------------------------------------------------- renaming

  datatype RenameBody = Unparsable | RenameBody(nombre: JsValue)

  /** The rename route: the session's house gets the trimmed name, if it
      still validates and no other house has it. */
  function RenameCasa(session: Option<Session>, s: Store, body: RenameBody): (r: (Response<Casa>, Store))
    ensures !HasCasa(session) ==> r == (Fail(401, NoCasa), s)
    ensures r.1.users == s.users && r.1.invitations == s.invitations
    ensures r.0.Fail? ==> r.1 == s
    ensures r.0.Ok? ==> body.RenameBody? && body.nombre.JsString?
    ensures r.0.Ok? ==> (
      var j := Lists.Find(s.casas, CasaId(session.value.casa));
      && j < |s.casas|
      && r.0.body == s.casas[j].(nombre := Trim(body.nombre.s))
      && r.1.casas == s.casas[j := r.0.body])
  {
    if !HasCasa(session) then (Fail(401, NoCasa), s)
    else if body.Unparsable? then (Fail(500, "Error del servidor al actualizar la casa"), s)
    else if !NameGiven(body.nombre) then (Fail(400, "El nombre de la casa es requerido y debe ser texto"), s)
    else
      var j := Lists.Find(s.casas, CasaId(session.value.casa));
      if j == |s.casas| then (Fail(404, "Casa no encontrada"), s)
      else
        var c := s.casas[j].(nombre := Trim(body.nombre.s));
        match SaveCasaAt(s.casas, j, c)
        case None => (Fail(500, "Error del servidor al actualizar la casa"), s)
        case Some(casas) => (Ok(c), s.(casas := casas))
  }

  /** Renaming keeps house names unique. */
  lemma RenameKeepsHousesUnique(session: Option<Session>, s: Store, body: RenameBody)
    requires UniqueCasas(s.casas)
    ensures UniqueCasas(RenameCasa(session, s, body).1.casas)
  {
  }

  /** A blank name passes the route's check but is refused by the schema
      once trimmed. */
  lemma BlankNameRefused(session: Option<Session>, s: Store, nombre: string)
    requires HasCasa(session) && nombre != "" && IsBlank(nombre)
    requires Lists.Find(s.casas, CasaId(session.value.casa)) < |s.casas|
    ensures RenameCasa(session, s, RenameBody(JsString(nombre))) == (Fail(500, "Error del servidor al actualizar la casa"), s)
  {
    TrimEmptyIffBlank(nombre);
  }

  /** Renaming twice to the same name is renaming once. */
  lemma RenameIdempotent(session: Option<Session>, s: Store, body: RenameBody)
    requires RenameCasa(session, s, body).0.Ok?
    ensures var s' := RenameCasa(session, s, body).1;
      RenameCasa(session, s', body) == (RenameCasa(session, s, body).0, s')
  {
    var casa := session.value.casa;
    var j := Lists.Find(s.casas, CasaId(casa));
    var c := s.casas[j].(nombre := Trim(body.nombre.s));
    FindCasaAfterSave(s.casas, j, c, casa);
    SaveCasaAgain(s.casas, j, c);
  }

  // -------------------------------------------------------------- listing

  /** An entry of the listing: a stored house, or the demo entry sent when
      the database cannot be reached. */
  datatype Listing = Stored(casa: Casa) | Demo(id: string, nombre: string, propietario: string, usuarios: seq<string>)

  const ListLimit: nat := 10

  /** The listing route: at most ten houses in stored order, or the single
      demo entry when `reachable` is false. */
  function ListCasas(casas: seq<Casa>, reachable: bool): (r: seq<Listing>)
    ensures reachable ==> |r| <= ListLimit && |r| == if |casas| < ListLimit then |casas| else ListLimit
    ensures reachable ==> forall j :: 0 <= j < |r| ==> r[j] == Stored(casas[j])
    ensures !reachable ==> r == [Demo("mock-casa", "Casa Demo", "mock-user", ["mock-user"])]
  {
    if reachable then Lists.Map(Lists.Take(casas, ListLimit), (c: Casa) => Stored(c))
    else [Demo("mock-casa", "Casa Demo", "mock-user", ["mock-user"])]
  }

  // ------------------------------------------------------------ ownership

  datatype TransferBody = Unparsable | TransferBody(userId: string)

  /** A member of house `casa` with id `id`. */
  function MemberWithId(id: Id, casa: Id): User -> bool {
    (u: User) => u.id == id && u.casa == Some(casa)
  }

  /** The ownership route: the house's creator becomes `userId` when that
      account belongs to the house. The caller's own role is not checked. */
  function TransferOwnership(session: Option<Session>, s: Store, body: TransferBody): (r: (Response<Id>, Store))
    ensures !HasCasa(session) ==> r == (Fail(401, NoCasa), s)
    ensures r.1.users == s.users && r.1.invitations == s.invitations
    ensures r.0.Fail? ==> r.1 == s
  {
    if !HasCasa(session) then (Fail(401, NoCasa), s)
    else if body.Unparsable? then (Fail(500, "Error interno del servidor"), s)
    else if body.userId == "" then (Fail(400, "Se requiere el ID del usuario"), s)
    else
      var casa := session.value.casa;
      var j := Lists.Find(s.casas, CasaId(casa));
      if j == |s.casas| then (Fail(404, "Casa no encontrada"), s)
      else if Lists.Find(s.users, MemberWithId(body.userId, casa)) == |s.users| then
        (Fail(404, "Usuario no encontrado o no pertenece a esta casa"), s)
      else match SaveCasaAt(s.casas, j, s.casas[j].(creador := body.userId))
        case None => (Fail(500, "Error interno del servidor"), s)
        case Some(casas) => (Ok(body.userId), s.(casas := casas))
  }

  /** On success the new creator is a member of the house, and only the
      creator of that house changes. */
  lemma TransferToMember(session: Option<Session>, s: Store, body: TransferBody)
    requires TransferOwnership(session, s, body).0.Ok?
    ensures var r := TransferOwnership(session, s, body);
      var j := Lists.Find(s.casas, CasaId(session.value.casa));
      && j < |s.casas|
      && r.1.casas == s.casas[j := s.casas[j].(creador := body.userId)]
      && exists u :: u in s.users && u.id == body.userId && u.casa == Some(session.value.casa)
  {
    var m := Lists.Find(s.users, MemberWithId(body.userId, session.value.casa));
    assert s.users[m] in s.users;
  }

  /** Any session of the house gets the same answer: whether the caller is
      the creator plays no part. */
  lemma AnyMemberMayTransfer(a: Session, b: Session, s: Store, body: TransferBody)
    requires a.casa == b.casa
    ensures TransferOwnership(Some(a), s, body) == TransferOwnership(Some(b), s, body)
  {
  }

  // -------------------------------------------------------------- members

  /** A member as listed: the name falls back to the part of the email
      before `@`. */
  datatype Member = Member(id: Id, name: string, email: string, isCurrentUser: bool, isCreator: bool)

  function InCasa(casa: Id): User -> bool {
    (u: User) => u.casa == Some(casa)
  }

  function ToMember(current: Id, creador: Id): User -> Member {
    (u: User) => Member(u.id, if Present(u.name) then u.name.value else BeforeFirst(u.email, '@'), u.email,
                        u.id == current, u.id == creador)
  }

  /** The members route: the accounts of the session's house, in stored
      order. */
  function Members(session: Option<Session>, s: Store): (r: Response<seq<Member>>)
    ensures !HasCasa(session) ==> r == Fail(401, "Usuario no autorizado o sin casa asignada")
    ensures r.Fail? ==> r.status in {401, 404}
    ensures r.Ok? <==> HasCasa(session) && Lists.Find(s.casas, CasaId(session.value.casa)) < |s.casas|
    ensures r.Ok? ==> forall k :: 0 <= k < |r.body| ==>
      && (r.body[k].isCreator <==> r.body[k].id == s.casas[Lists.Find(s.casas, CasaId(session.value.casa))].creador)
      && (r.body[k].isCurrentUser <==> r.body[k].id == session.value.user)
  {
    if !HasCasa(session) then Fail(401, "Usuario no autorizado o sin casa asignada")
    else
      var j := Lists.Find(s.casas, CasaId(session.value.casa));
      if j == |s.casas| then Fail(404, "Casa no encontrada")
      else Ok(Lists.Map(Lists.Filter(s.users, InCasa(session.value.casa)), ToMember(session.value.user, s.casas[j].creador)))
  }

  /** The members listed are exactly the house's accounts, each with its
      id, email and name (or email prefix), flagged as the caller exactly
      when it is the session's account and as creator exactly when it is the
      house's `creador`. */
  lemma MembersAreTheHouse(session: Option<Session>, s: Store)
    requires Members(session, s).Ok?
    ensures var r := Members(session, s).body;
      var house := Lists.Filter(s.users, InCasa(session.value.casa));
      && |r| == |house|
      && (forall k :: 0 <= k < |r| ==> r[k].id == house[k].id && r[k].email == house[k].email)
      && (forall k :: 0 <= k < |r| ==> (r[k].isCurrentUser <==> house[k].id == session.value.user))
      && (forall k :: 0 <= k < |r| ==> r[k].name == if Present(house[k].name) then house[k].name.value else BeforeFirst(house[k].email, '@'))
      && (forall u :: u in s.users && u.casa == Some(session.value.casa) ==> u in house)
      && var j := Lists.Find(s.casas, CasaId(session.value.casa));
      && j < |s.casas| && s.casas[j].id == session.value.casa
      && (forall k :: 0 <= k < |r| ==> (r[k].isCreator <==> house[k].id == s.casas[j].creador))
  {
  }

  lemma {:induction false} FilterKeepsUniqueIds(users: seq<User>, p: User -> bool)
    requires UniqueUsers(users)
    ensures UniqueUsers(Lists.Filter(users, p))
    decreases |users|
  {
    if users != [] {
      var rest := users[1..];
      assert UniqueUsers(rest) by {
        assert forall k :: 0 <= k < |rest| ==> rest[k] == users[k + 1];
      }
      FilterKeepsUniqueIds(rest, p);
      var t := Lists.Filter(rest, p);
      assert forall k :: 0 <= k < |t| ==> t[k] in rest;
      assert forall x :: x in rest ==> x.id != users[0].id && x.email != users[0].email;
    }
  }

  lemma AtMostOneCreator(session: Option<Session>, s: Store)
    requires UniqueUsers(s.users) && Members(session, s).Ok?
    ensures var r := Members(session, s).body;
      forall k, l :: 0 <= k < l < |r| ==> !(r[k].isCreator && r[l].isCreator) && !(r[k].isCurrentUser && r[l].isCurrentUser)
  {
    FilterKeepsUniqueIds(s.users, InCasa(session.value.casa));
  }
}

=== FILE: http.dfy ===
/** What every route handler shares: the session `getServerSession` yields
    and the response it sends. A handler is a pure function from the request,
    the session and the store to a response and the new store. */
module Http {

  import opened Base

  /** The session's user: the id, the e-mail and the house (casa) id. A
      missing value is the empty string, since every route only asks whether
      it is truthy. */
  datatype Session = Session(user: string, email: string, casa: string)

  /** `session?.user?.casa?.id` is truthy. */
  predicate HasCasa(session: Option<Session>) {
    session.Some? && session.value.casa != ""
  }

  /** A JSON reply: `Ok` is status 200, `Created` status 201, and `Fail`
      carries the error status and the `error` message. */
  datatype Response<T> = Ok(body: T) | Created(body: T) | Fail(status: int, error: string)
  {
    function Status(): int {
      match this
      case Ok(_) => 200
      case Created(_) => 201
      case Fail(s, _) => s
    }
  }

  const NoCasa: string := "No autorizado o sin casa asignada"
}

=== FILE: ingredients.dfy ===
/** Ingredients as the application receives them: meals stored before the
    schema settled on strings may hold objects with a `name`, or anything
    else. Three normalisations exist (the shared `formatIngredient`, the
    catalogue's local copy, and the routes' `extractIngredientNames`), plus the
    add/remove editor of an ingredient list. */
module Ingredients {

  import opened Base
  import opened Text
  import Lists

  /** The shared `formatIngredient`. */
  function FormatIngredient(v: JsValue): (r: string)
    ensures !Truthy(v) ==> r == ""
    ensures v.JsString? ==> r == v.s
    ensures HasTruthyName(v) ==> r == v.name.value
    ensures Truthy(v) && !v.JsString? && !HasTruthyName(v) ==> r == ToJsString(v)
  {
    if !Truthy(v) then ""
    else if v.JsString? then v.s
    else if TypeofObject(v) && v.JsObject? && v.name.Some? && v.name.value != "" then v.name.value
    else ToJsString(v)
  }

  /** Applying `formatIngredient` to its own result changes nothing. */
  lemma FormatIngredientIdempotent(v: JsValue)
    ensures FormatIngredient(JsString(FormatIngredient(v))) == FormatIngredient(v)
  {
  }

  /** The catalogue's local `formatIngredient`: no special case for falsy
      values, which reach `String(...)`. */
  function CatalogFormatIngredient(v: JsValue): (r: string)
    ensures v.JsString? ==> r == v.s
    ensures HasTruthyName(v) ==> r == v.name.value
    ensures !v.JsString? && !HasTruthyName(v) ==> r == ToJsString(v)
  {
    if v.JsString? then v.s
    else if Truthy(v) && TypeofObject(v) && v.JsObject? && v.name.Some? && v.name.value != "" then v.name.value
    else ToJsString(v)
  }

  /** The two copies agree exactly on strings and truthy values; on a falsy
      non-string the shared one gives "" and the local one its spelling
      ("null", "undefined", "false", "0"). */
  lemma {:induction false} FormatCopiesAgree(v: JsValue)
    ensures FormatIngredient(v) == CatalogFormatIngredient(v) <==> v.JsString? || Truthy(v)
    ensures !v.JsString? && !Truthy(v) ==> FormatIngredient(v) == "" && CatalogFormatIngredient(v) == ToJsString(v)
  {
    if !v.JsString? && !Truthy(v) {
      match v
      case JsNumber(n) => assert n == 0; assert ToJsString(v) == "0";
      case _ =>
    }
  }

  /** The name `extractIngredientNames` takes from one element, "" when none. */
  function ExtractName(v: JsValue): (r: string)
    ensures v.JsString? ==> r == v.s
    ensures HasTruthyName(v) ==> r == v.name.value
    ensures !v.JsString? && !HasTruthyName(v) ==> r == ""
  {
    if v.JsString? then v.s
    else if Truthy(v) && TypeofObject(v) && v.JsObject? && v.name.Some? && v.name.value != "" then v.name.value
    else ""
  }

  predicate NonEmpty(s: string) {
    s != ""
  }

  /** `extractIngredientNames`: [] for a missing or non-array field; otherwise
      each element's name, with the empty ones dropped. */
  function ExtractIngredientNames(f: Field): (r: seq<string>)
    ensures f.NotAnArray? ==> r == []
    ensures f.Array? ==> |r| <= |f.items|
    ensures forall i :: 0 <= i < |r| ==> r[i] != ""
  {
    match f
    case NotAnArray => []
    case Array(items) => Lists.Filter(Lists.Map(items, ExtractName), NonEmpty)
  }

  /** The two facts that determine the extraction completely: it works
      element by element, in order, and one element gives its name or
      nothing. */
  lemma {:induction false} ExtractIngredientNamesSpec(a: seq<JsValue>, b: seq<JsValue>, v: JsValue)
    ensures ExtractIngredientNames(Array(a + b)) == ExtractIngredientNames(Array(a)) + ExtractIngredientNames(Array(b))
    ensures ExtractIngredientNames(Array([v])) == if ExtractName(v) != "" then [ExtractName(v)] else []
  {
    assert Lists.Map(a + b, ExtractName) == Lists.Map(a, ExtractName) + Lists.Map(b, ExtractName);
    Lists.FilterConcat(Lists.Map(a, ExtractName), Lists.Map(b, ExtractName), NonEmpty);
    assert Lists.Map([v], ExtractName) == [ExtractName(v)];
    assert Lists.Filter([ExtractName(v)], NonEmpty) == (if ExtractName(v) != "" then [ExtractName(v)] else []) + Lists.Filter([], NonEmpty);
  }

  /** Strings are kept verbatim: an array of non-empty strings comes back whole. */
  lemma {:induction false} ExtractKeepsStrings(items: seq<JsValue>)
    requires forall i :: 0 <= i < |items| ==> items[i].JsString? && items[i].s != ""
    ensures ExtractIngredientNames(Array(items)) == Lists.Map(items, ExtractName)
  {
    Lists.FilterKeepsAll(Lists.Map(items, ExtractName), NonEmpty);
  }

  // ------------------------------------------------ the ingredient editor

  /** The editor: the list it edits and the text typed into its input. */
  datatype Editor = Editor(ingredients: seq<string>, draft: string)

  /** `addIngredient`: appends the trimmed draft and clears the input, unless
      the trimmed draft is empty. */
  function AddIngredient(e: Editor): (r: Editor)
    ensures IsBlank(e.draft) ==> r == e
    ensures !IsBlank(e.draft) ==> r.ingredients == e.ingredients + [Trim(e.draft)] && r.draft == ""
  {
    TrimEmptyIffBlank(e.draft);
    var t := Trim(e.draft);
    if t != "" then Editor(e.ingredients + [t], "") else e
  }

  /** The entry `addIngredient` appends has no whitespace at either end. */
  lemma AddedIngredientIsTrimmed(e: Editor)
    requires !IsBlank(e.draft)
    ensures var r := AddIngredient(e);
      |r.ingredients| == |e.ingredients| + 1
      && r.ingredients[..|e.ingredients|] == e.ingredients
      && r.ingredients[|e.ingredients|] != ""
      && !IsWhitespace(r.ingredients[|e.ingredients|][0])
      && !IsWhitespace(r.ingredients[|e.ingredients|][|r.ingredients[|e.ingredients|]| - 1])
  {
    TrimEmptyIffBlank(e.draft);
  }

  /** `removeIngredient(i)`. */
  function RemoveIngredient(e: Editor, i: int): (r: Editor)
    ensures r.draft == e.draft
    ensures 0 <= i < |e.ingredients| ==> r.ingredients == e.ingredients[..i] + e.ingredients[i + 1..]
    ensures !(0 <= i < |e.ingredients|) ==> r.ingredients == e.ingredients
  {
    var s := Lists.RemoveAt(e.ingredients, i);
    assert 0 <= i < |e.ingredients| ==> s == e.ingredients[..i] + e.ingredients[i + 1..];
    e.(ingredients := s)
  }

  /** Removing the entry just added restores the list; the input stays
      cleared. */
  lemma AddThenRemoveRestores(e: Editor)
    requires !IsBlank(e.draft)
    ensures RemoveIngredient(AddIngredient(e), |e.ingredients|) == e.(draft := "")
  {
    assert AddIngredient(e).ingredients[..|e.ingredients|] == e.ingredients;
  }

  /** `handleKeyPress`: Enter adds, every other key leaves the editor alone. */
  function KeyPress(e: Editor, key: string): (r: Editor)
    ensures key == "Enter" ==> r == AddIngredient(e)
    ensures key != "Enter" ==> r == e
  {
    if key == "Enter" then AddIngredient(e) else e
  }

  /** The draft is cleared only by a successful add. */
  lemma DraftClearedOnlyOnAdd(e: Editor, key: string)
    requires e.draft != ""
    ensures KeyPress(e, key).draft == "" <==> key == "Enter" && !IsBlank(e.draft)
  {
  }
}

=== FILE: lists.dfy ===
/** The array operations the application builds its list updates from:
    `filter`, `map`, counting with `filter(...).length`, and deleting one
    position with `filter((_, i) => i !== index)`. */
module Lists {

  /** `s.filter(p)`. */
  function Filter<T>(s: seq<T>, p: T -> bool): (r: seq<T>)
    ensures |r| <= |s|
    ensures forall i :: 0 <= i < |r| ==> p(r[i])
    ensures forall i :: 0 <= i < |r| ==> r[i] in s
    ensures forall i :: 0 <= i < |s| && p(s[i]) ==> s[i] in r
    ensures multiset(r) <= multiset(s)
  {
    if s == [] then []
    else
      assert s == [s[0]] + s[1..];
      (if p(s[0]) then [s[0]] else []) + Filter(s[1..], p)
  }

  /** `filter` works block by block: it keeps the order of what it keeps. */
  lemma {:induction false} FilterConcat<T>(a: seq<T>, b: seq<T>, p: T -> bool)
    ensures Filter(a + b, p) == Filter(a, p) + Filter(b, p)
    decreases |a|
  {
    if a == [] {
      assert a + b == b;
    } else {
      assert (a + b)[0] == a[0];
      assert (a + b)[1..] == a[1..] + b;
      FilterConcat(a[1..], b, p);
    }
  }

  /** Filtering one more element at the end. */
  lemma FilterSnoc<T>(s: seq<T>, x: T, p: T -> bool)
    ensures Filter(s + [x], p) == Filter(s, p) + (if p(x) then [x] else [])
  {
    FilterConcat(s, [x], p);
    FilterOne(x, p);
  }

  lemma FilterOne<T>(x: T, p: T -> bool)
    ensures Filter([x], p) == if p(x) then [x] else []
  {
    assert [x][1..] == [];
  }

  lemma {:induction false} FilterKeepsAll<T>(s: seq<T>, p: T -> bool)
    requires forall i :: 0 <= i < |s| ==> p(s[i])
    ensures Filter(s, p) == s
    decreases |s|
  {
    if s != [] {
      FilterKeepsAll(s[1..], p);
    }
  }

  /** Predicates that agree on the elements of `s` filter it alike. */
  lemma {:induction false} FilterExt<T>(s: seq<T>, p: T -> bool, q: T -> bool)
    requires forall i :: 0 <= i < |s| ==> p(s[i]) == q(s[i])
    ensures Filter(s, p) == Filter(s, q)
    decreases |s|
  {
    if s != [] {
      FilterExt(s[1..], p, q);
    }
  }

  /** The conjunction of two predicates. */
  function And<T>(p: T -> bool, q: T -> bool): T -> bool {
    x => p(x) && q(x)
  }

  /** Two filters in a row keep what both predicates accept. */
  lemma {:induction false} FilterFilter<T>(s: seq<T>, p: T -> bool, q: T -> bool)
    ensures Filter(Filter(s, p), q) == Filter(s, And(p, q))
    decreases |s|
  {
    if s != [] {
      FilterFilter(s[1..], p, q);
      FilterConcat(if p(s[0]) then [s[0]] else [], Filter(s[1..], p), q);
    }
  }

  /** Inserting `x` anywhere adds one `x` to the multiset of elements. */
  lemma MultisetInsert<T>(s: seq<T>, x: T, t: seq<T>)
    ensures multiset(s + [x] + t) == multiset(s + t) + multiset{x}
  {
    assert multiset(s + [x] + t) == multiset(s) + multiset{x} + multiset(t);
    assert multiset(s + t) == multiset(s) + multiset(t);
  }

  /** `s.filter(p).length`. */
  function Count<T>(s: seq<T>, p: T -> bool): (n: nat)
    ensures n <= |s|
    ensures n == |Filter(s, p)|
  {
    if s == [] then 0 else (if p(s[0]) then 1 else 0) + Count(s[1..], p)
  }

  /** `s.map(f)`. */
  function Map<T, U>(s: seq<T>, f: T -> U): (r: seq<U>)
    ensures |r| == |s|
    ensures forall i :: 0 <= i < |s| ==> r[i] == f(s[i])
  {
    if s == [] then [] else [f(s[0])] + Map(s[1..], f)
  }

  /** Mapping two permutations of each other gives permutations. */
  lemma {:induction false} MapPermutation<T, U>(a: seq<T>, b: seq<T>, f: T -> U)
    requires multiset(a) == multiset(b)
    ensures multiset(Map(a, f)) == multiset(Map(b, f))
    decreases |a|
  {
    if a != [] {
      var x := a[0];
      assert x in multiset(b);
      var k :| 0 <= k < |b| && b[k] == x;
      var b' := b[..k] + b[k + 1..];
      RemoveOne(b, k);
      assert a == [x] + a[1..];
      assert multiset(a) == multiset{x} + multiset(a[1..]);
      assert multiset(a[1..]) == multiset(a) - multiset{x};
      assert multiset(b') == multiset(b) - multiset{x};
      MapPermutation(a[1..], b', f);
      MapRemoveOne(b, k, f);
      MapCons(x, a[1..], f);
    }
  }

  /** Mapping a sequence with `x` in front adds one `f(x)`. */
  lemma MapCons<T, U>(x: T, s: seq<T>, f: T -> U)
    ensures multiset(Map([x] + s, f)) == multiset{f(x)} + multiset(Map(s, f))
  {
    assert ([x] + s)[1..] == s;
    assert Map([x] + s, f) == [f(x)] + Map(s, f);
  }

  /** Taking position `k` out of `s` takes one `s[k]` out of its multiset. */
  lemma RemoveOne<T>(s: seq<T>, k: nat)
    requires k < |s|
    ensures multiset(s) == multiset(s[..k] + s[k + 1..]) + multiset{s[k]}
  {
    assert s == s[..k] + [s[k]] + s[k + 1..];
    MultisetInsert(s[..k], s[k], s[k + 1..]);
  }

  /** Mapping `s` maps position `k` to one `f(s[k])` in the multiset. */
  lemma MapRemoveOne<T, U>(s: seq<T>, k: nat, f: T -> U)
    requires k < |s|
    ensures multiset(Map(s, f)) == multiset(Map(s[..k] + s[k + 1..], f)) + multiset{f(s[k])}
  {
    SplitAt(s, k);
    MapRemoveMiddle(s[..k], s[k], s[k + 1..], f);
  }

  lemma SplitAt<T>(s: seq<T>, k: nat)
    requires k < |s|
    ensures s == s[..k] + [s[k]] + s[k + 1..]
  {
  }

  /** Mapping around one element: `f(x)` is one element of the multiset. */
  lemma MapRemoveMiddle<T, U>(a: seq<T>, x: T, b: seq<T>, f: T -> U)
    ensures multiset(Map(a + [x] + b, f)) == multiset(Map(a + b, f)) + multiset{f(x)}
  {
    MapConcat(a + [x], b, f);
    MapConcat(a, [x], f);
    MapConcat(a, b, f);
    MultisetInsert(Map(a, f), f(x), Map(b, f));
  }

  /** Mapping distributes over concatenation. */
  lemma MapConcat<T, U>(a: seq<T>, b: seq<T>, f: T -> U)
    ensures Map(a + b, f) == Map(a, f) + Map(b, f)
  {
    assert forall i :: 0 <= i < |a| ==> (a + b)[i] == a[i];
    assert forall i :: |a| <= i < |a| + |b| ==> (a + b)[i] == b[i - |a|];
  }

  /** `s.filter((_, j) => j !== i)`: deletes position `i`, if there is one. */
  function RemoveAt<T>(s: seq<T>, i: int): (r: seq<T>)
    ensures 0 <= i < |s| ==> |r| == |s| - 1
    ensures 0 <= i < |s| ==> forall j :: 0 <= j < i ==> r[j] == s[j]
    ensures 0 <= i < |s| ==> forall j :: i <= j < |r| ==> r[j] == s[j + 1]
    ensures !(0 <= i < |s|) ==> r == s
  {
    if s == [] then []
    else if i == 0 then s[1..]
    else [s[0]] + RemoveAt(s[1..], i - 1)
  }

  /** `s.map((x, j) => j === i ? v : x)`: replaces position `i`, if there is one. */
  function SetAt<T>(s: seq<T>, i: int, v: T): (r: seq<T>)
    ensures |r| == |s|
    ensures forall j :: 0 <= j < |s| && j != i ==> r[j] == s[j]
    ensures 0 <= i < |s| ==> r[i] == v
  {
    if 0 <= i < |s| then s[i := v] else s
  }

  /** The position of the first element satisfying `p`, `|s|` when there is
      none: `findOne` on a collection in its natural order. */
  function Find<T>(s: seq<T>, p: T -> bool): (i: nat)
    ensures i <= |s|
    ensures i < |s| ==> p(s[i])
    ensures forall j :: 0 <= j < i ==> !p(s[j])
  {
    if s == [] then 0 else if p(s[0]) then 0 else 1 + Find(s[1..], p)
  }

  /** `Find` is the first position satisfying `p`. */
  lemma FindIsFirst<T>(s: seq<T>, p: T -> bool, i: nat)
    requires i < |s| && p(s[i])
    requires forall j :: 0 <= j < i ==> !p(s[j])
    ensures Find(s, p) == i
  {
  }

  /** The first `n` elements of `s`, or all of them: `slice(0, n)` and a
      query's `limit(n)`. */
  function Take<T>(s: seq<T>, n: nat): (r: seq<T>)
    ensures |r| == if |s| <= n then |s| else n
    ensures r == s[..|r|]
  {
    if |s| <= n then s else s[..n]
  }
}

=== FILE: membership.dfy ===
/** Joining a house: registration (with or without an invitation token),
    associating a logged-in account through a token, and inviting someone
    by e-mail. Each route is a transition of the membership store that
    returns the reply and the new store. */
module Membership {

  import opened Base
  import opened Text
  import opened Schema
  import opened Http
  import opened Store
  import Lists

  // ------------------------------------------------------- registration

  /** A successful registration: the user, the house they joined (if any),
      and whether an invitation brought them in. */
  datatype Registered = Registered(user: Id, email: string, casa: Option<Id>, wasInvited: bool)

  const Required: string := "Email y contraseña son requeridos"
  const NotValid: string := "Invitación no válida o expirada"

  /** The position of the pending invitation the route looks up at instant
      `now`, `|inv|` when there is no token or no match. The lookup uses the
      lower-cased email and sees no invitation the TTL index has removed. */
  function PendingIndex(invitations: seq<Invitation>, token: string, email: string, now: int): (k: nat)
    ensures k <= |invitations|
    ensures k < |invitations| ==> token != "" && Pending(token, Lower(email), now)(invitations[k])
    ensures k < |invitations| ==> !Expired(invitations[k], now)
    ensures token != "" ==> k == Lists.Find(invitations, Pending(token, Lower(email), now))
  {
    if token == "" then |invitations| else Lists.Find(invitations, Pending(token, Lower(email), now))
  }

  /** The document registration hands to `User.create`: the lower-cased
      email, `given` as the password, and the invitation's house. The route
      passes the password already hashed; the save hook hashes it again. */
  function NewAccount(id: Id, email: string, given: string, casa: Option<Id>): (u: User)
    ensures u.id == id && u.casa == casa && u.password == Some(given) && !u.emailVerified
    ensures u.googleId.None? && EmailKey(u.email) == EmailKey(email)
  {
    EmailKeyOfLower(email);
    User(id, Lower(email), None, Some(given), None, false, casa)
  }

  /** The schema accepts the new account exactly when its email is not
      blank and the password it is given has at least six characters, and
      it stores the normalised email. */
  lemma NewAccountSaved(id: Id, email: string, given: string, casa: Option<Id>)
    ensures SaveUser(NewAccount(id, email, given, casa)).Some? <==> EmailKey(email) != "" && |given| >= MinPasswordLength
    ensures SaveUser(NewAccount(id, email, given, casa)).Some? ==>
      SaveUser(NewAccount(id, email, given, casa)).value.email == EmailKey(email)
  {
    var u := NewAccount(id, email, given, casa);
    assert !Present(u.googleId);
    if |given| >= MinPasswordLength {
      assert Present(u.password);
    }
  }

  /** Registration of a new account once the invitation (position `k`, or
      none when `k` is past the end) is settled: the invitation is marked
      used before the user is created, and stays used when the creation
      throws. */
  function RegisterNew(s: Store, email: string, given: string, k: nat, id: Id, hash: string -> string): (r: (Response<Registered>, Store))
    requires k <= |s.invitations|
    ensures r.1.casas == s.casas
    ensures r.1.invitations == if k < |s.invitations| then MarkUsed(s.invitations, k) else s.invitations
    ensures r.0.Fail? ==> r.0.status == 500 && r.1.users == s.users
    ensures r.0.Ok? ==> (
      && r.0.body.wasInvited == (k < |s.invitations|)
      && r.0.body.casa == (if k < |s.invitations| then Some(s.invitations[k].casa) else None)
      && |r.1.users| == |s.users| + 1 && r.1.users[..|s.users|] == s.users
      && r.1.users[|s.users|].id == id == r.0.body.user
      && r.1.users[|s.users|].email == EmailKey(email) == r.0.body.email
      && r.1.users[|s.users|].casa == r.0.body.casa
      && r.1.users[|s.users|].password == Some(hash(given))
      && |given| >= MinPasswordLength)
  {
    var invitations := if k < |s.invitations| then MarkUsed(s.invitations, k) else s.invitations;
    var casa := if k < |s.invitations| then Some(s.invitations[k].casa) else None;
    match CreateUser(s.users, NewAccount(id, email, given, casa), hash)
    case None => (Fail(500, "Error en el servidor al crear el usuario"), s.(invitations := invitations))
    case Some(users) =>
      EmailKeyOfLower(email);
      (Ok(Registered(id, EmailKey(Lower(email)), casa, casa.Some?)), Store(users, s.casas, invitations))
  }

  /** The register route, with `given` the password it hands to
      `User.create` for a new account. `email`, `password` and `token` are
      the body's fields ("" when absent), `id` the new user's id and `hash`
      bcrypt. */
  function RegisterWith(s: Store, email: string, password: string, given: string, token: string, now: int, id: Id, hash: string -> string): (r: (Response<Registered>, Store))
    ensures email == "" || password == "" ==> r == (Fail(400, Required), s)
    ensures r.1.casas == s.casas
    ensures r.0.Fail? && r.0.status != 500 ==> r.1 == s
    ensures r.0.Ok? ==> (r.0.body.wasInvited <==> r.0.body.casa.Some?)
    ensures r.0.Ok? && r.0.body.wasInvited ==> (
      var k := PendingIndex(s.invitations, token, email, now);
      k < |s.invitations| && !Expired(s.invitations[k], now) && r.1.invitations == MarkUsed(s.invitations, k))
  {
    if email == "" || password == "" then (Fail(400, Required), s)
    else
      var i := Lists.Find(s.users, UserEmail(Lower(email)));
      var k := PendingIndex(s.invitations, token, email, now);
      if i < |s.users| then
        if k == |s.invitations| then (Fail(409, "El email ya está registrado. Por favor, inicia sesión."), s)
        else if s.users[i].casa.Some? then (Fail(400, "El usuario ya pertenece a una casa"), s)
        else
          var casa := s.invitations[k].casa;
          (Ok(Registered(s.users[i].id, s.users[i].email, Some(casa), true)),
           s.(users := JoinCasa(s.users, i, casa), invitations := MarkUsed(s.invitations, k)))
      else if token != "" && k == |s.invitations| then (Fail(400, NotValid), s)
      else RegisterNew(s, email, given, k, id, hash)
  }

  /** The register route as written: a new account is handed to
      `User.create` with the password already hashed. */
  function Register(s: Store, email: string, password: string, token: string, now: int, id: Id, hash: string -> string): (r: (Response<Registered>, Store))
    ensures email == "" || password == "" ==> r == (Fail(400, Required), s)
    ensures r.1.casas == s.casas
    ensures r.0.Fail? && r.0.status != 500 ==> r.1 == s
    ensures r.0.Ok? ==> (r.0.body.wasInvited <==> r.0.body.casa.Some?)
    ensures r.0.Ok? && r.0.body.wasInvited ==> (
      var k := PendingIndex(s.invitations, token, email, now);
      k < |s.invitations| && !Expired(s.invitations[k], now) && r.1.invitations == MarkUsed(s.invitations, k))
  {
    RegisterWith(s, email, password, hash(password), token, now, id, hash)
  }

  /** The register route as intended: the plain password is handed to
      `User.create`, whose save hook hashes it once, and the length rule
      applies to the password the user typed. */
  function RegisterCorrected(s: Store, email: string, password: string, token: string, now: int, id: Id, hash: string -> string): (r: (Response<Registered>, Store))
    ensures email == "" || password == "" ==> r == (Fail(400, Required), s)
    ensures r.1.casas == s.casas
    ensures r.0.Fail? && r.0.status != 500 ==> r.1 == s
    ensures r.0.Ok? ==> (r.0.body.wasInvited <==> r.0.body.casa.Some?)
    ensures r.0.Ok? && Lists.Find(s.users, UserEmail(Lower(email))) == |s.users| ==>
      |r.1.users| == |s.users| + 1 && r.1.users[..|s.users|] == s.users
      && r.1.users[|s.users|].email == EmailKey(email)
      && r.1.users[|s.users|].password == Some(hash(password))
      && |password| >= MinPasswordLength
  {
    RegisterWith(s, email, password, password, token, now, id, hash)
  }

  /** Missing fields are rejected and nothing changes. */
  lemma RegisterRequiresEmailAndPassword(s: Store, email: string, password: string, token: string, now: int, id: Id, hash: string -> string)
    requires email == "" || password == ""
    ensures Register(s, email, password, token, now, id, hash) == (Fail(400, Required), s)
  {
  }

  /** An existing account (found by its normalised email) without a house
      joins the house of a matching unused invitation, which becomes used;
      nothing else changes. */
  lemma RegisterExistingJoins(s: Store, email: string, password: string, token: string, now: int, id: Id, hash: string -> string, i: nat, k: nat)
    requires email != "" && password != "" && token != ""
    requires i < |s.users| && s.users[i].email == EmailKey(email) && s.users[i].casa.None?
    requires k < |s.invitations| && Pending(token, Lower(email), now)(s.invitations[k])
    requires UniqueUsers(s.users) && UniqueTokens(s.invitations)
    ensures var r := Register(s, email, password, token, now, id, hash);
      && r.0 == Ok(Registered(s.users[i].id, s.users[i].email, Some(s.invitations[k].casa), true))
      && r.1.users == s.users[i := s.users[i].(casa := Some(s.invitations[k].casa))]
      && r.1.invitations == s.invitations[k := s.invitations[k].(used := true)]
      && r.1.casas == s.casas
  {
    EmailKeyOfLower(email);
    FindIsUniqueUser(s.users, Lower(email), i);
    FindIsUniqueToken(s.invitations, token, Lower(email), now, k);
    var c := s.invitations[k].casa;
    assert PendingIndex(s.invitations, token, email, now) == k;
    assert Register(s, email, password, token, now, id, hash)
        == (Ok(Registered(s.users[i].id, s.users[i].email, Some(c), true)),
            s.(users := JoinCasa(s.users, i, c), invitations := MarkUsed(s.invitations, k)));
  }

  /** An existing account that already has a house is refused (400) when the
      invitation matches, and (409) when none does; nothing changes. */
  lemma RegisterExistingRefused(s: Store, email: string, password: string, token: string, now: int, id: Id, hash: string -> string)
    requires email != "" && password != ""
    requires Lists.Find(s.users, UserEmail(Lower(email))) < |s.users|
    ensures var r := Register(s, email, password, token, now, id, hash);
      var i := Lists.Find(s.users, UserEmail(Lower(email)));
      && (PendingIndex(s.invitations, token, email, now) == |s.invitations| ==> r.0.Fail? && r.0.status == 409)
      && (PendingIndex(s.invitations, token, email, now) < |s.invitations| && s.users[i].casa.Some? ==> r.0.Fail? && r.0.status == 400)
      && (r.0.Fail? ==> r.1 == s)
  {
  }

  /** A new account with a token that matches no pending invitation is
      refused and no user is created. */
  lemma RegisterBadTokenCreatesNothing(s: Store, email: string, password: string, token: string, now: int, id: Id, hash: string -> string)
    requires email != "" && password != "" && token != ""
    requires Lists.Find(s.users, UserEmail(Lower(email))) == |s.users|
    requires Lists.Find(s.invitations, Pending(token, Lower(email), now)) == |s.invitations|
    ensures Register(s, email, password, token, now, id, hash) == (Fail(400, NotValid), s)
  {
  }

  /** A new account is stored with the normalised email and a house exactly
      when an invitation matched; `wasInvited` says whether it has one. */
  lemma RegisterNewUser(s: Store, email: string, password: string, token: string, now: int, id: Id, hash: string -> string)
    requires email != "" && password != ""
    requires Lists.Find(s.users, UserEmail(Lower(email))) == |s.users|
    requires token == "" || PendingIndex(s.invitations, token, email, now) < |s.invitations|
    ensures var r := Register(s, email, password, token, now, id, hash);
      var k := PendingIndex(s.invitations, token, email, now);
      r == RegisterNew(s, email, hash(password), k, id, hash)
  {
  }

  /** The password reaches the store hashed twice: once by the route and
      once more by the save hook. */
  lemma NewAccountHashedTwice(s: Store, email: string, password: string, token: string, now: int, id: Id, hash: string -> string)
    requires Lists.Find(s.users, UserEmail(Lower(email))) == |s.users|
    requires Register(s, email, password, token, now, id, hash).0.Ok?
    ensures var r := Register(s, email, password, token, now, id, hash).1;
      |r.users| == |s.users| + 1 && r.users[|s.users|].password == Some(hash(hash(password)))
  {
    if token == "" || PendingIndex(s.invitations, token, email, now) < |s.invitations| {
      RegisterNewUser(s, email, password, token, now, id, hash);
    }
  }

  /** The credentials sign-in (`authorize`): both fields are required, and
      the account found by the lower-cased email must have a password that
      bcrypt's `compare` accepts for the one typed. */
  function Authorize(users: seq<User>, email: string, password: string, compare: (string, string) -> bool): (ok: bool)
    ensures ok ==> email != "" && password != ""
    ensures ok ==> exists i :: 0 <= i < |users| && users[i].email == EmailKey(email) && ComparePassword(users[i], password, compare)
  {
    if email == "" || password == "" then false
    else
      var i := Lists.Find(users, UserEmail(Lower(email)));
      EmailKeyOfLower(email);
      i < |users| && ComparePassword(users[i], password, compare)
  }

  /** With unique emails, signing in checks the password of the one account
      with that email, whatever the letter case typed. */
  lemma AuthorizeChecksThatAccount(users: seq<User>, email: string, password: string, compare: (string, string) -> bool, i: nat)
    requires UniqueUsers(users) && email != "" && password != ""
    requires i < |users| && users[i].email == EmailKey(email)
    ensures Authorize(users, email, password, compare) == ComparePassword(users[i], password, compare)
  {
    EmailKeyOfLower(email);
    FindIsUniqueUser(users, Lower(email), i);
  }

  /** Signing in finds no account for an email that none has. */
  lemma AuthorizeUnknownEmail(users: seq<User>, email: string, password: string, compare: (string, string) -> bool)
    requires forall i :: 0 <= i < |users| ==> users[i].email != EmailKey(email)
    ensures !Authorize(users, email, password, compare)
  {
  }

  /** As written, the password just registered never signs in when bcrypt
      does not accept a password against the hash of its own hash, as it
      does not: the stored value is `hash(hash(p))`. */
  lemma {:induction false} RegisteredPasswordRefused(s: Store, email: string, password: string, token: string, now: int, id: Id,
                                                     hash: string -> string, compare: (string, string) -> bool)
    requires forall p :: !compare(p, hash(hash(p)))
    requires Lists.Find(s.users, UserEmail(Lower(email))) == |s.users|
    requires Register(s, email, password, token, now, id, hash).0.Ok?
    ensures !Authorize(Register(s, email, password, token, now, id, hash).1.users, email, password, compare)
  {
    var users := Register(s, email, password, token, now, id, hash).1.users;
    NewAccountHashedTwice(s, email, password, token, now, id, hash);
    SignInChecksNewAccount(s.users, users, email, password, compare);
  }

  /** Corrected, the password just registered signs in whenever bcrypt
      accepts a password against its own hash (which is never empty). */
  lemma {:induction false} CorrectedPasswordAccepted(s: Store, email: string, password: string, token: string, now: int, id: Id,
                                                     hash: string -> string, compare: (string, string) -> bool)
    requires forall p :: compare(p, hash(p)) && hash(p) != ""
    requires Lists.Find(s.users, UserEmail(Lower(email))) == |s.users|
    requires RegisterCorrected(s, email, password, token, now, id, hash).0.Ok?
    ensures Authorize(RegisterCorrected(s, email, password, token, now, id, hash).1.users, email, password, compare)
  {
    var users := RegisterCorrected(s, email, password, token, now, id, hash).1.users;
    assert email != "" && password != "";
    SignInChecksNewAccount(s.users, users, email, password, compare);
    assert compare(password, hash(password)) && hash(password) != "";
  }

  /** After a new account is appended for an email no earlier account has,
      signing in with that email checks the new account. */
  lemma SignInChecksNewAccount(before: seq<User>, after: seq<User>, email: string, password: string, compare: (string, string) -> bool)
    requires Lists.Find(before, UserEmail(Lower(email))) == |before|
    requires |after| == |before| + 1 && after[..|before|] == before
    requires after[|before|].email == EmailKey(email) && email != "" && password != ""
    ensures Authorize(after, email, password, compare) == ComparePassword(after[|before|], password, compare)
  {
    EmailKeyOfLower(email);
    forall j | 0 <= j < |before| ensures !UserEmail(Lower(email))(after[j]) {
      assert after[j] == before[j];
    }
    Lists.FindIsFirst(after, UserEmail(Lower(email)), |before|);
  }

  /** An invitation assigns membership at most once: after a redemption,
      registering again with the same token, at any later instant, finds no
      pending invitation. */
  lemma InvitationRedeemedOnce(s: Store, email: string, password: string, token: string, now: int, id: Id, hash: string -> string, later: int)
    requires UniqueTokens(s.invitations) && token != ""
    requires Register(s, email, password, token, now, id, hash).0.Ok?
    requires Register(s, email, password, token, now, id, hash).0.body.wasInvited
    ensures var s' := Register(s, email, password, token, now, id, hash).1;
      Lists.Find(s'.invitations, Pending(token, Lower(email), later)) == |s'.invitations|
  {
    var k := PendingIndex(s.invitations, token, email, now);
    UsedInvitationNeverMatches(s.invitations, k, token, Lower(email), now, later);
  }

  /** Every invitation carrying `token` is past its seven days at `now`. */
  predicate AllExpired(invitations: seq<Invitation>, token: string, now: int) {
    forall j :: 0 <= j < |invitations| && invitations[j].token == token ==> Expired(invitations[j], now)
  }

  /** No lookup at `now` finds an invitation that has expired. */
  lemma ExpiredNeverPending(invitations: seq<Invitation>, token: string, email: string, now: int)
    requires AllExpired(invitations, token, now)
    ensures Lists.Find(invitations, Pending(token, email, now)) == |invitations|
  {
  }

  /** An expired invitation is never redeemed by registration: an existing
      account gets 409 and a new one 400, and nothing changes. */
  lemma ExpiredInvitationRefused(s: Store, email: string, password: string, token: string, now: int, id: Id, hash: string -> string)
    requires email != "" && password != "" && token != ""
    requires AllExpired(s.invitations, token, now)
    ensures var r := Register(s, email, password, token, now, id, hash);
      && r.1 == s
      && (Lists.Find(s.users, UserEmail(Lower(email))) < |s.users| ==> r.0.Fail? && r.0.status == 409)
      && (Lists.Find(s.users, UserEmail(Lower(email))) == |s.users| ==> r.0 == Fail(400, NotValid))
  {
    ExpiredNeverPending(s.invitations, token, Lower(email), now);
  }

  /** A new account registering while its invitation is live is placed in
      the invitation's house, and the invitation becomes used. */
  lemma LiveInvitationRedeemed(s: Store, email: string, password: string, token: string, now: int, id: Id, hash: string -> string, k: nat)
    requires email != "" && password != "" && token != ""
    requires Lists.Find(s.users, UserEmail(Lower(email))) == |s.users|
    requires UniqueTokens(s.invitations) && k < |s.invitations| && Pending(token, Lower(email), now)(s.invitations[k])
    ensures var r := Register(s, email, password, token, now, id, hash);
      && r.1.invitations == MarkUsed(s.invitations, k)
      && (r.0.Fail? ==> r.0.status == 500)
      && (r.0.Ok? ==> r.0.body.casa == Some(s.invitations[k].casa) && r.0.body.wasInvited)
  {
    FindIsUniqueToken(s.invitations, token, Lower(email), now, k);
    RegisterNewUser(s, email, password, token, now, id, hash);
  }

  /** An expired invitation is never redeemed by association either: the
      caller gets no house and nothing changes. */
  lemma ExpiredInvitationNotAssociated(session: Option<Session>, s: Store, email: string, token: string, now: int)
    requires AllExpired(s.invitations, token, now)
    ensures var r := Associate(session, s, email, token, now);
      && r.1 == s
      && !(r.0.Ok? && r.0.body.Associated?)
  {
    if session.Some? && session.value.user != "" && email != "" && token != "" {
      ExpiredNeverPending(s.invitations, token, Lower(email), now);
      AssociateOutcomes(session.value, s, email, token, now);
    }
  }

  /** A houseless account redeeming a live invitation by association joins
      its house, and only that account and that invitation change. */
  lemma LiveInvitationAssociates(session: Session, s: Store, email: string, token: string, now: int, i: nat, k: nat)
    requires session.user != "" && email != "" && token != ""
    requires UniqueUsers(s.users) && i < |s.users| && s.users[i].email == EmailKey(email) && s.users[i].casa.None?
    requires UniqueTokens(s.invitations) && k < |s.invitations| && Pending(token, Lower(email), now)(s.invitations[k])
    ensures Associate(Some(session), s, email, token, now)
         == (Ok(Associated(s.invitations[k].casa)),
             Store(s.users[i := s.users[i].(casa := Some(s.invitations[k].casa))], s.casas,
                   s.invitations[k := s.invitations[k].(used := true)]))
  {
    FindIsUniqueUser(s.users, email, i);
    FindIsUniqueToken(s.invitations, token, Lower(email), now, k);
    AssociateOutcomes(session, s, email, token, now);
  }

  /** With unique emails the first match is the only one. */
  lemma FindIsUniqueUser(users: seq<User>, email: string, i: nat)
    requires UniqueUsers(users) && i < |users| && users[i].email == EmailKey(email)
    ensures Lists.Find(users, UserEmail(email)) == i
  {
    assert UserEmail(email)(users[i]);
    assert forall j :: 0 <= j < |users| && j != i ==> !UserEmail(email)(users[j]);
  }

  lemma FindIsUniqueToken(invitations: seq<Invitation>, token: string, email: string, now: int, k: nat)
    requires UniqueTokens(invitations) && k < |invitations| && Pending(token, email, now)(invitations[k])
    ensures Lists.Find(invitations, Pending(token, email, now)) == k
  {
    assert Pending(token, email, now)(invitations[k]);
    assert forall j :: 0 <= j < |invitations| && j != k ==> !Pending(token, email, now)(invitations[j]);
  }

  // -------------------------------------------------------- association

  datatype Associated = AlreadyMember | Associated(casa: Id)

  /** The associate-user route at instant `now`: the logged-in caller
      redeems `token` for the account with `email`. The caller need not be
      that account. */
  function Associate(session: Option<Session>, s: Store, email: string, token: string, now: int): (r: (Response<Associated>, Store))
    ensures session.None? || session.value.user == "" ==> r == (Fail(401, "No autorizado"), s)
    ensures r.0.Fail? || r.0.body.AlreadyMember? ==> r.1 == s
    ensures r.0.Fail? ==> r.0.status in {400, 401, 404}
  {
    if session.None? || session.value.user == "" then (Fail(401, "No autorizado"), s)
    else if email == "" || token == "" then (Fail(400, "Email y token de invitación son requeridos"), s)
    else
      var i := Lists.Find(s.users, UserEmail(email));
      if i == |s.users| then (Fail(404, "Usuario no encontrado"), s)
      else if s.users[i].casa.Some? then (Ok(AlreadyMember), s)
      else
        var k := Lists.Find(s.invitations, Pending(token, Lower(email), now));
        if k == |s.invitations| then (Fail(400, NotValid), s)
        else
          var casa := s.invitations[k].casa;
          (Ok(Associated(casa)), s.(users := JoinCasa(s.users, i, casa), invitations := MarkUsed(s.invitations, k)))
  }

  /** The outcome of every case: which reply, and on success exactly which
      two documents change. */
  lemma AssociateOutcomes(session: Session, s: Store, email: string, token: string, now: int)
    requires session.user != "" && email != "" && token != ""
    ensures var r := Associate(Some(session), s, email, token, now);
      var i := Lists.Find(s.users, UserEmail(email));
      var k := Lists.Find(s.invitations, Pending(token, Lower(email), now));
      && (i == |s.users| ==> r.0 == Fail(404, "Usuario no encontrado"))
      && (i < |s.users| && s.users[i].casa.Some? ==> r == (Ok(AlreadyMember), s))
      && (i < |s.users| && s.users[i].casa.None? && k == |s.invitations| ==> r.0 == Fail(400, NotValid))
      && (i < |s.users| && s.users[i].casa.None? && k < |s.invitations| ==>
            && r.0 == Ok(Associated(s.invitations[k].casa))
            && r.1 == Store(s.users[i := s.users[i].(casa := Some(s.invitations[k].casa))], s.casas,
                            s.invitations[k := s.invitations[k].(used := true)]))
  {
  }

  // ----------------------------------------------------------- invitation

  datatype Invited = Invited(userAddedDirectly: bool, token: string)

  const InviteRefused: string := "Usuario no autorizado o sin casa asignada"
  const SendFailed: string := "Error al enviar la invitación"

  /** `sendInvitationEmail`: fails without a token; otherwise `delivered`,
      the mail service's answer. */
  function SendInvitationEmail(token: string, delivered: bool): (ok: bool)
    ensures ok ==> token != ""
    ensures token != "" ==> ok == delivered
  {
    token != "" && delivered
  }

  /** The invitations left once those for `stored` are deleted. */
  function Kept(invitations: seq<Invitation>, stored: string): seq<Invitation> {
    Lists.Filter(invitations, OtherEmail(stored))
  }

  /** The invite route, with `stored` the email the invitation is written
      with (and the earlier invitations are deleted by). `token` is the fresh
      random token, `now` the clock, `delivered` the mail service's answer.
      An account without a house joins at once. If the mail fails only the
      new invitation is removed again. */
  function InviteStoring(session: Option<Session>, s: Store, email: string, stored: string, token: string, now: int, delivered: bool): (r: (Response<Invited>, Store))
    ensures !HasCasa(session) ==> r == (Fail(401, InviteRefused), s)
    ensures r.0.Fail? ==> r.0.status in {400, 401, 500}
    ensures r.1.casas == s.casas
    ensures r.0.Ok? ==> r.1.invitations == Kept(s.invitations, stored) + [Invitation(token, stored, session.value.casa, now, r.0.body.userAddedDirectly)]
    ensures r.0.Ok? ==> r.0.body.token == token
    ensures r.0.Ok? ==> Lists.Find(Kept(s.invitations, stored), InvitationToken(token)) == |Kept(s.invitations, stored)|
    ensures r.0.Fail? ==> r.1.invitations == s.invitations || r.1.invitations == Kept(s.invitations, stored)
    ensures r.0.Ok? || r.0 == Fail(500, SendFailed) ==> (
      var i := Lists.Find(s.users, UserEmail(email));
      && HasCasa(session)
      && (r.0.Ok? ==> (r.0.body.userAddedDirectly <==> i < |s.users|))
      && (i < |s.users| ==> r.1.users == JoinCasa(s.users, i, session.value.casa))
      && (i == |s.users| ==> r.1.users == s.users))
  {
    if !HasCasa(session) then (Fail(401, InviteRefused), s)
    else
      var casa := session.value.casa;
      var i := Lists.Find(s.users, UserEmail(email));
      if i < |s.users| && s.users[i].casa.Some? then (Fail(400, "El usuario ya pertenece a una casa"), s)
      else
        var kept := Kept(s.invitations, stored);
        var inv := NewInvitation(token, stored, casa, now);
        if !ValidInvitation(inv) || Lists.Find(kept, InvitationToken(token)) < |kept| then
          (Fail(500, "Error al procesar la invitación"), s.(invitations := kept))
        else
          var direct := i < |s.users|;
          var users := if direct then JoinCasa(s.users, i, casa) else s.users;
          if !SendInvitationEmail(token, delivered) then (Fail(500, SendFailed), Store(users, s.casas, kept))
          else (Ok(Invited(direct, token)), Store(users, s.casas, kept + [inv.(used := direct)]))
  }

  /** Invitation tokens stay unique: the earlier invitations for the email go
      and the new token is checked against the rest. */
  lemma InviteKeepsTokensUnique(session: Option<Session>, s: Store, email: string, stored: string, token: string, now: int, delivered: bool)
    requires UniqueTokens(s.invitations)
    ensures UniqueTokens(InviteStoring(session, s, email, stored, token, now, delivered).1.invitations)
  {
    KeptTokensUnique(s.invitations, stored);
    var r := InviteStoring(session, s, email, stored, token, now, delivered);
    if r.0.Ok? {
      var kept := Kept(s.invitations, stored);
      forall j | 0 <= j < |kept| ensures kept[j].token != token {
        assert !InvitationToken(token)(kept[j]);
      }
      AppendFreshToken(kept, r.1.invitations[|kept|]);
    }
  }

  /** An invitation whose token no stored invitation has can be appended
      without breaking the unique index on tokens. */
  lemma AppendFreshToken(invitations: seq<Invitation>, inv: Invitation)
    requires UniqueTokens(invitations)
    requires forall j :: 0 <= j < |invitations| ==> invitations[j].token != inv.token
    ensures UniqueTokens(invitations + [inv])
  {
  }

  /** The route as written: the invitation keeps the email exactly as typed. */
  function Invite(session: Option<Session>, s: Store, email: string, token: string, now: int, delivered: bool): (r: (Response<Invited>, Store))
    ensures r.0.Ok? ==> r.1.invitations != []
    ensures r.0.Ok? ==> r.1.invitations[|r.1.invitations| - 1].email == email
  {
    InviteStoring(session, s, email, email, token, now, delivered)
  }

  /** The route as intended: the invitation is written with the lower-cased
      email, the form in which registration and association look it up. */
  function InviteCorrected(session: Option<Session>, s: Store, email: string, token: string, now: int, delivered: bool): (r: (Response<Invited>, Store))
    ensures r.0.Ok? ==> r.1.invitations != []
    ensures r.0.Ok? ==> IsLower(r.1.invitations[|r.1.invitations| - 1].email)
  {
    LowerIsLower(email);
    InviteStoring(session, s, email, Lower(email), token, now, delivered)
  }

  /** An invitee who already has a house is refused and nothing changes. */
  lemma InviteMemberRefused(session: Option<Session>, s: Store, email: string, stored: string, token: string, now: int, delivered: bool)
    requires HasCasa(session)
    requires Lists.Find(s.users, UserEmail(email)) < |s.users| && s.users[Lists.Find(s.users, UserEmail(email))].casa.Some?
    ensures InviteStoring(session, s, email, stored, token, now, delivered) == (Fail(400, "El usuario ya pertenece a una casa"), s)
  {
  }

  /** After a successful invitation exactly one invitation exists for the
      email: the new one, for the inviter's house, already used exactly when
      the account existed (and joined directly). Invitations for other
      emails are kept, in order. */
  lemma InviteLeavesOneInvitation(session: Option<Session>, s: Store, email: string, stored: string, token: string, now: int, delivered: bool)
    requires InviteStoring(session, s, email, stored, token, now, delivered).0.Ok?
    ensures var r := InviteStoring(session, s, email, stored, token, now, delivered);
      var i := Lists.Find(s.users, UserEmail(email));
      && Lists.Count(r.1.invitations, InvitationFor(stored)) == 1
      && Lists.Filter(r.1.invitations, InvitationFor(stored)) == [Invitation(token, stored, session.value.casa, now, i < |s.users|)]
      && Lists.Filter(r.1.invitations, OtherEmail(stored)) == Kept(s.invitations, stored)
  {
    var kept := Kept(s.invitations, stored);
    var r := InviteStoring(session, s, email, stored, token, now, delivered);
    var inv := r.1.invitations[|r.1.invitations| - 1];
    assert r.1.invitations == kept + [inv];
    NoneForEmail(s.invitations, stored);
    Lists.FilterSnoc(kept, inv, InvitationFor(stored));
    Lists.FilterSnoc(kept, inv, OtherEmail(stored));
    Lists.FilterFilter(s.invitations, OtherEmail(stored), OtherEmail(stored));
    Lists.FilterExt(s.invitations, Lists.And(OtherEmail(stored), OtherEmail(stored)), OtherEmail(stored));
  }

  /** When the mail fails, no invitation for the email remains (the earlier
      ones stay deleted) and a direct assignment is not undone. */
  lemma InviteMailFailure(session: Option<Session>, s: Store, email: string, stored: string, token: string, now: int)
    requires HasCasa(session) && token != "" && stored != ""
    requires var i := Lists.Find(s.users, UserEmail(email)); !(i < |s.users| && s.users[i].casa.Some?)
    requires var kept := Kept(s.invitations, stored); Lists.Find(kept, InvitationToken(token)) == |kept|
    ensures var r := InviteStoring(session, s, email, stored, token, now, false);
      var i := Lists.Find(s.users, UserEmail(email));
      && r.0 == Fail(500, SendFailed)
      && Lists.Count(r.1.invitations, InvitationFor(stored)) == 0
      && (i < |s.users| ==> r.1.users[i].casa == Some(session.value.casa))
  {
    var r := InviteStoring(session, s, email, stored, token, now, false);
    assert r.0 == Fail(500, SendFailed) && r.1.invitations == Kept(s.invitations, stored);
    NoneForEmail(s.invitations, stored);
  }

  /** As written, an invitation for an email with an upper-case letter can
      never be redeemed: the lookup by registration or association compares
      the lower-cased email with the one stored as typed. */
  lemma {:induction false} UpperCaseInvitationNeverRedeemed(session: Option<Session>, s: Store, email: string, token: string, now: int, delivered: bool, email': string, later: int)
    requires Invite(session, s, email, token, now, delivered).0.Ok?
    requires !IsLower(email)
    ensures var s' := Invite(session, s, email, token, now, delivered).1;
      Lists.Find(s'.invitations, Pending(token, Lower(email'), later)) == |s'.invitations|
  {
    var s' := Invite(session, s, email, token, now, delivered).1;
    var kept := Kept(s.invitations, email);
    assert forall j :: 0 <= j < |kept| ==> !InvitationToken(token)(kept[j]);
    LowerIsLower(email');
    assert forall j :: 0 <= j < |s'.invitations| ==> !Pending(token, Lower(email'), later)(s'.invitations[j]) by {
      forall j | 0 <= j < |s'.invitations|
        ensures !Pending(token, Lower(email'), later)(s'.invitations[j])
      {
        if j < |kept| {
          assert s'.invitations[j] == kept[j];
        }
      }
    }
  }

  /** A concrete case: inviting "Ana@x.com" into an empty store keeps the
      email as typed ... */
  lemma UpperCaseInvitationExample()
    ensures Invite(Some(Session("u1", "owner@x.com", "c1")), Store([], [], []), "Ana@x.com", "t0", 0, true)
         == (Ok(Invited(false, "t0")), Store([], [], [Invitation("t0", "Ana@x.com", "c1", 0, false)]))
  {
    var session := Some(Session("u1", "owner@x.com", "c1"));
    assert Lists.Find([], UserEmail("Ana@x.com")) == 0;
    assert Kept([], "Ana@x.com") == [];
    assert Lists.Find([], InvitationToken("t0")) == 0;
    assert [] + [Invitation("t0", "Ana@x.com", "c1", 0, false)] == [Invitation("t0", "Ana@x.com", "c1", 0, false)];
  }

  /** ... and registering with that token is then refused as if there were
      no invitation, whatever the letter case of the email typed. */
  lemma UpperCaseRegistrationRefused(email: string, password: string, now: int, id: Id, hash: string -> string)
    requires email != "" && password != ""
    ensures var s := Store([], [], [Invitation("t0", "Ana@x.com", "c1", 0, false)]);
      Register(s, email, password, "t0", now, id, hash) == (Fail(400, NotValid), s)
  {
    var inv := Invitation("t0", "Ana@x.com", "c1", 0, false);
    assert Lists.Find([inv], Pending("t0", Lower(email), now)) == 1 by {
      LowerIsLower(email);
      assert IsUpperAscii(inv.email[0]);
    }
    RegisterBadTokenCreatesNothing(Store([], [], [inv]), email, password, "t0", now, id, hash);
  }

  /** With the corrected route, a new account registering under the invited
      email, in any letter case, finds the invitation sent at `now` exactly
      when it comes within the seven days the mail promises, and then gets
      the inviter's house. */
  lemma {:induction false} CorrectedInvitationRedeemable(session: Option<Session>, s: Store, email: string, token: string, now: int, delivered: bool, email': string, later: int)
    requires InviteCorrected(session, s, email, token, now, delivered).0.Ok?
    requires !InviteCorrected(session, s, email, token, now, delivered).0.body.userAddedDirectly
    requires Lower(email') == Lower(email)
    ensures var s' := InviteCorrected(session, s, email, token, now, delivered).1;
      var k := PendingIndex(s'.invitations, token, email', later);
      && (k < |s'.invitations| <==> later - now < 604_800_000)
      && (k < |s'.invitations| ==> k == |s'.invitations| - 1 && s'.invitations[k].casa == session.value.casa)
  {
    var s' := InviteCorrected(session, s, email, token, now, delivered).1;
    var kept := Kept(s.invitations, Lower(email));
    var inv := s'.invitations[|kept|];
    assert forall j :: 0 <= j < |kept| ==> !InvitationToken(token)(kept[j]);
    assert forall j :: 0 <= j < |kept| ==> s'.invitations[j] == kept[j];
    assert inv.createdAt == now;
    if later - now < 604_800_000 {
      assert Pending(token, Lower(email'), later)(inv);
    } else {
      assert !Pending(token, Lower(email'), later)(inv);
    }
  }

  /** Deleting by email keeps the tokens unique. */
  lemma {:induction false} KeptTokensUnique(invitations: seq<Invitation>, stored: string)
    ensures UniqueTokens(invitations) ==> UniqueTokens(Kept(invitations, stored))
    decreases |invitations|
  {
    if invitations != [] && UniqueTokens(invitations) {
      var rest := invitations[1..];
      assert UniqueTokens(rest) by {
        assert forall i :: 0 <= i < |rest| ==> rest[i] == invitations[i + 1];
      }
      KeptTokensUnique(rest, stored);
      var t := Kept(rest, stored);
      assert forall j :: 0 <= j < |t| ==> t[j] in rest;
      assert forall x :: x in rest ==> x.token != invitations[0].token;
    }
  }

  /** Deleting by email leaves none for that email. */
  lemma NoneForEmail(invitations: seq<Invitation>, email: string)
    ensures Lists.Count(Kept(invitations, email), InvitationFor(email)) == 0
  {
    var kept := Kept(invitations, email);
    if Lists.Filter(kept, InvitationFor(email)) != [] {
      var x := Lists.Filter(kept, InvitationFor(email))[0];
      assert x in kept;
    }
  }
}

=== FILE: mocks.dfy ===
/** The in-memory stand-ins: the meal and weekly-menu routes that keep their
    documents in a module-level array, the store of test emails, and the
    fixed list of test users. */
module Mocks {

  import opened Base
  import opened Ordered
  import Lists

  /** JSON values as the mock routes store them. */
  datatype Json = JStr(s: string) | JNum(n: int) | JArr(items: seq<Json>) | JObj(fields: OMap<Json>)

  /** A stored document: a JSON object, its keys in insertion order. */
  type Doc = OMap<Json>

  const MockUser: Json := JStr("mock-user")
  const MockCasa: Json := JStr("mock-casa")

  // --------------------------------------------------------------- spread

  /** `{ ...base, ...data }`: every entry of `data` overwrites or extends
      `base`. */
  function Spread(base: Doc, data: Doc): (r: Doc)
    ensures UniqueKeys(base) ==> UniqueKeys(r)
    decreases |data|
  {
    if data == [] then base
    else
      PutUnique(base, data[0].key, data[0].value);
      Spread(Put(base, data[0].key, data[0].value), data[1..])
  }

  /** After a spread a key holds the value `data` gives it, or else the one
      `base` had. */
  lemma {:induction false} SpreadLookup(base: Doc, data: Doc, k: string)
    requires UniqueKeys(data)
    ensures Lookup(Spread(base, data), k) == if HasKey(data, k) then Lookup(data, k) else Lookup(base, k)
    decreases |data|
  {
    if data != [] {
      var e := data[0];
      var rest := data[1..];
      assert UniqueKeys(rest);
      SpreadLookup(Put(base, e.key, e.value), rest, k);
      PutLookup(base, e.key, e.value, k);
      if k != e.key {
        LookupTail(data, k);
      } else {
        FirstKeyNotInTail(data);
        LookupAt(data, 0);
      }
    }
  }

  /** A key other than the first is looked up in the rest. */
  lemma LookupTail(m: Doc, k: string)
    requires m != [] && m[0].key != k
    ensures Lookup(m, k) == Lookup(m[1..], k)
    ensures HasKey(m, k) <==> HasKey(m[1..], k)
  {
    assert forall i :: 0 <= i < |m| - 1 ==> m[1..][i] == m[i + 1];
  }

  /** With unique keys the first key does not occur again. */
  lemma FirstKeyNotInTail(m: Doc)
    requires m != [] && UniqueKeys(m)
    ensures !HasKey(m[1..], m[0].key)
  {
    assert forall i :: 0 <= i < |m| - 1 ==> m[1..][i] == m[i + 1];
  }

  /** `{ _id: Date.now().toString(), ...data }`: the data over a fresh id. */
  function Stamped(now: string, data: Doc): (r: Doc)
    requires UniqueKeys(data)
    ensures UniqueKeys(r)
    ensures forall k :: Lookup(r, k) == if HasKey(data, k) then Lookup(data, k) else Lookup([Entry("_id", JStr(now))], k)
  {
    var base: Doc := [Entry("_id", JStr(now))];
    forall k ensures Lookup(Spread(base, data), k) == if HasKey(data, k) then Lookup(data, k) else Lookup(base, k) {
      SpreadLookup(base, data, k);
    }
    Spread(base, data)
  }

  /** `{ _id: Date.now().toString(), ...data, user: "mock-user", casa:
      "mock-casa" }`. */
  function NewDoc(now: string, data: Doc): (r: Doc)
    requires UniqueKeys(data)
    ensures UniqueKeys(r)
    ensures Lookup(r, "user") == Some(MockUser) && Lookup(r, "casa") == Some(MockCasa)
    ensures Lookup(r, "_id") == if HasKey(data, "_id") then Lookup(data, "_id") else Some(JStr(now))
    ensures forall k :: k != "user" && k != "casa" && k != "_id" ==> Lookup(r, k) == Lookup(data, k)
  {
    var spread := Stamped(now, data);
    assert Lookup([Entry("_id", JStr(now))], "_id") == Some(JStr(now));
    assert forall k :: k != "_id" ==> Lookup([Entry("_id", JStr(now))], k) == None;
    var r := Put(Put(spread, "user", MockUser), "casa", MockCasa);
    PutLookupAll(spread, "user", MockUser);
    PutLookupAll(Put(spread, "user", MockUser), "casa", MockCasa);
    PutUnique(spread, "user", MockUser);
    PutUnique(Put(spread, "user", MockUser), "casa", MockCasa);
    r
  }

  /** A store in which every document belongs to the mock user and house. */
  predicate Owned(store: seq<Doc>) {
    forall i :: 0 <= i < |store| ==> Lookup(store[i], "user") == Some(MockUser) && Lookup(store[i], "casa") == Some(MockCasa)
  }

  /** A POST to a mock route: the parsed body, or `None` when it cannot be
      parsed. The reply, and the store afterwards. */
  function Post(store: seq<Doc>, body: Option<Doc>, now: string, fallback: Doc): (r: (Doc, seq<Doc>))
    requires body.Some? ==> UniqueKeys(body.value)
    ensures |store| <= |r.1| <= |store| + 1 && r.1[..|store|] == store
    ensures body.None? ==> r == (fallback, store)
    ensures body.Some? ==> r.1 == store + [r.0] && r.0 == NewDoc(now, body.value)
    ensures Owned(store) ==> Owned(r.1)
  {
    match body
    case None => (fallback, store)
    case Some(data) =>
      var d := NewDoc(now, data);
      OwnedSnoc(store, d);
      (d, store + [d])
  }

  lemma OwnedSnoc(store: seq<Doc>, d: Doc)
    requires Lookup(d, "user") == Some(MockUser) && Lookup(d, "casa") == Some(MockCasa)
    ensures Owned(store) ==> Owned(store + [d])
    ensures (store + [d])[..|store|] == store
  {
  }

  /** A `GET` on an in-memory store (the meal and weekly-menu routes, and
      `getTestEmails`): the store as it stands, nothing dropped or
      reordered. */
  function Current<T>(store: seq<T>): (r: seq<T>)
    ensures r == store
  {
    store
  }

  /** Two requests append two documents, in order, even when they carry the
      same fields: there is no update in place. */
  lemma PostsAppend(store: seq<Doc>, a: Doc, b: Doc, now1: string, now2: string, fallback: Doc)
    requires UniqueKeys(a) && UniqueKeys(b)
    ensures var s1 := Post(store, Some(a), now1, fallback).1;
      var s2 := Post(s1, Some(b), now2, fallback).1;
      s2 == store + [NewDoc(now1, a), NewDoc(now2, b)]
  {
    var s1 := Post(store, Some(a), now1, fallback).1;
    PostAppends(store, a, now1, fallback);
    PostAppends(s1, b, now2, fallback);
    SnocSnoc(store, NewDoc(now1, a), NewDoc(now2, b));
  }

  /** A parsed body appends its document. */
  lemma PostAppends(store: seq<Doc>, a: Doc, now: string, fallback: Doc)
    requires UniqueKeys(a)
    ensures Post(store, Some(a), now, fallback).1 == store + [NewDoc(now, a)]
  {
  }

  lemma SnocSnoc(s: seq<Doc>, x: Doc, y: Doc)
    ensures s + [x] + [y] == s + [x, y]
  {
  }

  // ---------------------------------------------------------------- meals

  function Str(s: string): Json {
    JStr(s)
  }

  function Strs(items: seq<string>): Json {
    JArr(Lists.Map(items, Str))
  }

  function Nutrition(calories: int, protein: int, carbs: int, fat: int): Json {
    JObj([Entry("calories", JNum(calories)), Entry("protein", JNum(protein)),
          Entry("carbs", JNum(carbs)), Entry("fat", JNum(fat))])
  }

  function MockMeal(id: string, name: string, mealType: string, ingredients: Json, mealTime: string, nutrition: Json): Doc {
    [Entry("_id", JStr(id)), Entry("name", JStr(name)), Entry("type", JStr(mealType)),
     Entry("ingredients", ingredients), Entry("mealTime", JStr(mealTime)),
     Entry("casa", MockCasa), Entry("user", MockUser), Entry("nutritionalInfo", nutrition)]
  }

  /** The three meals the meal route starts with. */
  const InitialMeals: seq<Doc> := [Pollo, Pasta, Ensalada]

  const Pollo: Doc := MockMeal("1", "Pollo a la plancha", "pollo", JArr([Str("pollo"), Str("sal"), Str("pimienta"), Str("aceite")]), "Almuerzo", Nutrition(250, 30, 0, 12))
  const Pasta: Doc := MockMeal("2", "Pasta con tomate", "pastas", JArr([Str("pasta"), Str("tomate"), Str("albahaca"), Str("ajo")]), "Cena", Nutrition(350, 12, 65, 8))
  const Ensalada: Doc := MockMeal("3", "Ensalada mixta", "vegetariano", JArr([Str("lechuga"), Str("tomate"), Str("zanahoria"), Str("aceite de oliva")]), "Almuerzo", Nutrition(120, 3, 15, 6))

  /** The reply to a body that cannot be parsed; it is not stored. */
  function FallbackMeal(now: string): Doc {
    [Entry("_id", JStr(now)), Entry("name", JStr("Comida nueva")), Entry("type", JStr("otros")),
     Entry("ingredients", Strs(["ingrediente"])), Entry("mealTime", JStr("Almuerzo")),
     Entry("casa", MockCasa), Entry("user", MockUser)]
  }

  /** A mock meal belongs to the mock user and house and carries its id. */
  lemma MockMealOwned(id: string, name: string, mealType: string, ingredients: Json, mealTime: string, nutrition: Json)
    ensures var m := MockMeal(id, name, mealType, ingredients, mealTime, nutrition);
      && Lookup(m, "_id") == Some(JStr(id))
      && Lookup(m, "user") == Some(MockUser) && Lookup(m, "casa") == Some(MockCasa)
  {
    var m := MockMeal(id, name, mealType, ingredients, mealTime, nutrition);
    KeyIndexIs(m, "_id", 0);
    KeyIndexIs(m, "casa", 5);
    KeyIndexIs(m, "user", 6);
  }

  /** Any document built as a mock meal belongs to the mock user and house. */
  lemma BuiltMealOwned(m: Doc)
    requires exists id, name, t, ing, mt, n :: m == MockMeal(id, name, t, ing, mt, n)
    ensures Owned([m])
  {
    var id, name, t, ing, mt, n :| m == MockMeal(id, name, t, ing, mt, n);
    MockMealOwned(id, name, t, ing, mt, n);
  }

  lemma OwnedThree(a: Doc, b: Doc, c: Doc)
    requires Owned([a]) && Owned([b]) && Owned([c])
    ensures Owned([a, b, c])
  {
    assert [a][0] == a && [b][0] == b && [c][0] == c;
  }

  /** The meal route starts with three meals, with the ids "1", "2" and
      "3", all of the mock user and house. */
  lemma InitialMealsOwned()
    ensures |InitialMeals| == 3
    ensures Lookup(InitialMeals[0], "_id") == Some(JStr("1"))
    ensures Lookup(InitialMeals[1], "_id") == Some(JStr("2"))
    ensures Lookup(InitialMeals[2], "_id") == Some(JStr("3"))
    ensures Owned(InitialMeals)
  {
    KeyIndexIs(Pollo, "_id", 0);
    KeyIndexIs(Pasta, "_id", 0);
    KeyIndexIs(Ensalada, "_id", 0);
    BuiltMealOwned(Pollo);
    BuiltMealOwned(Pasta);
    BuiltMealOwned(Ensalada);
    OwnedThree(Pollo, Pasta, Ensalada);
  }

  // --------------------------------------------------------- weekly menus

  function Day(almuerzo: string, cena: string): Json {
    JObj([Entry("almuerzo", JStr(almuerzo)), Entry("cena", JStr(cena))])
  }

  /** The menu the weekly-menu route starts with; `today` is the ISO time at
      start-up. */
  function InitialMenus(today: string): seq<Doc> {
    [[Entry("_id", JStr("1")), Entry("fecha", JStr(today)),
      Entry("menu", JObj([Entry("Lunes", Day("Pollo a la plancha", "Pasta con tomate")),
                          Entry("Martes", Day("Ensalada mixta", "Pescado al horno")),
                          Entry("Miércoles", Day("Arroz con pollo", "Sopa de verduras"))])),
      Entry("ingredientes", Strs(["pollo", "pasta", "tomate", "lechuga", "pescado", "arroz", "verduras"])),
      Entry("user", MockUser), Entry("casa", MockCasa)]]
  }

  /** The reply to a body that cannot be parsed; it is not stored. */
  function FallbackMenu(now: string, today: string): Doc {
    [Entry("_id", JStr(now)), Entry("fecha", JStr(today)),
     Entry("menu", JObj([Entry("Lunes", Day("Comida", "Cena"))])),
     Entry("ingredientes", JArr([])), Entry("user", MockUser), Entry("casa", MockCasa)]
  }

  lemma InitialMenusOwned(today: string)
    ensures Owned(InitialMenus(today))
  {
    var m := InitialMenus(today)[0];
    KeyIndexIs(m, "user", 4);
    KeyIndexIs(m, "casa", 5);
  }

  /** Whatever is posted, every stored menu belongs to the mock user and
      house. */
  lemma {:induction false} MenusStayOwned(store: seq<Doc>, bodies: seq<Option<Doc>>, now: string, today: string)
    requires Owned(store)
    requires forall i :: 0 <= i < |bodies| && bodies[i].Some? ==> UniqueKeys(bodies[i].value)
    ensures Owned(PostAll(store, bodies, now, FallbackMenu(now, today)))
    decreases |bodies|
  {
    if bodies != [] {
      MenusStayOwned(Post(store, bodies[0], now, FallbackMenu(now, today)).1, bodies[1..], now, today);
    }
  }

  /** A series of POSTs, each applied to the store the previous one left. */
  function PostAll(store: seq<Doc>, bodies: seq<Option<Doc>>, now: string, fallback: Doc): (r: seq<Doc>)
    requires forall i :: 0 <= i < |bodies| && bodies[i].Some? ==> UniqueKeys(bodies[i].value)
    ensures |store| <= |r| <= |store| + |bodies| && r[..|store|] == store
    decreases |bodies|
  {
    if bodies == [] then store
    else
      PostAll(Post(store, bodies[0], now, fallback).1, bodies[1..], now, fallback)
  }

  // ---------------------------------------------------------- test emails

  datatype TestEmail = TestEmail(to: string, from: string, subject: string, html: string, sentAt: int)

  /** `saveTestEmail`: the email is stored with the current time. */
  function SaveTestEmail(store: seq<TestEmail>, e: TestEmail, now: int): (r: seq<TestEmail>)
    ensures |r| == |store| + 1 && r[..|store|] == store
    ensures r[|store|] == e.(sentAt := now)
  {
    store + [e.(sentAt := now)]
  }

  /** `clearTestEmails`. */
  function ClearTestEmails(store: seq<TestEmail>): (r: seq<TestEmail>)
    ensures r == []
  {
    []
  }

  /** The time an email is given as sent is the time it was saved, whatever
      it carried. */
  lemma SentAtIsSaveTime(store: seq<TestEmail>, e: TestEmail, t: int, now: int)
    ensures SaveTestEmail(store, e, now) == SaveTestEmail(store, e.(sentAt := t), now)
  {
  }

  /** After a clear, the store lists exactly the emails saved since, in the
      order they were saved, each with its save time. */
  lemma EmailsKeptInSaveOrder(store: seq<TestEmail>, a: TestEmail, b: TestEmail, t1: int, t2: int)
    ensures Current(SaveTestEmail(SaveTestEmail(ClearTestEmails(store), a, t1), b, t2))
         == [a.(sentAt := t1), b.(sentAt := t2)]
  {
    var s1 := SaveTestEmail(ClearTestEmails(store), a, t1);
    assert s1 == [a.(sentAt := t1)];
  }

  // ----------------------------------------------------------- test users

  datatype TestUser = TestUser(id: string, email: string, name: string)

  const TestUsers: seq<TestUser> := [
    TestUser("1", "usuario1@test.com", "Usuario 1"),
    TestUser("2", "usuario2@test.com", "Usuario 2"),
    TestUser("3", "usuario3@test.com", "Usuario 3")
  ]

  function EmailIs(email: string): TestUser -> bool {
    (u: TestUser) => u.email == email
  }

  /** `findTestUser`: the first test user with exactly that email. */
  function FindTestUser(email: string): (r: Option<TestUser>)
    ensures r.Some? ==> r.value in TestUsers && r.value.email == email
    ensures r.None? <==> forall i :: 0 <= i < |TestUsers| ==> TestUsers[i].email != email
  {
    var i := Lists.Find(TestUsers, EmailIs(email));
    if i < |TestUsers| then Some(TestUsers[i]) else None
  }

  /** The test users have distinct ids and emails, so a lookup by email
      finds the only user with it. */
  lemma TestUsersDistinct()
    ensures forall i, j :: 0 <= i < j < |TestUsers| ==> TestUsers[i].id != TestUsers[j].id && TestUsers[i].email != TestUsers[j].email
  {
  }

  lemma FindTestUserIsUnique(email: string, u: TestUser)
    requires u in TestUsers && u.email == email
    ensures FindTestUser(email) == Some(u)
  {
    TestUsersDistinct();
  }

  /** The lookup is case-sensitive. */
  lemma FindTestUserIsCaseSensitive()
    ensures FindTestUser("usuario1@test.com").Some?
    ensures FindTestUser("Usuario1@test.com").None?
  {
    assert TestUsers[0].email == "usuario1@test.com";
    assert "Usuario1@test.com"[0] == 'U';
    assert forall i :: 0 <= i < |TestUsers| ==> TestUsers[i].email[0] == 'u';
  }
}

=== FILE: nutrition.dfy ===
/** Nutrition estimates from the zero-shot classifier: the estimate route for
    an ingredient list and the batch recomputation of every meal of a house.
    The classifier is an outside function from the joined ingredient names to
    the labels it returns, `None` when the request fails or the reply has no
    label list. */
module Estimates {

  import opened Base
  import opened Text
  import opened Schema
  import opened Http
  import Lists
  import Ingredients

  /** The labels the classifier is asked to rank. */
  const CandidateLabels: seq<string> :=
    ["high calorie", "low calorie", "high protein", "low protein",
     "high carb", "low carb", "high fat", "low fat"]

  type Classifier = string -> Option<seq<string>>

  /** The text sent to the classifier. */
  function Inputs(names: seq<string>): string {
    Join(names, ", ")
  }

  /** The label-to-bucket mapping: each field takes its high value exactly
      when the matching "high …" label was returned, and its low value
      otherwise. */
  function Estimate(labels: seq<string>): (n: Nutrition)
    ensures n.calories in {300, 500} && (n.calories == 500 <==> "high calorie" in labels)
    ensures n.protein in {15, 30} && (n.protein == 30 <==> "high protein" in labels)
    ensures n.carbs in {30, 60} && (n.carbs == 60 <==> "high carb" in labels)
    ensures n.fat in {10, 20} && (n.fat == 20 <==> "high fat" in labels)
  {
    Nutrition(
      if "high calorie" in labels then 500 else 300,
      if "high protein" in labels then 30 else 15,
      if "high carb" in labels then 60 else 30,
      if "high fat" in labels then 20 else 10)
  }

  /** The estimate given to a meal without ingredient names. */
  const Default: Nutrition := Nutrition(300, 15, 30, 10)

  /** The default is the all-low estimate: what the mapping gives when the
      classifier returns none of the "high" labels. */
  lemma DefaultIsAllLow(labels: seq<string>)
    requires forall i :: 0 <= i < |labels| ==> labels[i] !in ["high calorie", "high protein", "high carb", "high fat"]
    ensures Estimate(labels) == Default
  {
    assert "high calorie" !in labels && "high protein" !in labels;
    assert "high carb" !in labels && "high fat" !in labels;
  }

  // ------------------------------------------------ the estimate route

  /** The estimate route. `body` is the request's `ingredients` field, `None`
      when the body is not JSON. */
  function NutritionRoute(session: Option<Session>, body: Option<Field>, classify: Classifier): (r: Response<Nutrition>)
    ensures !HasCasa(session) ==> r == Fail(401, NoCasa)
    ensures HasCasa(session) && body.Some? && Ingredients.ExtractIngredientNames(body.value) == [] ==> r.Fail? && r.status == 400
    ensures r.Ok? <==> HasCasa(session) && body.Some? && Ingredients.ExtractIngredientNames(body.value) != []
                        && classify(Inputs(Ingredients.ExtractIngredientNames(body.value))).Some?
    ensures r.Ok? ==> r.body == Estimate(classify(Inputs(Ingredients.ExtractIngredientNames(body.value))).value)
    ensures r.Fail? ==> r.status in {400, 401, 500}
  {
    if !HasCasa(session) then Fail(401, NoCasa)
    else if body.None? then Fail(500, "Error al procesar la información nutricional")
    else
      var names := Ingredients.ExtractIngredientNames(body.value);
      if names == [] then Fail(400, "No se pudieron extraer nombres de ingredientes válidos")
      else match classify(Inputs(names))
        case None => Fail(500, "Error al procesar la información nutricional")
        case Some(labels) => Ok(Estimate(labels))
  }

  /** An empty name list is rejected before the classifier is asked: the
      reply does not depend on it. */
  lemma EmptyNamesNeverClassify(session: Option<Session>, f: Field, c1: Classifier, c2: Classifier)
    requires Ingredients.ExtractIngredientNames(f) == []
    ensures NutritionRoute(session, Some(f), c1) == NutritionRoute(session, Some(f), c2)
  {
  }

  // ---------------------------------------- the batch recomputation route

  /** `calculateNutrition`: the default estimate without names, otherwise
      the mapped labels; `None` is the thrown classifier error. */
  function CalculateNutrition(f: Field, classify: Classifier): (r: Option<Nutrition>)
    ensures Ingredients.ExtractIngredientNames(f) == [] ==> r == Some(Default)
    ensures Ingredients.ExtractIngredientNames(f) != [] ==>
      (r.Some? <==> classify(Inputs(Ingredients.ExtractIngredientNames(f))).Some?)
  {
    var names := Ingredients.ExtractIngredientNames(f);
    if names == [] then Some(Default)
    else match classify(Inputs(names))
      case None => None
      case Some(labels) => Some(Estimate(labels))
  }

  /** Where both routes ask the classifier they map its labels alike: for a
      house member with ingredient names, the estimate route replies with
      what `calculateNutrition` computes, and fails where it throws. */
  lemma RoutesAgree(session: Option<Session>, f: Field, classify: Classifier)
    requires HasCasa(session) && Ingredients.ExtractIngredientNames(f) != []
    ensures CalculateNutrition(f, classify).Some? ==> NutritionRoute(session, Some(f), classify) == Ok(CalculateNutrition(f, classify).value)
    ensures CalculateNutrition(f, classify).None? ==> NutritionRoute(session, Some(f), classify).Fail?
  {
  }

  /** The legacy type fix: "carnes" becomes "carne", then the type is
      lower-cased. The check runs before lower-casing. */
  function NormaliseType(t: string): (r: string)
    ensures IsLower(r)
    ensures t == "carnes" ==> r == "carne"
  {
    Lower(if t == "carnes" then "carne" else t)
  }

  /** Stored types are lower case (the schema's setter), and for those the
      normalisation never leaves "carnes" behind and stays within the admitted
      types. */
  lemma NormaliseStoredType(t: string)
    requires t in MealTypes
    ensures NormaliseType(t) in MealTypes && NormaliseType(t) != "carnes"
    ensures t != "carnes" ==> NormaliseType(t) == t
  {
    MealTypesAreLower(t);
    LowerOfLower(t);
    assert Lower("carne") == "carne" by { LowerOfLower("carne"); }
  }

  /** Because the check runs first, an upper-case legacy spelling would come
      out as "carnes"; only the schema's setter keeps it from being stored. */
  lemma UpperCaseLegacyTypeSurvives()
    ensures NormaliseType("Carnes") == "carnes"
  {
    assert Lower("Carnes") == "carnes";
  }

  function AsValue(s: string): JsValue {
    JsString(s)
  }

  /** The ingredient field of a stored meal: an array of strings. */
  function StoredIngredients(m: Meal): Field {
    Array(Lists.Map(m.ingredients, AsValue))
  }

  /** One turn of the loop: a fresh estimate, whatever the meal had before,
      the type normalised, then `save`. `None` is a thrown error: the
      classifier's or a validation error. */
  function Recompute(m: Meal, classify: Classifier): (r: Option<Meal>)
    ensures r.Some? ==> r.value.id == m.id && r.value.name == m.name && r.value.casa == m.casa
    ensures r.Some? ==> r.value.nutritionalInfo == CalculateNutrition(StoredIngredients(m), classify)
    ensures r.Some? ==> r.value.mealType == NormaliseType(m.mealType) && ValidMeal(r.value)
    ensures CalculateNutrition(StoredIngredients(m), classify).None? ==> r.None?
  {
    match CalculateNutrition(StoredIngredients(m), classify)
    case None => None
    case Some(n) =>
      assert Lower(NormaliseType(m.mealType)) == NormaliseType(m.mealType) by {
        LowerOfLower(NormaliseType(m.mealType));
      }
      SaveMeal(m.(nutritionalInfo := Some(n), mealType := NormaliseType(m.mealType)))
  }

  /** The store after the loop, and whether it stopped on a thrown error. */
  datatype Run = Run(store: seq<Meal>, failed: bool)

  /** One turn of the loop as a function of the meal alone. */
  function Step(classify: Classifier): Meal -> Option<Meal> {
    m => Recompute(m, classify)
  }

  /** Every meal of `casa` among positions `lo` to `hi` of `store` holds in
      `after` what `step` made of it. */
  predicate Updated(store: seq<Meal>, after: seq<Meal>, casa: Id, step: Meal -> Option<Meal>, lo: int, hi: int)
    requires 0 <= lo && hi <= |store| == |after|
  {
    forall j :: lo <= j < hi && store[j].casa == casa ==> Some(after[j]) == step(store[j])
  }

  /** A position updated in front of a block of updated positions. */
  lemma UpdatedExtend(store: seq<Meal>, after: seq<Meal>, casa: Id, step: Meal -> Option<Meal>, i: nat, m: Meal)
    requires i < |store| == |after| && store[i].casa == casa && step(store[i]) == Some(m) && after[i] == m
    ensures forall k :: i < k <= |store| && Updated(store[i := m], after, casa, step, i + 1, k) ==>
      Updated(store, after, casa, step, i, k)
  {
    assert forall j :: i < j < |store| ==> store[i := m][j] == store[j];
  }

  /** The loop over the house's meals from position `i` of the store on:
      each one goes through `step` and is saved, in store order, until one
      throws (`step` gives `None`). */
  function RunFrom(store: seq<Meal>, i: nat, casa: Id, step: Meal -> Option<Meal>): (r: Run)
    requires i <= |store|
    ensures |r.store| == |store|
    ensures forall j :: 0 <= j < |store| && (j < i || store[j].casa != casa) ==> r.store[j] == store[j]
    ensures !r.failed <==> forall j :: i <= j < |store| && store[j].casa == casa ==> step(store[j]).Some?
    ensures !r.failed ==> Updated(store, r.store, casa, step, i, |store|)
    ensures r.failed ==> exists k :: (i <= k < |store| && store[k].casa == casa && step(store[k]).None?
      && Updated(store, r.store, casa, step, i, k)
      && forall j :: k <= j < |store| ==> r.store[j] == store[j])
    decreases |store| - i
  {
    if i == |store| then Run(store, false)
    else if store[i].casa != casa then RunFrom(store, i + 1, casa, step)
    else match step(store[i])
      case None => Run(store, true)
      case Some(m) =>
        assert forall j :: i < j < |store| ==> store[i := m][j] == store[j];
        var r := RunFrom(store[i := m], i + 1, casa, step);
        UpdatedExtend(store, r.store, casa, step, i, m);
        r
  }

  function InCasa(casa: Id): Meal -> bool {
    (m: Meal) => m.casa == casa
  }

  /** The batch route: 401 without a house; otherwise every meal of the house
      is recomputed, and the reply is the house's meals as stored afterwards,
      or 500 when one of them threw. Meals saved before the error keep their
      new values. */
  function CalculateNutritionRoute(session: Option<Session>, store: seq<Meal>, classify: Classifier): (r: (Response<seq<Meal>>, seq<Meal>))
    ensures !HasCasa(session) ==> r == (Fail(401, NoCasa), store)
    ensures |r.1| == |store|
    ensures HasCasa(session) ==> forall j :: 0 <= j < |store| && store[j].casa != session.value.casa ==> r.1[j] == store[j]
    ensures r.0.Ok? ==> HasCasa(session) && r.0.body == Lists.Filter(r.1, InCasa(session.value.casa))
    ensures r.0.Ok? ==> forall j :: 0 <= j < |store| && store[j].casa == session.value.casa ==> Some(r.1[j]) == Recompute(store[j], classify)
    ensures HasCasa(session) ==> (r.0.Fail? <==> exists j :: 0 <= j < |store| && store[j].casa == session.value.casa && Recompute(store[j], classify).None?)
    ensures r.0.Fail? ==> r.0.status in {401, 500}
  {
    if !HasCasa(session) then (Fail(401, NoCasa), store)
    else
      var run := RunFrom(store, 0, session.value.casa, Step(classify));
      if run.failed then (Fail(500, "Error al procesar la información nutricional"), run.store)
      else (Ok(Lists.Filter(run.store, InCasa(session.value.casa))), run.store)
  }

  /** Meals that already had an estimate are recomputed like the others: a
      meal's new estimate depends only on its ingredients. */
  lemma RecomputeIgnoresOldEstimate(m: Meal, previous: Option<Nutrition>, classify: Classifier)
    ensures Recompute(m, classify).Some? <==> Recompute(m.(nutritionalInfo := previous), classify).Some?
    ensures Recompute(m, classify).Some? ==>
      Recompute(m, classify).value == Recompute(m.(nutritionalInfo := previous), classify).value
  {
  }
}

=== FILE: onboarding.dfy ===
/** The onboarding wizard: four steps, the house name, the list of people to
    invite edited row by row, and what pressing "Crear" sends. */
module Onboarding {

  import opened Base
  import opened Text
  import Lists
  import Houses

  /** "Bienvenida", "Crear casa", "Invitar personas", "Crear". */
  const StepCount: nat := 4

  datatype Wizard = Wizard(step: nat, houseName: string, invitees: seq<string>)

  const Initial: Wizard := Wizard(0, "", [""])

  /** `handleNext`: forward, except at the last step. */
  function Next(w: Wizard): (r: Wizard)
    ensures r.houseName == w.houseName && r.invitees == w.invitees
    ensures w.step < StepCount - 1 ==> r.step == w.step + 1
    ensures w.step >= StepCount - 1 ==> r == w
  {
    if w.step < StepCount - 1 then w.(step := w.step + 1) else w
  }

  /** `handlePrevious`: back, except at the first step. */
  function Previous(w: Wizard): (r: Wizard)
    ensures r.houseName == w.houseName && r.invitees == w.invitees
    ensures w.step > 0 ==> r.step == w.step - 1
    ensures w.step == 0 ==> r == w
  {
    if w.step > 0 then w.(step := w.step - 1) else w
  }

  /** Forward and back: no step leaves the range of steps. */
  lemma StepsStayInRange(w: Wizard)
    requires w.step < StepCount
    ensures Next(w).step < StepCount && Previous(w).step < StepCount
    ensures w.step < StepCount - 1 ==> Previous(Next(w)) == w
    ensures w.step > 0 ==> Next(Previous(w)) == w
  {
  }

  /** `handleAddInvitee`: an empty row at the end. */
  function AddInvitee(invitees: seq<string>): (r: seq<string>)
    ensures |r| == |invitees| + 1 && r[..|invitees|] == invitees && r[|invitees|] == ""
  {
    invitees + [""]
  }

  /** `handleRemoveInvitee(i)`: the row at `i` goes, the others keep their
      order. */
  function RemoveInvitee(invitees: seq<string>, i: int): (r: seq<string>)
    ensures 0 <= i < |invitees| ==> r == invitees[..i] + invitees[i + 1..]
    ensures !(0 <= i < |invitees|) ==> r == invitees
  {
    var r := Lists.RemoveAt(invitees, i);
    assert 0 <= i < |invitees| ==> r == invitees[..i] + invitees[i + 1..];
    r
  }

  /** `handleInviteeChange(i, v)` on a row that is on screen. */
  function ChangeInvitee(invitees: seq<string>, i: int, v: string): (r: seq<string>)
    ensures |r| == |invitees|
    ensures 0 <= i < |invitees| ==> r[i] == v
    ensures forall j :: 0 <= j < |invitees| && j != i ==> r[j] == invitees[j]
  {
    Lists.SetAt(invitees, i, v)
  }

  /** Editing a row and putting back what it held changes nothing. */
  lemma ChangeBackRestores(invitees: seq<string>, i: int, v: string)
    requires 0 <= i < |invitees|
    ensures ChangeInvitee(ChangeInvitee(invitees, i, v), i, invitees[i]) == invitees
  {
    var r := ChangeInvitee(ChangeInvitee(invitees, i, v), i, invitees[i]);
    assert forall j :: 0 <= j < |r| ==> r[j] == invitees[j];
  }

  /** Adding a row and removing it again changes nothing. */
  lemma AddThenRemoveRestores(invitees: seq<string>)
    ensures RemoveInvitee(AddInvitee(invitees), |invitees|) == invitees
  {
    assert AddInvitee(invitees)[..|invitees|] == invitees;
  }

  /** What the user can do on the screen. */
  datatype Action = GoNext | GoBack | Add | Remove(i: int) | Change(i: int, v: string) | Rename(v: string)

  /** The controls on screen at each step: "Siguiente" on the first three
      steps (disabled at step 1 while the name is blank), "Anterior" after
      the first, the name input at step 1, and at step 2 one row per invitee
      whose button adds a row on the last row and removes its row on every
      other. */
  predicate Offered(w: Wizard, a: Action) {
    match a
    case GoNext => w.step < StepCount - 1 && (w.step == 1 ==> !IsBlank(w.houseName))
    case GoBack => w.step > 0
    case Add => w.step == 2 && |w.invitees| > 0
    case Remove(i) => w.step == 2 && 0 <= i < |w.invitees| - 1
    case Change(i, _) => w.step == 2 && 0 <= i < |w.invitees|
    case Rename(_) => w.step == 1
  }

  function Apply(w: Wizard, a: Action): Wizard {
    match a
    case GoNext => Next(w)
    case GoBack => Previous(w)
    case Add => w.(invitees := AddInvitee(w.invitees))
    case Remove(i) => w.(invitees := RemoveInvitee(w.invitees, i))
    case Change(i, v) => w.(invitees := ChangeInvitee(w.invitees, i, v))
    case Rename(v) => w.(houseName := v)
  }

  /** A session of clicks and keystrokes; one on a control that is not on
      screen does nothing. */
  function Run(w: Wizard, actions: seq<Action>): Wizard
    decreases |actions|
  {
    if actions == [] then w
    else
      var w' := if Offered(w, actions[0]) then Apply(w, actions[0]) else w;
      Run(w', actions[1..])
  }

  /** What holds throughout: a valid step and at least one invitee row. */
  predicate Sane(w: Wizard) {
    w.step < StepCount && |w.invitees| >= 1
  }

  /** Every control on screen keeps the wizard sane. */
  lemma OfferedKeepsSane(w: Wizard, a: Action)
    requires Sane(w) && Offered(w, a)
    ensures Sane(Apply(w, a))
  {
  }

  /** Whatever the user does, the step stays in range and the list of
      invitees, which starts with one empty row, is never empty. */
  lemma {:induction false} RunKeepsSane(w: Wizard, actions: seq<Action>)
    requires Sane(w)
    ensures Sane(Run(w, actions))
    decreases |actions|
  {
    if actions != [] {
      if Offered(w, actions[0]) {
        OfferedKeepsSane(w, actions[0]);
      }
      RunKeepsSane(if Offered(w, actions[0]) then Apply(w, actions[0]) else w, actions[1..]);
    }
  }

  lemma InitialIsSane()
    ensures Sane(Initial)
    ensures forall actions: seq<Action> :: |Run(Initial, actions).invitees| >= 1
  {
    forall actions: seq<Action> ensures |Run(Initial, actions).invitees| >= 1 {
      RunKeepsSane(Initial, actions);
    }
  }

  /** The name cannot be confirmed while blank: past step 1 the name is not
      blank unless it was edited after leaving step 1, which the screen does
      not allow. */
  lemma PastStepOneNameGiven(w: Wizard, a: Action)
    requires w.step >= 2 ==> !IsBlank(w.houseName)
    requires Offered(w, a)
    ensures var r := Apply(w, a); r.step >= 2 ==> !IsBlank(r.houseName)
  {
  }

  // ------------------------------------------------------------- creating

  /** What pressing "Crear" does before any request: refuse a blank name,
      or send the trimmed name and then one invitation per row that is not
      blank, trimmed. */
  datatype Launch = NameRequired | Launch(nombre: string, invites: seq<string>)

  /** `invitees.filter(e => e.trim() !== "")`, each sent trimmed. */
  function InvitesToSend(invitees: seq<string>): (r: seq<string>)
    ensures |r| <= |invitees|
    ensures forall j :: 0 <= j < |r| ==> r[j] != "" && Trimmed(r[j])
    decreases |invitees|
  {
    if invitees == [] then []
    else
      var rest := InvitesToSend(invitees[1..]);
      var e := Trim(invitees[0]);
      if e != "" then [e] + rest else rest
  }

  /** The wizard sends the same addresses the house creation route would
      mail if given the rows as its `invitados`. */
  lemma {:induction false} SameInviteesAsTheRoute(invitees: seq<string>)
    ensures InvitesToSend(invitees) == Houses.Invitees(Lists.Map(invitees, (e: string) => JsString(e)))
    decreases |invitees|
  {
    if invitees != [] {
      var items := Lists.Map(invitees, (e: string) => JsString(e));
      assert items[1..] == Lists.Map(invitees[1..], (e: string) => JsString(e));
      SameInviteesAsTheRoute(invitees[1..]);
      if invitees[0] == "" {
        TrimEmptyIffBlank(invitees[0]);
      }
    }
  }

  function CreateHouse(w: Wizard): (r: Launch)
    ensures r.NameRequired? <==> IsBlank(w.houseName)
    ensures r.Launch? ==> r.nombre != "" && Trim(r.nombre) == r.nombre
    ensures r.Launch? ==> r.invites == InvitesToSend(w.invitees)
  {
    TrimEmptyIffBlank(w.houseName);
    if Trim(w.houseName) == "" then NameRequired
    else
      TrimIdempotent(w.houseName);
      Launch(Trim(w.houseName), InvitesToSend(w.invitees))
  }

  /** After the house creation request: its error (or a default) when it was
      refused; otherwise the planner, whatever happened to the invitations,
      with a message that depends only on whether any were sent. */
  datatype Finish = Failed(message: string) | Done(redirect: string, message: string)

  function AfterCreate(created: bool, error: string, invites: seq<string>): (r: Finish)
    ensures r.Done? <==> created
    ensures r.Done? ==> r.redirect == "/?tab=planner"
    ensures !created && error != "" ==> r == Failed(error)
  {
    if !created then Failed(if error != "" then error else "Error al crear la casa")
    else Done("/?tab=planner", if |invites| > 0 then "Se han enviado las invitaciones a los miembros." else "La casa se ha creado correctamente.")
  }
}

=== FILE: ordered.dfy ===
/** Insertion-ordered string-keyed maps. A JavaScript object with non-numeric
    keys, and a Mongoose `Map`, enumerate their entries in insertion order;
    the planner's shopping list and the public export depend on that order,
    so those maps are modelled as sequences of entries. */
module Ordered {

  import opened Base

  datatype Entry<V> = Entry(key: string, value: V)

  type OMap<V> = seq<Entry<V>>

  function Keys<V>(m: OMap<V>): (ks: seq<string>)
    ensures |ks| == |m|
    ensures forall i :: 0 <= i < |m| ==> ks[i] == m[i].key
  {
    if m == [] then [] else [m[0].key] + Keys(m[1..])
  }

  predicate HasKey<V>(m: OMap<V>, k: string) {
    exists i :: 0 <= i < |m| && m[i].key == k
  }

  /** No key occurs twice: the shape of every object and `Map`. */
  predicate UniqueKeys<V>(m: OMap<V>) {
    forall i, j :: 0 <= i < j < |m| ==> m[i].key != m[j].key
  }

  /** Position of the first entry with key `k`, or `|m|` when there is none. */
  function KeyIndex<V>(m: OMap<V>, k: string): (i: nat)
    ensures i <= |m|
    ensures i < |m| ==> m[i].key == k
    ensures forall j :: 0 <= j < i ==> m[j].key != k
  {
    if m == [] then 0 else if m[0].key == k then 0 else 1 + KeyIndex(m[1..], k)
  }

  /** `m[k]`: the value of the first entry with key `k`. */
  function Lookup<V>(m: OMap<V>, k: string): (r: Option<V>)
    ensures r.None? <==> !HasKey(m, k)
    ensures r.Some? ==> exists i :: 0 <= i < |m| && m[i] == Entry(k, r.value)
  {
    var i := KeyIndex(m, k);
    if i < |m| then Some(m[i].value) else None
  }

  lemma LookupAt<V>(m: OMap<V>, i: nat)
    requires UniqueKeys(m) && i < |m|
    ensures Lookup(m, m[i].key) == Some(m[i].value)
  {
    assert KeyIndex(m, m[i].key) == i;
  }

  /** Lookups in a two-entry map. */
  lemma LookupPair<V>(k1: string, v1: V, k2: string, v2: V)
    ensures Lookup([Entry(k1, v1), Entry(k2, v2)], k1) == Some(v1)
    ensures k1 != k2 ==> Lookup([Entry(k1, v1), Entry(k2, v2)], k2) == Some(v2)
  {
    var m := [Entry(k1, v1), Entry(k2, v2)];
    KeyIndexIs(m, k1, 0);
    if k1 != k2 {
      KeyIndexIs(m, k2, 1);
    }
  }

  /** The three facts that pin down `KeyIndex`. */
  lemma KeyIndexIs<V>(m: OMap<V>, k: string, i: nat)
    requires i <= |m| && (i < |m| ==> m[i].key == k)
    requires forall j :: 0 <= j < i ==> m[j].key != k
    ensures KeyIndex(m, k) == i
  {
  }

  /** `m[k] = v`: an existing entry keeps its place and takes the new value;
      a new key is appended at the end. */
  function Put<V>(m: OMap<V>, k: string, v: V): (r: OMap<V>)
    ensures |r| == if HasKey(m, k) then |m| else |m| + 1
    ensures KeyIndex(m, k) < |r| && r[KeyIndex(m, k)] == Entry(k, v)
    ensures forall j :: 0 <= j < |m| && j != KeyIndex(m, k) ==> r[j] == m[j]
    ensures !HasKey(m, k) ==> r == m + [Entry(k, v)]
  {
    var i := KeyIndex(m, k);
    if i == |m| then m + [Entry(k, v)] else m[..i] + [Entry(k, v)] + m[i + 1..]
  }

  lemma PutLookup<V>(m: OMap<V>, k: string, v: V, k': string)
    ensures Lookup(Put(m, k, v), k) == Some(v)
    ensures k' != k ==> Lookup(Put(m, k, v), k') == Lookup(m, k')
  {
    var r := Put(m, k, v);
    var i := KeyIndex(m, k);
    KeyIndexIs(r, k, i);
    if k' != k {
      var i' := KeyIndex(m, k');
      if i' < |m| {
        KeyIndexIs(r, k', i');
      } else {
        assert forall j :: 0 <= j < |r| ==> r[j].key != k' by {
          forall j | 0 <= j < |r| ensures r[j].key != k' {
            if j < |m| && j != i { assert r[j] == m[j]; }
          }
        }
        KeyIndexIs(r, k', |r|);
      }
    }
  }

  /** `PutLookup` for every other key at once. */
  lemma PutLookupAll<V>(m: OMap<V>, k: string, v: V)
    ensures Lookup(Put(m, k, v), k) == Some(v)
    ensures forall k' :: k' != k ==> Lookup(Put(m, k, v), k') == Lookup(m, k')
  {
    PutLookup(m, k, v, k);
    forall k' | k' != k
      ensures Lookup(Put(m, k, v), k') == Lookup(m, k')
    {
      PutLookup(m, k, v, k');
    }
  }

  lemma PutKeys<V>(m: OMap<V>, k: string, v: V)
    ensures HasKey(m, k) ==> Keys(Put(m, k, v)) == Keys(m)
    ensures !HasKey(m, k) ==> Keys(Put(m, k, v)) == Keys(m) + [k]
  {
    var r := Put(m, k, v);
    var i := KeyIndex(m, k);
    if HasKey(m, k) {
      forall j | 0 <= j < |r| ensures Keys(r)[j] == Keys(m)[j] {
        if j != i { assert r[j] == m[j]; }
      }
    } else {
      forall j | 0 <= j < |r| ensures Keys(r)[j] == (Keys(m) + [k])[j] {
        if j < |m| { assert r[j] == m[j]; }
      }
    }
  }

  lemma PutUnique<V>(m: OMap<V>, k: string, v: V)
    ensures UniqueKeys(m) ==> UniqueKeys(Put(m, k, v))
  {
    if !UniqueKeys(m) {
      return;
    }
    var r := Put(m, k, v);
    var i := KeyIndex(m, k);
    forall a, b | 0 <= a < b < |r| ensures r[a].key != r[b].key {
      if a != i && b != i && b < |m| {
        assert r[a] == m[a] && r[b] == m[b];
      } else if a == i && b < |m| {
        assert r[b] == m[b];
        if i < |m| { assert m[i].key == k; }
      } else if b == i && i < |m| {
        assert r[a] == m[a];
      } else if b == |m| {
        assert !HasKey(m, k);
        if a < |m| { assert r[a] == m[a]; }
      }
    }
  }

  /** `Object.values(m).flat()`: the values, one after the other, in entry order. */
  function Flatten<T>(g: OMap<seq<T>>): (r: seq<T>)
    ensures |g| == 1 ==> r == g[0].value
  {
    if g == [] then [] else g[0].value + Flatten(g[1..])
  }

  lemma {:induction false} FlattenConcat<T>(a: OMap<seq<T>>, b: OMap<seq<T>>)
    ensures Flatten(a + b) == Flatten(a) + Flatten(b)
    decreases |a|
  {
    if a == [] {
      assert a + b == b;
    } else {
      assert (a + b)[1..] == a[1..] + b;
      FlattenConcat(a[1..], b);
    }
  }
}

=== FILE: planner.dfy ===
/** The weekly planner: a menu keyed by the five weekdays of the displayed
    week, each day holding a lunch ("almuerzo") and a dinner ("cena") slot
    filled with a meal name; random menus, per-day nutrition totals, the
    shopping list, the ingredient list of the share message, the check made
    before saving, and the filtered, sorted meal picker. */
module Planner {

  import opened Base
  import opened Text
  import opened Ordered
  import opened Schema
  import Sorting
  import Lists
  import Dates

  datatype Comida = Almuerzo | Cena

  /** The slot names as the planner lists them (`comidas`). */
  function Label(c: Comida): string {
    match c
    case Almuerzo => "Almuerzo"
    case Cena => "Cena"
  }

  /** `comida.toLowerCase()`: the key under which a day stores the slot. */
  function SlotKey(c: Comida): (k: string)
    ensures k == Lower(Label(c))
    ensures c.Almuerzo? ==> k == "almuerzo"
    ensures c.Cena? ==> k == "cena"
  {
    assert Lower("Almuerzo") == "almuerzo";
    assert Lower("Cena") == "cena";
    if c.Almuerzo? then "almuerzo" else "cena"
  }

  predicate IsSlotKey(k: string) {
    k == "almuerzo" || k == "cena"
  }

  // -------------------------------------------------------------- the week

  /** One displayed day: its "yyyy-MM-dd" key, its date and weekday name. */
  datatype DayRef = DayRef(key: string, fecha: int, nombre: string)

  /** `diasConFechas`: the five days starting at `weekStart`. `format` is
      date-fns `format(fecha, "yyyy-MM-dd")`, which reads the calendar in the
      browser's time zone and is therefore a parameter. */
  function WeekDays(weekStart: int, format: int -> string): (r: seq<DayRef>)
    ensures |r| == 5
    ensures forall i :: 0 <= i < 5 ==>
      r[i].fecha == weekStart + i && r[i].key == format(weekStart + i)
      && r[i].nombre == Dates.SpanishWeekday(weekStart + i)
  {
    seq(5, i requires 0 <= i < 5 => DayRef(format(weekStart + i), weekStart + i, Dates.SpanishWeekday(weekStart + i)))
  }

  /** A week that starts on a Monday is shown as Monday to Friday (`dias`). */
  lemma WeekDaysAreMondayToFriday(weekStart: int, format: int -> string)
    requires Dates.WeekdayIndex(weekStart) == 0
    ensures Lists.Map(WeekDays(weekStart, format), (r: DayRef) => r.nombre)
         == ["lunes", "martes", "miércoles", "jueves", "viernes"]
  {
    var names := Lists.Map(WeekDays(weekStart, format), (r: DayRef) => r.nombre);
    forall i | 0 <= i < 5
      ensures names[i] == ["lunes", "martes", "miércoles", "jueves", "viernes"][i]
    {
      Dates.WeekdayAfterMonday(weekStart, i);
    }
  }

  /** Formatting the calendar date keeps the days of a week apart whenever
      their years have four digits. */
  lemma WeekKeysDistinct(weekStart: int)
    requires forall d :: weekStart <= d < weekStart + 5 ==> Dates.FourDigitYear(d)
    ensures DistinctKeys(WeekDays(weekStart, Dates.DayKey))
  {
    var days := WeekDays(weekStart, Dates.DayKey);
    forall i, j | 0 <= i < j < 5 ensures days[i].key != days[j].key {
      assert weekStart <= weekStart + i < weekStart + 5;
      assert weekStart <= weekStart + j < weekStart + 5;
      WeekDayKeysApart(weekStart, i, j);
    }
  }

  /** Two days of one week, both with four-digit years, get different keys. */
  lemma WeekDayKeysApart(weekStart: int, i: nat, j: nat)
    requires i < j < 5
    requires Dates.FourDigitYear(weekStart + i) && Dates.FourDigitYear(weekStart + j)
    ensures WeekDays(weekStart, Dates.DayKey)[i].key != WeekDays(weekStart, Dates.DayKey)[j].key
  {
    Dates.DayKeyInjective(weekStart + i, weekStart + j);
  }

  // -------------------------------------------------------------- the menu

  /** One day of the menu: the date and weekday name it was created with,
      then its slots in the order they were first set. */
  datatype DayMenu = DayMenu(fecha: int, nombre: string, slots: OMap<string>)

  type Menu = OMap<DayMenu>

  /** `agregarComida(dia, comida, alimento)`. */
  function AgregarComida(menu: Menu, dia: DayRef, comida: Comida, alimento: string): (r: Menu)
    ensures Lookup(r, dia.key).Some?
    ensures Lookup(r, dia.key).value.slots != []
    ensures Lookup(Lookup(r, dia.key).value.slots, SlotKey(comida)) == Some(alimento)
    ensures Lookup(menu, dia.key).None? ==>
      Lookup(r, dia.key) == Some(DayMenu(dia.fecha, dia.nombre, [Entry(SlotKey(comida), alimento)]))
    ensures Lookup(menu, dia.key).Some? ==>
      var before, after := Lookup(menu, dia.key).value, Lookup(r, dia.key).value;
      && after.fecha == before.fecha && after.nombre == before.nombre
      && forall k :: k != SlotKey(comida) ==> Lookup(after.slots, k) == Lookup(before.slots, k)
    ensures forall key :: key != dia.key ==> Lookup(r, key) == Lookup(menu, key)
    ensures UniqueKeys(menu) ==> UniqueKeys(r)
  {
    var k := SlotKey(comida);
    var day := (match Lookup(menu, dia.key)
      case None => DayMenu(dia.fecha, dia.nombre, [Entry(k, alimento)])
      case Some(d) =>
        PutLookupAll(d.slots, k, alimento);
        d.(slots := Put(d.slots, k, alimento)));
    assert Lookup(day.slots, k) == Some(alimento);
    PutLookupAll(menu, dia.key, day);
    PutUnique(menu, dia.key, day);
    Put(menu, dia.key, day)
  }

  /** `meals.find((m) => m.name === name)`. */
  function FindByName(meals: seq<Meal>, name: string): (r: Option<Meal>)
    ensures r.None? <==> forall i :: 0 <= i < |meals| ==> meals[i].name != name
    ensures r.Some? ==> exists i :: (0 <= i < |meals| && meals[i] == r.value
      && r.value.name == name && forall j :: 0 <= j < i ==> meals[j].name != name)
  {
    if meals == [] then None
    else if meals[0].name == name then Some(meals[0])
    else
      var r := FindByName(meals[1..], name);
      assert r.Some? ==> exists i :: (0 <= i < |meals| && meals[i] == r.value
        && r.value.name == name && forall j :: 0 <= j < i ==> meals[j].name != name) by {
        if r.Some? {
          var i :| 0 <= i < |meals[1..]| && meals[1..][i] == r.value
            && r.value.name == name && forall j :: 0 <= j < i ==> meals[1..][j].name != name;
          assert meals[i + 1] == r.value;
          assert forall j :: 0 <= j < i + 1 ==> meals[j].name != name by {
            forall j | 0 <= j < i + 1 ensures meals[j].name != name {
              if j > 0 { assert meals[j] == meals[1..][j - 1]; }
            }
          }
        }
      }
      r
  }

  // -------------------------------------------------------- random menus

  /** The meals offered for a slot (`meals.filter((meal) => meal.mealTime === comida)`). */
  function Candidates(meals: seq<Meal>, c: Comida): (r: seq<Meal>)
    ensures forall i :: 0 <= i < |r| ==> r[i] in meals && r[i].mealTime == Label(c)
    ensures |r| == 0 <==> forall i :: 0 <= i < |meals| ==> meals[i].mealTime != Label(c)
  {
    var p := (m: Meal) => m.mealTime == Label(c);
    var r := Lists.Filter(meals, p);
    assert |r| == 0 ==> forall i :: 0 <= i < |meals| ==> meals[i].mealTime != Label(c) by {
      if |r| == 0 {
        forall i | 0 <= i < |meals| ensures meals[i].mealTime != Label(c) {
          assert meals[i] in r <==> p(meals[i]);
        }
      }
    }
    assert |r| != 0 ==> p(r[0]) && r[0] in meals;
    r
  }

  const NoDisponible: string := "No disponible"

  /** The name chosen for a slot; `draw` stands for the random number, and the
      chosen position is `draw` modulo the number of candidates. */
  function Pick(meals: seq<Meal>, c: Comida, draw: nat): (name: string)
    ensures (forall i :: 0 <= i < |meals| ==> meals[i].mealTime != Label(c)) ==> name == NoDisponible
    ensures (exists i :: 0 <= i < |meals| && meals[i].mealTime == Label(c)) ==>
      exists m :: m in meals && m.mealTime == Label(c) && m.name == name
  {
    var cands := Candidates(meals, c);
    if |cands| > 0 then cands[draw % |cands|].name else NoDisponible
  }

  /** When no stored name is empty, neither is a drawn one. */
  lemma PickNonEmpty(meals: seq<Meal>, c: Comida, draw: nat)
    requires forall j :: 0 <= j < |meals| ==> meals[j].name != ""
    ensures Pick(meals, c, draw) != ""
  {
    var p := Pick(meals, c, draw);
    if exists j :: 0 <= j < |meals| && meals[j].mealTime == Label(c) {
      var m :| m in meals && m.mealTime == Label(c) && m.name == p;
    }
  }

  /** The day `generarMenuAleatorio` builds for the `i`-th displayed day;
      `random(n)` is the `n`-th random number drawn. */
  function RandomDay(dia: DayRef, meals: seq<Meal>, random: nat -> nat, i: nat): DayMenu {
    DayMenu(dia.fecha, dia.nombre,
            [Entry("almuerzo", Pick(meals, Almuerzo, random(2 * i))),
             Entry("cena", Pick(meals, Cena, random(2 * i + 1)))])
  }

  lemma RandomDaySlots(dia: DayRef, meals: seq<Meal>, random: nat -> nat, i: nat)
    ensures Lookup(RandomDay(dia, meals, random, i).slots, "almuerzo") == Some(Pick(meals, Almuerzo, random(2 * i)))
    ensures Lookup(RandomDay(dia, meals, random, i).slots, "cena") == Some(Pick(meals, Cena, random(2 * i + 1)))
  {
    LookupPair("almuerzo", Pick(meals, Almuerzo, random(2 * i)), "cena", Pick(meals, Cena, random(2 * i + 1)));
  }

  /** The loop of `generarMenuAleatorio`: `nuevoMenu[dia.key] = dayOf(dia, i)`
      for each displayed day in turn. */
  function BuildMenu(days: seq<DayRef>, dayOf: (DayRef, nat) -> DayMenu): Menu
    decreases |days|
  {
    if days == [] then []
    else
      var n := |days| - 1;
      Put(BuildMenu(days[..n], dayOf), days[n].key, dayOf(days[n], n))
  }

  function RandomDays(meals: seq<Meal>, random: nat -> nat): (DayRef, nat) -> DayMenu {
    (dia: DayRef, i: nat) => RandomDay(dia, meals, random, i)
  }

  /** `generarMenuAleatorio`. */
  function GenerarMenuAleatorio(weekStart: int, format: int -> string, meals: seq<Meal>, random: nat -> nat): (r: Menu)
    ensures DistinctKeys(WeekDays(weekStart, format)) ==> |r| == 5 && UniqueKeys(r)
    ensures DistinctKeys(WeekDays(weekStart, format)) ==> forall i :: 0 <= i < 5 ==>
      && r[i].key == format(weekStart + i)
      && r[i].value == RandomDay(WeekDays(weekStart, format)[i], meals, random, i)
  {
    var days, dayOf := WeekDays(weekStart, format), RandomDays(meals, random);
    if DistinctKeys(days) then
      BuildMenuDistinct(days, dayOf);
      BuildMenu(days, dayOf)
    else
      BuildMenu(days, dayOf)
  }

  /** One entry per day, in order. */
  function EntriesOf(days: seq<DayRef>, dayOf: (DayRef, nat) -> DayMenu): (r: Menu)
    ensures |r| == |days|
    ensures forall i :: 0 <= i < |days| ==> r[i] == Entry(days[i].key, dayOf(days[i], i))
  {
    seq(|days|, i requires 0 <= i < |days| => Entry(days[i].key, dayOf(days[i], i)))
  }

  /** No two days share a key. */
  predicate DistinctKeys(days: seq<DayRef>) {
    forall i, j :: 0 <= i < j < |days| ==> days[i].key != days[j].key
  }

  /** When the days have distinct keys each assignment adds a new entry, so
      the loop builds exactly one entry per day, in display order. */
  lemma {:induction false} BuildMenuDistinct(days: seq<DayRef>, dayOf: (DayRef, nat) -> DayMenu)
    requires DistinctKeys(days)
    ensures BuildMenu(days, dayOf) == EntriesOf(days, dayOf)
    ensures UniqueKeys(BuildMenu(days, dayOf))
    decreases |days|
  {
    if days != [] {
      var n := |days| - 1;
      var prev := BuildMenu(days[..n], dayOf);
      var e := Entry(days[n].key, dayOf(days[n], n));
      BuildMenuDistinct(days[..n], dayOf);
      assert !HasKey(prev, days[n].key) by {
        forall i | 0 <= i < n ensures prev[i].key != days[n].key {
          assert prev[i].key == days[i].key;
        }
      }
      assert BuildMenu(days, dayOf) == prev + [e];
      assert EntriesOf(days, dayOf) == prev + [e];
    }
  }

  /** Every displayed day gets both slots; a slot holds the name of a meal
      for that slot, or "No disponible" when there is none. */
  lemma GeneratedMenuFillsWeek(weekStart: int, format: int -> string, meals: seq<Meal>, random: nat -> nat, i: nat)
    requires DistinctKeys(WeekDays(weekStart, format)) && i < 5
    ensures |GenerarMenuAleatorio(weekStart, format, meals, random)| == 5
    ensures var day := Lookup(GenerarMenuAleatorio(weekStart, format, meals, random), format(weekStart + i));
      && day.Some?
      && day.value.fecha == weekStart + i
      && day.value.nombre == Dates.SpanishWeekday(weekStart + i)
      && Lookup(day.value.slots, "almuerzo") == Some(Pick(meals, Almuerzo, random(2 * i)))
      && Lookup(day.value.slots, "cena") == Some(Pick(meals, Cena, random(2 * i + 1)))
  {
    var days := WeekDays(weekStart, format);
    var dayOf := RandomDays(meals, random);
    BuildMenuDistinct(days, dayOf);
    var r := EntriesOf(days, dayOf);
    LookupAt(r, i);
    var d := RandomDay(days[i], meals, random, i);
    assert r[i] == Entry(format(weekStart + i), d);
    RandomDaySlots(days[i], meals, random, i);
  }

  // ------------------------------------------------------------ nutrition

  const Zero: Nutrition := Nutrition(0, 0, 0, 0)

  function Add(a: Nutrition, b: Nutrition): Nutrition {
    Nutrition(a.calories + b.calories, a.protein + b.protein, a.carbs + b.carbs, a.fat + b.fat)
  }

  /** What one slot adds: the first meal of that name, when it has nutrition data. */
  function SlotNutrition(e: Entry<string>, meals: seq<Meal>): (n: Nutrition)
    ensures !IsSlotKey(e.key) ==> n == Zero
    ensures FindByName(meals, e.value).None? ==> n == Zero
    ensures FindByName(meals, e.value).Some? && FindByName(meals, e.value).value.nutritionalInfo.None? ==> n == Zero
  {
    if IsSlotKey(e.key) then
      match FindByName(meals, e.value)
      case Some(m) => m.nutritionalInfo.GetOr(Zero)
      case None => Zero
    else Zero
  }

  function SlotsNutrition(slots: OMap<string>, meals: seq<Meal>): Nutrition
    decreases |slots|
  {
    if slots == [] then Zero else Add(SlotNutrition(slots[0], meals), SlotsNutrition(slots[1..], meals))
  }

  /** `calcularResumenNutricional(diaMenu)`. */
  function CalcularResumenNutricional(day: DayMenu, meals: seq<Meal>): (n: Nutrition)
    ensures day.slots == [] ==> n == Zero
  {
    SlotsNutrition(day.slots, meals)
  }

  /** The totals split over any division of the slots. */
  lemma {:induction false} NutritionIsSumOfSlots(a: OMap<string>, b: OMap<string>, meals: seq<Meal>)
    ensures SlotsNutrition(a + b, meals) == Add(SlotsNutrition(a, meals), SlotsNutrition(b, meals))
    decreases |a|
  {
    if a == [] {
      assert a + b == b;
    } else {
      assert (a + b)[0] == a[0];
      assert (a + b)[1..] == a[1..] + b;
      NutritionIsSumOfSlots(a[1..], b, meals);
    }
  }

  /** One slot adds what its meal contributes. */
  lemma NutritionOfOneSlot(e: Entry<string>, meals: seq<Meal>)
    ensures SlotsNutrition([e], meals) == SlotNutrition(e, meals)
  {
    assert [e][1..] == [];
  }

  /** A slot whose meal has nutrition data adds exactly those values. */
  lemma SlotAddsMealNutrition(k: string, name: string, meals: seq<Meal>, i: nat)
    requires IsSlotKey(k) && i < |meals| && meals[i].name == name
    requires forall j :: 0 <= j < i ==> meals[j].name != name
    requires meals[i].nutritionalInfo.Some?
    ensures SlotNutrition(Entry(k, name), meals) == meals[i].nutritionalInfo.value
  {
    var r := FindByName(meals, name);
    var i' :| 0 <= i' < |meals| && meals[i'] == r.value && r.value.name == name
      && forall j :: 0 <= j < i' ==> meals[j].name != name;
    assert i' == i;
  }

  /** A slot whose first meal of that name has no nutrition data adds
      nothing, just as a slot naming no stored meal. */
  lemma SlotWithoutDataAddsNothing(k: string, name: string, meals: seq<Meal>, i: nat)
    requires i < |meals| && meals[i].name == name
    requires forall j :: 0 <= j < i ==> meals[j].name != name
    requires meals[i].nutritionalInfo.None?
    ensures SlotNutrition(Entry(k, name), meals) == Zero
  {
    var r := FindByName(meals, name);
    var i' :| 0 <= i' < |meals| && meals[i'] == r.value && r.value.name == name
      && forall j :: 0 <= j < i' ==> meals[j].name != name;
    assert i' == i;
  }

  /** A day none of whose slots finds data totals zero. */
  lemma {:induction false} NoDataTotalsZero(slots: OMap<string>, meals: seq<Meal>)
    requires forall i :: 0 <= i < |slots| ==> SlotNutrition(slots[i], meals) == Zero
    ensures SlotsNutrition(slots, meals) == Zero
    decreases |slots|
  {
    if slots != [] {
      var rest := slots[1..];
      forall i | 0 <= i < |rest| ensures SlotNutrition(rest[i], meals) == Zero {
        assert rest[i] == slots[i + 1];
      }
      NoDataTotalsZero(rest, meals);
      assert SlotNutrition(slots[0], meals) == Zero;
      AddZero(SlotNutrition(slots[0], meals), SlotsNutrition(rest, meals));
    }
  }

  lemma AddZero(a: Nutrition, b: Nutrition)
    requires a == Zero && b == Zero
    ensures Add(a, b) == Zero
  {
  }

  // -------------------------------------------------------- shopping list

  /** The ingredients a slot contributes, in the meal's order. */
  function SlotIngredients(e: Entry<string>, meals: seq<Meal>): (r: seq<string>)
    ensures !IsSlotKey(e.key) ==> r == []
    ensures FindByName(meals, e.value).None? ==> r == []
  {
    if IsSlotKey(e.key) then
      match FindByName(meals, e.value)
      case Some(m) => m.ingredients
      case None => []
    else []
  }

  function DayIngredients(slots: OMap<string>, meals: seq<Meal>): seq<string>
    decreases |slots|
  {
    if slots == [] then [] else SlotIngredients(slots[0], meals) + DayIngredients(slots[1..], meals)
  }

  /** Every ingredient the loops over days and slots visit, in visiting order. */
  function MenuIngredients(menu: Menu, meals: seq<Meal>): seq<string>
    decreases |menu|
  {
    if menu == [] then [] else DayIngredients(menu[0].value.slots, meals) + MenuIngredients(menu[1..], meals)
  }

  datatype Item = Item(name: string, checked: bool)

  predicate Listed(lista: seq<Item>, name: string) {
    exists i :: 0 <= i < |lista| && lista[i].name == name
  }

  /** One step of the loop: push `{name, checked: false}` unless an item of
      that name is already there. */
  function AddItem(lista: seq<Item>, name: string): (r: seq<Item>)
    ensures Listed(lista, name) ==> r == lista
    ensures !Listed(lista, name) ==> r == lista + [Item(name, false)]
  {
    if Listed(lista, name) then lista else lista + [Item(name, false)]
  }

  /** The list the loop has built after visiting `ings`. */
  function ItemsOf(ings: seq<string>): seq<Item>
    decreases |ings|
  {
    if ings == [] then [] else AddItem(ItemsOf(ings[..|ings| - 1]), ings[|ings| - 1])
  }

  /** `generarListaCompras`. */
  function GenerarListaCompras(menu: Menu, meals: seq<Meal>): (r: seq<Item>)
    ensures forall k :: 0 <= k < |r| ==> !r[k].checked
    ensures forall x :: Listed(r, x) <==> x in MenuIngredients(menu, meals)
    ensures forall i, j :: 0 <= i < j < |r| ==> r[i].name != r[j].name
  {
    var s := MenuIngredients(menu, meals);
    ItemsOfUnchecked(s);
    ShareListMatchesItems(s);
    ShareListMembers(s);
    ShareListDistinct(s);
    ItemsOf(s)
  }

  /** Position of the first occurrence of `x` in `s`. */
  function FirstIndex(s: seq<string>, x: string): (i: nat)
    requires x in s
    ensures i < |s| && s[i] == x
    ensures forall j :: 0 <= j < i ==> s[j] != x
  {
    if s[0] == x then 0 else 1 + FirstIndex(s[1..], x)
  }

  lemma FirstIndexOfPrefix(s: seq<string>, n: nat, x: string)
    requires n <= |s| && x in s[..n]
    ensures FirstIndex(s, x) == FirstIndex(s[..n], x)
  {
    var j := FirstIndex(s[..n], x);
    assert s[j] == x;
  }

  /** `generateShareMessage`'s own loop: push each visited ingredient unless
      `ingredientes.includes` it already. */
  function ShareListOf(ings: seq<string>): seq<string>
    decreases |ings|
  {
    if ings == [] then []
    else
      var acc := ShareListOf(ings[..|ings| - 1]);
      var x := ings[|ings| - 1];
      if x in acc then acc else acc + [x]
  }

  function ShareIngredients(menu: Menu, meals: seq<Meal>): seq<string> {
    ShareListOf(MenuIngredients(menu, meals))
  }

  function Names(lista: seq<Item>): (r: seq<string>)
    ensures |r| == |lista| && forall i :: 0 <= i < |lista| ==> r[i] == lista[i].name
  {
    Lists.Map(lista, (i: Item) => i.name)
  }

  lemma {:induction false} ShareListMatchesItems(s: seq<string>)
    ensures ShareListOf(s) == Names(ItemsOf(s))
    decreases |s|
  {
    if s != [] {
      var p, x := s[..|s| - 1], s[|s| - 1];
      ShareListMatchesItems(p);
      var q := ItemsOf(p);
      assert Listed(q, x) <==> x in Names(q) by {
        if x in Names(q) {
          var i :| 0 <= i < |Names(q)| && Names(q)[i] == x;
          assert q[i].name == x;
        }
      }
      if !Listed(q, x) {
        assert Names(q + [Item(x, false)]) == Names(q) + [x];
      }
    }
  }

  /** Every item of the shopping list starts unchecked. */
  lemma {:induction false} ItemsOfUnchecked(s: seq<string>)
    ensures forall i :: 0 <= i < |ItemsOf(s)| ==> !ItemsOf(s)[i].checked
    decreases |s|
  {
    if s != [] {
      ItemsOfUnchecked(s[..|s| - 1]);
    }
  }

  /** The de-duplicating loop keeps exactly the ingredients it visits. */
  lemma {:induction false} ShareListMembers(s: seq<string>)
    ensures |ShareListOf(s)| <= |s|
    ensures forall x :: x in ShareListOf(s) <==> x in s
    decreases |s|
  {
    if s != [] {
      var p := s[..|s| - 1];
      ShareListMembers(p);
      assert s == p + [s[|s| - 1]];
    }
  }

  /** ... each of them once ... */
  lemma {:induction false} ShareListDistinct(s: seq<string>)
    ensures forall i, j :: 0 <= i < j < |ShareListOf(s)| ==> ShareListOf(s)[i] != ShareListOf(s)[j]
    decreases |s|
  {
    if s != [] {
      ShareListDistinct(s[..|s| - 1]);
    }
  }

  /** ... in the order of their first occurrence. */
  lemma {:induction false} ShareListOrder(s: seq<string>)
    ensures forall i, j :: 0 <= i < j < |ShareListOf(s)| ==>
      ShareListOf(s)[i] in s && ShareListOf(s)[j] in s
      && FirstIndex(s, ShareListOf(s)[i]) < FirstIndex(s, ShareListOf(s)[j])
    decreases |s|
  {
    ShareListMembers(s);
    if s != [] {
      var n := |s| - 1;
      var p, x := s[..n], s[n];
      var q := ShareListOf(p);
      ShareListOrder(p);
      ShareListMembers(p);
      forall i | 0 <= i < |q| ensures FirstIndex(s, q[i]) == FirstIndex(p, q[i]) && FirstIndex(s, q[i]) < n {
        FirstIndexOfPrefix(s, n, q[i]);
      }
      if x !in q {
        assert x !in p;
        assert FirstIndex(s, x) == n;
      }
    }
  }

  /** The share message lists the same ingredients as the shopping list, in
      the same order. */
  lemma ShareMessageMatchesShoppingList(menu: Menu, meals: seq<Meal>)
    ensures ShareIngredients(menu, meals) == Names(GenerarListaCompras(menu, meals))
  {
    ShareListMatchesItems(MenuIngredients(menu, meals));
  }

  // -------------------------------------------------------------- saving

  /** `menu[k].almuerzo || menu[k].cena` for one day. */
  predicate DayHasMeal(d: DayMenu) {
    || (Lookup(d.slots, "almuerzo").Some? && Lookup(d.slots, "almuerzo").value != "")
    || (Lookup(d.slots, "cena").Some? && Lookup(d.slots, "cena").value != "")
  }

  predicate HayComidas(menu: Menu) {
    exists i :: 0 <= i < |menu| && DayHasMeal(menu[i].value)
  }

  /** The body `guardarYEnviar` posts to the weekly-menu route. */
  datatype MenuData = MenuData(fecha: int, menu: Menu, ingredientes: seq<string>)

  /** `guardarYEnviar`: `None` when no day has a lunch or a dinner, and no
      request is made; otherwise the request body, whose ingredients are the
      names of the shopping list as it stands. */
  function GuardarYEnviar(menu: Menu, shoppingList: seq<Item>, weekStart: int): (r: Option<MenuData>)
    ensures r.None? <==> forall i :: 0 <= i < |menu| ==> !DayHasMeal(menu[i].value)
    ensures r.Some? ==> (r.value.menu == menu && r.value.fecha == weekStart
      && r.value.ingredientes == Names(shoppingList))
  {
    if HayComidas(menu) then Some(MenuData(weekStart, menu, Names(shoppingList))) else None
  }

  /** Setting a non-empty lunch or dinner makes the menu savable. */
  lemma AgregarComidaMakesSavable(menu: Menu, dia: DayRef, comida: Comida, alimento: string, shoppingList: seq<Item>, weekStart: int)
    requires alimento != ""
    ensures GuardarYEnviar(AgregarComida(menu, dia, comida, alimento), shoppingList, weekStart).Some?
  {
    var r := AgregarComida(menu, dia, comida, alimento);
    var i := KeyIndex(r, dia.key);
    assert DayHasMeal(r[i].value);
  }

  /** A generated menu over stored meals (whose names are never empty) is
      always savable: even "No disponible" is a non-empty name. */
  lemma GeneratedMenuIsSavable(weekStart: int, format: int -> string, meals: seq<Meal>, random: nat -> nat, shoppingList: seq<Item>)
    requires DistinctKeys(WeekDays(weekStart, format))
    requires forall j :: 0 <= j < |meals| ==> meals[j].name != ""
    ensures GuardarYEnviar(GenerarMenuAleatorio(weekStart, format, meals, random), shoppingList, weekStart).Some?
  {
    var days := WeekDays(weekStart, format);
    var dayOf := RandomDays(meals, random);
    BuildMenuDistinct(days, dayOf);
    var r := EntriesOf(days, dayOf);
    RandomDayHasMeal(days[0], meals, random, 0);
    assert DayHasMeal(r[0].value);
  }

  /** A generated day over stored meals has a lunch. */
  lemma RandomDayHasMeal(dia: DayRef, meals: seq<Meal>, random: nat -> nat, i: nat)
    requires forall j :: 0 <= j < |meals| ==> meals[j].name != ""
    ensures DayHasMeal(RandomDay(dia, meals, random, i))
  {
    RandomDaySlots(dia, meals, random, i);
    PickNonEmpty(meals, Almuerzo, random(2 * i));
  }

  // ------------------------------------------------------- meal picker

  /** All filters of the picker: name contains the search term (ignoring
      case) when there is one; type and meal time equal the selection,
      ignoring case, unless it is "all". */
  predicate MatchesFilters(m: Meal, searchTerm: string, selectedType: string, selectedMealTime: string) {
    && (searchTerm == "" || ContainsIgnoringCase(m.name, searchTerm))
    && (selectedType == "all" || Lower(m.mealType) == Lower(selectedType))
    && (selectedMealTime == "all" || Lower(m.mealTime) == Lower(selectedMealTime))
  }

  /** The picker's filters as one predicate. */
  function Matches(searchTerm: string, selectedType: string, selectedMealTime: string): Meal -> bool {
    (m: Meal) => MatchesFilters(m, searchTerm, selectedType, selectedMealTime)
  }

  function MealName(m: Meal): string {
    m.name
  }

  /** The name filter: the name contains the term, ignoring case. */
  function NameMatches(searchTerm: string): Meal -> bool {
    (m: Meal) => ContainsIgnoringCase(m.name, searchTerm)
  }

  /** The type filter: the types are equal, ignoring case. */
  function TypeMatches(selectedType: string): Meal -> bool {
    (m: Meal) => Lower(m.mealType) == Lower(selectedType)
  }

  /** The meal-time filter: the meal times are equal, ignoring case. */
  function TimeMatches(selectedMealTime: string): Meal -> bool {
    (m: Meal) => Lower(m.mealTime) == Lower(selectedMealTime)
  }

  /** The three filters of `getFilteredAndSortedMeals`, each applied only
      when its selection is active. */
  function FilterStages(meals: seq<Meal>, searchTerm: string, selectedType: string, selectedMealTime: string): seq<Meal> {
    var f1 := if searchTerm != "" then Lists.Filter(meals, NameMatches(searchTerm)) else meals;
    var f2 := if selectedType != "all" then Lists.Filter(f1, TypeMatches(selectedType)) else f1;
    if selectedMealTime != "all" then Lists.Filter(f2, TimeMatches(selectedMealTime)) else f2
  }

  /** The predicate of a filter that is applied only when `active`. */
  function Optional(active: bool, p: Meal -> bool): Meal -> bool {
    m => !active || p(m)
  }

  lemma OptionalFilter(s: seq<Meal>, active: bool, p: Meal -> bool)
    ensures (if active then Lists.Filter(s, p) else s) == Lists.Filter(s, Optional(active, p))
  {
    if active {
      Lists.FilterExt(s, p, Optional(active, p));
    } else {
      Lists.FilterKeepsAll(s, Optional(active, p));
    }
  }

  /** The three optional filters, combined in the order they are applied. */
  function Stages(searchTerm: string, selectedType: string, selectedMealTime: string): Meal -> bool {
    Lists.And(Lists.And(Optional(searchTerm != "", NameMatches(searchTerm)),
                        Optional(selectedType != "all", TypeMatches(selectedType))),
              Optional(selectedMealTime != "all", TimeMatches(selectedMealTime)))
  }

  lemma StagesAreMatches(searchTerm: string, selectedType: string, selectedMealTime: string, m: Meal)
    ensures Stages(searchTerm, selectedType, selectedMealTime)(m) == MatchesFilters(m, searchTerm, selectedType, selectedMealTime)
  {
  }

  /** The successive filters keep what all three optional filters accept. */
  lemma FilterStagesCombine(meals: seq<Meal>, searchTerm: string, selectedType: string, selectedMealTime: string)
    ensures FilterStages(meals, searchTerm, selectedType, selectedMealTime)
         == Lists.Filter(meals, Stages(searchTerm, selectedType, selectedMealTime))
  {
    var n := NameMatches(searchTerm);
    var t := TypeMatches(selectedType);
    var h := TimeMatches(selectedMealTime);
    var p1 := Optional(searchTerm != "", n);
    var p2 := Optional(selectedType != "all", t);
    var p3 := Optional(selectedMealTime != "all", h);
    var f1 := if searchTerm != "" then Lists.Filter(meals, n) else meals;
    var f2 := if selectedType != "all" then Lists.Filter(f1, t) else f1;
    OptionalFilter(meals, searchTerm != "", n);
    OptionalFilter(f1, selectedType != "all", t);
    OptionalFilter(f2, selectedMealTime != "all", h);
    Lists.FilterFilter(meals, p1, p2);
    Lists.FilterFilter(meals, Lists.And(p1, p2), p3);
  }

  /** The successive filters together keep what the combined predicate keeps. */
  lemma FilterStagesSpec(meals: seq<Meal>, searchTerm: string, selectedType: string, selectedMealTime: string)
    ensures FilterStages(meals, searchTerm, selectedType, selectedMealTime)
         == Lists.Filter(meals, Matches(searchTerm, selectedType, selectedMealTime))
  {
    FilterStagesCombine(meals, searchTerm, selectedType, selectedMealTime);
    forall i | 0 <= i < |meals|
      ensures Stages(searchTerm, selectedType, selectedMealTime)(meals[i])
           == Matches(searchTerm, selectedType, selectedMealTime)(meals[i])
    {
      StagesAreMatches(searchTerm, selectedType, selectedMealTime, meals[i]);
    }
    Lists.FilterExt(meals, Stages(searchTerm, selectedType, selectedMealTime),
                    Matches(searchTerm, selectedType, selectedMealTime));
  }

  /** `getFilteredAndSortedMeals`. */
  function GetFilteredAndSortedMeals(meals: seq<Meal>, searchTerm: string, selectedType: string, selectedMealTime: string): (r: seq<Meal>)
    ensures Sorting.SortedBy(r, MealName)
    ensures multiset(r) == multiset(Lists.Filter(meals, Matches(searchTerm, selectedType, selectedMealTime)))
    ensures multiset(r) <= multiset(meals)
  {
    FilterStagesSpec(meals, searchTerm, selectedType, selectedMealTime);
    Sorting.SortBy(FilterStages(meals, searchTerm, selectedType, selectedMealTime), MealName)
  }

  /** Whether any of the picker's filters is selected. */
  predicate AnyFilterActive(searchTerm: string, selectedType: string, selectedMealTime: string) {
    searchTerm != "" || selectedType != "all" || selectedMealTime != "all"
  }

  /** The planner's `meals` state once the picker has rendered with these
      selections. `filter` makes a new array, but with no filter selected
      `filteredMeals` is the state's own array, which `sort` reorders in
      place. */
  function MealsAfterPicker(meals: seq<Meal>, searchTerm: string, selectedType: string, selectedMealTime: string): (r: seq<Meal>)
    ensures multiset(r) == multiset(meals)
    ensures AnyFilterActive(searchTerm, selectedType, selectedMealTime) ==> r == meals
    ensures !AnyFilterActive(searchTerm, selectedType, selectedMealTime) ==> Sorting.SortedBy(r, MealName)
  {
    if AnyFilterActive(searchTerm, selectedType, selectedMealTime) then meals else Sorting.SortBy(meals, MealName)
  }

  /** With no filter selected the picker lists the state itself, which is
      now in name order. */
  lemma PickerSortsStateInPlace(meals: seq<Meal>, searchTerm: string, selectedType: string, selectedMealTime: string)
    requires !AnyFilterActive(searchTerm, selectedType, selectedMealTime)
    ensures MealsAfterPicker(meals, searchTerm, selectedType, selectedMealTime)
         == GetFilteredAndSortedMeals(meals, searchTerm, selectedType, selectedMealTime)
  {
  }

  lemma FindByNameCons(a: Meal, t: seq<Meal>, name: string)
    ensures FindByName([a] + t, name) == if a.name == name then Some(a) else FindByName(t, name)
  {
    assert ([a] + t)[0] == a && ([a] + t)[1..] == t;
  }

  /** Insertion puts a meal ahead of every meal with the same name. */
  lemma {:induction false} InsertKeepsFirstByName(x: Meal, s: seq<Meal>, name: string)
    requires Sorting.SortedBy(s, MealName)
    ensures FindByName(Sorting.Insert(x, s, MealName), name) == if x.name == name then Some(x) else FindByName(s, name)
    decreases |s|
  {
    if s == [] || Sorting.StrLe(x.name, s[0].name) {
      assert Sorting.Insert(x, s, MealName) == [x] + s;
      FindByNameCons(x, s, name);
    } else {
      var t := Sorting.Insert(x, s[1..], MealName);
      assert Sorting.Insert(x, s, MealName) == [s[0]] + t;
      if x.name == name {
        Sorting.StrLeRefl(x.name);
      }
      InsertKeepsFirstByName(x, s[1..], name);
      FindByNameCons(s[0], t, name);
      assert s == [s[0]] + s[1..];
      FindByNameCons(s[0], s[1..], name);
    }
  }

  /** The sort is stable, so meals sharing a name keep their order and a
      lookup by name finds the same meal after it. */
  lemma {:induction false} SortKeepsFirstByName(meals: seq<Meal>, name: string)
    ensures FindByName(Sorting.SortBy(meals, MealName), name) == FindByName(meals, name)
    decreases |meals|
  {
    if meals != [] {
      var rest := Sorting.SortBy(meals[1..], MealName);
      assert Sorting.SortBy(meals, MealName) == Sorting.Insert(meals[0], rest, MealName);
      SortKeepsFirstByName(meals[1..], name);
      InsertKeepsFirstByName(meals[0], rest, name);
    }
  }

  /** The reordering of the state never changes which meal the planner's
      lookups by name (nutrition, shopping list) find. */
  lemma PickerKeepsLookups(meals: seq<Meal>, searchTerm: string, selectedType: string, selectedMealTime: string, name: string)
    ensures FindByName(MealsAfterPicker(meals, searchTerm, selectedType, selectedMealTime), name) == FindByName(meals, name)
  {
    if !AnyFilterActive(searchTerm, selectedType, selectedMealTime) {
      SortKeepsFirstByName(meals, name);
    }
  }

  /** A meal is offered exactly when it is in the catalogue and passes every filter. */
  lemma PickerOffersExactlyMatches(meals: seq<Meal>, searchTerm: string, selectedType: string, selectedMealTime: string, m: Meal)
    ensures m in GetFilteredAndSortedMeals(meals, searchTerm, selectedType, selectedMealTime)
        <==> m in meals && MatchesFilters(m, searchTerm, selectedType, selectedMealTime)
  {
    var r := GetFilteredAndSortedMeals(meals, searchTerm, selectedType, selectedMealTime);
    var f := Lists.Filter(meals, Matches(searchTerm, selectedType, selectedMealTime));
    assert m in r <==> m in multiset(r);
    assert m in f <==> m in multiset(f);
    if m in meals && MatchesFilters(m, searchTerm, selectedType, selectedMealTime) {
      var i :| 0 <= i < |meals| && meals[i] == m;
      assert m in f;
    }
  }

  // ------------------------------------------------------- meal counts

  datatype Counts = Counts(all: nat, carne: nat, pollo: nat, pescado: nat, vegetariano: nat, pastas: nat, otros: nat)

  function CountType(meals: seq<Meal>, t: string): (n: nat)
    ensures n <= |meals|
  {
    Lists.Count(meals, OfType(t))
  }

  /** The planner's `getMealCounts`. */
  function GetMealCounts(meals: seq<Meal>): (c: Counts)
    ensures c.all == |meals|
    ensures c.carne == CountType(meals, "carne") && c.pollo == CountType(meals, "pollo")
      && c.pescado == CountType(meals, "pescado") && c.vegetariano == CountType(meals, "vegetariano")
      && c.pastas == CountType(meals, "pastas") && c.otros == CountType(meals, "otros")
  {
    Counts(|meals|, CountType(meals, "carne"), CountType(meals, "pollo"), CountType(meals, "pescado"),
           CountType(meals, "vegetariano"), CountType(meals, "pastas"), CountType(meals, "otros"))
  }

  /** The six type counts never add up to more than the whole list, since a
      meal has one type; meals of type "carnes" are counted under none. */
  lemma {:induction false} CountsWithinTotal(meals: seq<Meal>)
    ensures var c := GetMealCounts(meals);
      c.carne + c.pollo + c.pescado + c.vegetariano + c.pastas + c.otros <= c.all
    decreases |meals|
  {
    if meals != [] {
      CountsWithinTotal(meals[1..]);
    }
  }
}

=== FILE: schema.dfy ===
/** The stored documents: meals, users, invitations, weekly menus, API keys
    and houses (casas), with the constraints their schemas declare. A schema
    setter (`lowercase`, `trim`) runs before validation; a `required` string
    fails on the empty string; `unique` is a property of a whole collection
    and is stated by the store, not here. Identifiers are strings and
    instants are milliseconds since the epoch. */
module Schema {

  import opened Base
  import opened Text
  import Ordered

  type Id = string

  // ---------------------------------------------------------------- Meal

  /** The `type` values the meal schema admits. "carnes" is a legacy spelling. */
  const MealTypes: seq<string> := ["carne", "carnes", "pollo", "pescado", "vegetariano", "pastas", "otros"]

  const MealTimes: seq<string> := ["Almuerzo", "Cena"]

  const MaxMealName: int := 60

  datatype Nutrition = Nutrition(calories: int, protein: int, carbs: int, fat: int)

  datatype Meal = Meal(
    id: Id,
    name: string,
    mealType: string,
    ingredients: seq<string>,
    mealTime: string,
    casa: Id,
    user: Id,
    nutritionalInfo: Option<Nutrition>)

  predicate ValidMeal(m: Meal) {
    && m.name != "" && |m.name| <= MaxMealName
    && m.mealType in MealTypes
    && m.mealTime in MealTimes
    && m.casa != "" && m.user != ""
  }

  /** Meals of type `t`, exactly as spelled. */
  function OfType(t: string): Meal -> bool {
    (m: Meal) => m.mealType == t
  }

  /** Saving a meal: the `lowercase` setter runs on `type`, then every
      validator; `None` is a validation error. */
  function SaveMeal(m: Meal): (r: Option<Meal>)
    ensures r.Some? <==>
      m.name != "" && |m.name| <= MaxMealName && Lower(m.mealType) in MealTypes
      && m.mealTime in MealTimes && m.casa != "" && m.user != ""
    ensures r.Some? ==> ValidMeal(r.value) && r.value == m.(mealType := Lower(m.mealType))
  {
    var n := m.(mealType := Lower(m.mealType));
    if ValidMeal(n) then Some(n) else None
  }

  /** Every admitted type is already lower case, so a stored type is. */
  lemma MealTypesAreLower(t: string)
    requires t in MealTypes
    ensures IsLower(t)
  {
  }

  lemma {:induction false} SaveMealOfValid(m: Meal)
    requires ValidMeal(m)
    ensures SaveMeal(m) == Some(m)
  {
    MealTypesAreLower(m.mealType);
    LowerOfLower(m.mealType);
  }

  // ---------------------------------------------------------------- User

  datatype User = User(
    id: Id,
    email: string,
    name: Option<string>,
    password: Option<string>,
    googleId: Option<string>,
    emailVerified: bool,
    casa: Option<Id>)

  /** The value the `lowercase` and `trim` setters make of an email; every
      query on `email` is cast the same way. */
  function EmailKey(raw: string): (k: string)
    ensures IsLower(k)
    ensures k != [] ==> !IsWhitespace(k[0]) && !IsWhitespace(k[|k| - 1])
  {
    LowerIsLower(raw);
    TrimKeepsLower(Lower(raw));
    Trim(Lower(raw))
  }

  /** Lower-casing before the setters changes nothing. */
  lemma EmailKeyOfLower(raw: string)
    ensures EmailKey(Lower(raw)) == EmailKey(raw)
  {
    LowerIdempotent(raw);
  }

  lemma {:induction false} EmailKeyIdempotent(raw: string)
    ensures EmailKey(EmailKey(raw)) == EmailKey(raw)
  {
    var k := EmailKey(raw);
    LowerOfLower(k);
    TrimOfTrimmed(k);
  }

  predicate Present(s: Option<string>) {
    s.Some? && s.value != ""
  }

  const MinPasswordLength: int := 6

  /** A stored user: its email is in normal form; a password is required
      exactly when there is no Google id and is at least six characters when
      present. */
  predicate ValidUser(u: User) {
    && u.email != "" && EmailKey(u.email) == u.email
    && (!Present(u.googleId) ==> Present(u.password))
    && (u.password.Some? ==> |u.password.value| >= MinPasswordLength)
  }

  /** The `trim` setter on `name`. */
  function NameSetter(name: Option<string>): Option<string> {
    if name.Some? then Some(Trim(name.value)) else None
  }

  /** Saving a user: setters on `email` and `name`, then validation. */
  function SaveUser(u: User): (r: Option<User>)
    ensures r.Some? <==>
      EmailKey(u.email) != ""
      && (!Present(u.googleId) ==> Present(u.password))
      && (u.password.Some? ==> |u.password.value| >= MinPasswordLength)
    ensures r.Some? ==> ValidUser(r.value)
    ensures r.Some? ==>
      && r.value.email == EmailKey(u.email) && r.value.id == u.id
      && r.value.casa == u.casa && r.value.password == u.password
      && r.value.emailVerified == u.emailVerified
    ensures r.Some? ==> r.value.name == NameSetter(u.name)
  {
    EmailKeyIdempotent(u.email);
    var n := u.(email := EmailKey(u.email),
                name := NameSetter(u.name));
    if ValidUser(n) then Some(n) else None
  }

  /** `comparePassword`: false without a stored password; otherwise what the
      hash comparison (an outside function here) says. */
  function ComparePassword(u: User, candidate: string, bcryptCompare: (string, string) -> bool): (ok: bool)
    ensures !Present(u.password) ==> !ok
    ensures Present(u.password) ==> ok == bcryptCompare(candidate, u.password.value)
  {
    if !Present(u.password) then false else bcryptCompare(candidate, u.password.value)
  }

  // ---------------------------------------------------------- Invitation

  datatype Invitation = Invitation(token: string, email: string, casa: Id, createdAt: int, used: bool)

  /** The TTL of the `createdAt` index, in seconds: seven days. */
  const InvitationTtlSeconds: int := 7 * 24 * 60 * 60

  /** A new invitation: `createdAt` defaults to now and `used` to false. */
  function NewInvitation(token: string, email: string, casa: Id, now: int): (inv: Invitation)
    ensures !inv.used && inv.createdAt == now
    ensures inv.token == token && inv.email == email && inv.casa == casa
  {
    Invitation(token, email, casa, now, false)
  }

  predicate ValidInvitation(inv: Invitation) {
    inv.token != "" && inv.email != "" && inv.casa != ""
  }

  /** The invitation is past its TTL at instant `now`: the TTL index removes
      it, and no query finds it any more. */
  predicate Expired(inv: Invitation, now: int) {
    now >= inv.createdAt + InvitationTtlSeconds * 1000
  }

  // ----------------------------------------------------------- WeeklyMenu

  /** One day of a stored menu; the schema keeps only these three fields. */
  datatype DayDoc = DayDoc(fecha: Option<int>, almuerzo: Option<string>, cena: Option<string>)

  datatype WeeklyMenu = WeeklyMenu(
    id: Id,
    fecha: int,
    menu: Ordered.OMap<DayDoc>,
    ingredientes: seq<string>,
    user: Id,
    casa: Id)

  predicate ValidWeeklyMenu(w: WeeklyMenu) {
    w.user != "" && w.casa != "" && Ordered.UniqueKeys(w.menu)
  }

  /** A new weekly menu: `fecha` defaults to now and `ingredientes` to []. */
  function NewWeeklyMenu(id: Id, fecha: Option<int>, menu: Ordered.OMap<DayDoc>,
                         ingredientes: Option<seq<string>>, user: Id, casa: Id, now: int): (w: WeeklyMenu)
    ensures w.fecha == fecha.GetOr(now)
    ensures w.ingredientes == ingredientes.GetOr([])
    ensures w.id == id && w.menu == menu && w.user == user && w.casa == casa
  {
    WeeklyMenu(id, fecha.GetOr(now), menu, ingredientes.GetOr([]), user, casa)
  }

  // --------------------------------------------------------------- ApiKey

  datatype ApiKey = ApiKey(id: Id, key: string, name: string, user: Id, casa: Id,
                           createdAt: int, lastUsed: Option<int>)

  predicate ValidApiKey(k: ApiKey) {
    k.key != "" && k.name != "" && k.user != "" && k.casa != ""
  }

  newtype byte = x: int | 0 <= x < 256

  const HexDigits: string := "0123456789abcdef"

  predicate IsHexDigit(c: char) {
    '0' <= c <= '9' || 'a' <= c <= 'f'
  }

  function HexValue(c: char): (v: nat)
    requires IsHexDigit(c)
    ensures v < 16 && HexDigits[v] == c
  {
    if '0' <= c <= '9' then c as int - '0' as int else c as int - 'a' as int + 10
  }

  /** `buffer.toString("hex")`: two lower-case hex digits per byte. */
  function HexEncode(bytes: seq<byte>): (s: string)
    ensures |s| == 2 * |bytes|
    ensures forall i :: 0 <= i < |s| ==> IsHexDigit(s[i])
  {
    if bytes == [] then ""
    else [HexDigits[bytes[0] as int / 16], HexDigits[bytes[0] as int % 16]] + HexEncode(bytes[1..])
  }

  function HexDecode(s: string): (r: Option<seq<byte>>)
    ensures r.Some? ==> 2 * |r.value| == |s|
  {
    if s == [] then Some([])
    else if |s| >= 2 && IsHexDigit(s[0]) && IsHexDigit(s[1]) then
      match HexDecode(s[2..])
      case Some(rest) => Some([(16 * HexValue(s[0]) + HexValue(s[1])) as byte] + rest)
      case None => None
    else None
  }

  lemma HexValueOfDigit(i: nat)
    requires i < 16
    ensures HexValue(HexDigits[i]) == i
  {
  }

  lemma HexPair(b: byte)
    ensures (16 * HexValue(HexDigits[b as int / 16]) + HexValue(HexDigits[b as int % 16])) as byte == b
  {
    HexValueOfDigit(b as int / 16);
    HexValueOfDigit(b as int % 16);
  }

  lemma {:induction false} HexRoundTrip(bytes: seq<byte>)
    ensures HexDecode(HexEncode(bytes)) == Some(bytes)
  {
    if bytes != [] {
      var b := bytes[0] as int;
      var pair := [HexDigits[b / 16], HexDigits[b % 16]];
      var rest := HexEncode(bytes[1..]);
      var s := HexEncode(bytes);
      assert s == pair + rest;
      assert s[0] == HexDigits[b / 16] && s[1] == HexDigits[b % 16] && s[2..] == rest;
      HexRoundTrip(bytes[1..]);
      HexPair(bytes[0]);
      assert HexDecode(s) == Some([bytes[0]] + bytes[1..]);
      assert bytes == [bytes[0]] + bytes[1..];
    }
  }

  /** `generateKey`: the hex spelling of 32 bytes from the random source,
      which is a parameter here. */
  function GenerateKey(random: seq<byte>): (key: string)
    requires |random| == 32
    ensures |key| == 64
    ensures forall i :: 0 <= i < |key| ==> IsHexDigit(key[i])
    ensures HexDecode(key) == Some(random)
  {
    HexRoundTrip(random);
    HexEncode(random)
  }

  // ----------------------------------------------------------------- Casa

  datatype Casa = Casa(id: Id, nombre: string, creador: Id, createdAt: int)

  predicate ValidCasa(c: Casa) {
    c.nombre != "" && c.creador != ""
  }
}

=== FILE: sorting.dfy ===
/** Sorting of records by a string key, as `list.sort((a, b) =>
    a.name.localeCompare(b.name))` does. The order on strings is the
    lexicographic order on character codes; JavaScript's sort is stable, and
    so is the insertion sort below. */
module Sorting {

  /** `a` sorts no later than `b`: `a` is a prefix of `b`, or `a` has the
      smaller character at the first position where they differ. */
  predicate StrLe(a: string, b: string)
    decreases |a|
  {
    a == [] || (b != [] && (a[0] < b[0] || (a[0] == b[0] && StrLe(a[1..], b[1..]))))
  }

  lemma {:induction false} StrLeRefl(a: string)
    ensures StrLe(a, a)
    decreases |a|
  {
    if a != [] {
      StrLeRefl(a[1..]);
    }
  }

  lemma {:induction false} StrLeTotal(a: string, b: string)
    ensures StrLe(a, b) || StrLe(b, a)
    decreases |a|
  {
    if a != [] && b != [] && a[0] == b[0] {
      StrLeTotal(a[1..], b[1..]);
    }
  }

  lemma {:induction false} StrLeTrans(a: string, b: string, c: string)
    requires StrLe(a, b) && StrLe(b, c)
    ensures StrLe(a, c)
    decreases |a|
  {
    if a != [] && b != [] && c != [] && a[0] == b[0] && b[0] == c[0] {
      StrLeTrans(a[1..], b[1..], c[1..]);
    }
  }

  lemma {:induction false} StrLeAntisym(a: string, b: string)
    requires StrLe(a, b) && StrLe(b, a)
    ensures a == b
    decreases |a|
  {
    if a != [] {
      StrLeAntisym(a[1..], b[1..]);
      assert a == [a[0]] + a[1..] && b == [b[0]] + b[1..];
    }
  }

  /** Every pair of elements is in key order. */
  predicate SortedBy<T>(s: seq<T>, key: T -> string) {
    forall i, j :: 0 <= i < j < |s| ==> StrLe(key(s[i]), key(s[j]))
  }

  /** A lower bound on the keys of `s` and of `x` bounds every key of a
      rearrangement of `s` with `x` added. */
  lemma LowerBoundKept<T>(h: T, x: T, s: seq<T>, t: seq<T>, key: T -> string)
    requires forall j :: 0 <= j < |s| ==> StrLe(key(h), key(s[j]))
    requires StrLe(key(h), key(x))
    requires multiset(t) == multiset(s) + multiset{x}
    ensures forall j :: 0 <= j < |t| ==> StrLe(key(h), key(t[j]))
  {
    forall j | 0 <= j < |t| ensures StrLe(key(h), key(t[j])) {
      assert t[j] in multiset(t);
      if t[j] != x {
        assert t[j] in multiset(s);
        var k :| 0 <= k < |s| && s[k] == t[j];
      }
    }
  }

  /** Places `x` before the first element whose key is not smaller. */
  function Insert<T>(x: T, s: seq<T>, key: T -> string): (r: seq<T>)
    requires SortedBy(s, key)
    ensures multiset(r) == multiset(s) + multiset{x}
    ensures |r| == |s| + 1
    ensures SortedBy(r, key)
  {
    if s == [] then [x]
    else if StrLe(key(x), key(s[0])) then
      forall j | 0 < j < |s| ensures StrLe(key(x), key(s[j])) {
        StrLeTrans(key(x), key(s[0]), key(s[j]));
      }
      [x] + s
    else
      var t := Insert(x, s[1..], key);
      assert s == [s[0]] + s[1..];
      StrLeTotal(key(x), key(s[0]));
      LowerBoundKept(s[0], x, s[1..], t, key);
      [s[0]] + t
  }

  /** The elements of `s`, rearranged into key order. */
  function SortBy<T>(s: seq<T>, key: T -> string): (r: seq<T>)
    ensures multiset(r) == multiset(s)
    ensures |r| == |s|
    ensures SortedBy(r, key)
  {
    if s == [] then []
    else
      assert s == [s[0]] + s[1..];
      Insert(s[0], SortBy(s[1..], key), key)
  }

  // ------------------------------------------------- integer keys

  /** Every pair of elements is in ascending key order. */
  predicate SortedByKey<T>(s: seq<T>, key: T -> int) {
    forall i, j :: 0 <= i < j < |s| ==> key(s[i]) <= key(s[j])
  }

  /** The integer-key counterpart of `LowerBoundKept`. */
  lemma LowerBoundKeptByKey<T>(h: T, x: T, s: seq<T>, t: seq<T>, key: T -> int)
    requires forall j :: 0 <= j < |s| ==> key(h) <= key(s[j])
    requires key(h) <= key(x)
    requires multiset(t) == multiset(s) + multiset{x}
    ensures forall j :: 0 <= j < |t| ==> key(h) <= key(t[j])
  {
    forall j | 0 <= j < |t| ensures key(h) <= key(t[j]) {
      assert t[j] in multiset(t);
      if t[j] != x {
        assert t[j] in multiset(s);
        var k :| 0 <= k < |s| && s[k] == t[j];
      }
    }
  }

  /** Places `x` before the first element whose key is not smaller. */
  function InsertByKey<T>(x: T, s: seq<T>, key: T -> int): (r: seq<T>)
    requires SortedByKey(s, key)
    ensures multiset(r) == multiset(s) + multiset{x}
    ensures SortedByKey(r, key)
  {
    if s == [] then [x]
    else if key(x) <= key(s[0]) then [x] + s
    else
      var t := InsertByKey(x, s[1..], key);
      assert s == [s[0]] + s[1..];
      LowerBoundKeptByKey(s[0], x, s[1..], t, key);
      [s[0]] + t
  }

  /** A stable insertion sort on an integer key. */
  function SortByKey<T>(s: seq<T>, key: T -> int): (r: seq<T>)
    ensures multiset(r) == multiset(s)
    ensures SortedByKey(r, key)
  {
    if s == [] then []
    else
      assert s == [s[0]] + s[1..];
      InsertByKey(s[0], SortByKey(s[1..], key), key)
  }
}

=== FILE: store.dfy ===
/** The membership store: users, houses (casas) and invitations, each a
    collection in its natural order, with the constraints the schemas and
    unique indexes put on it. `findOne` is the first match in that order;
    `create` validates, checks the unique indexes and appends. Queries on a
    user's `email` go through the same `lowercase` and `trim` setters as
    stored values; queries on an invitation's `email` are exact. */
module Store {

  import opened Base
  import opened Text
  import opened Schema
  import Lists

  datatype Store = Store(users: seq<User>, casas: seq<Casa>, invitations: seq<Invitation>)

  function UserId(id: Id): User -> bool {
    (u: User) => u.id == id
  }

  /** The user a query on `email` finds. */
  function UserEmail(email: string): User -> bool {
    (u: User) => u.email == EmailKey(email)
  }

  function CasaId(id: Id): Casa -> bool {
    (c: Casa) => c.id == id
  }

  function CasaNombre(nombre: string): Casa -> bool {
    (c: Casa) => c.nombre == nombre
  }

  function InvitationToken(token: string): Invitation -> bool {
    (inv: Invitation) => inv.token == token
  }

  /** `{ token, email, used: false }` as the database answers it at instant
      `now`: an unused invitation with that token and exactly that email,
      which the TTL index has not yet removed. */
  function Pending(token: string, email: string, now: int): Invitation -> bool {
    (inv: Invitation) => inv.token == token && inv.email == email && !inv.used && !Expired(inv, now)
  }

  /** An invitation the TTL index still keeps at instant `now`. */
  function Live(now: int): Invitation -> bool {
    (inv: Invitation) => !Expired(inv, now)
  }

  /** The invitations left at `now` once the TTL index has removed the
      expired ones. */
  function Sweep(invitations: seq<Invitation>, now: int): seq<Invitation> {
    Lists.Filter(invitations, Live(now))
  }

  /** `{ token, email, used: false }` on the swept collection. */
  function Unused(token: string, email: string): Invitation -> bool {
    (inv: Invitation) => inv.token == token && inv.email == email && !inv.used
  }

  /** Looking up `Pending` at `now` finds what the query finds on the swept
      collection: there is a match in one exactly when there is one in the
      other, and it is the same document. */
  lemma {:induction false} PendingSeesTheSweep(invitations: seq<Invitation>, token: string, email: string, now: int)
    ensures var live := Sweep(invitations, now);
      var k := Lists.Find(invitations, Pending(token, email, now));
      var j := Lists.Find(live, Unused(token, email));
      && (k < |invitations| <==> j < |live|)
      && (k < |invitations| ==> invitations[k] == live[j])
    decreases |invitations|
  {
    if invitations != [] {
      var inv, rest := invitations[0], invitations[1..];
      var live, live' := Sweep(invitations, now), Sweep(rest, now);
      var p, q := Pending(token, email, now), Unused(token, email);
      assert live == (if Live(now)(inv) then [inv] else []) + live';
      if p(inv) {
        assert live[0] == inv && Lists.Find(live, q) == 0;
      } else {
        PendingSeesTheSweep(rest, token, email, now);
        assert Lists.Find(invitations, p) == 1 + Lists.Find(rest, p);
        if Live(now)(inv) {
          assert live == [inv] + live' && !q(inv);
          assert Lists.Find(live, q) == 1 + Lists.Find(live', q);
        } else {
          assert live == live';
        }
      }
    }
  }

  /** `{ email }` on invitations. */
  function InvitationFor(email: string): Invitation -> bool {
    (inv: Invitation) => inv.email == email
  }

  function OtherEmail(email: string): Invitation -> bool {
    (inv: Invitation) => inv.email != email
  }

  predicate UniqueUsers(users: seq<User>) {
    forall i, j :: 0 <= i < j < |users| ==> users[i].id != users[j].id && users[i].email != users[j].email
  }

  predicate UniqueCasas(casas: seq<Casa>) {
    forall i, j :: 0 <= i < j < |casas| ==> casas[i].id != casas[j].id && casas[i].nombre != casas[j].nombre
  }

  predicate UniqueTokens(invitations: seq<Invitation>) {
    forall i, j :: 0 <= i < j < |invitations| ==> invitations[i].token != invitations[j].token
  }

  /** What the schemas and unique indexes guarantee of every stored state. */
  predicate ValidStore(s: Store) {
    && UniqueUsers(s.users) && UniqueCasas(s.casas) && UniqueTokens(s.invitations)
    && (forall i :: 0 <= i < |s.users| ==> ValidUser(s.users[i]))
    && (forall i :: 0 <= i < |s.casas| ==> ValidCasa(s.casas[i]))
    && (forall i :: 0 <= i < |s.invitations| ==> ValidInvitation(s.invitations[i]))
  }

  /** The `pre("save")` hook: a new or changed password is replaced by its
      hash. Mongoose runs it after validation, so the length check sees the
      password as given, not its hash. `hash` is bcrypt, an outside function
      here. */
  function HashOnSave(u: User, hash: string -> string): (r: User)
    ensures r == u.(password := r.password)
    ensures Present(u.password) ==> r.password == Some(hash(u.password.value))
    ensures !Present(u.password) ==> r.password == u.password
  {
    if Present(u.password) then u.(password := Some(hash(u.password.value))) else u
  }

  /** `User.create`: the setters and validators on the document as given,
      then the save hook, then the unique indexes on `_id` and `email`.
      `None` is a thrown error. */
  function CreateUser(users: seq<User>, u: User, hash: string -> string): (r: Option<seq<User>>)
    ensures r.Some? ==> |r.value| == |users| + 1 && r.value[..|users|] == users
    ensures r.Some? ==> var n := r.value[|users|];
      && n.id == u.id && n.email == EmailKey(u.email) && n.casa == u.casa
      && n.emailVerified == u.emailVerified && n.googleId == u.googleId
      && n.password == HashOnSave(u, hash).password
      && n.name == NameSetter(u.name)
      && n.email != "" && (!Present(u.googleId) ==> Present(u.password))
      && (u.password.Some? ==> |u.password.value| >= MinPasswordLength)
    ensures r.Some? ==> Lists.Find(users, UserEmail(u.email)) == |users| && Lists.Find(users, UserId(u.id)) == |users|
  {
    match SaveUser(u)
    case None => None
    case Some(n) =>
      if Lists.Find(users, UserEmail(u.email)) < |users| || Lists.Find(users, UserId(u.id)) < |users| then None
      else Some(users + [HashOnSave(n, hash)])
  }

  /** The length rule applies to the password handed to `User.create`: a
      given password shorter than six characters is refused whatever its
      hash would be, and a long enough one is accepted however short its
      hash. */
  lemma {:induction false} LengthCheckedBeforeHashing(users: seq<User>, u: User, hash: string -> string)
    requires EmailKey(u.email) != "" && Present(u.password)
    requires Lists.Find(users, UserEmail(u.email)) == |users| && Lists.Find(users, UserId(u.id)) == |users|
    ensures CreateUser(users, u, hash).Some? <==> |u.password.value| >= MinPasswordLength
  {
  }

  /** The unique indexes hold after a creation. */
  lemma CreateUserKeepsUnique(users: seq<User>, u: User, hash: string -> string)
    requires UniqueUsers(users) && CreateUser(users, u, hash).Some?
    ensures UniqueUsers(CreateUser(users, u, hash).value)
  {
    var r := CreateUser(users, u, hash).value;
    var n := r[|users|];
    assert r == users + [n];
    forall j | 0 <= j < |users| ensures users[j].id != n.id && users[j].email != n.email {
      assert !UserEmail(u.email)(users[j]) && !UserId(u.id)(users[j]);
    }
    AppendUnique(users, n);
  }

  /** An account whose id and email no stored account has can be appended
      without breaking the unique indexes. */
  lemma AppendUnique(users: seq<User>, n: User)
    requires UniqueUsers(users)
    requires forall j :: 0 <= j < |users| ==> users[j].id != n.id && users[j].email != n.email
    ensures UniqueUsers(users + [n])
  {
  }

  /** `Casa.create`: `nombre` and `creador` are required, `_id` and `nombre`
      unique. */
  function CreateCasa(casas: seq<Casa>, c: Casa): (r: Option<seq<Casa>>)
    ensures r.Some? <==> ValidCasa(c) && Lists.Find(casas, CasaNombre(c.nombre)) == |casas| && Lists.Find(casas, CasaId(c.id)) == |casas|
    ensures r.Some? ==> r.value == casas + [c]
    ensures UniqueCasas(casas) && r.Some? ==> UniqueCasas(r.value)
  {
    if !ValidCasa(c) || Lists.Find(casas, CasaNombre(c.nombre)) < |casas| || Lists.Find(casas, CasaId(c.id)) < |casas| then None
    else
      assert forall j :: 0 <= j < |casas| ==> casas[j].nombre != c.nombre && casas[j].id != c.id;
      Some(casas + [c])
  }

  /** `casa.save()` after a change to the document at position `i`: the
      validators and the unique index on `nombre` against the other casas. */
  function SaveCasaAt(casas: seq<Casa>, i: nat, c: Casa): (r: Option<seq<Casa>>)
    requires i < |casas|
    ensures r.Some? <==> ValidCasa(c) && forall j :: 0 <= j < |casas| && j != i ==> casas[j].nombre != c.nombre
    ensures r.Some? ==> r.value == casas[i := c]
    ensures UniqueCasas(casas) && r.Some? && c.id == casas[i].id ==> UniqueCasas(r.value)
  {
    if ValidCasa(c) && forall j :: 0 <= j < |casas| && j != i ==> casas[j].nombre != c.nombre then Some(casas[i := c]) else None
  }

  /** Saving the same document again changes nothing. */
  lemma SaveCasaAgain(casas: seq<Casa>, i: nat, c: Casa)
    requires i < |casas| && SaveCasaAt(casas, i, c).Some?
    ensures SaveCasaAt(SaveCasaAt(casas, i, c).value, i, c) == SaveCasaAt(casas, i, c)
  {
    var cs := casas[i := c];
    assert forall j :: 0 <= j < |cs| && j != i ==> cs[j] == casas[j];
    assert cs[i := c] == cs;
  }

  /** A change that keeps the id keeps where `findById` finds the casa. */
  lemma FindCasaAfterSave(casas: seq<Casa>, i: nat, c: Casa, id: Id)
    requires i == Lists.Find(casas, CasaId(id)) && i < |casas| && c.id == id
    ensures Lists.Find(casas[i := c], CasaId(id)) == i
  {
    var cs := casas[i := c];
    assert forall k :: 0 <= k < i ==> !CasaId(id)(cs[k]) by {
      assert forall k :: 0 <= k < i ==> cs[k] == casas[k];
    }
    Lists.FindIsFirst(cs, CasaId(id), i);
  }

  /** A user joins a casa: their document at position `i` gets it. */
  function JoinCasa(users: seq<User>, i: nat, casa: Id): (r: seq<User>)
    requires i < |users|
    ensures |r| == |users| && r[i] == users[i].(casa := Some(casa))
    ensures forall j :: 0 <= j < |users| && j != i ==> r[j] == users[j]
    ensures UniqueUsers(users) ==> UniqueUsers(r)
  {
    users[i := users[i].(casa := Some(casa))]
  }

  /** The invitation at position `k` is marked used. */
  function MarkUsed(invitations: seq<Invitation>, k: nat): (r: seq<Invitation>)
    requires k < |invitations|
    ensures |r| == |invitations| && r[k] == invitations[k].(used := true)
    ensures forall j :: 0 <= j < |invitations| && j != k ==> r[j] == invitations[j]
    ensures UniqueTokens(invitations) ==> UniqueTokens(r)
  {
    invitations[k := invitations[k].(used := true)]
  }

  /** With unique tokens, a used invitation is never matched again: marking
      the match used leaves no pending invitation with that token. */
  lemma UsedInvitationNeverMatches(invitations: seq<Invitation>, k: nat, token: string, email: string, now: int, later: int)
    requires UniqueTokens(invitations) && k < |invitations| && Pending(token, email, now)(invitations[k])
    ensures Lists.Find(MarkUsed(invitations, k), Pending(token, email, later)) == |invitations|
  {
    var r := MarkUsed(invitations, k);
    assert forall j :: 0 <= j < |r| && j != k ==> invitations[j].token != token;
  }
}

=== FILE: text.dfy ===
/** String operations the application uses, with JavaScript's meaning:
    `toLowerCase` (on ASCII letters), `trim`, `includes`, `startsWith`,
    `split(sep)[0]` and `substring`. */
module Text {

  import opened Base

  /** The characters JavaScript's `trim` removes and the regex class `\s`
      matches: WhiteSpace and LineTerminator of ECMAScript. */
  predicate IsWhitespace(c: char) {
    || c == '\U{0009}' || c == '\U{000A}' || c == '\U{000B}' || c == '\U{000C}' || c == '\U{000D}'
    || c == ' ' || c == '\U{00A0}' || c == '\U{1680}'
    || ('\U{2000}' <= c <= '\U{200A}')
    || c == '\U{2028}' || c == '\U{2029}' || c == '\U{202F}' || c == '\U{205F}'
    || c == '\U{3000}' || c == '\U{FEFF}'
  }

  predicate IsUpperAscii(c: char) { 'A' <= c <= 'Z' }

  function LowerChar(c: char): (r: char)
    ensures !IsUpperAscii(r)
    ensures !IsUpperAscii(c) ==> r == c
  {
    if IsUpperAscii(c) then (c as int + 32) as char else c
  }

  /** `s.toLowerCase()`, restricted to the ASCII letters. */
  function Lower(s: string): (r: string)
    ensures |r| == |s|
    ensures forall i :: 0 <= i < |s| ==> r[i] == LowerChar(s[i])
  {
    if s == [] then [] else [LowerChar(s[0])] + Lower(s[1..])
  }

  /** A string that `toLowerCase` leaves unchanged. */
  predicate IsLower(s: string) {
    forall i :: 0 <= i < |s| ==> !IsUpperAscii(s[i])
  }

  lemma LowerIsLower(s: string)
    ensures IsLower(Lower(s))
  {
  }

  lemma LowerOfLower(s: string)
    requires IsLower(s)
    ensures Lower(s) == s
  {
  }

  lemma LowerIdempotent(s: string)
    ensures Lower(Lower(s)) == Lower(s)
  {
    LowerIsLower(s);
    LowerOfLower(Lower(s));
  }

  predicate StartsWith(s: string, prefix: string) {
    |prefix| <= |s| && s[..|prefix|] == prefix
  }

  /** `s.includes(t)`: `t` occurs in `s` as a contiguous block. */
  predicate Contains(s: string, t: string) {
    exists i :: 0 <= i <= |s| - |t| && OccursAt(s, t, i)
  }

  /** `t` occurs in `s` starting at position `i`. */
  predicate OccursAt(s: string, t: string, i: int) {
    0 <= i <= |s| - |t| && s[i..i + |t|] == t
  }

  lemma ContainsEmpty(s: string)
    ensures Contains(s, "")
  {
    assert OccursAt(s, "", 0);
  }

  /** Executable search for `t` in `s`, from the left. */
  function IndexOf(s: string, t: string): (r: Option<nat>)
    ensures r.Some? ==> r.value <= |s| - |t| && s[r.value..r.value + |t|] == t
    ensures r.None? ==> !Contains(s, t)
    decreases |s|
  {
    if |t| > |s| then None
    else if s[..|t|] == t then Some(0)
    else
      match IndexOf(s[1..], t)
      case None =>
        assert forall i | OccursAt(s, t, i) :: i == 0 || OccursAt(s[1..], t, i - 1);
        None
      case Some(k) =>
        assert s[k + 1..k + 1 + |t|] == s[1..][k..k + |t|];
        Some(k + 1)
  }

  /** `s.toLowerCase().includes(t.toLowerCase())`, the case-insensitive search
      used by every search box of the application. */
  predicate ContainsIgnoringCase(s: string, t: string) {
    Contains(Lower(s), Lower(t))
  }

  lemma EverythingContainsEmpty(s: string)
    ensures ContainsIgnoringCase(s, "")
  {
    ContainsEmpty(Lower(s));
  }

  /** The position of the first `c` in `s`, or `|s|` when there is none. */
  function FirstIndexOf(s: string, c: char): (r: nat)
    ensures r <= |s|
    ensures r < |s| ==> s[r] == c
    ensures forall i :: 0 <= i < r ==> s[i] != c
  {
    if s == [] then 0 else if s[0] == c then 0 else 1 + FirstIndexOf(s[1..], c)
  }

  /** `s.split(c)[0]`: everything before the first `c`, or all of `s`. */
  function BeforeFirst(s: string, c: char): (r: string)
    ensures StartsWith(s, r)
    ensures c !in r
    ensures |r| < |s| ==> s[|r|] == c
    ensures c !in s ==> r == s
  {
    s[..FirstIndexOf(s, c)]
  }

  function TrimStart(s: string): (r: string)
    ensures |r| <= |s| && r == s[|s| - |r|..]
    ensures r != [] ==> !IsWhitespace(r[0])
    ensures forall i :: 0 <= i < |s| - |r| ==> IsWhitespace(s[i])
  {
    if s != [] && IsWhitespace(s[0]) then TrimStart(s[1..]) else s
  }

  function TrimEnd(s: string): (r: string)
    ensures |r| <= |s| && r == s[..|r|]
    ensures r != [] ==> !IsWhitespace(r[|r| - 1])
    ensures forall i :: |r| <= i < |s| ==> IsWhitespace(s[i])
  {
    if s != [] && IsWhitespace(s[|s| - 1]) then TrimEnd(s[..|s| - 1]) else s
  }

  /** `s.trim()`: the longest block of `s` that neither starts nor ends with
      whitespace, obtained by removing whitespace from both ends. */
  function Trim(s: string): (r: string)
    ensures r != [] ==> !IsWhitespace(r[0]) && !IsWhitespace(r[|r| - 1])
    ensures |r| <= |s|
    ensures exists i :: OccursAt(s, r, i)
  {
    var a := TrimStart(s);
    var r := TrimEnd(a);
    assert r != [] ==> r[0] == a[0];
    assert OccursAt(s, r, |s| - |a|);
    r
  }

  /** Trimming keeps a lower-case string lower case: it only removes characters. */
  lemma TrimKeepsLower(s: string)
    requires IsLower(s)
    ensures IsLower(Trim(s))
  {
    var a := TrimStart(s);
    SuffixKeepsLower(s, |s| - |a|);
    PrefixKeepsLower(a, |TrimEnd(a)|);
  }

  lemma SuffixKeepsLower(s: string, k: nat)
    requires IsLower(s) && k <= |s|
    ensures IsLower(s[k..])
  {
    assert forall j :: 0 <= j < |s| - k ==> s[k..][j] == s[k + j];
  }

  lemma PrefixKeepsLower(s: string, k: nat)
    requires IsLower(s) && k <= |s|
    ensures IsLower(s[..k])
  {
    assert forall j :: 0 <= j < k ==> s[..k][j] == s[j];
  }

  /** A string that consists of whitespace only (`!s.trim()` holds of it). */
  predicate IsBlank(s: string) {
    forall i :: 0 <= i < |s| ==> IsWhitespace(s[i])
  }

  lemma {:induction false} TrimEmptyIffBlank(s: string)
    ensures Trim(s) == "" <==> IsBlank(s)
  {
    var a := TrimStart(s);
    assert a != [] ==> TrimEnd(a) != [];
  }

  /** Neither starts nor ends with whitespace: what `trim()` returns and
      leaves as it is. */
  predicate Trimmed(s: string) {
    s == [] || (!IsWhitespace(s[0]) && !IsWhitespace(s[|s| - 1]))
  }

  lemma TrimOfTrimmed(s: string)
    requires Trimmed(s)
    ensures Trim(s) == s
  {
  }

  lemma TrimmedIsFixed(s: string)
    ensures Trimmed(s) <==> Trim(s) == s
  {
    if Trimmed(s) {
      TrimOfTrimmed(s);
    }
  }

  lemma TrimIdempotent(s: string)
    ensures Trim(Trim(s)) == Trim(s)
  {
    TrimOfTrimmed(Trim(s));
  }

  /** `s.substring(from, to)` with JavaScript's clamping of both bounds into
      `[0, |s|]` and swapping them when they are out of order. */
  function Substring(s: string, from: int, to: int): (r: string)
    ensures |r| <= |s|
  {
    var a := if from < 0 then 0 else if from > |s| then |s| else from;
    var b := if to < 0 then 0 else if to > |s| then |s| else to;
    if a <= b then s[a..b] else s[b..a]
  }

  /** `s.substring(from)`: from the clamped position to the end. */
  function SubstringFrom(s: string, from: int): (r: string)
    ensures |r| <= |s|
  {
    Substring(s, from, |s|)
  }

  /** Number of elements of `s` equal to `x`. */
  function CountOf<T(==)>(s: seq<T>, x: T): (n: nat)
    ensures n <= |s|
  {
    if s == [] then 0 else (if s[0] == x then 1 else 0) + CountOf(s[1..], x)
  }

  /** `parts.join(sep)`. */
  function Join(parts: seq<string>, sep: string): (r: string)
    ensures parts == [] ==> r == ""
    ensures |parts| == 1 ==> r == parts[0]
    ensures |parts| > 1 ==> |r| >= |parts[0]| + |sep|
  {
    if parts == [] then ""
    else if |parts| == 1 then parts[0]
    else parts[0] + sep + Join(parts[1..], sep)
  }
}
